=== FILE: README.md ===
# Enrollment dashboard data layer, in Dafny

This project models the data layer of a school's enrollment dashboard. The
dashboard is a React front end over a Supabase database. The model covers the
pure computations behind its screens and proves what they promise:

- the CSV import of enrollments: currency cleaning (`cleanNumeric`), date
  parsing (`parseDate`), the quote-aware line splitter (`parseLine`) and
  record construction (`processCSV`);
- the dashboard statistics: totals, per-attendant and per-course rollups,
  status counts, the class list and the daily series (`getDashboardStats`);
- the mapping between database rows (ISO dates) and app records
  (`DD/MM/YYYY`), and the date conversions of the enrollment form;
- the per-screen aggregations: vendor rankings, signature classes, the
  weekly report windows, the billing delays, the traffic calendar's weeks
  and month grid, the month range of the traffic query, course counts and
  payment tabs;
- the classifiers and search filters of the class, student, vendor and
  enrollment tables;
- the class-selection toggles and role gates of the main screen, the role
  mapping of sign-in and the password-change validation.

Every screen state the source keeps in React hooks becomes a parameter:
"today", the search text, the selection and the filters. Every database
query becomes its result: a sequence of rows handed in.

Modelling conventions:

- amounts are whole cents (`int`), and `Math.round(x * 100) / 100` is the
  nearest cent with halves rounded up;
- a date is a day number, day 0 being 1970-01-01. `Calendar` converts
  between day numbers and year/month/day with the proleptic Gregorian
  calendar;
- a JavaScript `Date` that can be invalid is `JsDate`, with `InvalidDate`;
- JavaScript objects used as maps while counting keep their keys in order
  of first insertion. `Grouping.TallyBy` is that fold, and
  `Grouping.KeysOf`/`RowsWithKey` is its declarative reference;
- `Array.prototype.sort` with a numeric comparator is a stable insertion
  sort by an integer key (`Sorting.SortBy`). The ranking order is
  `Ranking.RankBy`: the tallies sorted descending, with ties kept in order
  of first appearance;
- case mapping (`toLowerCase`/`toUpperCase`) covers ASCII and Latin-1
  letters, one character to one character.

Modules follow the source: `CsvProcessor`, `DashboardStats`,
`EnrollmentService`, `EnrollmentForm`, `App`, `Desempenho`, `ReportAm`,
`Cobranca`, `Trafego`, `Cursos`, `Turmas`, `EnrollmentTable`, `Alunos`,
`Vendors`, `Auth` and `ChangePassword`. Shared definitions live in `Seqs`,
`Strings`, `Sorting`, `Grouping`, `Ranking`, `Types`, `Calendar` and
`DateText`.

## Model

| member | source | states |
|---|---|---|
| CsvProcessor.KeepNumeric | utils/csvProcessor.ts:11 | the character filter keeps only digits, ',', '.' and '-', in order, and never lengthens the text |
| CsvProcessor.KeepNumericStrip | utils/csvProcessor.ts:10-11 | removing every `R$` (and one white space after it) first changes nothing once the character filter has run |
| CsvProcessor.KeepNumericRemove | utils/csvProcessor.ts:9-11 | removing every backslash first changes nothing once the character filter has run |
| CsvProcessor.CleanedIsKept | utils/csvProcessor.ts:8-12 | the whole cleaning chain (backslashes, currency sign, filter, trim) keeps exactly the characters `[\d,.-]` of the input, in order |
| CsvProcessor.NumericTrimmed | utils/csvProcessor.ts:12 | the final trim never removes anything, because no kept character is white space |
| CsvProcessor.NormalizeSeparatorsFacts | utils/csvProcessor.ts:16-25 | the separator handling keeps the text numeric; when the last comma and last dot coincide (both absent) the text is unchanged, so the third branch never fires; when a dot comes last no comma is left |
| CsvProcessor.NormalizeComma | utils/csvProcessor.ts:19-20 | with the last comma after every dot, the dots are dropped and that comma becomes the decimal point |
| CsvProcessor.NormalizePoint | utils/csvProcessor.ts:21-22 | with the last dot after every comma, the commas are dropped and the point stays |
| CsvProcessor.ParseFloat | utils/csvProcessor.ts:27 | `parseFloat` on numeric text gives a number only for non-empty text, negative exactly when the text starts with '-' |
| CsvProcessor.ParseFloatDecimal | utils/csvProcessor.ts:27 | digits, a point and digits read back as the decimal they write, with as many decimal places as fraction digits |
| CsvProcessor.ParseFloatInteger | utils/csvProcessor.ts:27 | a plain digit string reads back as the whole number it writes |
| CsvProcessor.RoundCents | utils/csvProcessor.ts:28 | `Math.round(x * 100) / 100` is the cent nearest to x, halves going up: the result c satisfies c - 1/2 <= 100x < c + 1/2 |
| CsvProcessor.RoundWholeCents | utils/csvProcessor.ts:28 | an amount already in whole cents is not moved by the rounding |
| CsvProcessor.CleanNumeric | utils/csvProcessor.ts:4-29 | a number passes through unchanged; empty text gives 0; text with no digit, comma, point or minus gives 0 |
| CsvProcessor.CleanNumericParsed | utils/csvProcessor.ts:8-28 | text whose cleaned and normalised characters parse as a decimal d is worth d rounded to the cent |
| CsvProcessor.CleanNumericReads | utils/csvProcessor.ts:8-28 | text whose normalised characters are integer digits, a point and fraction digits is worth that decimal rounded to the cent |
| CsvProcessor.BrazilianAmount | utils/csvProcessor.ts:8-28 | `R$ ` with dot-grouped thousands and a decimal comma reads as the number its digits write |
| CsvProcessor.PointAmount | utils/csvProcessor.ts:8-28 | comma-grouped thousands with a decimal point read as the number the digits write |
| CsvProcessor.WholeAmount | utils/csvProcessor.ts:8-28 | the decimal text of a whole number n is worth n reais (100n cents) |
| CsvProcessor.BrazilianExample | utils/csvProcessor.ts:16-28 | "R$ 1.234,56" is worth 1234.56 |
| CsvProcessor.PointExample | utils/csvProcessor.ts:16-28 | "1,234.56" is worth 1234.56 |
| CsvProcessor.MinusExample | utils/csvProcessor.ts:27-28 | "-" survives the filter but is not a number, so it is worth 0 |
| CsvProcessor.ReadDate | utils/csvProcessor.ts:36-39 | `new Date(year, month - 1, day)` is Invalid Date when any part is not a number, otherwise the day number of that calendar date |
| CsvProcessor.ParseDate | utils/csvProcessor.ts:31-42 | null exactly when the text is empty or, with backslashes removed and trimmed, does not split into three parts at '/' |
| CsvProcessor.ParseDateSplit | utils/csvProcessor.ts:33-39 | once the text splits into three parts, the date is built from their `parseInt`s |
| CsvProcessor.ParseDateFormatted | utils/csvProcessor.ts:31-42 | the `DD/MM/YYYY` text of a valid date reads back as that date |
| CsvProcessor.DateTextParts | utils/csvProcessor.ts:33-39 | `DD/MM/YYYY` digits read back as their three numbers |
| CsvProcessor.ParseDateMissingYear | utils/csvProcessor.ts:34-39 | `DD/MM/` still splits into three parts, so it is a date (Invalid Date), not null |
| CsvProcessor.Delimiter | utils/csvProcessor.ts:106 | the delimiter is ';' or ',' |
| CsvProcessor.Scan | utils/csvProcessor.ts:107-114 | the character loop yields one field more than there are delimiters outside quotes, and no field holds a quote |
| CsvProcessor.ParseLine | utils/csvProcessor.ts:102-117 | the fields number the unquoted delimiters plus one; each is trimmed and quote-free |
| CsvProcessor.QuotedField | utils/csvProcessor.ts:109-113 | a delimiter between quotes is copied into the field and the quotes are dropped |
| CsvProcessor.ScanJoin | utils/csvProcessor.ts:107-115 | scanning quote-free fields joined by the delimiter gives the fields back |
| CsvProcessor.ParseLineJoin | utils/csvProcessor.ts:102-117 | `parseLine` inverts joining trimmed, quote-free fields with ';' (fields may hold commas), or with ',' when no field holds a ';' |
| CsvProcessor.SplitLines | utils/csvProcessor.ts:45 | the text splits into one more line than it has line feeds, and no line holds a line feed |
| CsvProcessor.NormalizeHeader | utils/csvProcessor.ts:49-51 | the header is trimmed, upper-cased and stripped of accents, one character for one |
| CsvProcessor.FindIdx | utils/csvProcessor.ts:53-55 | the index of the first header containing one of the keywords, or none when no header does |
| CsvProcessor.IndexOf | utils/csvProcessor.ts:79 | `indexOf`: the first header equal to the name, or none exactly when no header is |
| CsvProcessor.AmountCell | utils/csvProcessor.ts:74-75 | an amount without a column, or past the end of a short row, is 0; otherwise it is the cleaned cell |
| CsvProcessor.DueDay | utils/csvProcessor.ts:94 | a missing or empty due-day cell reads as 0 |
| CsvProcessor.DueDayCell | utils/csvProcessor.ts:94 | a due-day cell of digits reads as its decimal value, and a `0x` cell as its hexadecimal value, since no radix is given |
| CsvProcessor.MakeRecord | utils/csvProcessor.ts:77-96 | a missing column gives Pacote 'OUTROS', Situação 'ATIVO', Atendente 'NÃO INFORMADO', an empty date and zero amounts; Turma is 'SEM TURMA' exactly when its cell is missing, empty or already says so |
| CsvProcessor.MakeRecordFields | utils/csvProcessor.ts:78-90 | Aluno, Atendente, Pacote, Situação and the date come from their column, `undefined` past the end of a short row, or the default when no header names them |
| CsvProcessor.MakeRecordOptionalFields | utils/csvProcessor.ts:79-95 | Contrato, Telefone, Plano de Pagamento, Forma de Conhecimento, Divulgador, Bolsa, Entrada/1º Vencimento and Assinatura are the non-empty cell of their exactly named column, '' otherwise |
| CsvProcessor.MakeRecordValueFields | utils/csvProcessor.ts:74-94 | Turma is the non-empty cell of its column or 'SEM TURMA'; the two totals and Valor Parcela are `AmountCell` of their column; Dia Vencimento is `DueDay` of its column |
| CsvProcessor.DataLines | utils/csvProcessor.ts:68-70 | the lines that become records are exactly the lines after the header that are not blank, in order |
| CsvProcessor.ProcessCSV | utils/csvProcessor.ts:44-100 | fewer than two lines give no record; otherwise there is one record per non-blank data line |
| CsvProcessor.ProcessCSVFields | utils/csvProcessor.ts:44-97 | record k reads all eighteen fields from the k-th kept line split into trimmed, quote-free cells, each from the column found by keyword or exact header name: the keyword fields as the cell or their default, the exactly named text fields as the non-empty cell or '', Turma as the non-empty cell or 'SEM TURMA', the amounts and the due day through `AmountCell` and `DueDay` |
| DashboardStats.AverageTicket | utils/csvProcessor.ts:161-167 | the average ticket is 0 for no enrollments, otherwise total sales over the count rounded to the cent |
| DashboardStats.ClassList | utils/csvProcessor.ts:135-168 | the class list is sorted, duplicate-free, and holds exactly the Turma values of the data |
| DashboardStats.GetDashboardStats | utils/csvProcessor.ts:119-174 | the count is the input length; the totals are the field sums; the attendant and course metrics are sorted by sales descending, ties in order of first appearance; the class list is `ClassList` |
| DashboardStats.MetricsPartition | utils/csvProcessor.ts:137-148 | the attendant metrics, and separately the course metrics, partition the count, the sales and the amount received |
| DashboardStats.AttendantMetricsContents | utils/csvProcessor.ts:140-169 | each attendant metric holds the count and sums of exactly that attendant's rows; every attendant appears, once |
| DashboardStats.CourseMetricsContents | utils/csvProcessor.ts:145-170 | each course metric holds the count and sums of exactly that course's rows; every course appears, once |
| DashboardStats.StatusPartition | utils/csvProcessor.ts:150-171 | each status count is the number of rows with that status, and the counts sum to the input length |
| DashboardStats.StatusOrder | utils/csvProcessor.ts:150-171 | the status entries list the statuses in order of first appearance |
| DashboardStats.DailyPartition | utils/csvProcessor.ts:152-157 | the daily counts sum to the number of rows with a parseable date, which is at most the input length |
| DashboardStats.DailyOrder | utils/csvProcessor.ts:172 | the daily series is sorted ascending by date, valid dates first |
| DashboardStats.DailyContents | utils/csvProcessor.ts:152-157 | each day's count is the number of dated rows whose trimmed date text is that day's key |
| DashboardStats.DailyDatesInRange | utils/csvProcessor.ts:152-155 | every valid date of the series is within the range of JavaScript dates |
| Grouping.TallyByIsReference | utils/csvProcessor.ts:140-148 | the single counting pass equals the declarative tally: one entry per key in order of first appearance, holding that key's count and sums |
| Grouping.TallyByPartition | utils/csvProcessor.ts:137-148 | the tallies sum to the row count and to each summed field's total |
| Grouping.TallyByContents | utils/csvProcessor.ts:140-148 | the tally lists the keys in first-seen order, and each entry holds the count and sums of exactly the rows with its key |
| Ranking.RankBy | utils/csvProcessor.ts:169-170 | the ranking is sorted by rank descending, has one entry per key, and keeps the entries of each rank in the order of the unsorted tally |
| Ranking.RankTiesFirstSeen | utils/csvProcessor.ts:169-170 | entries of equal rank appear in the order their keys first appear in the rows |
| Ranking.RankPartition | utils/csvProcessor.ts:169-170 | the ranking sums to the row count and to each summed field's total |
| Ranking.RankContents | utils/csvProcessor.ts:140-170 | each ranked entry holds the count and sums of exactly the rows with its key |
| Ranking.RankCovers | utils/csvProcessor.ts:140-169 | every key of the rows has an entry in the ranking |
| Ranking.RankDistinct | utils/csvProcessor.ts:140-169 | no key has two entries |
| Sorting.SortBy | utils/csvProcessor.ts:172 | the sort by an integer key is ascending and a permutation of its input |
| Sorting.SortByDesc | utils/csvProcessor.ts:169-170 | the sort by a descending key is descending and a permutation of its input |
| Sorting.SortByStable | utils/csvProcessor.ts:172 | the sort is stable: the elements of any one key keep their relative order |
| Sorting.SortByDescStable | utils/csvProcessor.ts:169-170 | the descending sort is stable too |
| Sorting.SortStrings | utils/csvProcessor.ts:168 | `sort()` on strings gives an ascending permutation of its input, characters compared by code point |
| Sorting.SortedDistinctStrictly | utils/csvProcessor.ts:168 | sorting a duplicate-free list gives a strictly increasing one |
| Types.OrElse | enrollmentService.ts:43-59 | the fallback `s`-or-`d` gives the default exactly when the value is null, empty or the default itself, and the value otherwise |
| Types.LinkedName | services/turmasService.ts:22-26 | the joined record's name when there is a non-empty one, the placeholder '—' otherwise; never empty |
| Types.SignatureClassesDisjoint | components/DesempenhoManager.tsx:77-79 | digital, in-person and pending signatures never overlap, so their counts add up to at most the row count |
| EnrollmentService.DateFromDb | enrollmentService.ts:31-38 | null, '' and values that do not split into three parts at '-' give ''; otherwise the three parts come back reversed and joined by '/' |
| EnrollmentService.ToEnrollment | enrollmentService.ts:31-61 | the id is kept; the date is converted; Pacote defaults to 'OUTROS', Situação to 'ATIVO', Turma to 'SEM TURMA', Atendente to 'NÃO INFORMADO', Assinatura to 'PRESENCIAL', amounts to 0 |
| EnrollmentService.DateToDb | enrollmentService.ts:66-84 | '' gives null; a value with '/' is written exactly when it is `D/M/YYYY` with day and month of at most two characters, as a ten-character `YYYY-MM-DD`; any other value passes through exactly when it matches `^\d{4}-\d{2}-\d{2}$` |
| EnrollmentService.DateToDbSlash | enrollmentService.ts:70-74 | `D/M/YYYY` goes to `YYYY-MM-DD` with day and month zero-padded |
| EnrollmentService.ToUpdate | enrollmentService.ts:63-104 | a column is set exactly when its field is defined, with the field's value, the date converted |
| EnrollmentService.PartialUpdateLocal | enrollmentService.ts:85-101 | an update changes only the columns of the fields it defines |
| EnrollmentService.EmptyUpdate | enrollmentService.ts:63-104 | an update with no field defined leaves the row as it is |
| EnrollmentService.DateRoundTrip | enrollmentService.ts:32-74 | a `YYYY-MM-DD` column read into the app and written back is the same text |
| EnrollmentService.SlashRoundTrip | enrollmentService.ts:32-74 | a `DD/MM/YYYY` app date written to the table and read back is the same text |
| EnrollmentService.RowRoundTrip | enrollmentService.ts:31-101 | a fully filled row read into the app and written back whole is unchanged |
| EnrollmentForm.ToIsoDate | components/EnrollmentFormModal.tsx:37-42 | '' stays ''; three '/'-parts come back reversed and joined by '-'; anything else is returned as it is |
| EnrollmentForm.ToDdMmYyyy | components/EnrollmentFormModal.tsx:45-50 | '' stays ''; three '-'-parts come back reversed and joined by '/'; anything else is returned as it is |
| EnrollmentForm.DateInputRoundTrip | components/EnrollmentFormModal.tsx:37-50 | three parts without '/' or '-', joined by '/', come back unchanged through the date input |
| EnrollmentForm.Open | components/EnrollmentFormModal.tsx:69-78 | a new form starts from the defaults with an empty date; editing loads the record without its id |
| EnrollmentForm.Submit | components/EnrollmentFormModal.tsx:80-84 | submit replaces only the enrollment date, by the converted date input |
| EnrollmentForm.OpenSubmit | components/EnrollmentFormModal.tsx:69-84 | opening a record and submitting it untouched saves the same record |
| EnrollmentForm.ChooseCourse | components/EnrollmentFormModal.tsx:110 | choosing a course sets it, clears the class and changes nothing else |
| EnrollmentForm.ClassOptions | components/EnrollmentFormModal.tsx:119-121 | the class options are exactly the active classes of the chosen course |
| EnrollmentForm.ClassOptionsOrder | components/EnrollmentFormModal.tsx:119-121 | the options keep the order of the class list |
| Auth.GetUserRole | authService.ts:43-48 | 'master' gives master, 'admin' gives admin, and anything else (no user, no metadata, no role, another text) gives auxiliar |
| Auth.RoleRoundTrip | authService.ts:43-48 | a role written back as metadata reads as the same role |
| Auth.RoleFixpoint | authService.ts:43-48 | reading a role back from its own output is a fixpoint |
| Auth.UsernameKey | authService.ts:11 | the lookup key is the lower-cased name with the white space at both ends cut, so it has no white space at either end and only lower-case characters |
| Auth.UsernameKeyBlank | authService.ts:11 | the key is empty exactly when the name is all white space |
| Auth.UsernameKeyIdempotent | authService.ts:11 | normalising a normalised name changes nothing |
| Auth.UsernameKeyIgnoresCase | authService.ts:11 | two names that differ only in case look up the same user |
| ChangePassword.Utf16Length | ChangePasswordModal.tsx:19 | `length` counts UTF-16 code units: between one and two per character |
| ChangePassword.Submit | ChangePasswordModal.tsx:19-30 | too short exactly when the length is under 6; a mismatch exactly when long enough and different from the confirmation; the update exactly when both checks pass |
| ChangePassword.ButtonEnabled | ChangePasswordModal.tsx:105 | the button is enabled exactly when nothing is loading and both fields are non-empty; an enabled submission that requests the update has matching fields of at least six units |
| ChangePassword.LengthBounds | ChangePasswordModal.tsx:19-22 | fewer than three characters are always too short; six or more never are |
| ChangePassword.BmpSubmit | ChangePasswordModal.tsx:19-30 | for passwords without astral characters the length check reads as written: under six characters is too short |
| Cursos.EditForm | components/CursosManager.tsx:41 | the edit form holds the course's name, description, price and re-enrollment price |
| Cursos.EditFormRoundTrip | components/CursosManager.tsx:41-47 | saving the edit form untouched writes the same fields back |
| Cursos.PackageCounts | services/cursosService.ts:26-30 | every counted package is non-empty and counted at least once |
| Cursos.PackageCountsAreCounts | services/cursosService.ts:19-34 | the count read back for a name is the number of non-cancelled rows filed under exactly that name; an empty name counts 0 |
| Cursos.WithCounts | services/cursosService.ts:32-35 | every course, in order and otherwise unchanged, gets the number of non-cancelled rows of its name as `alunos_count` |
| Cursos.Search | components/CursosManager.tsx:38 | the list keeps exactly the courses whose name contains the search, ignoring case, in order |
| Cursos.SearchEmpty | components/CursosManager.tsx:38 | an empty search keeps every course |
| Cursos.Students | components/CursosManager.tsx:66-68 | a course's students are exactly the enrollments whose Pacote equals its name, in order |
| Cursos.FilteredStudents | components/CursosManager.tsx:93-100 | 'todos' lists all of the course's students; 'pago' those with something received; 'pendente' the others; order is kept |
| Cursos.PaidPendingPartition | components/CursosManager.tsx:93-106 | every student of a course is in exactly one of the paid and pending lists |
| Cursos.Stats | components/CursosManager.tsx:102-106 | the tab counters are the lengths of the three lists, and paid plus pending is the total |
| Cursos.ShownCount | components/CursosManager.tsx:168 | the button shows the fetched count when it is non-zero, otherwise the loaded students |
| Cursos.ShownCountZero | services/cursosService.ts:32-35 | a course shows 0 exactly when no non-cancelled row and no loaded enrollment is filed under its name |
| Cursos.Toggle | components/CursosManager.tsx:108-111 | clicking the open course closes it, clicking another opens it; the payment tab goes back to 'todos' |
| Cursos.ToggleTwice | components/CursosManager.tsx:108-111 | two clicks on the same course restore its open or closed state, unless another course was open |
| Cursos.Footer | components/CursosManager.tsx:259 | the footer reads back as the number of courses listed |
| Turmas.EditForm | TurmasManager.tsx:53-57 | the edit form holds the class's name, course, start, end and status |
| Turmas.EditFormRoundTrip | TurmasManager.tsx:55-63 | saving the edit form untouched writes the same fields back |
| Turmas.Search | TurmasManager.tsx:44-48 | a class is listed exactly when the search matches its name or course label ignoring case and, when a course is selected, its course label equals it; order is kept |
| Turmas.SearchEmpty | TurmasManager.tsx:44-48 | no search and no course keeps every class; only a course keeps exactly that course's classes |
| Turmas.ActiveSeats | TurmasManager.tsx:31 | the loaded rows are exactly the active enrollments, in order |
| Turmas.Students | TurmasManager.tsx:50 | a class's students are exactly the loaded rows with that class name, in order |
| Turmas.StudentsOfClass | TurmasManager.tsx:31-50 | a class lists exactly the active rows of that class, so classes of different names share no row |
| Turmas.StatusColor | TurmasManager.tsx:77-82 | green exactly when the upper-cased status contains 'ATIV'; otherwise red exactly when it contains 'ENCERR' or 'FINALI'; yellow otherwise |
| Turmas.StatusColorPrecedence | TurmasManager.tsx:78-80 | the 'ATIV' test wins: 'inativa' and 'ativa, encerrada' are green, 'encerrada' is red |
| Turmas.Footer | TurmasManager.tsx:184 | the footer reads back as the number of classes listed |
| EnrollmentTable.Search | EnrollmentTable.tsx:21-29 | a row is listed exactly when its student, package, attendant or class contains the search ignoring case; order is kept |
| EnrollmentTable.SearchEmpty | EnrollmentTable.tsx:21-29 | an empty search keeps the whole table |
| EnrollmentTable.SituationBadge | EnrollmentTable.tsx:156-158 | green exactly when the upper-cased situation contains 'ATIV'; otherwise red exactly when it contains 'CANCEL'; yellow otherwise |
| EnrollmentTable.SituationBadgeCases | EnrollmentTable.tsx:156-158 | 'ATIVO' is green, 'CANCELADO' red, and 'INATIVO' green |
| EnrollmentTable.FilteredNote | EnrollmentTable.tsx:218 | the note is empty exactly when there is no search; otherwise it is "(filtrado de " followed by the total, which reads back as a number, and a closing bracket |
| EnrollmentTable.Footer | EnrollmentTable.tsx:216-218 | the footer reads back as the number of rows shown; exactly when a search is typed, the count label is followed by "(filtrado de " and a number that reads back as the number of rows loaded |
| EnrollmentTable.FooterUnfiltered | EnrollmentTable.tsx:216-218 | without a search the footer counts every row |
| Alunos.EditForm | AlunosManager.tsx:36-40 | the edit form holds the student's name, e-mail, CPF, address and vendor |
| Alunos.EditFormRoundTrip | AlunosManager.tsx:38 | saving the edit form untouched writes the same fields back |
| Alunos.Search | AlunosManager.tsx:29-33 | a student is listed exactly when the name or e-mail contains the search ignoring case, or the CPF contains it as typed; order is kept |
| Alunos.SearchEmpty | AlunosManager.tsx:29-33 | an empty search keeps every student |
| Alunos.SearchByCpf | AlunosManager.tsx:32 | typing a student's full CPF finds that student |
| Alunos.Footer | AlunosManager.tsx:104 | the footer reads back as the number of students listed |
| Vendors.Initials | VendedoresManager.tsx:98 | the initials are the upper-cased first characters of the first two non-empty words: two, one or none |
| Vendors.HeadsOfWords | components/DesempenhoManager.tsx:161 | the first characters taken from the split name are those of its non-empty words, in order |
| Vendors.InitialsOfTwoWords | components/DesempenhoManager.tsx:161 | a first and a last name give their two upper-cased first letters |
| Vendors.InitialsOfOneWord | components/DesempenhoManager.tsx:249 | a single word gives its upper-cased first letter |
| Vendors.Search | VendedoresManager.tsx:25 | a vendor is listed exactly when the name contains the search ignoring case; order is kept |
| Vendors.SearchEmpty | VendedoresManager.tsx:25 | an empty search keeps every vendor |
| Vendors.EditForm | VendedoresManager.tsx:27 | the edit form holds the vendor's five fields |
| Vendors.EditFormRoundTrip | VendedoresManager.tsx:27-30 | saving the edit form untouched writes the same fields back |
| Vendors.PhotoUpload | VendedoresManager.tsx:39-51 | no file changes nothing; a file over 5 MB sets the error and leaves the form; otherwise only the photo changes |
| Vendors.PhotoLimit | VendedoresManager.tsx:42 | 5×1024×1024 bytes is accepted and one byte more is refused |
| Vendors.RemovePhoto | VendedoresManager.tsx:53-54 | the photo is cleared and nothing else changes |
| Vendors.UploadThenRemove | VendedoresManager.tsx:47-54 | removing a photo after uploading one gives the form without a photo |
| Vendors.PhotoMap | components/DesempenhoManager.tsx:25-29 | the photo map has an entry exactly for the names of vendors with a non-empty photo |
| Vendors.PhotoMapLast | components/DesempenhoManager.tsx:25-29 | a name maps to the photo of the last vendor of that name with a photo |
| App.Toggle | App.tsx:167-173 | toggling removes every occurrence of a selected key and appends an unselected one: afterwards a key is selected exactly when it was not, or it is not the toggled key and was |
| App.ToggleTwice | App.tsx:167-173 | toggling the same key twice selects the same keys as before, and restores the very list when the key was not selected |
| App.ToggleDistinct | App.tsx:167-173 | a selection without repeated keys keeps none after a toggle |
| App.CourseClassMapCourses | App.tsx:112-123 | the map is built with one entry per course of the records, added in order of first appearance, an empty course filed under 'Outros' |
| App.CourseClassMapKeys | App.tsx:112-123 | each course's list is built from the compound keys of that course's records, once each, added in order of first appearance |
| App.PanelCourses | App.tsx:313 | the panel lists the map's course names in ascending order, each course of the records exactly once |
| App.PanelClasses | App.tsx:343 | an expanded course lists its compound keys in ascending order, each key of that course's records exactly once |
| App.CourseKeysMembers | App.tsx:112-123 | a course's list is duplicate-free and names exactly the compound keys of that course's records |
| App.TurmaName | App.tsx:126 | a key without a bar is its own name; otherwise the name is the text between the first and second bar when it is non-empty, else the whole key |
| App.TurmaNameOfKey | App.tsx:126 | the compound key of a course and a class names the class, or itself when the class is empty |
| App.SelectedData | App.tsx:129-135 | the statistics input holds exactly the records whose compound key is selected, or every record when nothing is |
| App.SelectedDataOrder | App.tsx:131-133 | the selected records keep their order |
| App.SelectionStats | App.tsx:129-137 | with records loaded, the statistics are recomputed and count the selected records; with none, the previous statistics stay, so statistics exist exactly when records are loaded or were shown before |
| App.InitialSelection | App.tsx:103-109 | when records arrive with nothing selected, every compound key is selected, once; otherwise the selection stays |
| App.InitialSelectionKeepsAll | App.tsx:103-109 | the default selection shows every record |
| App.SelectionClasses | App.tsx:79-82 | every class the filtered statistics offer is in the full class list |
| App.ToggleCourse | App.tsx:175-183 | when all of a course's keys are selected they are all removed; otherwise the result is the duplicate-free union of the selection and the course's keys |
| App.ToggleCourseEffect | App.tsx:175-183 | after toggling a course either all its keys are selected or none is |
| App.SelectCourse | App.tsx:112-137 | selecting exactly a course's keys shows exactly that course's records |
| App.AfterSignIn | App.tsx:59-65 | an auxiliary user lands on the enrollment list; other roles keep the tab |
| App.RoleGatesMonotone | App.tsx:76-77 | a master sees every button an admin sees, who sees every one an auxiliary user sees; the overview, commercial, report and user screens are hidden from an auxiliary user |
| App.VisibleIsRendered | App.tsx:244-455 | every visible button leads to a screen that renders once the records are loaded and the statistics exist; while loading, only the enrollment list stays empty |
| App.SignInLandsVisible | App.tsx:59-65 | after a sign-in the current tab is one the user may open |
| Desempenho.CourseBreakdown | components/DesempenhoManager.tsx:69-74 | a vendor's course counts are sorted descending, sum to the vendor's enrollments, and each counts exactly the rows of its course ('Outros' for none) |
| Desempenho.VendorEntry | components/DesempenhoManager.tsx:67-94 | a vendor entry holds its rows and their count; its three signature counts and its two amount sums are those of its rows; each course count is the number of its rows of that course, and they add up to the total |
| Desempenho.VendorStats | components/DesempenhoManager.tsx:59-97 | one entry per vendor ('Não informado' for none) holding exactly its rows, with the counts and sums of those rows; sorted by total descending, ties in order of first appearance |
| Desempenho.VendorStatsPartition | components/DesempenhoManager.tsx:59-97 | the vendor totals, values and amounts received add up to those of all enrollments |
| Desempenho.VendorSignaturesPartition | components/DesempenhoManager.tsx:77-79 | each signature count summed over the vendors is that count over all enrollments |
| Desempenho.ComputeTotals | components/DesempenhoManager.tsx:100-105 | the header total is the number of enrollments; each signature count is the number of enrollments of that class, and the three add up to at most the total |
| Desempenho.TotalsMatchVendors | components/DesempenhoManager.tsx:59-105 | the header totals agree with the sums over the vendor table |
| ReportAm.EnrollmentDate | ReportAM.tsx:49-58 | a missing or empty enrollment date falls back to the day of creation; one without '/' is parsed as it is |
| ReportAm.EnrollmentDateSlash | ReportAM.tsx:51-53 | `D/M/Y` is read as the ISO text `Y-M-D` |
| ReportAm.EnrollmentDateBrazilian | ReportAM.tsx:51-53 | a well-formed `DD/MM/YYYY` date is read as that calendar day |
| ReportAm.GetSummary | ReportAM.tsx:67-88 | the total is the number of enrollments; the amounts are field sums and pending is their difference; each signature count is the number of enrollments of that class, and the three add up to at most the total; the courses are sorted by count, and their counts and values add up to the totals |
| ReportAm.SummaryCourses | ReportAM.tsx:78-85 | each course entry counts exactly the enrollments of that course ('Outros' for none) and sums their amount to receive |
| ReportAm.ValidSpan | ReportAM.tsx:96-100 | the earliest and latest valid enrollment dates, both among the dates, bounding every valid one; none when no date is valid |
| ReportAm.FirstWeekStartFacts | ReportAM.tsx:103-104 | the first window starts on the first of the earliest date's month |
| ReportAm.Plan | ReportAM.tsx:96-107 | the first window's start and the last date, when there is a valid date whose month start is a valid date |
| ReportAm.WeeklyEvolution | ReportAM.tsx:93-145 | no records give no windows; at most 150 windows, starting on the first of the earliest month and seven days apart, each counting the dates within it, running until one starts after the latest date; the counts sum to at most the records, and to all valid dates when fewer than 150 windows were needed |
| ReportAm.Windows | ReportAM.tsx:117-142 | the loop emits consecutive seven-day windows until one would start after the last date or 150 are made, and the counts sum to the dates within the windows |
| ReportAm.PlanStartsEarly | ReportAM.tsx:103-104 | the first window starts no later than the earliest date |
| ReportAm.ConversionRate | ReportAM.tsx:166 | received over value times 100; 0 when both are 0; an infinity when only the value is 0 |
| ReportAm.ConversionRateBounds | ReportAM.tsx:166 | fully received gives 100, nothing received gives 0, and a partial payment lies between |
| ReportAm.VendorPerformance | ReportAM.tsx:150-169 | one row per vendor whose total, value, amount received and three signature counts are those of exactly its enrollments, with its conversion rate; sorted by total descending, ties in order of first appearance |
| ReportAm.VendorPerformanceTotals | ReportAM.tsx:150-169 | the vendor table's totals, values and amounts received add up to the summary's |
| ReportAm.YearShort | ReportAM.tsx:130 | the year label is the last two characters of the year's text, or all of it when shorter |
| ReportAm.YearShortDigits | ReportAM.tsx:130 | from year 10 on, the year label is two digits whose value is the year modulo 100 |
| Cobranca.Pending | CobrancaManager.tsx:51 | the pending rows are exactly those whose signature is missing, empty or 'NENHUM', in order |
| Cobranca.SignatureBars | CobrancaManager.tsx:52-55 | the total is every row; the 'PRESENCIAL' and 'DIGITAL' bars count the rows signed in person and digitally; the 'NENHUM' bar counts the pending rows; the three bars add up to at most the total |
| Cobranca.MaxBar | CobrancaManager.tsx:73 | the bar scale is at least 1 and at least each of the three counts, and equals one of them or 1 |
| Cobranca.BarWidth | CobrancaManager.tsx:201-219 | a bar is 0 wide for no rows; for some rows it is the larger of its share of the scale and 8 per cent, so never past 100 per cent within the scale |
| Cobranca.BarsFit | CobrancaManager.tsx:73-219 | every bar of the screen fits in full width |
| Cobranca.DaysDelayed | CobrancaManager.tsx:58-63 | the delay is the whole number of days between creation and today, in either direction, so never negative |
| Cobranca.DelayClassesExclusive | CobrancaManager.tsx:70-71 | every pending row is exactly one of critical, warning or recent |
| Cobranca.DelayThresholds | CobrancaManager.tsx:70-71 | a week or more is critical; less than three days is recent |
| Cobranca.DelayAlerts | CobrancaManager.tsx:70-71 | the critical and warning counts are those of their classes, and with the recent rows they cover every pending row |
| Cobranca.TopPending | CobrancaManager.tsx:66-68 | at most ten pending rows, sorted by creation oldest first, all from the pending list, and all of them when there are at most ten |
| Cobranca.TopPendingOldest | CobrancaManager.tsx:66-68 | no pending row left out is older than one listed |
| Cobranca.VendorList | CobrancaManager.tsx:76-83 | one entry per vendor of the pending rows, each counting exactly its rows; counts sum to the pending rows; sorted descending, ties in order of first appearance |
| Cobranca.FilteredPending | CobrancaManager.tsx:85 | 'todos' lists every pending row; any other choice exactly the rows credited to that vendor |
| Cobranca.VendorButtonCount | CobrancaManager.tsx:76-108 | choosing a vendor's button lists as many rows as the button shows, unless the vendor is named 'todos' |
| Cobranca.VendorNamedAll | CobrancaManager.tsx:85 | a vendor named 'todos' cannot be singled out: its button lists every pending row |
| Trafego.WeekStart | components/TrafegoCalendar.tsx:18-25 | the week of a day starts on the Monday at most six days before it |
| Trafego.WeekStartUnique | components/TrafegoCalendar.tsx:18-25 | the Monday within the six days before a day is its week start, and no other day is |
| Trafego.SameWeek | components/TrafegoCalendar.tsx:18-25 | two days share a week start exactly when the second lies in the seven days from the first's Monday |
| Trafego.WeekStartDate | components/TrafegoCalendar.tsx:18-25 | on a valid date the week start is that Monday; an Invalid Date stays invalid |
| Trafego.WeekEndDate | components/TrafegoCalendar.tsx:27-32 | the week ends six days after its start, on a Sunday, and is invalid when that leaves the date range |
| Trafego.DateBRFields | components/TrafegoCalendar.tsx:34-36 | a day's `DD/MM` label is two two-digit fields that read back as its day and month |
| Trafego.MonthStartDate | components/TrafegoCalendar.tsx:88 | `new Date(y, m, 1)` is the first day of the month |
| Trafego.MonthEndDate | components/TrafegoCalendar.tsx:89 | day 0 of the next month is the last day of the month |
| Trafego.WeekOfToday | components/TrafegoCalendar.tsx:82-86 | the 'week' range runs from this week's Monday to its Sunday, as ISO texts |
| Trafego.MonthOf | components/TrafegoCalendar.tsx:87-91 | the 'month' range runs from the first to the last day of today's month, as ISO texts |
| Trafego.ApplyQuickRange | components/TrafegoCalendar.tsx:80-100 | the quick range is recorded; 'week', 'month' and 'last4weeks' set the bounds to this week, this month and the 28 days up to today; any other key keeps the bounds |
| Trafego.FilteredEnrollments | components/TrafegoCalendar.tsx:120-126 | no bounds keep every enrollment; otherwise exactly those whose date text lies between the bounds, in order |
| Trafego.FilteredByDay | components/TrafegoCalendar.tsx:120-126 | with ISO day bounds, an enrollment is kept exactly when its day lies between them |
| Trafego.MonthRangeKeeps | components/TrafegoCalendar.tsx:87-126 | after choosing 'month', a day is kept exactly when it is in today's month and year |
| Trafego.WeekRangeKeeps | components/TrafegoCalendar.tsx:82-126 | after choosing 'week', a day is kept exactly when it is in today's week |
| Trafego.ReadWeek | components/TrafegoCalendar.tsx:135-137 | reading an enrollment date (parts parsed without a radix) and taking its week start gives a Monday or an Invalid Date |
| Trafego.ReadWeekIso | components/TrafegoCalendar.tsx:135-137 | an ISO day text is read back as that day, so its week start is that day's Monday |
| Trafego.WeekOfDay | components/TrafegoCalendar.tsx:135-139 | an enrollment dated by an ISO day text is filed under that day's Monday |
| Trafego.WeekOfIso | components/TrafegoCalendar.tsx:135-139 | two enrollments share a week exactly when the second's day lies in the first's seven-day week |
| Trafego.WeeklyData | components/TrafegoCalendar.tsx:129-150 | one entry per week, holding exactly the count and receivable sum of its enrollments; all enrollments are covered; ordered by week start; each key a Monday |
| Trafego.WeeklyDataIncreasing | components/TrafegoCalendar.tsx:129-150 | consecutive week entries start at least seven days apart, and only the last may be an Invalid Date |
| Trafego.VendorData | components/TrafegoCalendar.tsx:153-165 | one entry per vendor ('Não informado' for none) holding exactly the count and sums of its enrollments; sorted by count descending, ties in order of first appearance |
| Trafego.CalendarDays | components/TrafegoCalendar.tsx:207-216 | the grid of a month is blank up to its first weekday, then the days 1 to the last, then blanks to the end of the week |
| Trafego.FillGrid | components/TrafegoCalendar.tsx:211-214 | whole weeks; the leading blanks, then each day in its cell, then at most six trailing blanks |
| Trafego.CalendarMonth | components/TrafegoCalendar.tsx:208-210 | the grid's lead is the first's weekday, its length the month's days, and each day sits in its weekday's column |
| Trafego.GridFirst | components/TrafegoCalendar.tsx:208-210 | the first cell of day 1 is the weekday of the first of the month |
| Trafego.GridLast | components/TrafegoCalendar.tsx:209 | day 0 of the next month gives the month's number of days |
| Trafego.InitialView | components/TrafegoCalendar.tsx:58-60 | the calendar opens on a valid month |
| Trafego.InitialViewHoldsToday | components/TrafegoCalendar.tsx:58-60 | the calendar opens on the month that contains today |
| Trafego.PrevMonth | components/TrafegoCalendar.tsx:266 | going back gives the month before, across a year boundary too |
| Trafego.NextMonth | components/TrafegoCalendar.tsx:267 | going forward gives the month after, across a year boundary too |
| Trafego.MonthNumberInjective | components/TrafegoCalendar.tsx:266-267 | two valid views with the same month count are the same view |
| Trafego.PrevNextInverse | components/TrafegoCalendar.tsx:266-267 | going back then forward, or forward then back, returns to the same month |
| Trafego.MonthRange | services/trafegoService.ts:16-22 | a month filter applies only when both month and year are given, and then bounds that month |
| Trafego.MonthRangeTexts | services/trafegoService.ts:17-20 | the bounds are the first of the month and the first of the next month, December rolling into January |
| Trafego.MonthRangeSelects | services/trafegoService.ts:17-21 | a day is fetched exactly when it is in the chosen month, and the bounds are strictly ordered |
| Calendar.DaysInMonth | components/TrafegoCalendar.tsx:209 | a month has 28 to 31 days, and February has 29 exactly in a leap year |
| Calendar.ToCivil | components/TrafegoCalendar.tsx:38-40 | the year, month and day read off a day number form a valid calendar day that names that same day |
| Calendar.ToCivilOf | components/TrafegoCalendar.tsx:38-40 | reading the fields off a valid calendar day's number gives that calendar day back |
| Calendar.WeekDay | components/TrafegoCalendar.tsx:20 | the weekday is between 0 (Sunday) and 6 |
| Calendar.DateOfValid | utils/csvProcessor.ts:39 | building a date from a valid year, month index and day gives that calendar day |
| Calendar.MonthOfDay | components/TrafegoCalendar.tsx:88-89 | every day lies between the first and the last day of its own month |
| Calendar.NextMonthStart | services/trafegoService.ts:18-20 | the first of the next month, December rolling into January, comes a month's length after the first of this month |
| Calendar.DayOrder | components/TrafegoCalendar.tsx:149 | calendar days compare in the same order as their day numbers |
| Calendar.MakeDate | utils/csvProcessor.ts:39 | `new Date(y, m, d)` with out-of-range months and days rolled over, and an Invalid Date past the date range |
| DateText.ParseIso | ReportAM.tsx:53-55 | an ISO `YYYY-MM-DD` text is read as that calendar day when it names a valid one, and as an Invalid Date otherwise |
| DateText.ParseIsoParts | ReportAM.tsx:52-53 | four, two and two digits joined by dashes are read as that year, month and day |
| DateText.IsoTextShape | components/TrafegoCalendar.tsx:38-40 | a date text is the four-digit year, the two-digit month and the two-digit day, joined by dashes |
| DateText.IsoDateRoundTrip | components/TrafegoCalendar.tsx:38-40 | reading back the text written for a day gives that same day |
| DateText.IsoTextOrder | components/TrafegoCalendar.tsx:123-124 | the text order of date texts is the calendar order of their days |
| DateText.IsoDateOrder | components/TrafegoCalendar.tsx:123-124 | one day's text sorts at or before another's exactly when the day is no later |
| Strings.Trim | utils/csvProcessor.ts:12 | the trimmed text is no longer than the input and neither starts nor ends with white space |
| Strings.TrimCut | utils/csvProcessor.ts:12 | the trimmed text is the input with only white space removed from its two ends |
| Strings.CutEmpty | authService.ts:11 | trimming leaves nothing exactly when the text is all white space |
| Strings.Lower | authService.ts:11 | lower-casing keeps the length and maps every character on its own |
| Strings.Upper | utils/csvProcessor.ts:50 | upper-casing keeps the length and maps every character on its own |
| Strings.Split | utils/csvProcessor.ts:34 | splitting gives at least one part, none holding the separator |
| Strings.JoinSplit | utils/csvProcessor.ts:34 | joining the parts back with the separator gives the text that was split |
| Strings.SplitHead | ReportAM.tsx:52 | the first part is the text up to the first separator |
| Strings.LastIndexOf | utils/csvProcessor.ts:16-17 | -1 exactly when the character is absent; otherwise a position holding it with none after |
| Strings.RemoveAllMembers | utils/csvProcessor.ts:20-22 | removing a character keeps exactly the other characters |
| Strings.ReplaceFirstAt | utils/csvProcessor.ts:20-24 | replacing the first occurrence changes just that occurrence |
| Strings.NatToString | components/TrafegoCalendar.tsx:39 | the decimal text of a number is digits whose value is the number, one digit below 10 and two below 100 |
| Strings.Pad2Value | components/TrafegoCalendar.tsx:39 | a padded field reads back as its number |
| Strings.DigitPrefix | utils/csvProcessor.ts:36-38 | the leading digits of a text, stopping at the first character that is not one |
| Strings.ParseInt | utils/csvProcessor.ts:36-38 | blank text is not a number; a text of digits after leading white space is read as their value |
| Strings.ParseIntLeading | utils/csvProcessor.ts:36-38 | parsing stops at the first non-digit, so trailing text is ignored |
| Strings.ParseIntNoRadix | utils/csvProcessor.ts:94 | without a radix, a text whose body does not start with `0x` parses as with radix 10; after `0x` it is NaN exactly when no hex digit follows |
| Strings.ParseIntNoRadixHex | utils/csvProcessor.ts:94 | without a radix, `0x` and hex digits read as their hexadecimal value, stopping at the first other character |
| Strings.ParseIntNoRadixDigits | utils/csvProcessor.ts:94 | without a radix, a plain digit string still reads as its decimal value |
| Strings.LastTwoDigits | ReportAM.tsx:130 | the last two digits of a digit string are its value modulo 100 |
| Strings.CountLabel | components/CursosManager.tsx:259 | a footer is the count's digits, a space, then the singular for one and the plural otherwise |
| Strings.CountLabelReadsBack | components/CursosManager.tsx:259 | the number read back from a footer is the count |
| Grouping.KeysOf | utils/csvProcessor.ts:140-148 | the keys met while counting, each once, in the order first met |
| Grouping.RowsWithKeyMembers | utils/csvProcessor.ts:140-148 | the rows counted under a key are exactly the rows carrying that key |
| Types.OrZero | enrollmentService.ts:49-51 | a missing number reads as 0, a present one as itself |
| Seqs.Dedup | App.tsx:80 | `Array.from(new Set(...))`: each element once, and exactly the elements of the input |
| Seqs.FirstWhere | utils/csvProcessor.ts:54 | `findIndex`: the first position whose element passes, or none when no element passes |

## Left out

- Database and authentication I/O: every Supabase query, insert, update and delete, the realtime channels, the sign-in, sign-out and password-update calls, adminClient.ts and UsersManager.tsx. Fetched rows are parameters, and every write is modelled as the record it would send.
- Rendering: JSX, CSS and the chart components (AttendantChart.tsx, CourseChart.tsx, components/StatusChart.tsx, EnrollmentTimeChart.tsx, WeeklyEvolutionChart.tsx, components/ReportAM/VendorTable.tsx, components/ReportAM/CoursesTable.tsx). They only display data computed by the modelled code.
- PDF and Excel export (ReportAM.tsx:174-361): library calls with no logic of their own.
- The AI assistant (components/AIAssistant.tsx, aiService.ts, geminiService.ts): network calls.
- The clock: "today" and "now" are parameters.
- `getWeekNumber` (components/TrafegoCalendar.tsx:10-15): never called.
- The traffic screen's daily chart, message totals, day editor and vendor-by-week chart (components/TrafegoCalendar.tsx:167-260): display-only lookups over the fetched traffic rows.
- App `filteredDailyData` (App.tsx:139-165): it filters on millisecond differences of `Date` values and on `Math.max` over them. It is not modelled.
- Time zones: all days are computed in one zone. The source parses `YYYY-MM-DD` as UTC and reads months and hours in local time.
- ReportAm.WeeklyEvolution: builds its windows from day numbers in one zone. The source builds local-time windows over ISO dates parsed as UTC midnight, so west of UTC a date on the first of a month can start the series in the month before.
- CsvProcessor.CellOr: a missing cell is JavaScript `undefined`. The model holds it as the text "undefined", which is what the source's later string operations see.
- CsvProcessor.RoundCents: exact decimal arithmetic. The source rounds an IEEE double, which can differ from the exact value in the last cent.
- CsvProcessor.ParseFloat: reads the decimal text exactly, not as a double.
- Strings.Lower: maps each ASCII and Latin-1 letter to its case partner, one character to one. JavaScript's full Unicode mapping, such as 'İ' to "i̇", is not modelled, and strings are Unicode scalars rather than UTF-16 code units.
- Strings.Upper: the same restriction as `Strings.Lower`; 'ß' stays 'ß' instead of becoming "SS".
- Vendors.Initials: takes the first character of each word as one Unicode scalar. The source takes one UTF-16 unit, so it can split a surrogate pair, and it upper-cases 'ß' to "SS".
- CsvProcessor.NormalizeHeader: folds only the Latin-1 accented letters. `normalize("NFD")` followed by removal of combining marks covers every Unicode letter.
- Grouping.TallyBy: keys stay in order of first insertion. A JavaScript object lists integer-like keys such as "2024" first, in numeric order, and treats keys such as `__proto__` specially. It also finds an inherited `Object.prototype` member, such as `constructor` or `toString`, for a key of that name before any row sets it.
- DashboardStats.GetDashboardStats: an attendant or course named like an inherited `Object.prototype` member, such as `constructor`, finds that member in `attendantMap` or `courseMap` (utils/csvProcessor.ts:140-148). Its sums are written onto the inherited object, so `Object.values` leaves it out of the metrics. The model lists it like any other name.
- Ranking.RankBy: inherits the key order of `Grouping.TallyBy`, so ties among integer-like keys may be listed in another order by the source.
- DashboardStats.DailyOrder: puts the Invalid Date entry last. The source's comparator returns `NaN` for it, and where the engine places it is left to the engine.
- Trafego.WeeklyData: puts the Invalid Date entry last, for the same reason as `DashboardStats.DailyOrder`.
- Trafego.WeeklyData: its requires excludes rows with a null `data_matricula`. On such a row the source throws a TypeError (components/TrafegoCalendar.tsx:135).
- ReportAm.ValidSpan: skips Invalid Dates. In the source a `NaN` comparator can sort an Invalid Date first or last, which makes the start or end date `NaN` and the result empty.
- ReportAm.PlanStartsEarly: its requires exclude a first month in the years 0 to 99. There `new Date(y, m, 1)` reads the year as 1900 + y. `Calendar.MakeDate` models that reading, but the lemma is stated for the other years.
- ReportAm.FirstWeekStartFacts: stated for years outside 0 to 99, for the same reason as `ReportAm.PlanStartsEarly`.
- Trafego.MonthOf: promises the month bounds only for years outside 0 to 99, for the same reason as `ReportAm.PlanStartsEarly`.
- Trafego.CalendarMonth: stated for years outside 0 to 99, for the same reason.
- DateText.ParseIso: rejects a date text that is not zero-padded, such as "2024-3-5", which V8 accepts. `ReportAm.EnrollmentDate` therefore reads "5/3/2024" as an Invalid Date. It also rejects a day past the end of its month, such as "2024-02-30", which V8 rolls over to 2024-03-01. ECMAScript leaves both cases to the implementation.
- Vendors.PhotoUpload: the asynchronous FileReader is collapsed into an immediate result, and the data URL is a parameter.
- Sorting.SortStrings: compares characters by Unicode code point. JavaScript's `sort()` compares UTF-16 code units, so a character above U+FFFF sorts before one in U+E000 to U+FFFF there and after it here.
- DashboardStats.ClassList: sorted with `Sorting.SortStrings`, so it has the same code point order in place of the UTF-16 order.
- App.PanelCourses: sorted with `Sorting.SortStrings`, with the same code point order.
- App.PanelClasses: sorted with `Sorting.SortStrings`, with the same code point order. The source sorts the map's own array in place; the model returns a sorted copy, which is what the panel shows.
- App.CourseClassMapCourses: describes the map as it is built. A course named like an `Object.prototype` member, such as `constructor` or `toString`, finds an inherited function in `map[curso]`, and the source throws at `.includes` (App.tsx:118); the model files it like any other course.
- App.CourseClassMapKeys: the same restriction on prototype-named courses as `App.CourseClassMapCourses`.
- ReportAm.ConversionRate: computed in exact rationals. The source divides and multiplies IEEE doubles (ReportAM.tsx:166), so 1/3 of the value gives 33.33333333333333 there and exactly 100/3 here.
- Cursos.WithCounts: counts in a plain object (services/cursosService.ts:26-34). For a course named like an inherited `Object.prototype` member, such as `toString` or `constructor`, `counts[c.nome] || 0` gives the inherited function instead of 0. A row of that `pacote` makes `(counts[p] || 0) + 1` a string concatenation. The model gives the row count for every name.
- Cursos.PackageCountsAreCounts: the same restriction to names that are not `Object.prototype` members as `Cursos.WithCounts`.
- Cursos.ShownCountZero: inherits the restriction of `Cursos.WithCounts` for prototype-named courses.
- ChangePassword.Submit: lengths are counted in UTF-16 units from the Unicode scalars, so the count matches JavaScript for every string without unpaired surrogates.

=== FILE: alunos.dfy ===
/** Students (alunosService.ts, AlunosManager.tsx): the student record, the
    search over name, e-mail and CPF, the edit form and the footer. */
module Alunos {
  import opened Seqs
  import opened Strings
  import opened Types

  /** `Aluno`. The search treats e-mail and CPF as possibly null, so they
      are optional here; `vendedorNome` is `LinkedName` of the vendor. */
  datatype Aluno = Aluno(id: int, nome: string, email: Option<string>, cpf: Option<string>,
    endereco: string, vendedorId: Option<int>, vendedorNome: string)

  /** `AlunoInput`: the fields the edit form holds. */
  datatype AlunoForm = AlunoForm(nome: string, email: Option<string>, cpf: Option<string>,
    endereco: string, vendedorId: Option<int>)

  /** `EMPTY`: the form `openNew` starts from. */
  const EmptyForm: AlunoForm := AlunoForm("", Some(""), Some(""), "", None)

  /** `openEdit`: the form holds the student's five editable fields. */
  function EditForm(a: Aluno): (f: AlunoForm)
    ensures f.nome == a.nome && f.email == a.email && f.cpf == a.cpf
    ensures f.endereco == a.endereco && f.vendedorId == a.vendedorId
  {
    AlunoForm(a.nome, a.email, a.cpf, a.endereco, a.vendedorId)
  }

  /** Editing a student and saving the form untouched writes the same
      fields back. */
  lemma EditFormRoundTrip(a: Aluno)
    ensures var f := EditForm(a);
      a.(nome := f.nome, email := f.email, cpf := f.cpf, endereco := f.endereco,
         vendedorId := f.vendedorId) == a
  {
  }

  /** The search matches the name or the e-mail ignoring case, or the CPF
      exactly as typed; a missing e-mail or CPF is searched as ''. */
  predicate Matches(a: Aluno, search: string) {
    ContainsIgnoreCase(a.nome, search)
    || ContainsIgnoreCase(OrElse(a.email, ""), search)
    || Contains(OrElse(a.cpf, ""), search)
  }

  /** `filtered`. */
  function Search(data: seq<Aluno>, search: string): (r: seq<Aluno>)
    ensures forall a :: a in r <==> a in data && Matches(a, search)
    ensures Subsequence(r, data)
  {
    FilterIsSubsequence(data, (a: Aluno) => Matches(a, search));
    Filter(data, (a: Aluno) => Matches(a, search))
  }

  /** An empty search keeps the whole list. */
  lemma SearchEmpty(data: seq<Aluno>)
    ensures Search(data, "") == data
  {
    forall a | a in data
      ensures Matches(a, "")
    {
      ContainsIgnoreCaseEmpty(a.nome);
    }
    FilterAll(data, (a: Aluno) => Matches(a, ""));
  }

  /** Typing a student's full CPF finds that student. */
  lemma SearchByCpf(data: seq<Aluno>, a: Aluno)
    requires a in data && a.cpf.Some? && a.cpf.value != ""
    ensures a in Search(data, a.cpf.value)
  {
    ContainsAt(a.cpf.value, a.cpf.value, 0);
  }

  /** The footer: `{n} aluno(s)` with the number of students shown. */
  function Footer(data: seq<Aluno>, search: string): (r: string)
    ensures ParseInt(r) == Some(|Search(data, search)|)
  {
    CountLabelReadsBack(|Search(data, search)|, "aluno(s)", "aluno(s)");
    CountLabel(|Search(data, search)|, "aluno(s)", "aluno(s)")
  }
}

=== FILE: app.dfy ===
/** The dashboard shell (App.tsx): the class selection that filters the
    statistics, the course-to-class tree of the selection panel, and the
    role gates on the navigation.

    A class is identified by the compound key `Pacote|Turma`. The selection
    is the list of selected keys; the statistics are computed over the
    records whose key is selected, or over all records when nothing is. */
module App {
  import opened Seqs
  import opened Strings
  import opened Types
  import opened Auth
  import opened Sorting
  import opened DashboardStats
  import Grouping

  /** `${d.Pacote}|${d.Turma}`: the key the selection is matched against. */
  function CompoundKey(e: Enrollment): string {
    e.pacote + "|" + e.turma
  }

  /** `d.Pacote || 'Outros'`: the course a record is listed under in the
      selection panel. */
  function PanelCourse(e: Enrollment): string {
    if e.pacote == "" then OtherCourse else e.pacote
  }

  /** The key the selection panel files a record's class under. */
  function PanelKey(e: Enrollment): string {
    PanelCourse(e) + "|" + e.turma
  }

  // ---------------------------------------------------------------------
  // Toggling

  /** `toggleClass` (and `toggleExpandCurso`, on course names): remove every
      occurrence of a present key, append an absent one. */
  function Toggle(sel: seq<string>, k: string): (r: seq<string>)
    ensures forall x :: x in r <==> (x == k) != (x in sel)
    ensures k !in sel ==> |r| == |sel| + 1 && r[..|sel|] == sel
    ensures k in sel ==> |r| < |sel| && Subsequence(r, sel)
  {
    if k in sel then
      FilterIsSubsequence(sel, x => x != k);
      CountDrops(sel, k);
      Filter(sel, x => x != k)
    else sel + [k]
  }

  lemma {:induction false} CountDrops(sel: seq<string>, k: string)
    requires k in sel
    ensures Count(sel, x => x != k) < |sel|
  {
    var init := sel[..|sel| - 1];
    if sel[|sel| - 1] != k {
      assert k in init by {
        var i :| 0 <= i < |sel| && sel[i] == k;
        assert init[i] == k;
      }
      CountDrops(init, k);
    } else {
      CountAtMost(init, x => x != k);
    }
  }

  /** Toggling the same key twice selects the same keys as before, and
      gives back the very same list when the key was not selected. */
  lemma ToggleTwice(sel: seq<string>, k: string)
    ensures forall x :: x in Toggle(Toggle(sel, k), k) <==> x in sel
    ensures k !in sel ==> Toggle(Toggle(sel, k), k) == sel
  {
    if k !in sel {
      var t := sel + [k];
      assert k in t;
      FilterAll(sel, x => x != k);
      assert t[..|t| - 1] == sel;
    }
  }

  /** A selection without repeated keys keeps none after a toggle. */
  lemma ToggleDistinct(sel: seq<string>, k: string)
    requires Distinct(sel)
    ensures Distinct(Toggle(sel, k))
  {
    if k in sel {
      FilterDistinct(sel, x => x != k);
    }
  }

  lemma {:induction false} FilterDistinct<T(!new)>(s: seq<T>, p: T -> bool)
    requires Distinct(s)
    ensures Distinct(Filter(s, p))
  {
    if |s| > 0 {
      var init := s[..|s| - 1];
      assert Distinct(init) by {
        forall i, j | 0 <= i < j < |init|
          ensures init[i] != init[j]
        {
          assert init[i] == s[i] && init[j] == s[j];
        }
      }
      FilterDistinct(init, p);
      assert s[|s| - 1] !in init;
    }
  }

  // ---------------------------------------------------------------------
  // The course-to-class tree

  /** One course of the selection panel and the keys of its classes. */
  datatype PanelEntry = PanelEntry(course: string, keys: seq<string>)

  function CourseName(p: PanelEntry): string { p.course }

  /** `cursoTurmaMap[course] || []`. */
  function KeysFor(m: seq<PanelEntry>, course: string): seq<string> {
    if |m| == 0 then []
    else if m[0].course == course then m[0].keys
    else KeysFor(m[1..], course)
  }

  /** One step of the `forEach`: create the course's list if missing, and
      append the key to it unless already there. */
  function AddKey(m: seq<PanelEntry>, course: string, k: string): seq<PanelEntry> {
    if |m| == 0 then [PanelEntry(course, [k])]
    else if m[0].course == course then
      [m[0].(keys := if k in m[0].keys then m[0].keys else m[0].keys + [k])] + m[1..]
    else [m[0]] + AddKey(m[1..], course, k)
  }

  /** `cursoTurmaMap`, courses in order of first appearance. */
  function CourseClassMap(data: seq<Enrollment>): seq<PanelEntry> {
    if |data| == 0 then []
    else
      var last := data[|data| - 1];
      AddKey(CourseClassMap(data[..|data| - 1]), PanelCourse(last), PanelKey(last))
  }

  /** The courses of the panel: each course of the records once, in order of
      first appearance, with an empty course filed under 'Outros'. */
  lemma {:induction false} CourseClassMapCourses(data: seq<Enrollment>)
    ensures Map(CourseClassMap(data), CourseName) == Grouping.KeysOf(data, PanelCourse)
  {
    if |data| > 0 {
      var init := data[..|data| - 1];
      var last := data[|data| - 1];
      CourseClassMapCourses(init);
      AddKeyCourses(CourseClassMap(init), PanelCourse(last), PanelKey(last));
    }
  }

  lemma {:induction false} AddKeyCourses(m: seq<PanelEntry>, course: string, k: string)
    ensures Map(AddKey(m, course, k), CourseName) ==
      (if course in Map(m, CourseName) then Map(m, CourseName) else Map(m, CourseName) + [course])
  {
    if |m| > 0 {
      AddKeyCourses(m[1..], course, k);
      assert Map(m, CourseName) == [m[0].course] + Map(m[1..], CourseName);
      var a := AddKey(m, course, k);
      assert Map(a, CourseName) == [a[0].course] + Map(a[1..], CourseName);
    }
  }

  /** Adding a key changes only the list of its course. */
  lemma {:induction false} AddKeyFor(m: seq<PanelEntry>, course: string, k: string, c: string)
    ensures KeysFor(AddKey(m, course, k), c) ==
      (if c != course then KeysFor(m, c)
       else if k in KeysFor(m, c) then KeysFor(m, c)
       else KeysFor(m, c) + [k])
  {
    if |m| > 0 && m[0].course != course {
      AddKeyFor(m[1..], course, k, c);
    }
  }

  /** Each course's list holds the panel keys of that course's records, each
      once, in order of first appearance. */
  lemma {:induction false} CourseClassMapKeys(data: seq<Enrollment>, c: string)
    ensures KeysFor(CourseClassMap(data), c) == PanelKeysOf(data, c)
  {
    if |data| > 0 {
      var init := data[..|data| - 1];
      var last := data[|data| - 1];
      assert init + [last] == data;
      CourseClassMapKeys(init, c);
      var before := CourseClassMap(init);
      assert CourseClassMap(data) == AddKey(before, PanelCourse(last), PanelKey(last));
      AddKeyFor(before, PanelCourse(last), PanelKey(last), c);
      PanelKeysSnoc(init, last, c);
    }
  }

  /** `Object.keys(cursoTurmaMap).sort()`: the course names the panel
      lists, in ascending order. */
  function PanelCourses(data: seq<Enrollment>): (r: seq<string>)
    ensures StrSorted(r)
    ensures multiset(r) == multiset(Grouping.KeysOf(data, PanelCourse))
  {
    CourseClassMapCourses(data);
    SortStrings(Map(CourseClassMap(data), CourseName))
  }

  /** `cursoTurmas.sort()`: the compound keys listed under an expanded
      course, in ascending order. */
  function PanelClasses(data: seq<Enrollment>, c: string): (r: seq<string>)
    ensures StrSorted(r)
    ensures multiset(r) == multiset(PanelKeysOf(data, c))
  {
    CourseClassMapKeys(data, c);
    SortStrings(KeysFor(CourseClassMap(data), c))
  }

  /** The panel keys of the records of course `c`, once each, in order. */
  function PanelKeysOf(data: seq<Enrollment>, c: string): seq<string> {
    Dedup(Map(Grouping.RowsWithKey(data, PanelCourse, c), PanelKey))
  }

  lemma PanelKeysSnoc(init: seq<Enrollment>, last: Enrollment, c: string)
    ensures PanelKeysOf(init + [last], c) ==
      (if PanelCourse(last) != c then PanelKeysOf(init, c)
       else if PanelKey(last) in PanelKeysOf(init, c) then PanelKeysOf(init, c)
       else PanelKeysOf(init, c) + [PanelKey(last)])
  {
    var data := init + [last];
    assert data[..|data| - 1] == init;
    var rows := Grouping.RowsWithKey(init, PanelCourse, c);
    if PanelCourse(last) == c {
      assert Grouping.RowsWithKey(data, PanelCourse, c) == rows + [last];
      MapSnoc(rows, last, PanelKey);
      DedupSnoc(Map(rows, PanelKey), PanelKey(last));
    } else {
      assert Grouping.RowsWithKey(data, PanelCourse, c) == rows + [];
      assert rows + [] == rows;
    }
  }

  lemma DedupSnoc<T(!new)>(s: seq<T>, x: T)
    ensures Dedup(s + [x]) == if x in Dedup(s) then Dedup(s) else Dedup(s) + [x]
  {
    assert (s + [x])[..|s|] == s;
  }

  lemma MapSnoc<A, B>(s: seq<A>, x: A, f: A -> B)
    ensures Map(s + [x], f) == Map(s, f) + [f(x)]
  {
  }

  /** Consequently a course's list names each of its classes once, and only
      those. */
  lemma CourseKeysMembers(data: seq<Enrollment>, c: string)
    ensures Distinct(KeysFor(CourseClassMap(data), c))
    ensures forall k :: k in KeysFor(CourseClassMap(data), c) <==>
      exists e :: e in data && PanelCourse(e) == c && PanelKey(e) == k
  {
    CourseClassMapKeys(data, c);
    var rows := Grouping.RowsWithKey(data, PanelCourse, c);
    Grouping.RowsWithKeyMembers(data, PanelCourse, c);
    MapMembers(rows, PanelKey);
  }

  /** `getTurmaName`: the second `|`-segment of a key when it is non-empty,
      the whole key otherwise. */
  function TurmaName(key: string): (r: string)
    ensures '|' !in key ==> r == key
    ensures forall i :: 0 <= i < |key| && key[i] == '|' && '|' !in key[..i] ==>
      r == (if UpTo(key[i + 1..], '|') == "" then key else UpTo(key[i + 1..], '|'))
  {
    var parts := Split(key, '|');
    SplitSegments(key);
    if |parts| >= 2 && parts[1] != "" then parts[1] else key
  }

  lemma SplitSegments(key: string)
    ensures '|' !in key ==> Split(key, '|') == [key]
    ensures forall i :: 0 <= i < |key| && key[i] == '|' && '|' !in key[..i] ==>
      |Split(key, '|')| >= 2 && Split(key, '|')[1] == UpTo(key[i + 1..], '|')
  {
    if '|' !in key {
      SplitNoSeparator(key, '|');
    }
    forall i | 0 <= i < |key| && key[i] == '|' && '|' !in key[..i]
      ensures |Split(key, '|')| >= 2 && Split(key, '|')[1] == UpTo(key[i + 1..], '|')
    {
      SecondSegment(key, i);
    }
  }

  /** After the first `|` at `i`, the second part of the split is the text
      up to the next `|`. */
  lemma SecondSegment(key: string, i: nat)
    requires i < |key| && key[i] == '|' && '|' !in key[..i]
    ensures |Split(key, '|')| >= 2 && Split(key, '|')[1] == UpTo(key[i + 1..], '|')
  {
    assert key == key[..i] + ['|'] + key[i + 1..];
    SplitPrefix(key[..i], key[i + 1..], '|');
    SplitHead(key[i + 1..], '|');
  }

  /** The key of a course and a class without `|` names the class, or
      itself when the class is empty. */
  lemma TurmaNameOfKey(course: string, turma: string)
    requires '|' !in course && '|' !in turma
    ensures TurmaName(course + "|" + turma) == (if turma == "" then course + "|" + turma else turma)
  {
    assert course + "|" + turma == course + ['|'] + turma;
    SplitPrefix(course, turma, '|');
    SplitNoSeparator(turma, '|');
  }

  // ---------------------------------------------------------------------
  // The selection and the statistics it filters

  /** The records the statistics are computed over. */
  function SelectedData(all: seq<Enrollment>, sel: seq<string>): (r: seq<Enrollment>)
    ensures forall e :: e in r <==> e in all && (|sel| == 0 || CompoundKey(e) in sel)
  {
    if |sel| > 0 then Filter(all, (e: Enrollment) => CompoundKey(e) in sel) else all
  }

  /** The selected records keep their order. */
  lemma SelectedDataOrder(all: seq<Enrollment>, sel: seq<string>)
    ensures Subsequence(SelectedData(all, sel), all)
  {
    if |sel| > 0 {
      FilterIsSubsequence(all, (e: Enrollment) => CompoundKey(e) in sel);
    } else {
      SubsequenceRefl(all);
    }
  }

  lemma {:induction false} SubsequenceRefl<T>(s: seq<T>)
    ensures Subsequence(s, s)
  {
    if |s| > 0 {
      SubsequenceRefl(s[..|s| - 1]);
    }
  }

  /** The statistics the dashboard shows after the effect runs: recomputed
      from the selection when there are records; otherwise the previous
      statistics (`prev`, None before the first load) stay as they were. */
  function SelectionStats(all: seq<Enrollment>, sel: seq<string>, prev: Option<Stats>): (st: Option<Stats>)
    ensures |all| == 0 ==> st == prev
    ensures st.Some? <==> |all| > 0 || prev.Some?
    ensures |all| > 0 ==> st.Some? && st.value.totalEnrollments == |SelectedData(all, sel)| <= |all|
  {
    if |all| > 0 then Some(GetDashboardStats(SelectedData(all, sel))) else prev
  }

  /** The selection made when records arrive and nothing is selected: every
      compound key, once. */
  function InitialSelection(all: seq<Enrollment>, sel: seq<string>): (r: seq<string>)
    ensures |all| > 0 && |sel| == 0 ==> Distinct(r) && forall e :: e in all ==> CompoundKey(e) in r
    ensures |all| == 0 || |sel| > 0 ==> r == sel
  {
    if |all| > 0 && |sel| == 0 then
      var keys := Map(all, CompoundKey);
      assert forall e :: e in all ==> CompoundKey(e) in keys by {
        forall e | e in all
          ensures CompoundKey(e) in keys
        {
          var i :| 0 <= i < |all| && all[i] == e;
          assert keys[i] == CompoundKey(e);
        }
      }
      Dedup(keys)
    else sel
  }

  /** The default selection shows every record. */
  lemma InitialSelectionKeepsAll(all: seq<Enrollment>)
    ensures SelectedData(all, InitialSelection(all, [])) == all
  {
    if |all| > 0 {
      var sel := InitialSelection(all, []);
      FilterAll(all, (e: Enrollment) => CompoundKey(e) in sel);
    }
  }

  /** Every class the filtered statistics offer is a class of the full
      list the panel shows. */
  lemma SelectionClasses(all: seq<Enrollment>, sel: seq<string>)
    ensures forall c :: c in GetDashboardStats(SelectedData(all, sel)).availableClasses ==>
      c in ClassList(all)
  {
    var s := SelectedData(all, sel);
    forall c | c in ClassList(s)
      ensures c in ClassList(all)
    {
      var i :| 0 <= i < |s| && s[i].turma == c;
      assert s[i] in all;
      var j :| 0 <= j < |all| && all[j] == s[i];
    }
  }

  /** `toggleCurso`: deselect all of a course's keys when every one is
      selected, otherwise add the missing ones. */
  function ToggleCourse(m: seq<PanelEntry>, sel: seq<string>, course: string): (r: seq<string>)
    ensures var ks := KeysFor(m, course);
      (forall k :: k in ks ==> k in sel) ==> (forall x :: x in r <==> x in sel && x !in ks)
    ensures var ks := KeysFor(m, course);
      !(forall k :: k in ks ==> k in sel) ==>
        Distinct(r) && (forall x :: x in r <==> x in sel || x in ks)
  {
    var ks := KeysFor(m, course);
    if forall k :: k in ks ==> k in sel then Filter(sel, x => x !in ks)
    else Dedup(sel + ks)
  }

  /** After a course is toggled on, all its keys are selected; toggled off,
      none is. */
  lemma ToggleCourseEffect(m: seq<PanelEntry>, sel: seq<string>, course: string)
    ensures var ks := KeysFor(m, course);
      var r := ToggleCourse(m, sel, course);
      (forall k :: k in ks ==> k in r) || (forall k :: k in ks ==> k !in r)
  {
  }

  /** Keys without `|` in the course part identify the course and class. */
  lemma {:induction false} KeyInjective(a: string, b: string, c: string, d: string)
    requires '|' !in a && '|' !in c
    requires a + "|" + b == c + "|" + d
    ensures a == c && b == d
  {
    assert a + "|" + b == a + ['|'] + b;
    assert c + "|" + d == c + ['|'] + d;
    SplitPrefix(a, b, '|');
    SplitPrefix(c, d, '|');
    assert a == ([a] + Split(b, '|'))[0];
    assert b == (a + "|" + b)[|a| + 1..];
  }

  /** For records whose course is set and has no `|`, the panel's keys are
      the selection's: selecting exactly a course's keys shows exactly that
      course's records. */
  lemma SelectCourse(all: seq<Enrollment>, c: string)
    requires forall e :: e in all ==> e.pacote != "" && '|' !in e.pacote
    requires exists e :: e in all && e.pacote == c
    ensures forall e :: e in SelectedData(all, KeysFor(CourseClassMap(all), c)) <==> e in all && e.pacote == c
  {
    var ks := KeysFor(CourseClassMap(all), c);
    CourseKeysMembers(all, c);
    var w :| w in all && w.pacote == c;
    assert PanelKey(w) in ks;
    forall e | e in all
      ensures CompoundKey(e) in ks <==> e.pacote == c
    {
      if CompoundKey(e) in ks {
        var f :| f in all && PanelCourse(f) == c && PanelKey(f) == CompoundKey(e);
        KeyInjective(f.pacote, f.turma, e.pacote, e.turma);
      }
      if e.pacote == c {
        assert PanelCourse(e) == c && PanelKey(e) == CompoundKey(e);
      }
    }
  }

  // ---------------------------------------------------------------------
  // Role gates

  datatype Tab = Overview | Commercial | Enrollments | Courses | Classes | Students | Vendors
    | Traffic | Billing | Performance | ReportAm | Users

  /** `isAdmin`. */
  predicate IsAdmin(r: Role) {
    r == Admin || r == Master
  }

  /** `isMaster`. */
  predicate IsMaster(r: Role) {
    r == Master
  }

  /** Whether the sidebar shows a button for the tab. */
  predicate NavVisible(r: Role, t: Tab) {
    match t
    case Overview | Commercial | ReportAm => IsAdmin(r)
    case Users => IsMaster(r)
    case Students => false
    case _ => true
  }

  /** Whether the main area renders the tab's screen; the two overview
      screens need computed statistics, the enrollment list a finished load
      without error (`!loading && !error`), the report and user screens the
      role that unlocks their button. */
  predicate Rendered(r: Role, t: Tab, hasStats: bool, loaded: bool) {
    match t
    case Overview | Commercial => hasStats
    case Enrollments => loaded
    case ReportAm => IsAdmin(r)
    case Users => IsMaster(r)
    case _ => true
  }

  /** The tab after a sign-in: an auxiliary user is sent to the enrollment
      list. */
  function AfterSignIn(tab: Tab, r: Role): (t: Tab)
    ensures r == Auxiliar ==> t == Enrollments
    ensures r != Auxiliar ==> t == tab
  {
    if r == Auxiliar then Enrollments else tab
  }

  /** A master sees every button an administrator sees, who sees every one
      an auxiliary user sees; the financial screens are hidden from an
      auxiliary user. */
  lemma RoleGatesMonotone(t: Tab)
    ensures NavVisible(Auxiliar, t) ==> NavVisible(Admin, t)
    ensures NavVisible(Admin, t) ==> NavVisible(Master, t)
    ensures t in {Overview, Commercial, ReportAm, Users} ==> !NavVisible(Auxiliar, t)
    ensures IsAdmin(Master) && !IsAdmin(Auxiliar) && !IsMaster(Admin)
  {
  }

  /** Every button leads to a screen that renders, once the records are
      loaded and the statistics computed; while the records load, or after
      the load failed, only the enrollment list stays empty. */
  lemma VisibleIsRendered(r: Role, t: Tab)
    requires NavVisible(r, t)
    ensures Rendered(r, t, true, true)
    ensures t != Enrollments ==> Rendered(r, t, true, false)
  {
  }

  /** After a sign-in, the current tab is one the user may open. */
  lemma SignInLandsVisible(tab: Tab, r: Role)
    requires r == Auxiliar || NavVisible(r, tab)
    ensures NavVisible(r, AfterSignIn(tab, r))
  {
  }
}

=== FILE: auth.dfy ===
/** User roles and the user-name lookup key (authService.ts). */
module Auth {
  import opened Seqs
  import opened Strings

  datatype Role = Master | Admin | Auxiliar

  /** The text a role is stored as in the user's metadata. */
  function RoleName(r: Role): string {
    match r
    case Master => "master"
    case Admin => "admin"
    case Auxiliar => "auxiliar"
  }

  /** `getUserRole`: `metadataRole` is `user?.user_metadata?.role`, None
      when there is no user, no metadata or no role. Anything but "master"
      and "admin" is an auxiliary user. */
  function GetUserRole(metadataRole: Option<string>): (r: Role)
    ensures r == Master <==> metadataRole == Some("master")
    ensures r == Admin <==> metadataRole == Some("admin")
    ensures r == Auxiliar <==> metadataRole != Some("master") && metadataRole != Some("admin")
  {
    if metadataRole == Some("master") then Master
    else if metadataRole == Some("admin") then Admin
    else Auxiliar
  }

  /** A role written back as metadata reads as the same role. */
  lemma RoleRoundTrip(r: Role)
    ensures GetUserRole(Some(RoleName(r))) == r
  {
  }

  /** Reading a role is idempotent on its own output. */
  lemma RoleFixpoint(m: Option<string>)
    ensures GetUserRole(Some(RoleName(GetUserRole(m)))) == GetUserRole(m)
  {
    RoleRoundTrip(GetUserRole(m));
  }

  /** `username.toLowerCase().trim()`: the key the user table is searched
      by. */
  function UsernameKey(username: string): (k: string)
    ensures exists a :: SpaceCut(Lower(username), k, a)
    ensures |k| > 0 ==> !IsSpace(k[0]) && !IsSpace(k[|k| - 1])
    ensures forall i :: 0 <= i < |k| ==> LowerChar(k[i]) == k[i]
  {
    KeyIsLower(username);
    TrimCut(Lower(username));
    Trim(Lower(username))
  }

  /** The trimmed lower-cased name holds only lower-case characters. */
  lemma KeyIsLower(username: string)
    ensures forall i :: 0 <= i < |Trim(Lower(username))| ==> LowerChar(Trim(Lower(username))[i]) == Trim(Lower(username))[i]
  {
    LowerFixed(username);
    TrimChars(Lower(username));
  }

  /** The key is empty exactly when the name is all white space. */
  lemma UsernameKeyBlank(username: string)
    ensures UsernameKey(username) == "" <==> Blank(username)
  {
    var k := UsernameKey(username);
    var a :| SpaceCut(Lower(username), k, a);
    CutEmpty(Lower(username), k, a);
    LowerBlank(username);
  }

  /** Lower-casing neither makes nor removes white space. */
  lemma LowerBlank(s: string)
    ensures Blank(Lower(s)) <==> Blank(s)
  {
    forall i | 0 <= i < |s|
      ensures IsSpace(Lower(s)[i]) <==> IsSpace(s[i])
    {
      LowerSpace(s[i]);
    }
  }

  lemma LowerSpace(c: char)
    ensures IsSpace(LowerChar(c)) <==> IsSpace(c)
  {
  }

  /** Normalising a normalised name changes nothing. */
  lemma UsernameKeyIdempotent(username: string)
    ensures UsernameKey(UsernameKey(username)) == UsernameKey(username)
  {
    var k := UsernameKey(username);
    assert Lower(k) == k;
    TrimNoEdgeSpace(k);
  }

  /** Two spellings that differ only in case find the same user. */
  lemma UsernameKeyIgnoresCase(a: string, b: string)
    requires Lower(a) == Lower(b)
    ensures UsernameKey(a) == UsernameKey(b)
  {
  }

  /** The characters of a trimmed string are characters of the original. */
  lemma TrimChars(s: string)
    ensures forall i :: 0 <= i < |Trim(s)| ==> Trim(s)[i] in s
  {
    var t := TrimEnd(s);
    var r := TrimStart(t);
    assert Trim(s) == r;
    forall i | 0 <= i < |r|
      ensures r[i] in s
    {
      assert r[i] == t[|t| - |r| + i];
      assert t[|t| - |r| + i] == s[|t| - |r| + i];
    }
  }

  /** Every character of a lower-cased string is its own lower case. */
  lemma LowerFixed(s: string)
    ensures forall c :: c in Lower(s) ==> LowerChar(c) == c
  {
    forall c | c in Lower(s)
      ensures LowerChar(c) == c
    {
      var i :| 0 <= i < |s| && Lower(s)[i] == c;
      assert c == LowerChar(s[i]);
    }
  }
}

=== FILE: calendar.dfy ===
/** Proleptic Gregorian calendar on day numbers.
    A local JavaScript `Date` at midnight is modelled as the number of days
    since 1970-01-01 (day 0, a Thursday). Months are 1..12 here; the
    JavaScript month index is `month - 1`. Years are counted from March in
    the internal arithmetic, so that the leap day is the last day of a year. */
module Calendar {

  datatype Civil = Civil(year: int, month: int, day: int)

  /** A JavaScript `Date` at local midnight: a day number, or Invalid Date
      (time value `NaN`). */
  datatype JsDate = Day(n: int) | InvalidDate

  /** Milliseconds in a day, `1000 * 60 * 60 * 24`. */
  const MsPerDay: nat := 86400000

  /** Days from 0000-03-01 to 1970-01-01. */
  const EpochShift: int := 719468
  /** Days in a 400-year era. */
  const EraDays: int := 146097

  predicate IsLeapYear(y: int) {
    y % 4 == 0 && (y % 100 != 0 || y % 400 == 0)
  }

  function DaysInMonth(y: int, m: int): (n: int)
    requires 1 <= m <= 12
    ensures 28 <= n <= 31
    ensures m == 2 ==> (n == 29 <==> IsLeapYear(y))
  {
    if m == 2 then (if IsLeapYear(y) then 29 else 28)
    else if m == 4 || m == 6 || m == 9 || m == 11 then 30
    else 31
  }

  predicate ValidCivil(c: Civil) {
    1 <= c.month <= 12 && 1 <= c.day <= DaysInMonth(c.year, c.month)
  }

  /** Days before March-based year `yoe` of an era. */
  function YearStart(yoe: int): int {
    365 * yoe + yoe / 4 - yoe / 100
  }

  /** Days before the first of March-based month `mp` (0 = March … 11 = February). */
  function MonthStart(mp: int): int {
    (153 * mp + 2) / 5
  }

  /** Day number of a civil date; months and days outside their usual range
      are not normalised here (see `DateOf`). */
  function FromCivil(c: Civil): int
    requires 1 <= c.month <= 12
  {
    var y := if c.month <= 2 then c.year - 1 else c.year;
    var era := y / 400;
    var yoe := y - era * 400;
    var mp := if c.month > 2 then c.month - 3 else c.month + 9;
    era * EraDays + YearStart(yoe) + MonthStart(mp) + c.day - 1 - EpochShift
  }

  /** Splits a day of an era (0 .. 146096) into year of era and day of year. */
  function SplitEraDay(doe: int): (r: (int, int))
    requires 0 <= doe < EraDays
    ensures 0 <= r.0 <= 399 && 0 <= r.1 <= 365
    ensures YearStart(r.0) + r.1 == doe
    ensures r.1 == 365 ==> r.0 % 4 == 3 && (r.0 % 100 != 99 || r.0 == 399)
  {
    var c := if doe / 36524 < 3 then doe / 36524 else 3;
    var rc := doe - 36524 * c;
    var q := rc / 1461;
    var rq := rc - 1461 * q;
    var a := if rq / 365 < 3 then rq / 365 else 3;
    var doy := rq - 365 * a;
    var yoe := 100 * c + 4 * q + a;
    assert 0 <= q <= 24;
    assert q == 24 && c < 3 ==> rq <= 1459;
    assert yoe / 4 == 25 * c + q;
    assert yoe / 100 == c;
    (yoe, doy)
  }

  /** Splits a March-based day of year into March-based month and day of month. */
  function SplitYearDay(doy: int): (r: (int, int))
    requires 0 <= doy <= 365
    ensures 0 <= r.0 <= 11 && 1 <= r.1 <= 31
    ensures MonthStart(r.0) + r.1 - 1 == doy
    ensures r.0 == 11 ==> r.1 <= 29 && (r.1 == 29 ==> doy == 365)
    ensures r.0 in {1, 3, 6, 8} ==> r.1 <= 30
  {
    var mp := (5 * doy + 2) / 153;
    (mp, doy - MonthStart(mp) + 1)
  }

  /** Civil date of a day number, as `getFullYear`/`getMonth() + 1`/`getDate`. */
  function ToCivil(z: int): (c: Civil)
    ensures ValidCivil(c)
    ensures FromCivil(c) == z
  {
    var z' := z + EpochShift;
    var era := z' / EraDays;
    var doe := z' - era * EraDays;
    var (yoe, doy) := SplitEraDay(doe);
    var (mp, d) := SplitYearDay(doy);
    CivilOfParts(z, era, yoe, doy, mp, d);
    var m := if mp < 10 then mp + 3 else mp - 9;
    var y := yoe + era * 400;
    Civil(if m <= 2 then y + 1 else y, m, d)
  }

  /** The date assembled from an era, a year of the era, a March-based month
      and a day is valid and has day number `z`. */
  lemma CivilOfParts(z: int, era: int, yoe: int, doy: int, mp: int, d: int)
    requires era == (z + EpochShift) / EraDays
    requires 0 <= yoe <= 399 && 0 <= doy <= 365
    requires YearStart(yoe) + doy == z + EpochShift - era * EraDays
    requires doy == 365 ==> yoe % 4 == 3 && (yoe % 100 != 99 || yoe == 399)
    requires 0 <= mp <= 11 && 1 <= d <= 31 && MonthStart(mp) + d - 1 == doy
    requires mp == 11 ==> d <= 29 && (d == 29 ==> doy == 365)
    requires mp in {1, 3, 6, 8} ==> d <= 30
    ensures var m := if mp < 10 then mp + 3 else mp - 9;
      var y := yoe + era * 400;
      var c := Civil(if m <= 2 then y + 1 else y, m, d);
      ValidCivil(c) && FromCivil(c) == z
  {
    var y := yoe + era * 400;
    assert y / 400 == era;
    LeapDayLemma(era, yoe, mp, d, doy);
  }

  lemma LeapDayLemma(era: int, yoe: int, mp: int, d: int, doy: int)
    requires 0 <= yoe <= 399
    requires mp == 11 && d == 29 ==> doy == 365
    requires doy == 365 ==> yoe % 4 == 3 && (yoe % 100 != 99 || yoe == 399)
    ensures mp == 11 && d == 29 ==> IsLeapYear(yoe + era * 400 + 1)
  {
    if mp == 11 && d == 29 {
      var y := yoe + era * 400 + 1;
      var k := (yoe + 1) / 4;
      assert yoe + 1 == 4 * k;
      assert y == 4 * (k + era * 100);
      if yoe == 399 {
        assert y == 400 * (era + 1);
      } else {
        var h := (yoe + 1) / 100;
        var r := (yoe + 1) % 100;
        assert r != 0;
        assert y == 100 * (h + era * 4) + r;
      }
    }
  }

  /** 0 = Sunday … 6 = Saturday, as `Date.prototype.getDay`. */
  function WeekDay(z: int): (w: int)
    ensures 0 <= w <= 6
  {
    (z + 4) % 7
  }

  /** `new Date(year, monthIndex, day)`: a month index outside 0..11 carries
      into the year and a day outside the month carries into the neighbouring
      months. Two-digit years (0..99) are read as 1900..1999. */
  function DateOf(year: int, monthIndex: int, day: int): int {
    var y := if 0 <= year <= 99 then year + 1900 else year;
    FromCivil(Civil(y + monthIndex / 12, monthIndex % 12 + 1, 1)) + day - 1
  }

  lemma DateOfValid(c: Civil)
    requires ValidCivil(c)
    requires c.year < 0 || c.year > 99
    ensures DateOf(c.year, c.month - 1, c.day) == FromCivil(c)
  {
  }

  /** The first of a month is `day - 1` days before that day. */
  lemma FirstOfMonth(c: Civil)
    requires 1 <= c.month <= 12
    ensures FromCivil(Civil(c.year, c.month, 1)) == FromCivil(c) - (c.day - 1)
  {
  }

  /** Every day lies in the month `ToCivil` names for it. */
  lemma MonthOfDay(z: int)
    ensures var c := ToCivil(z);
      FromCivil(Civil(c.year, c.month, 1)) <= z < FromCivil(Civil(c.year, c.month, 1)) + DaysInMonth(c.year, c.month)
  {
    FirstOfMonth(ToCivil(z));
  }

  /** The first of the next month comes the month's length after the first
      of this month. */
  lemma NextMonthStart(y: int, m: int)
    requires 1 <= m <= 12
    ensures FromCivil(Civil(if m == 12 then y + 1 else y, if m == 12 then 1 else m + 1, 1))
      == FromCivil(Civil(y, m, 1)) + DaysInMonth(y, m)
  {
    if m == 2 {
      MarchFollowsFebruary(y);
    }
  }

  /** Across the end of February the March-based year changes: the year
      that ends has 365 days, one more when February has a leap day. */
  lemma MarchFollowsFebruary(y: int)
    ensures FromCivil(Civil(y, 3, 1)) == FromCivil(Civil(y, 2, 1)) + DaysInMonth(y, 2)
  {
    var p := y - 1;
    var era := p / 400;
    var yoe := p - era * 400;
    assert MonthStart(11) == 337 && MonthStart(0) == 0;
    assert FromCivil(Civil(y, 2, 1)) == era * EraDays + YearStart(yoe) + 337 - EpochShift;
    if yoe == 399 {
      EraEnd(y, era);
    } else {
      assert y / 400 == era && y - era * 400 == yoe + 1;
      assert FromCivil(Civil(y, 3, 1)) == era * EraDays + YearStart(yoe + 1) - EpochShift;
      YearLength(yoe);
      LeapInEra(y, era, yoe + 1);
    }
  }

  /** The last February of an era has a leap day and closes the era. */
  lemma EraEnd(y: int, era: int)
    requires y == (era + 1) * 400
    ensures FromCivil(Civil(y, 3, 1)) == (era + 1) * EraDays - EpochShift
    ensures FromCivil(Civil(y, 2, 1)) == era * EraDays + YearStart(399) + 337 - EpochShift
    ensures YearStart(399) + 337 + 29 == EraDays && DaysInMonth(y, 2) == 29
  {
    assert FromCivil(Civil(y, 3, 1)) == (era + 1) * EraDays - EpochShift by {
      assert y / 400 == era + 1 && y - (era + 1) * 400 == 0;
    }
    assert FromCivil(Civil(y, 2, 1)) == era * EraDays + YearStart(399) + 337 - EpochShift by {
      assert (y - 1) / 400 == era && (y - 1) - era * 400 == 399;
    }
    assert IsLeapYear(y) by {
      assert y / 400 == era + 1;
      assert y % 400 == 0;
      assert y / 4 == 100 * era + 100;
      assert y % 4 == 0;
    }
  }

  /** A March-based year of an era has 365 days, or 366 when the February
      that ends it has a leap day. */
  lemma YearLength(yoe: int)
    requires 0 <= yoe < 399
    ensures YearStart(yoe + 1) - YearStart(yoe) ==
      365 + (if (yoe + 1) % 4 == 0 && (yoe + 1) % 100 != 0 then 1 else 0)
  {
    assert (yoe + 1) / 4 - yoe / 4 == (if (yoe + 1) % 4 == 0 then 1 else 0);
    assert (yoe + 1) / 100 - yoe / 100 == (if (yoe + 1) % 100 == 0 then 1 else 0);
  }

  lemma LeapInEra(y: int, era: int, k: int)
    requires 1 <= k <= 399 && y == era * 400 + k
    ensures IsLeapYear(y) <==> k % 4 == 0 && k % 100 != 0
  {
    assert y / 4 == era * 100 + k / 4;
    assert y / 100 == era * 4 + k / 100;
    assert y / 400 == era;
  }

  /** The first day of month number `i`, counting months from year 0:
      `i = 12 * year + month - 1`. */
  function MonthFirst(i: int): int {
    FromCivil(Civil(i / 12, i % 12 + 1, 1))
  }

  lemma MonthFirstStep(i: int)
    ensures MonthFirst(i + 1) == MonthFirst(i) + DaysInMonth(i / 12, i % 12 + 1)
  {
    NextMonthStart(i / 12, i % 12 + 1);
    if i % 12 == 11 {
      assert (i + 1) / 12 == i / 12 + 1 && (i + 1) % 12 == 0;
    } else {
      assert (i + 1) / 12 == i / 12 && (i + 1) % 12 == i % 12 + 1;
    }
  }

  /** A month ends no later than any later month begins. */
  lemma MonthFirstIncreasing(i: int, j: int)
    requires i < j
    ensures MonthFirst(i) + DaysInMonth(i / 12, i % 12 + 1) <= MonthFirst(j)
  {
    var first := k => MonthFirst(k);
    var length := k => DaysInMonth(k / 12, k % 12 + 1);
    forall k
      ensures first(k + 1) == first(k) + length(k)
    {
      MonthFirstStep(k);
    }
    StepsIncrease(first, length, i, j);
  }

  /** A sequence of starts, each one the previous start plus a non-negative
      length, never falls back. */
  lemma {:induction false} StepsIncrease(first: int -> int, length: int -> int, i: int, j: int)
    requires forall k :: first(k + 1) == first(k) + length(k) && length(k) >= 0
    requires i < j
    ensures first(i) + length(i) <= first(j)
    decreases j - i
  {
    if i + 1 < j {
      StepsIncrease(first, length, i + 1, j);
    }
  }

  /** A valid date lies within its month. */
  lemma WithinMonth(c: Civil, i: int)
    requires ValidCivil(c) && i == 12 * c.year + c.month - 1
    ensures FromCivil(c) == MonthFirst(i) + c.day - 1
    ensures DaysInMonth(i / 12, i % 12 + 1) == DaysInMonth(c.year, c.month)
  {
    assert i / 12 == c.year && i % 12 + 1 == c.month;
    FirstOfMonth(c);
  }

  /** Dates in calendar order: by year, then month, then day. */
  predicate CivilLe(a: Civil, b: Civil) {
    a.year < b.year
    || (a.year == b.year && (a.month < b.month || (a.month == b.month && a.day <= b.day)))
  }

  /** Day numbers follow the calendar order of valid dates. */
  lemma DayOrder(a: Civil, b: Civil)
    requires ValidCivil(a) && ValidCivil(b)
    ensures CivilLe(a, b) <==> FromCivil(a) <= FromCivil(b)
  {
    var ia := 12 * a.year + a.month - 1;
    var ib := 12 * b.year + b.month - 1;
    WithinMonth(a, ia);
    WithinMonth(b, ib);
    MonthIndexOrder(a, b);
    MonthGap(ia, ib);
    MonthGap(ib, ia);
    SpanOrder(ia, ib, a.day, b.day, MonthFirst(ia), MonthFirst(ib),
      DaysInMonth(a.year, a.month), DaysInMonth(b.year, b.month));
  }

  lemma MonthGap(i: int, j: int)
    ensures i < j ==> MonthFirst(i) + DaysInMonth(i / 12, i % 12 + 1) <= MonthFirst(j)
  {
    if i < j {
      MonthFirstIncreasing(i, j);
    }
  }

  lemma MonthIndexOrder(a: Civil, b: Civil)
    requires 1 <= a.month <= 12 && 1 <= b.month <= 12
    ensures var ia, ib := 12 * a.year + a.month - 1, 12 * b.year + b.month - 1;
      && (CivilLe(a, b) <==> ia < ib || (ia == ib && a.day <= b.day))
      && (ia == ib ==> a.year == b.year && a.month == b.month)
  {
  }

  lemma SpanOrder(ia: int, ib: int, da: int, db: int, ma: int, mb: int, la: int, lb: int)
    requires 1 <= da <= la && 1 <= db <= lb
    requires ia < ib ==> ma + la <= mb
    requires ib < ia ==> mb + lb <= ma
    requires ia == ib ==> ma == mb
    ensures ia < ib || (ia == ib && da <= db) <==> ma + da - 1 <= mb + db - 1
  {
  }

  /** `ToCivil` reads back every valid date. */
  lemma ToCivilOf(c: Civil)
    requires ValidCivil(c)
    ensures ToCivil(FromCivil(c)) == c
  {
    var d := ToCivil(FromCivil(c));
    DayOrder(c, d);
    DayOrder(d, c);
  }

  /** The largest day number a `Date` holds: time values are limited to
      8.64e15 ms, 10^8 days, either side of the epoch. */
  const MaxDay: int := 100000000

  /** Years whose every day a `Date` holds. */
  const MaxYear: int := 270000

  lemma DayRange(c: Civil)
    requires ValidCivil(c) && -MaxYear <= c.year <= MaxYear
    ensures -MaxDay + 400 <= FromCivil(c) <= MaxDay - 400
  {
    var y := if c.month <= 2 then c.year - 1 else c.year;
    var era := y / 400;
    assert -676 <= era <= 675;
    assert 0 <= YearStart(y - era * 400) <= 146096;
  }

  /** `new Date(year, monthIndex, day)`: Invalid Date outside the range. */
  function MakeDate(year: int, monthIndex: int, day: int): (d: JsDate)
    ensures d.Day? <==> -MaxDay <= DateOf(year, monthIndex, day) <= MaxDay
    ensures d.Day? ==> d.n == DateOf(year, monthIndex, day)
  {
    var z := DateOf(year, monthIndex, day);
    if -MaxDay <= z <= MaxDay then Day(z) else InvalidDate
  }
}

=== FILE: change_password.dfy ===
/** The password change form (ChangePasswordModal.tsx): which message a
    submission shows, and when the update is requested. */
module ChangePassword {

  /** `s.length`: JavaScript counts UTF-16 code units, so a character
      outside the Basic Multilingual Plane counts twice. */
  function Utf16Length(s: string): (n: nat)
    ensures |s| <= n <= 2 * |s|
  {
    if |s| == 0 then 0
    else Utf16Length(s[..|s| - 1]) + (if s[|s| - 1] as int > 0xFFFF then 2 else 1)
  }

  const MinLength: nat := 6

  datatype Outcome = TooShort | Mismatch | RequestUpdate

  /** `handleSubmit`: the length check comes first, then the confirmation;
      only a submission passing both requests the update. */
  function Submit(password: string, confirm: string): (o: Outcome)
    ensures o == TooShort <==> Utf16Length(password) < MinLength
    ensures o == Mismatch <==> Utf16Length(password) >= MinLength && password != confirm
    ensures o == RequestUpdate <==> Utf16Length(password) >= MinLength && password == confirm
  {
    if Utf16Length(password) < MinLength then TooShort
    else if password != confirm then Mismatch
    else RequestUpdate
  }

  /** The submit button is enabled when nothing is in flight and both fields
      are filled. */
  predicate CanSubmit(loading: bool, password: string, confirm: string) {
    !loading && password != "" && confirm != ""
  }

  /** The button is enabled exactly when nothing is in flight and neither
      field has length zero; a click on it that requests the update carries
      a password of at least six units equal to its confirmation. */
  lemma ButtonEnabled(loading: bool, password: string, confirm: string)
    ensures CanSubmit(loading, password, confirm)
      <==> !loading && Utf16Length(password) > 0 && Utf16Length(confirm) > 0
    ensures CanSubmit(loading, password, confirm) && Submit(password, confirm) == RequestUpdate
      ==> password == confirm && Utf16Length(confirm) >= MinLength
  {
  }

  /** Fewer than three characters are too short whatever the confirmation
      holds; six or more never are. */
  lemma LengthBounds(password: string, confirm: string)
    ensures |password| < 3 ==> Submit(password, confirm) == TooShort
    ensures |password| >= MinLength ==> Submit(password, confirm) != TooShort
  {
  }

  /** Every character in the Basic Multilingual Plane. */
  predicate InBmp(s: string) {
    forall i :: 0 <= i < |s| ==> s[i] as int <= 0xFFFF
  }

  /** Within the Basic Multilingual Plane `s.length` counts characters. */
  lemma {:induction false} BmpLength(s: string)
    requires InBmp(s)
    ensures Utf16Length(s) == |s|
  {
    if |s| > 0 {
      BmpLength(s[..|s| - 1]);
    }
  }

  /** For Basic Multilingual Plane passwords the checks read as written: too
      short below six characters, otherwise a mismatch or the update. */
  lemma BmpSubmit(password: string, confirm: string)
    requires InBmp(password)
    ensures Submit(password, confirm) == TooShort <==> |password| < MinLength
    ensures Submit(password, confirm) == RequestUpdate <==> |password| >= MinLength && password == confirm
  {
    BmpLength(password);
  }
}

=== FILE: cobranca.dfy ===
/** The signature collection screen (CobrancaManager.tsx): the enrollments
    whose contract is not signed yet, how long each has waited, the ten
    oldest, the delay alerts, the per-vendor counts and the vendor filter.

    "Today" is a parameter (the screen reads the clock), in milliseconds
    since the epoch like `created_at`. */
module Cobranca {
  import opened Seqs
  import opened Types
  import opened Grouping
  import opened Ranking
  import opened Sorting
  import opened Calendar

  /** The label of the button that shows every pending enrollment. */
  const AllVendors: string := "todos"

  /** The number of enrollments listed as the oldest pending ones. */
  const TopSize: nat := 10

  // ---------------------------------------------------------------------
  // Pending signatures

  /** `pendentes`: the rows without a signed contract, in load order. */
  function Pending(all: seq<DbEnrollment>): (r: seq<DbEnrollment>)
    ensures forall x :: x in r <==> x in all && SignaturePending(x)
    ensures Subsequence(r, all)
    ensures |r| == Count(all, SignaturePending)
  {
    FilterIsSubsequence(all, SignaturePending);
    Filter(all, SignaturePending)
  }

  /** The three bars: signed in person, signed digitally and pending. */
  datatype Bars = Bars(presencial: nat, digital: nat, nenhum: nat, total: nat)

  function SignatureBars(all: seq<DbEnrollment>): (b: Bars)
    ensures b.total == |all|
    ensures b.nenhum == |Pending(all)|
    ensures b.presencial == Count(all, SignedInPerson) && b.digital == Count(all, SignedDigital)
    ensures b.presencial + b.digital + b.nenhum <= b.total
  {
    SignatureClassesDisjoint(all);
    Bars(Count(all, SignedInPerson), Count(all, SignedDigital), |Pending(all)|, |all|)
  }

  /** `maxBar`: the largest of the three counts, and at least 1. */
  function MaxBar(b: Bars): (m: nat)
    ensures m >= 1 && m >= b.presencial && m >= b.digital && m >= b.nenhum
    ensures m == 1 || m == b.presencial || m == b.digital || m == b.nenhum
  {
    var m := if b.presencial > b.digital then b.presencial else b.digital;
    var m := if b.nenhum > m then b.nenhum else m;
    if m > 1 then m else 1
  }

  /** A bar's width in per cent: its share of `maxBar`, but at least 8 for
      a non-zero count. */
  function BarWidth(count: nat, maxBar: nat): (w: real)
    requires maxBar >= 1
    ensures count == 0 ==> w == 0.0
    ensures count > 0 ==> w >= 8.0
    ensures count <= maxBar ==> w <= 100.0
    ensures w >= (count as real) / (maxBar as real) * 100.0
    ensures w == (count as real) / (maxBar as real) * 100.0 || (count > 0 && w == 8.0)
  {
    var share := (count as real) / (maxBar as real) * 100.0;
    var floor := if count > 0 then 8.0 else 0.0;
    if share > floor then share else floor
  }

  /** Every bar of the screen is at most full width. */
  lemma BarsFit(all: seq<DbEnrollment>)
    ensures var b := SignatureBars(all); var m := MaxBar(b);
      BarWidth(b.presencial, m) <= 100.0 && BarWidth(b.digital, m) <= 100.0 && BarWidth(b.nenhum, m) <= 100.0
  {
  }

  // ---------------------------------------------------------------------
  // Delays

  /** `getDaysDelayed`: whole days between the row's creation and today,
      in either direction. */
  function DaysDelayed(createdAt: int, today: int): (d: nat)
    ensures d * MsPerDay <= Abs(today - createdAt) < (d + 1) * MsPerDay
  {
    Abs(today - createdAt) / MsPerDay
  }

  function Abs(x: int): nat {
    if x < 0 then -x else x
  }

  /** A full week waited makes a row critical. */
  predicate Critical(r: DbEnrollment, today: int) {
    DaysDelayed(r.createdAt, today) >= 7
  }

  /** Three to six days waited make a row a warning. */
  predicate Warning(r: DbEnrollment, today: int) {
    3 <= DaysDelayed(r.createdAt, today) < 7
  }

  /** Fewer than three days waited raise no alert. */
  predicate Recent(r: DbEnrollment, today: int) {
    DaysDelayed(r.createdAt, today) < 3
  }

  function IsCritical(today: int): DbEnrollment -> bool {
    r => Critical(r, today)
  }

  function IsWarning(today: int): DbEnrollment -> bool {
    r => Warning(r, today)
  }

  function IsRecent(today: int): DbEnrollment -> bool {
    r => Recent(r, today)
  }

  /** Every row is in exactly one of the three delay classes. */
  lemma DelayClassesExclusive(r: DbEnrollment, today: int)
    ensures Critical(r, today) || Warning(r, today) || Recent(r, today)
    ensures !(Critical(r, today) && Warning(r, today))
    ensures !(Critical(r, today) && Recent(r, today))
    ensures !(Warning(r, today) && Recent(r, today))
  {
  }

  /** A row created at least a week ago, or a week ahead, is critical;
      one created less than three days either way is recent. */
  lemma DelayThresholds(r: DbEnrollment, today: int)
    ensures Abs(today - r.createdAt) >= 7 * MsPerDay ==> Critical(r, today)
    ensures Abs(today - r.createdAt) < 3 * MsPerDay ==> Recent(r, today)
  {
    var d := DaysDelayed(r.createdAt, today);
    var a := Abs(today - r.createdAt);
    if a >= 7 * MsPerDay {
      MulLess(7, d + 1, MsPerDay);
    }
    if a < 3 * MsPerDay {
      MulLess(d, 3, MsPerDay);
    }
  }

  lemma MulLess(x: int, y: int, c: int)
    requires c > 0 && x * c < y * c
    ensures x < y
  {
  }

  /** `criticalDelayCount` and `warningDelayCount`. */
  datatype Alerts = Alerts(critical: nat, warning: nat)

  function DelayAlerts(pending: seq<DbEnrollment>, today: int): (a: Alerts)
    ensures a.critical + a.warning + Count(pending, IsRecent(today)) == |pending|
    ensures a.critical == |Filter(pending, IsCritical(today))|
    ensures a.warning == |Filter(pending, IsWarning(today))|
  {
    DelaySplit(pending, today);
    Alerts(Count(pending, IsCritical(today)), Count(pending, IsWarning(today)))
  }

  lemma DelaySplit(pending: seq<DbEnrollment>, today: int)
    ensures Count(pending, IsCritical(today)) + Count(pending, IsWarning(today)) + Count(pending, IsRecent(today)) == |pending|
  {
    var alerted := (r: DbEnrollment) => Critical(r, today) || Warning(r, today);
    var any := (r: DbEnrollment) => true;
    CountSplit(pending, any, alerted, IsRecent(today));
    CountSplit(pending, alerted, IsCritical(today), IsWarning(today));
    CountAll(pending, any);
  }

  lemma {:induction false} CountAll<T>(s: seq<T>, p: T -> bool)
    requires forall x :: p(x)
    ensures Count(s, p) == |s|
  {
    if |s| > 0 {
      CountAll(s[..|s| - 1], p);
    }
  }

  // ---------------------------------------------------------------------
  // The ten oldest

  function CreatedAt(r: DbEnrollment): int { r.createdAt }

  /** `topPendentes`: the pending rows by creation, oldest first (ties in
      load order), cut to ten. */
  function TopPending(pending: seq<DbEnrollment>): (r: seq<DbEnrollment>)
    ensures |r| == if |pending| < TopSize then |pending| else TopSize
    ensures SortedBy(r, CreatedAt)
    ensures forall x :: x in r ==> x in pending
    ensures |pending| <= TopSize ==> multiset(r) == multiset(pending)
  {
    var sorted := SortBy(pending, CreatedAt);
    var n := if |pending| < TopSize then |pending| else TopSize;
    forall x | x in sorted[..n]
      ensures x in pending
    {
      assert x in multiset(sorted);
    }
    assert n == |sorted| ==> sorted[..n] == sorted;
    sorted[..n]
  }

  /** No pending row left out of the ten is older than one listed. */
  lemma TopPendingOldest(pending: seq<DbEnrollment>, x: DbEnrollment, y: DbEnrollment)
    requires x in pending && x !in TopPending(pending)
    requires y in TopPending(pending)
    ensures y.createdAt <= x.createdAt
  {
    var sorted := SortBy(pending, CreatedAt);
    var top := TopPending(pending);
    assert x in multiset(pending);
    assert x in multiset(sorted);
    var k := IndexOf(sorted, x);
    var i := IndexOf(top, y);
    assert top[i] == sorted[i];
    assert forall j :: 0 <= j < |top| ==> top[j] == sorted[j];
    assert k >= |top|;
  }

  // ---------------------------------------------------------------------
  // Vendors

  function Uncounted(r: DbEnrollment): int { 0 }

  /** `vendorList`: each vendor (`atendente`, or 'Não informado') with its
      number of pending rows, most first. */
  function VendorList(pending: seq<DbEnrollment>): (vs: seq<Tally<string>>)
    ensures forall i, j :: 0 <= i < j < |vs| ==> vs[i].count >= vs[j].count
    ensures Sum(vs, TallyCount) == |pending|
    ensures forall m :: m in vs ==> m.count == |RowsWithKey(pending, VendorOf, m.key)|
    ensures forall i, j :: 0 <= i < j < |vs| ==> vs[i].key != vs[j].key
    ensures forall i :: 0 <= i < |pending| ==> exists m :: m in vs && m.key == VendorOf(pending[i])
    ensures forall i, j :: (0 <= i < j < |vs| && vs[i].count == vs[j].count
      ==> FirstSeenBefore(pending, VendorOf, vs[i].key, vs[j].key))
  {
    var r := RankBy(pending, VendorOf, Uncounted, Uncounted, TallyCount);
    RankPartition(pending, VendorOf, Uncounted, Uncounted, TallyCount);
    RankTiesFirstSeen(pending, VendorOf, Uncounted, Uncounted, TallyCount);
    RankContents(pending, VendorOf, Uncounted, Uncounted, TallyCount);
    RankDistinct(pending, VendorOf, Uncounted, Uncounted, TallyCount);
    RankCovers(pending, VendorOf, Uncounted, Uncounted, TallyCount);
    r
  }

  /** `filteredPendentes`: every pending row for 'todos', otherwise the
      rows credited to the selected vendor, in order. */
  function FilteredPending(pending: seq<DbEnrollment>, selected: string): (r: seq<DbEnrollment>)
    ensures selected == AllVendors ==> r == pending
    ensures selected != AllVendors ==> forall x :: x in r <==> x in pending && VendorOf(x) == selected
    ensures |r| <= |pending|
  {
    if selected == AllVendors then pending
    else
      RowsWithKeyMembers(pending, VendorOf, selected);
      RowsWithKey(pending, VendorOf, selected)
  }

  /** Choosing a vendor's button lists as many rows as the button shows,
      unless the vendor is called 'todos'. */
  lemma VendorButtonCount(pending: seq<DbEnrollment>, m: Tally<string>)
    requires m in VendorList(pending) && m.key != AllVendors
    ensures |FilteredPending(pending, m.key)| == m.count
  {
  }

  /** A vendor literally named 'todos' cannot be singled out: the button
      shows its own count but lists every pending row. */
  lemma VendorNamedAll(pending: seq<DbEnrollment>, m: Tally<string>)
    requires m in VendorList(pending) && m.key == AllVendors
    ensures FilteredPending(pending, m.key) == pending
    ensures m.count == |RowsWithKey(pending, VendorOf, AllVendors)|
  {
  }
}

=== FILE: csv_processor.dfy ===
/** Reading the enrollment spreadsheet export (utils/csvProcessor.ts):
    money cells, `DD/MM/YYYY` dates, one CSV line, and the whole file into
    `Enrollment` records.

    Money is kept in integer cents. A cell is either a number already
    (`Number`) or text (`Text`); a missing cell (`undefined`) is read as the
    empty text, which `cleanNumeric` treats the same way. */
module CsvProcessor {
  import opened Seqs
  import opened Strings
  import opened Calendar
  import opened Types

  datatype Raw = Number(cents: int) | Text(s: string)

  // ---------------------------------------------------------------------
  // cleanNumeric

  /** The characters `[\d,.-]` that survive cleaning. */
  predicate IsNumericChar(c: char) {
    IsDigit(c) || c == ',' || c == '.' || c == '-'
  }

  predicate NumericText(s: string) {
    forall i :: 0 <= i < |s| ==> IsNumericChar(s[i])
  }

  lemma NumericMembers(s: string)
    ensures NumericText(s) <==> forall x :: x in s ==> IsNumericChar(x)
  {
    if forall x :: x in s ==> IsNumericChar(x) {
      forall i | 0 <= i < |s|
        ensures IsNumericChar(s[i])
      {
        assert s[i] in s;
      }
    }
  }

  /** `s.replace(/[^\d,.-]/g, '')`. */
  function KeepNumeric(s: string): (r: string)
    ensures NumericText(r)
    ensures |r| <= |s|
  {
    if |s| == 0 then []
    else KeepNumeric(s[..|s| - 1]) + (if IsNumericChar(s[|s| - 1]) then [s[|s| - 1]] else [])
  }

  lemma {:induction false} KeepNumericAppend(a: string, b: string)
    ensures KeepNumeric(a + b) == KeepNumeric(a) + KeepNumeric(b)
  {
    if |b| == 0 {
      assert a + b == a;
    } else {
      assert (a + b)[..|a + b| - 1] == a + b[..|b| - 1];
      KeepNumericAppend(a, b[..|b| - 1]);
    }
  }

  lemma {:induction false} KeepNumericIdentity(s: string)
    requires NumericText(s)
    ensures KeepNumeric(s) == s
  {
    if |s| > 0 {
      assert s[|s| - 1] in s;
      KeepNumericIdentity(s[..|s| - 1]);
    }
  }

  /** `s.replace(/R\$\s?/g, '')`: every `R$`, with one white-space
      character after it when there is one. */
  function StripCurrency(s: string): string
    decreases |s|
  {
    if |s| >= 2 && s[0] == 'R' && s[1] == '$' then
      if |s| > 2 && IsSpace(s[2]) then StripCurrency(s[3..]) else StripCurrency(s[2..])
    else if |s| == 0 then []
    else [s[0]] + StripCurrency(s[1..])
  }

  /** The chain of replacements and the trim `cleanNumeric` applies. */
  function CleanedText(s: string): string {
    Trim(KeepNumeric(StripCurrency(RemoveAll(s, '\\'))))
  }

  lemma {:induction false} KeepNumericStrip(s: string)
    ensures KeepNumeric(StripCurrency(s)) == KeepNumeric(s)
    decreases |s|
  {
    if |s| >= 2 && s[0] == 'R' && s[1] == '$' {
      var k := if |s| > 2 && IsSpace(s[2]) then 3 else 2;
      KeepNumericStrip(s[k..]);
      SignDropped(s, k);
    } else if |s| > 0 {
      KeepNumericStrip(s[1..]);
      assert s == [s[0]] + s[1..];
      KeepNumericAppend([s[0]], s[1..]);
      KeepNumericAppend([s[0]], StripCurrency(s[1..]));
    }
  }

  /** The filter drops a leading `R$`, and the white space after it. */
  lemma SignDropped(s: string, k: nat)
    requires |s| >= k >= 2 && s[0] == 'R' && s[1] == '$'
    requires k == 3 ==> IsSpace(s[2])
    requires k <= 3
    ensures KeepNumeric(s) == KeepNumeric(s[k..])
  {
    var head := s[..k];
    if k == 3 {
      SpaceNotNumeric(s[2]);
    }
    assert forall i :: 0 <= i < k ==> !IsNumericChar(head[i]);
    assert s == head + s[k..];
    NothingKeptBefore(head, s[k..]);
  }

  /** Text the filter drops entirely leaves what follows it alone. */
  lemma NothingKeptBefore(head: string, rest: string)
    requires forall i :: 0 <= i < |head| ==> !IsNumericChar(head[i])
    ensures KeepNumeric(head + rest) == KeepNumeric(rest)
  {
    KeepNumericAppend(head, rest);
    KeepNumericNone(head);
  }

  lemma SpaceNotNumeric(c: char)
    requires IsSpace(c)
    ensures !IsNumericChar(c)
  {
  }

  lemma {:induction false} KeepNumericNone(s: string)
    requires forall i :: 0 <= i < |s| ==> !IsNumericChar(s[i])
    ensures KeepNumeric(s) == []
  {
    if |s| > 0 {
      KeepNumericNone(s[..|s| - 1]);
    }
  }

  lemma {:induction false} KeepNumericRemove(s: string, c: char)
    requires !IsNumericChar(c)
    ensures KeepNumeric(RemoveAll(s, c)) == KeepNumeric(s)
  {
    if |s| > 0 {
      var init := s[..|s| - 1];
      KeepNumericRemove(init, c);
      KeepNumericAppend(RemoveAll(init, c), if s[|s| - 1] == c then [] else [s[|s| - 1]]);
    }
  }

  /** The backslash and currency removals are subsumed by the character
      filter: cleaning keeps exactly the characters `[\d,.-]`, in order. */
  lemma CleanedIsKept(s: string)
    ensures CleanedText(s) == KeepNumeric(s)
  {
    KeepNumericStrip(RemoveAll(s, '\\'));
    KeepNumericRemove(s, '\\');
    NumericTrimmed(KeepNumeric(s));
  }

  /** Numeric text has no white space to trim. */
  lemma NumericTrimmed(k: string)
    requires NumericText(k)
    ensures Trim(k) == k
  {
    if |k| > 0 {
      NumericNotSpace(k[0]);
      NumericNotSpace(k[|k| - 1]);
    }
    TrimNoEdgeSpace(k);
  }

  lemma NumericNotSpace(c: char)
    requires IsNumericChar(c)
    ensures !IsSpace(c)
  {
  }

  /** The separator handling of `cleanNumeric`: when the last comma comes
      after the last dot the text is Brazilian (dots group thousands, the
      first comma is the decimal point); when the last dot comes later,
      commas group thousands. */
  function NormalizeSeparators(s: string): string {
    var lc := LastIndexOf(s, ',');
    var ld := LastIndexOf(s, '.');
    if lc > ld then ReplaceFirst(RemoveAll(s, '.'), ',', '.')
    else if ld > lc then RemoveAll(s, ',')
    else if lc != -1 then ReplaceFirst(s, ',', '.')
    else s
  }

  /** The separator handling keeps the text numeric; its third branch is
      dead, because the two last indices are equal only when both are -1;
      and once a dot comes last no comma is left. */
  lemma NormalizeSeparatorsFacts(s: string)
    ensures NumericText(s) ==> NumericText(NormalizeSeparators(s))
    ensures LastIndexOf(s, ',') == LastIndexOf(s, '.') ==> NormalizeSeparators(s) == s
    ensures '.' in s && LastIndexOf(s, ',') < LastIndexOf(s, '.') ==> ',' !in NormalizeSeparators(s)
  {
    RemoveAllMembers(s, '.');
    RemoveAllMembers(s, ',');
    ReplaceFirstMembers(RemoveAll(s, '.'), ',', '.');
    ReplaceFirstMembers(s, ',', '.');
    NumericMembers(s);
    NumericMembers(RemoveAll(s, '.'));
    NumericMembers(RemoveAll(s, ','));
    NumericMembers(ReplaceFirst(RemoveAll(s, '.'), ',', '.'));
    NumericMembers(ReplaceFirst(s, ',', '.'));
  }

  /** A decimal number `(-1)^negative * mantissa / 10^scale`. */
  datatype Decimal = Decimal(negative: bool, mantissa: nat, scale: nat)

  function Signed(d: Decimal): int {
    if d.negative then -(d.mantissa as int) else d.mantissa
  }

  /** `parseFloat(s)` on text made of digits, ',', '.' and '-': an optional
      '-', the integer digits and, after a '.', the fraction digits; at
      least one digit is needed, otherwise the result is `NaN` (None). */
  function ParseFloat(s: string): (r: Option<Decimal>)
    requires NumericText(s)
    ensures r.Some? ==> |s| > 0 && (r.value.negative <==> s[0] == '-')
  {
    var neg := |s| > 0 && s[0] == '-';
    var body := if neg then s[1..] else s;
    var ip := DigitPrefix(body);
    var rest := body[|ip|..];
    var fp := if |rest| > 0 && rest[0] == '.' then DigitPrefix(rest[1..]) else "";
    if |ip| + |fp| == 0 then None
    else
      assert AllDigits(ip + fp);
      Some(Decimal(neg, DigitsValue(ip + fp), |fp|))
  }

  /** Integer digits, a point and fraction digits read back as the decimal
      they write. */
  lemma ParseFloatDecimal(ip: string, fp: string)
    requires AllDigits(ip) && AllDigits(fp) && |ip| + |fp| > 0
    ensures NumericText(ip + "." + fp)
    ensures AllDigits(ip + fp)
    ensures ParseFloat(ip + "." + fp) == Some(Decimal(false, DigitsValue(ip + fp), |fp|))
  {
    var s := ip + "." + fp;
    PointTextShape(ip, fp);
    var rest := s[|ip|..];
    assert rest[1..] == fp;
    DigitPrefixAll(fp);
  }

  /** The text `ip.fp` is numeric, does not start with '-', and its digit
      prefix is `ip`, followed by the point. */
  lemma PointTextShape(ip: string, fp: string)
    requires AllDigits(ip) && AllDigits(fp)
    ensures var s := ip + "." + fp;
      && NumericText(s) && AllDigits(ip + fp)
      && s[0] != '-' && DigitPrefix(s) == ip && s[|ip|..] == "." + fp
  {
    var s := ip + "." + fp;
    assert forall i :: 0 <= i < |s| ==> s[i] == '.' || (i < |ip| && s[i] == ip[i]) || (i > |ip| && s[i] == fp[i - |ip| - 1]);
    assert forall i :: 0 <= i < |ip + fp| ==> (i < |ip| && (ip + fp)[i] == ip[i]) || (i >= |ip| && (ip + fp)[i] == fp[i - |ip|]);
    assert s == ip + ("." + fp);
    DigitPrefixStop(ip, "." + fp);
    if |ip| > 0 {
      assert s[0] == ip[0];
    }
  }

  /** A plain digit string reads back as a whole number. */
  lemma ParseFloatInteger(ip: string)
    requires AllDigits(ip) && |ip| > 0
    ensures NumericText(ip)
    ensures ParseFloat(ip) == Some(Decimal(false, DigitsValue(ip), 0))
  {
    DigitPrefixAll(ip);
    assert ip[|ip|..] == "";
    assert ip + "" == ip;
    assert IsDigit(ip[0]);
  }

  /** `Math.round(x * 100) / 100` in cents: the nearest cent, halves
      rounded up (towards +infinity). */
  function RoundCents(d: Decimal): (c: int)
    ensures 2 * Pow10(d.scale) * c <= 200 * Signed(d) + Pow10(d.scale) < 2 * Pow10(d.scale) * (c + 1)
  {
    var p := Pow10(d.scale);
    (200 * Signed(d) + p) / (2 * p)
  }

  /** A value with whole cents is not moved by rounding. */
  lemma RoundWholeCents(negative: bool, cents: nat)
    ensures RoundCents(Decimal(negative, cents, 2)) == if negative then -(cents as int) else cents
  {
    var c := RoundCents(Decimal(negative, cents, 2));
    assert Pow10(2) == 100;
  }

  /** `cleanNumeric`: a number is kept as it is, empty text and text without
      a digit give 0, other text is cleaned, read and rounded to the cent. */
  function CleanNumeric(v: Raw): (cents: int)
    ensures v.Number? ==> cents == v.cents
    ensures v == Text("") ==> cents == 0
    ensures v.Text? && KeepNumeric(v.s) == "" ==> cents == 0
  {
    match v
    case Number(c) => c
    case Text(s) =>
      if s == "" then 0
      else
        var cleaned := CleanedText(s);
        CleanedIsKept(s);
        if cleaned == "" then 0
        else
          NormalizeSeparatorsFacts(cleaned);
          match ParseFloat(NormalizeSeparators(cleaned))
          case None => 0
          case Some(d) => RoundCents(d)
  }

  /** The steps of `cleanNumeric` on text whose kept characters, after the
      separator handling, are integer digits, a point and fraction digits. */
  lemma CleanNumericReads(text: string, ip: string, fp: string)
    requires text != "" && AllDigits(ip) && AllDigits(fp) && |ip| + |fp| > 0
    requires KeepNumeric(text) != ""
    requires NormalizeSeparators(KeepNumeric(text)) == ip + "." + fp
    ensures AllDigits(ip + fp)
    ensures CleanNumeric(Text(text)) == RoundCents(Decimal(false, DigitsValue(ip + fp), |fp|))
  {
    CleanedIsKept(text);
    ParseFloatDecimal(ip, fp);
  }

  /** A digit string holds no other character. */
  lemma NonDigitAbsent(c: char, s: string)
    requires AllDigits(s) && !IsDigit(c)
    ensures c !in s
  {
  }

  /** Where `lastIndexOf` finds the separators in `j + [sep] + frac` when the
      fraction holds neither: the last `sep` is the one before the fraction,
      and the other separator's last index is the one in `j`. */
  lemma SeparatorPositions(j: string, sep: char, other: char, frac: string)
    requires sep !in frac && other !in frac && other != sep
    ensures LastIndexOf(j + [sep] + frac, sep) == |j|
    ensures LastIndexOf(j + [sep] + frac, other) == LastIndexOf(j, other)
  {
    LastIndexOfJoint(j, frac, sep);
    OtherSeparator(j, sep, other, frac);
  }

  lemma OtherSeparator(j: string, sep: char, other: char, frac: string)
    requires other !in frac && other != sep
    ensures LastIndexOf(j + [sep] + frac, other) == LastIndexOf(j, other)
  {
    assert j + [sep] + frac == j + ([sep] + frac);
    LastIndexOfPast(j, [sep] + frac, other);
  }

  /** Removing a character absent from the tail removes it from the head
      only. */
  lemma RemoveFromHead(j: string, tail: string, c: char)
    requires c !in tail
    ensures RemoveAll(j + tail, c) == RemoveAll(j, c) + tail
  {
    RemoveAllAppend(j, tail, c);
    RemoveAllAbsent(tail, c);
  }

  /** With the last comma after every dot, dots are dropped and the comma
      becomes the decimal point. */
  lemma NormalizeComma(j: string, frac: string)
    requires ',' !in j && ',' !in frac && '.' !in frac
    ensures NormalizeSeparators(j + "," + frac) == RemoveAll(j, '.') + "." + frac
  {
    var r := RemoveAll(j, '.');
    CommaChosen(j, frac);
    CommaKept(j, frac);
    ReplaceFirstAt(r, frac, ',', '.');
    assert r + ['.'] + frac == r + "." + frac;
  }

  /** A comma after the last dot selects the comma branch. */
  lemma CommaChosen(j: string, frac: string)
    requires ',' !in j && ',' !in frac && '.' !in frac
    ensures NormalizeSeparators(j + "," + frac) == ReplaceFirst(RemoveAll(j + "," + frac, '.'), ',', '.')
  {
    SeparatorPositions(j, ',', '.', frac);
  }

  /** Dropping the dots of `j,frac` keeps the comma and the fraction, and
      the comma is the only one left. */
  lemma CommaKept(j: string, frac: string)
    requires ',' !in j && '.' !in frac
    ensures RemoveAll(j + "," + frac, '.') == RemoveAll(j, '.') + [','] + frac
    ensures ',' !in RemoveAll(j, '.')
  {
    CommaKeptText(j, frac);
    RemoveAllMembers(j, '.');
  }

  lemma CommaKeptText(j: string, frac: string)
    requires '.' !in frac
    ensures RemoveAll(j + "," + frac, '.') == RemoveAll(j, '.') + [','] + frac
  {
    var r := RemoveAll(j, '.');
    var tail := "," + frac;
    assert j + "," + frac == j + tail;
    assert '.' !in tail;
    RemoveFromHead(j, tail, '.');
    assert r + tail == r + [','] + frac;
  }

  /** With the last dot after every comma, commas are dropped. */
  lemma NormalizePoint(j: string, frac: string)
    requires '.' !in j && ',' !in frac && '.' !in frac
    ensures NormalizeSeparators(j + "." + frac) == RemoveAll(j, ',') + "." + frac
  {
    SeparatorPositions(j, '.', ',', frac);
    PointKeptText(j, frac);
  }

  /** Dropping the commas of `j.frac` keeps the point and the fraction. */
  lemma PointKeptText(j: string, frac: string)
    requires ',' !in frac
    ensures RemoveAll(j + "." + frac, ',') == RemoveAll(j, ',') + "." + frac
  {
    var r := RemoveAll(j, ',');
    var tail := "." + frac;
    assert j + "." + frac == j + tail;
    assert ',' !in tail;
    RemoveFromHead(j, tail, ',');
    assert r + tail == r + "." + frac;
  }

  /** Digit groups joined by a separator are kept whole by the filter. */
  lemma KeepJoined(groups: seq<string>, sep: char, tail: string)
    requires sep == '.' || sep == ','
    requires forall i :: 0 <= i < |groups| ==> AllDigits(groups[i])
    requires NumericText(tail)
    ensures KeepNumeric(Join(groups, sep) + tail) == Join(groups, sep) + tail
  {
    JoinDigits(groups, sep);
    NumericMembers(Join(groups, sep) + tail);
    NumericMembers(tail);
    KeepNumericIdentity(Join(groups, sep) + tail);
  }

  lemma KeepCurrencySign()
    ensures KeepNumeric("R$ ") == []
  {
    var s := "R$ ";
    assert s[..2] == "R$" && "R$"[..1] == "R" && "R"[..0] == "";
  }

  /** Brazilian notation: `R$ 1.234,56` (dots group thousands, a comma
      before the cents) reads as the number its digits write. */
  lemma BrazilianAmount(groups: seq<string>, frac: string)
    requires |groups| >= 1
    requires forall i :: 0 <= i < |groups| ==> AllDigits(groups[i])
    requires AllDigits(frac)
    requires |Flatten(groups)| + |frac| > 0
    ensures AllDigits(Flatten(groups) + frac)
    ensures CleanNumeric(Text("R$ " + Join(groups, '.') + "," + frac))
      == RoundCents(Decimal(false, DigitsValue(Flatten(groups) + frac), |frac|))
  {
    var j := Join(groups, '.');
    FlattenDigits(groups);
    JoinOf(groups, '.', ',');
    KeepBrazilian(groups, frac);
    NonDigitAbsent(',', frac);
    NonDigitAbsent('.', frac);
    NormalizeComma(j, frac);
    RemoveJoined(groups, '.');
    CleanNumericReads("R$ " + j + "," + frac, Flatten(groups), frac);
  }

  /** The filter drops the currency sign and keeps the digits and
      separators. */
  lemma KeepBrazilian(groups: seq<string>, frac: string)
    requires forall i :: 0 <= i < |groups| ==> AllDigits(groups[i])
    requires AllDigits(frac)
    ensures KeepNumeric("R$ " + Join(groups, '.') + "," + frac) == Join(groups, '.') + "," + frac
  {
    var j := Join(groups, '.');
    KeepJoined(groups, '.', "," + frac);
    assert "R$ " + j + "," + frac == "R$ " + (j + "," + frac);
    KeepNumericAppend("R$ ", j + "," + frac);
    KeepCurrencySign();
    assert j + ("," + frac) == j + "," + frac;
  }

  /** Notation with a decimal point: `1,234.56` (commas group thousands). */
  lemma PointAmount(groups: seq<string>, frac: string)
    requires |groups| >= 1
    requires forall i :: 0 <= i < |groups| ==> AllDigits(groups[i])
    requires AllDigits(frac)
    requires |Flatten(groups)| + |frac| > 0
    ensures AllDigits(Flatten(groups) + frac)
    ensures CleanNumeric(Text(Join(groups, ',') + "." + frac))
      == RoundCents(Decimal(false, DigitsValue(Flatten(groups) + frac), |frac|))
  {
    var j := Join(groups, ',');
    var text := j + "." + frac;
    FlattenDigits(groups);
    JoinOf(groups, ',', '.');
    KeepJoined(groups, ',', "." + frac);
    assert j + ("." + frac) == text;
    NonDigitAbsent(',', frac);
    NonDigitAbsent('.', frac);
    NormalizePoint(j, frac);
    RemoveJoined(groups, ',');
    CleanNumericReads(text, Flatten(groups), frac);
  }

  /** Every character of a join of digit strings is a digit or the
      separator. */
  lemma {:induction false} JoinDigits(parts: seq<string>, c: char)
    requires forall i :: 0 <= i < |parts| ==> AllDigits(parts[i])
    ensures forall x :: x in Join(parts, c) ==> x == c || IsDigit(x)
  {
    if |parts| > 1 {
      JoinDigits(parts[1..], c);
    }
  }

  /** A whole number of reais written without separators. */
  lemma WholeAmount(n: nat)
    ensures CleanNumeric(Text(NatToString(n))) == 100 * n
  {
    var s := NatToString(n);
    WholeText(s);
    CleanedIsKept(s);
    ParseFloatInteger(s);
    CleanNumericParsed(s, Decimal(false, n, 0));
    RoundWhole(n);
  }

  /** Text whose kept characters read as `d` is worth `d` rounded to the
      cent. */
  lemma CleanNumericParsed(text: string, d: Decimal)
    requires text != "" && KeepNumeric(text) != ""
    requires NumericText(NormalizeSeparators(KeepNumeric(text)))
    requires ParseFloat(NormalizeSeparators(KeepNumeric(text))) == Some(d)
    ensures CleanNumeric(Text(text)) == RoundCents(d)
  {
    CleanedIsKept(text);
  }

  /** A whole number rounds to itself. */
  lemma RoundWhole(m: nat)
    ensures RoundCents(Decimal(false, m, 0)) == 100 * m
  {
    assert Pow10(0) == 1;
  }

  /** Digits alone pass through cleaning and the separator handling
      unchanged. */
  lemma WholeText(s: string)
    requires AllDigits(s) && |s| > 0
    ensures NumericText(s) && NormalizeSeparators(CleanedText(s)) == s
  {
    CleanedIsKept(s);
    KeepNumericIdentity(s);
    NonDigitAbsent(',', s);
    NonDigitAbsent('.', s);
  }

  /** Brazilian notation: '.' groups thousands, ',' separates the cents. */
  lemma BrazilianExample()
    ensures CleanNumeric(Text("R$ 1.234,56")) == 123456
  {
    BrazilianAmount(["1", "234"], "56");
    GroupsExample();
    RoundWholeCents(false, 123456);
  }

  /** English notation: ',' groups thousands, '.' separates the cents. */
  lemma PointExample()
    ensures CleanNumeric(Text("1,234.56")) == 123456
  {
    PointAmount(["1", "234"], "56");
    GroupsExample();
    RoundWholeCents(false, 123456);
  }

  lemma GroupsExample()
    ensures "R$ " + Join(["1", "234"], '.') + "," + "56" == "R$ 1.234,56"
    ensures Join(["1", "234"], ',') + "." + "56" == "1,234.56"
    ensures Flatten(["1", "234"]) + "56" == "123456"
    ensures DigitsValue("123456") == 123456
  {
    var g := ["1", "234"];
    assert g[1..] == ["234"];
    assert Flatten(g[1..][1..]) == "";
    DigitsExample();
  }

  lemma DigitsExample()
    ensures DigitsValue("123456") == 123456
  {
    assert DigitsValue("1") == 1;
    assert "12"[..1] == "1";
    assert DigitsValue("12") == 12;
    assert "123"[..2] == "12";
    assert DigitsValue("123") == 123;
    assert "1234"[..3] == "123";
    assert DigitsValue("1234") == 1234;
    assert "12345"[..4] == "1234";
    assert DigitsValue("12345") == 12345;
    assert "123456"[..5] == "12345";
  }

  /** A lone minus sign has a numeric character but no number: `NaN`, so 0. */
  lemma MinusExample()
    ensures CleanNumeric(Text("-")) == 0
  {
    assert KeepNumeric("-") == "-";
    CleanedIsKept("-");
    assert LastIndexOf("-", ',') == -1 && LastIndexOf("-", '.') == -1;
    assert "-"[1..] == "";
  }

  // ---------------------------------------------------------------------
  // parseDate

  /** `new Date(year, month - 1, day)` from the three `parseInt`s: a NaN
      part gives Invalid Date. */
  function ReadDate(day: Option<int>, month: Option<int>, year: Option<int>): (d: JsDate)
    ensures day.None? || month.None? || year.None? ==> d == InvalidDate
    ensures d.Day? ==> d.n == DateOf(year.value, month.value - 1, day.value)
    ensures d.Day? ==> -MaxDay <= d.n <= MaxDay
  {
    if day.None? || month.None? || year.None? then InvalidDate
    else MakeDate(year.value, month.value - 1, day.value)
  }

  /** `parseDate`: null for the empty string and for text that does not
      split into three parts at '/'; otherwise `new Date(year, month - 1,
      day)` of the three `parseInt`s, which is Invalid Date when one of
      them is not a number. */
  function ParseDate(s: string): (r: Option<JsDate>)
    ensures r.None? <==> s == "" || |Split(Trim(RemoveAll(s, '\\')), '/')| != 3
    ensures r.Some? && r.value.Day? ==> -MaxDay <= r.value.n <= MaxDay
  {
    if s == "" then None
    else
      var parts := Split(Trim(RemoveAll(s, '\\')), '/');
      if |parts| != 3 then None
      else Some(ReadDate(ParseInt(parts[0]), ParseInt(parts[1]), ParseInt(parts[2])))
  }

  /** Once the text splits into three parts, the date is built from their
      `parseInt`s. */
  lemma ParseDateSplit(s: string, d: string, m: string, y: string)
    requires s != "" && Split(Trim(RemoveAll(s, '\\')), '/') == [d, m, y]
    ensures ParseDate(s) == Some(ReadDate(ParseInt(d), ParseInt(m), ParseInt(y)))
  {
  }

  /** Digit groups joined by '/' are left alone by the cleaning and split
      back into the groups. */
  lemma SlashText(d: string, m: string, y: string)
    requires AllDigits(d) && AllDigits(m) && AllDigits(y) && |d| > 0
    ensures Split(Trim(RemoveAll(d + "/" + m + "/" + y, '\\')), '/') == [d, m, y]
  {
    var s := d + "/" + m + "/" + y;
    NonDigitAbsent('\\', d);
    NonDigitAbsent('\\', m);
    NonDigitAbsent('\\', y);
    NonDigitAbsent('/', d);
    NonDigitAbsent('/', m);
    NonDigitAbsent('/', y);
    assert '\\' !in s;
    RemoveAllAbsent(s, '\\');
    assert s[0] == d[0] && IsDigit(d[0]);
    if |y| > 0 {
      assert s[|s| - 1] == y[|y| - 1] && IsDigit(y[|y| - 1]);
    } else {
      assert s[|s| - 1] == '/';
    }
    TrimNoEdgeSpace(s);
    assert s == d + ['/'] + m + ['/'] + y;
    Split3(d, m, y, '/');
  }

  /** `DD/MM/YYYY` text of a date reads back as that date. */
  lemma ParseDateFormatted(c: Civil)
    requires ValidCivil(c) && c.year >= 100
    requires -MaxDay <= FromCivil(c) <= MaxDay
    ensures ParseDate(Pad2(c.day) + "/" + Pad2(c.month) + "/" + NatToString(c.year)) == Some(Day(FromCivil(c)))
  {
    DateTextParts(c.day, c.month, c.year);
    DateOfValid(c);
  }

  /** `DD/MM/YYYY` text reads back as its three numbers. */
  lemma DateTextParts(day: nat, month: nat, year: nat)
    requires day >= 1
    ensures ParseDate(Pad2(day) + "/" + Pad2(month) + "/" + NatToString(year)) == Some(ReadDate(Some(day), Some(month), Some(year)))
  {
    var d, m, y := Pad2(day), Pad2(month), NatToString(year);
    SlashText(d, m, y);
    ParseDateSplit(d + "/" + m + "/" + y, d, m, y);
    ParseIntPad2(day);
    ParseIntPad2(month);
    ParseIntPad2(year);
  }

  /** A date whose year is missing (`DD/MM/`) is still a date (Invalid
      Date), not null. */
  lemma ParseDateMissingYear(d: string, m: string)
    requires AllDigits(d) && AllDigits(m) && |d| > 0
    ensures ParseDate(d + "/" + m + "/") == Some(InvalidDate)
  {
    SlashText(d, m, "");
    assert d + "/" + m + "/" + "" == d + "/" + m + "/";
    ParseDateSplit(d + "/" + m + "/", d, m, "");
  }

  // ---------------------------------------------------------------------
  // parseLine

  /** `;` when the line has one, `,` otherwise. */
  function Delimiter(line: string): (d: char)
    ensures d == ';' || d == ','
  {
    if ';' in line then ';' else ','
  }

  /** Number of delimiters outside quotes, starting in the given quote
      state. */
  function OpenDelimiters(s: string, d: char, quoted: bool): nat
    decreases |s|
  {
    if |s| == 0 then 0
    else if s[0] == '"' then OpenDelimiters(s[1..], d, !quoted)
    else (if s[0] == d && !quoted then 1 else 0) + OpenDelimiters(s[1..], d, quoted)
  }

  /** The character loop of `parseLine`: a quote toggles the quote state
      and is dropped, a delimiter outside quotes ends the current field,
      anything else is added to it. */
  function Scan(s: string, d: char, quoted: bool, cur: string): (fields: seq<string>)
    requires d != '"' && '"' !in cur
    ensures |fields| == OpenDelimiters(s, d, quoted) + 1
    ensures forall i :: 0 <= i < |fields| ==> '"' !in fields[i]
    decreases |s|
  {
    if |s| == 0 then [cur]
    else if s[0] == '"' then Scan(s[1..], d, !quoted, cur)
    else if s[0] == d && !quoted then [cur] + Scan(s[1..], d, quoted, "")
    else Scan(s[1..], d, quoted, cur + [s[0]])
  }

  /** `.replace(/^"|"$/g, '')`. */
  function Unquote(s: string): string {
    var t := if |s| > 0 && s[0] == '"' then s[1..] else s;
    if |t| > 0 && t[|t| - 1] == '"' then t[..|t| - 1] else t
  }

  function Field(raw: string): string {
    Unquote(Trim(raw))
  }

  /** No white space at either end. */
  predicate Trimmed(s: string) {
    |s| > 0 ==> !IsSpace(s[0]) && !IsSpace(s[|s| - 1])
  }

  /** Scanned fields without a quote are trimmed and hold no quote once
      unquoted. */
  lemma PlainFields(raw: seq<string>)
    requires forall i :: 0 <= i < |raw| ==> '"' !in raw[i]
    ensures forall i :: 0 <= i < |raw| ==>
      Field(raw[i]) == Trim(raw[i]) && '"' !in Field(raw[i]) && Trimmed(Field(raw[i]))
  {
    forall i | 0 <= i < |raw|
      ensures Field(raw[i]) == Trim(raw[i]) && '"' !in Field(raw[i]) && Trimmed(Field(raw[i]))
    {
      FieldOfPlain(raw[i]);
    }
  }

  /** `parseLine(line)`: the fields between delimiters outside quotes,
      trimmed, with the quotes gone. */
  function ParseLine(line: string): (fields: seq<string>)
    ensures |fields| == OpenDelimiters(line, Delimiter(line), false) + 1
    ensures forall i :: 0 <= i < |fields| ==> '"' !in fields[i] && Trimmed(fields[i])
  {
    var raw := Scan(line, Delimiter(line), false, "");
    PlainFields(raw);
    Map(raw, Field)
  }

  /** Scanned fields hold no quote, so unquoting leaves the trimmed text. */
  lemma FieldOfPlain(raw: string)
    requires '"' !in raw
    ensures Field(raw) == Trim(raw)
    ensures '"' !in Field(raw)
  {
    var t := Trim(raw);
    assert t == TrimStart(TrimEnd(raw));
    assert forall x :: x in t ==> x in raw;
  }

  /** Quote-free text is copied into the current field. */
  lemma {:induction false} ScanPlain(f: string, rest: string, d: char, quoted: bool, cur: string)
    requires d != '"' && '"' !in cur && '"' !in f
    requires !quoted ==> d !in f
    ensures Scan(f + rest, d, quoted, cur) == Scan(rest, d, quoted, cur + f)
  {
    if |f| == 0 {
      assert f + rest == rest && cur + f == cur;
    } else {
      assert (f + rest)[0] == f[0] && (f + rest)[1..] == f[1..] + rest;
      assert f[0] in f;
      ScanPlain(f[1..], rest, d, quoted, cur + [f[0]]);
      assert cur + [f[0]] + f[1..] == cur + f;
    }
  }

  /** A delimiter inside quotes belongs to the field: `"a;b"` is one field. */
  lemma QuotedField(f: string, rest: string, d: char, cur: string)
    requires d != '"' && '"' !in cur && '"' !in f
    ensures Scan("\"" + f + "\"" + rest, d, false, cur) == Scan(rest, d, false, cur + f)
  {
    var s := "\"" + f + "\"" + rest;
    assert s[1..] == f + ("\"" + rest);
    ScanPlain(f, "\"" + rest, d, true, cur);
    assert ("\"" + rest)[1..] == rest;
  }

  /** Scanning delimiter-joined plain fields gives the fields back. */
  lemma {:induction false} ScanJoin(fs: seq<string>, d: char)
    requires d != '"' && |fs| >= 1
    requires forall i :: 0 <= i < |fs| ==> '"' !in fs[i] && d !in fs[i]
    ensures Scan(Join(fs, d), d, false, "") == fs
  {
    if |fs| == 1 {
      ScanPlain(fs[0], "", d, false, "");
      assert fs[0] + "" == fs[0] && "" + fs[0] == fs[0];
    } else {
      ScanJoin(fs[1..], d);
      var rest := Join(fs[1..], d);
      assert Join(fs, d) == fs[0] + ([d] + rest);
      ScanPlain(fs[0], [d] + rest, d, false, "");
      assert ([d] + rest)[1..] == rest;
      assert "" + fs[0] == fs[0];
    }
  }

  /** `parseLine` inverts joining trimmed, quote-free fields with `;`
      (which may hold commas), or with `,` when no field holds a `;`. */
  lemma ParseLineJoin(fs: seq<string>, d: char)
    requires d == ';' || d == ','
    requires d == ';' ==> |fs| >= 2
    requires |fs| >= 1
    requires forall i :: 0 <= i < |fs| ==> '"' !in fs[i] && d !in fs[i] && ';' !in fs[i] && Trim(fs[i]) == fs[i]
    ensures ParseLine(Join(fs, d)) == fs
  {
    var line := Join(fs, d);
    if d == ';' {
      assert line == fs[0] + [';'] + Join(fs[1..], ';');
      assert line[|fs[0]|] == ';';
    } else {
      JoinOf(fs, ',', ';');
    }
    assert Delimiter(line) == d;
    ScanJoin(fs, d);
    assert Map(fs, Field) == fs by {
      PlainFields(fs);
    }
  }

  // ---------------------------------------------------------------------
  // processCSV

  function DropCarriageReturn(s: string): string {
    if |s| > 0 && s[|s| - 1] == '\r' then s[..|s| - 1] else s
  }

  /** `text.split(/\r?\n/)`: split at line feeds, dropping the carriage
      return before each. */
  function SplitLines(text: string): (lines: seq<string>)
    ensures |lines| == |Split(text, '\n')| == Occurrences(text, '\n') + 1
    ensures forall i :: 0 <= i < |lines| ==> '\n' !in lines[i]
  {
    var parts := Split(text, '\n');
    SplitCount(text, '\n');
    seq(|parts|, i requires 0 <= i < |parts| =>
      if i < |parts| - 1 then DropCarriageReturn(parts[i]) else parts[i])
  }

  lemma {:induction false} SplitCount(s: string, c: char)
    ensures |Split(s, c)| == Occurrences(s, c) + 1
  {
    if |s| > 0 {
      SplitCount(s[1..], c);
      OccurrencesFront(s, c);
    }
  }

  lemma {:induction false} OccurrencesFront(s: string, c: char)
    requires |s| > 0
    ensures Occurrences(s, c) == (if s[0] == c then 1 else 0) + Occurrences(s[1..], c)
  {
    if |s| > 1 {
      OccurrencesFront(s[..|s| - 1], c);
      assert s[..|s| - 1][1..] == s[1..][..|s[1..]| - 1];
    }
  }

  /** NFD decomposition followed by removal of the combining marks, on the
      upper-case Latin letters: `À`..`Å` to `A`, `Ç` to `C`, and so on. */
  function FoldAccent(c: char): char {
    var n := c as int;
    if 0xC0 <= n <= 0xC5 then 'A'
    else if n == 0xC7 then 'C'
    else if 0xC8 <= n <= 0xCB then 'E'
    else if 0xCC <= n <= 0xCF then 'I'
    else if n == 0xD1 then 'N'
    else if 0xD2 <= n <= 0xD6 then 'O'
    else if 0xD9 <= n <= 0xDC then 'U'
    else if n == 0xDD || n == 0x178 then 'Y'
    else c
  }

  /** `h.trim().toUpperCase().normalize("NFD").replace(/[̀-ͯ]/g, "")`. */
  function NormalizeHeader(h: string): (r: string)
    ensures |r| == |Trim(h)|
    ensures forall i :: 0 <= i < |r| ==> r[i] == FoldAccent(UpperChar(Trim(h)[i]))
  {
    var u := Upper(Trim(h));
    seq(|u|, i requires 0 <= i < |u| => FoldAccent(u[i]))
  }

  predicate MatchesAny(h: string, keywords: seq<string>) {
    exists k :: 0 <= k < |keywords| && Contains(h, keywords[k])
  }

  /** `findIdx`: the first header containing one of the keywords. */
  function FindIdx(headers: seq<string>, keywords: seq<string>): (r: Option<nat>)
    ensures r.Some? ==> r.value < |headers| && MatchesAny(headers[r.value], keywords)
    ensures r.Some? ==> forall i :: 0 <= i < r.value ==> !MatchesAny(headers[i], keywords)
    ensures r.None? ==> forall i :: 0 <= i < |headers| ==> !MatchesAny(headers[i], keywords)
  {
    FirstWhere(headers, h => MatchesAny(h, keywords))
  }

  /** `headers.indexOf(name)`. */
  function IndexOf(headers: seq<string>, name: string): (r: Option<nat>)
    ensures r.Some? ==> r.value < |headers| && headers[r.value] == name
    ensures r.Some? ==> name !in headers[..r.value]
    ensures r.None? <==> name !in headers
  {
    FirstWhere(headers, h => h == name)
  }

  /** The column each field of a record is read from. */
  datatype Columns = Columns(
    turma: Option<nat>, gerado: Option<nat>, recebido: Option<nat>, atendente: Option<nat>,
    pacote: Option<nat>, data: Option<nat>, situacao: Option<nat>, aluno: Option<nat>,
    contrato: Option<nat>, telefone: Option<nat>, valorParcela: Option<nat>,
    planoPagamento: Option<nat>, formaConhecimento: Option<nat>, divulgador: Option<nat>,
    bolsa: Option<nat>, entradaVencimento: Option<nat>, diaVencimento: Option<nat>,
    assinatura: Option<nat>)

  function ColumnsOf(headers: seq<string>): Columns {
    Columns(
      FindIdx(headers, ["TURMA"]), FindIdx(headers, ["TOTAL A RECEBER"]),
      FindIdx(headers, ["TOTAL RECEBIDO"]), FindIdx(headers, ["ATENDENTE"]),
      FindIdx(headers, ["PACOTE", "CURSO"]), FindIdx(headers, ["DATA MATRICULA"]),
      FindIdx(headers, ["SITUACAO"]), FindIdx(headers, ["ALUNO"]),
      IndexOf(headers, "CONTRATO"), IndexOf(headers, "TELEFONE"),
      IndexOf(headers, "VALOR PARCELA"), IndexOf(headers, "PLANO DE PAGAMENTO"),
      IndexOf(headers, "FORMA DE CONHECIMENTO"), IndexOf(headers, "DIVULGADOR"),
      IndexOf(headers, "BOLSA"), IndexOf(headers, "ENTRADA/1º VENCIMENTO"),
      IndexOf(headers, "DIA VENCIMENTO"), IndexOf(headers, "ASSINATURA"))
  }

  /** `values[idx]`: None when the column is absent or the row is short
      (`undefined`). */
  function Lookup(values: seq<string>, idx: Option<nat>): Option<string> {
    if idx.Some? && idx.value < |values| then Some(values[idx.value]) else None
  }

  /** `idx !== -1 ? values[idx] : absent`. A short row's missing cell is
      `undefined`, held as the text "undefined" that it turns into as an
      object key or in a template. */
  function CellOr(values: seq<string>, idx: Option<nat>, absent: string): string
  {
    if idx.None? then absent
    else if idx.value < |values| then values[idx.value]
    else Undefined
  }

  /** `String(undefined)`. */
  const Undefined: string := "undefined"

  /** `cleanNumeric(idx !== -1 ? values[idx] : 0)`. */
  function AmountCell(values: seq<string>, idx: Option<nat>): (cents: int)
    ensures idx.None? ==> cents == 0
    ensures Lookup(values, idx).None? ==> cents == 0
    ensures Lookup(values, idx).Some? ==> cents == CleanNumeric(Text(Lookup(values, idx).value))
  {
    CleanNumeric(if idx.None? then Number(0) else Text(OrElse(Lookup(values, idx), "")))
  }

  /** `parseInt(values[idx] || '0')`, without a radix: a missing or empty
      cell is day 0; a `0x` cell is read in hexadecimal. */
  function DueDay(values: seq<string>, idx: Option<nat>): (r: Option<int>)
    ensures Lookup(values, idx).None? ==> r == Some(0)
    ensures Lookup(values, idx) == Some("") ==> r == Some(0)
  {
    ZeroReads();
    ParseIntNoRadix(OrElse(Lookup(values, idx), "0"))
  }

  lemma ZeroReads()
    ensures ParseIntNoRadix("0") == Some(0)
  {
    var z := "0";
    assert AllDigits(z) && z[..0] == [];
    assert DigitsValue(z) == 0;
    ParseIntNoRadixDigits(z);
  }

  /** A cell of digits is its decimal value, and a cell of `0x` or `0X`
      followed by hex digits is their hexadecimal value. */
  lemma DueDayCell(values: seq<string>, idx: Option<nat>)
    ensures var t := Lookup(values, idx);
      t.Some? && |t.value| > 0 && AllDigits(t.value) ==> DueDay(values, idx) == Some(DigitsValue(t.value))
    ensures var t := Lookup(values, idx);
      t.Some? && HexLead(t.value) && |t.value| > 2 && AllHexDigits(t.value[2..])
      ==> DueDay(values, idx) == Some(HexDigitsValue(t.value[2..]))
  {
    var t := Lookup(values, idx);
    if t.Some? && |t.value| > 0 && AllDigits(t.value) {
      ParseIntNoRadixDigits(t.value);
    }
    if t.Some? && HexLead(t.value) && |t.value| > 2 && AllHexDigits(t.value[2..]) {
      var hex := t.value[2..];
      assert hex + "" == hex;
      ParseIntNoRadixHex(t.value, hex, "");
    }
  }

  /** The object literal pushed for one data line. */
  function MakeRecord(c: Columns, values: seq<string>): (e: Enrollment)
    ensures c.pacote.None? ==> e.pacote == "OUTROS"
    ensures c.situacao.None? ==> e.situacao == "ATIVO"
    ensures c.atendente.None? ==> e.atendente == "NÃO INFORMADO"
    ensures c.data.None? ==> e.dataMatricula == ""
    ensures c.gerado.None? ==> e.totalAReceber == 0
    ensures c.recebido.None? ==> e.totalRecebido == 0
    ensures c.valorParcela.None? ==> e.valorParcela == 0
    ensures e.turma == "SEM TURMA" <==>
      var t := Lookup(values, c.turma); t.None? || t.value == "" || t.value == "SEM TURMA"
    ensures e.turma != "SEM TURMA" ==> Lookup(values, c.turma) == Some(e.turma)
    ensures c.diaVencimento.None? ==> e.diaVencimento == Some(0)
  {
    Enrollment(
      dataMatricula := CellOr(values, c.data, ""),
      contrato := OrElse(Lookup(values, c.contrato), ""),
      aluno := CellOr(values, c.aluno, ""),
      telefone := OrElse(Lookup(values, c.telefone), ""),
      pacote := CellOr(values, c.pacote, "OUTROS"),
      situacao := CellOr(values, c.situacao, "ATIVO"),
      turma := OrElse(Lookup(values, c.turma), "SEM TURMA"),
      totalAReceber := AmountCell(values, c.gerado),
      totalRecebido := AmountCell(values, c.recebido),
      valorParcela := CleanNumeric(Text(OrElse(Lookup(values, c.valorParcela), ""))),
      planoPagamento := OrElse(Lookup(values, c.planoPagamento), ""),
      formaConhecimento := OrElse(Lookup(values, c.formaConhecimento), ""),
      atendente := CellOr(values, c.atendente, "NÃO INFORMADO"),
      divulgador := OrElse(Lookup(values, c.divulgador), ""),
      bolsa := OrElse(Lookup(values, c.bolsa), ""),
      entradaVencimento := OrElse(Lookup(values, c.entradaVencimento), ""),
      diaVencimento := DueDay(values, c.diaVencimento),
      assinatura := OrElse(Lookup(values, c.assinatura), ""))
  }

  /** A line with something besides white space. */
  predicate Filled(line: string) {
    Trim(line) != ""
  }

  /** The normalised header names of the first line. */
  function HeaderRow(line: string): (hs: seq<string>)
    ensures |hs| == |ParseLine(line)|
  {
    var raw := ParseLine(line);
    seq(|raw|, i requires 0 <= i < |raw| => NormalizeHeader(raw[i]))
  }

  /** The record one data line becomes. */
  function RecordOf(c: Columns, line: string): Enrollment {
    MakeRecord(c, ParseLine(Trim(line)))
  }

  /** The data lines that become records: every line after the first that
      is not blank, in order. */
  function DataLines(text: string): (kept: seq<string>)
    requires |SplitLines(text)| >= 2
    ensures forall l :: l in kept <==> l in SplitLines(text)[1..] && Filled(l)
    ensures |kept| == Count(SplitLines(text)[1..], Filled)
    ensures Subsequence(kept, SplitLines(text)[1..])
  {
    FilterIsSubsequence(SplitLines(text)[1..], Filled);
    Filter(SplitLines(text)[1..], Filled)
  }

  /** `processCSV(text)`: the first line names the columns; every later
      line that is not blank becomes one record, in order. */
  function ProcessCSV(text: string): (rs: seq<Enrollment>)
    ensures |SplitLines(text)| < 2 ==> rs == []
    ensures |SplitLines(text)| >= 2 ==> |rs| == Count(SplitLines(text)[1..], Filled)
  {
    var lines := SplitLines(text);
    if |lines| < 2 then []
    else
      var c := ColumnsOf(HeaderRow(lines[0]));
      Map(DataLines(text), line => RecordOf(c, line))
  }

  /** A field read from the column `idx`: the cell there, `undefined` past
      the end of a short row, the default when no header names it. */
  predicate FromColumn(v: string, values: seq<string>, idx: Option<nat>, absent: string) {
    if idx.None? then v == absent
    else if idx.value < |values| then v == values[idx.value]
    else v == Undefined
  }

  /** A field read with `|| ''`: the cell when there is a non-empty one,
      '' otherwise. */
  predicate FromColumnOrEmpty(v: string, values: seq<string>, idx: Option<nat>) {
    if idx.Some? && idx.value < |values| then v == values[idx.value] else v == ""
  }

  /** A field read with `|| d`: the cell when there is a non-empty one,
      `d` otherwise. */
  predicate FromColumnOr(v: string, values: seq<string>, idx: Option<nat>, d: string) {
    if idx.Some? && idx.value < |values| && values[idx.value] != "" then v == values[idx.value] else v == d
  }

  /** Each field of a record comes from its column, or is the default. */
  lemma MakeRecordFields(c: Columns, values: seq<string>)
    ensures var e := MakeRecord(c, values);
      && FromColumn(e.aluno, values, c.aluno, "")
      && FromColumn(e.atendente, values, c.atendente, "NÃO INFORMADO")
      && FromColumn(e.pacote, values, c.pacote, "OUTROS")
      && FromColumn(e.situacao, values, c.situacao, "ATIVO")
      && FromColumn(e.dataMatricula, values, c.data, "")
  {
  }

  /** The `|| ''` fields: the cell when the header is there and the row
      long enough, '' otherwise. */
  lemma MakeRecordOptionalFields(c: Columns, values: seq<string>)
    ensures var e := MakeRecord(c, values);
      && FromColumnOrEmpty(e.contrato, values, c.contrato)
      && FromColumnOrEmpty(e.telefone, values, c.telefone)
      && FromColumnOrEmpty(e.assinatura, values, c.assinatura)
      && FromColumnOrEmpty(e.planoPagamento, values, c.planoPagamento)
      && FromColumnOrEmpty(e.formaConhecimento, values, c.formaConhecimento)
      && FromColumnOrEmpty(e.divulgador, values, c.divulgador)
      && FromColumnOrEmpty(e.bolsa, values, c.bolsa)
      && FromColumnOrEmpty(e.entradaVencimento, values, c.entradaVencimento)
  {
  }

  /** The class falls back to 'SEM TURMA'; the three amounts are cleaned
      cells, or 0 without a cell; the due day is the radix-less parse. */
  lemma MakeRecordValueFields(c: Columns, values: seq<string>)
    ensures var e := MakeRecord(c, values);
      && FromColumnOr(e.turma, values, c.turma, "SEM TURMA")
      && e.totalAReceber == AmountCell(values, c.gerado)
      && e.totalRecebido == AmountCell(values, c.recebido)
      && e.valorParcela == AmountCell(values, c.valorParcela)
      && e.diaVencimento == DueDay(values, c.diaVencimento)
  {
  }

  /** Record `k` of the import reads each field from the `k`-th kept line,
      split into trimmed, quote-free cells: from the first header that
      contains the field's keyword, or from the header named exactly, and
      the default where the header is missing. */
  lemma ProcessCSVFields(text: string, k: nat)
    requires |SplitLines(text)| >= 2 && k < |ProcessCSV(text)|
    ensures var hs := HeaderRow(SplitLines(text)[0]);
      var values := ParseLine(Trim(DataLines(text)[k]));
      var e := ProcessCSV(text)[k];
      && (forall i :: 0 <= i < |values| ==> Trimmed(values[i]) && '"' !in values[i])
      && FromColumn(e.aluno, values, FindIdx(hs, ["ALUNO"]), "")
      && FromColumn(e.atendente, values, FindIdx(hs, ["ATENDENTE"]), "NÃO INFORMADO")
      && FromColumn(e.pacote, values, FindIdx(hs, ["PACOTE", "CURSO"]), "OUTROS")
      && FromColumn(e.situacao, values, FindIdx(hs, ["SITUACAO"]), "ATIVO")
      && FromColumn(e.dataMatricula, values, FindIdx(hs, ["DATA MATRICULA"]), "")
      && FromColumnOrEmpty(e.contrato, values, IndexOf(hs, "CONTRATO"))
      && FromColumnOrEmpty(e.telefone, values, IndexOf(hs, "TELEFONE"))
      && FromColumnOrEmpty(e.assinatura, values, IndexOf(hs, "ASSINATURA"))
      && FromColumnOrEmpty(e.planoPagamento, values, IndexOf(hs, "PLANO DE PAGAMENTO"))
      && FromColumnOrEmpty(e.formaConhecimento, values, IndexOf(hs, "FORMA DE CONHECIMENTO"))
      && FromColumnOrEmpty(e.divulgador, values, IndexOf(hs, "DIVULGADOR"))
      && FromColumnOrEmpty(e.bolsa, values, IndexOf(hs, "BOLSA"))
      && FromColumnOrEmpty(e.entradaVencimento, values, IndexOf(hs, "ENTRADA/1º VENCIMENTO"))
      && FromColumnOr(e.turma, values, FindIdx(hs, ["TURMA"]), "SEM TURMA")
      && e.totalAReceber == AmountCell(values, FindIdx(hs, ["TOTAL A RECEBER"]))
      && e.totalRecebido == AmountCell(values, FindIdx(hs, ["TOTAL RECEBIDO"]))
      && e.valorParcela == AmountCell(values, IndexOf(hs, "VALOR PARCELA"))
      && e.diaVencimento == DueDay(values, IndexOf(hs, "DIA VENCIMENTO"))
  {
    var c := ColumnsOf(HeaderRow(SplitLines(text)[0]));
    var values := ParseLine(Trim(DataLines(text)[k]));
    assert ProcessCSV(text)[k] == MakeRecord(c, values);
    MakeRecordFields(c, values);
    MakeRecordOptionalFields(c, values);
    MakeRecordValueFields(c, values);
  }
}

=== FILE: cursos.dfy ===
/** Courses (cursosService.ts, CursosManager.tsx): the enrolment count the
    service attaches to every course, the name search, the students listed
    under an expanded course with their payment filter and counters, and the
    edit form. */
module Cursos {
  import opened Seqs
  import opened Strings
  import opened Types

  /** `CursoInput`: the fields the edit form holds. */
  datatype CursoForm = CursoForm(nome: string, descricao: string, valor: int, valorRematricula: int)

  /** `EMPTY`: the form `openNew` starts from. */
  const EmptyForm: CursoForm := CursoForm("", "", 0, 0)

  /** `openEdit`: the form holds the course's four editable fields. */
  function EditForm(c: Curso): (f: CursoForm)
    ensures f.nome == c.nome && f.descricao == c.descricao
    ensures f.valor == c.valor && f.valorRematricula == c.valorRematricula
  {
    CursoForm(c.nome, c.descricao, c.valor, c.valorRematricula)
  }

  /** Editing a course and saving the form untouched writes the same fields
      back. */
  lemma EditFormRoundTrip(c: Curso)
    ensures var f := EditForm(c);
      c.(nome := f.nome, descricao := f.descricao, valor := f.valor, valorRematricula := f.valorRematricula) == c
  {
  }

  // ---- alunos_count ----

  /** The rows `fetchCursos` counts: `.neq('situacao', 'CANCELADO')` is an SQL
      comparison, so a row without a situation is dropped as well. */
  predicate Counted(r: DbEnrollment) {
    r.situacao.Some? && r.situacao.value != "CANCELADO"
  }

  /** The `counts` record: one entry per non-empty package of a counted row,
      bumped once per such row. */
  function PackageCounts(rows: seq<DbEnrollment>): (m: map<string, nat>)
    ensures forall p :: p in m ==> p != "" && m[p] > 0
  {
    if |rows| == 0 then map[]
    else
      var m := PackageCounts(rows[..|rows| - 1]);
      var r := rows[|rows| - 1];
      if Counted(r) && r.pacote.Some? && r.pacote.value != "" then
        var p := r.pacote.value;
        m[p := (if p in m then m[p] else 0) + 1]
      else m
  }

  /** `counts[nome] || 0`. */
  function CountOf(m: map<string, nat>, nome: string): nat {
    if nome in m then m[nome] else 0
  }

  /** A row counted towards the course called `nome`. */
  function EnrolledIn(nome: string): DbEnrollment -> bool {
    r => Counted(r) && r.pacote == Some(nome) && nome != ""
  }

  /** The count read back for a course is the number of non-cancelled rows
      filed under exactly its name; a course with an empty name counts 0. */
  lemma {:induction false} PackageCountsAreCounts(rows: seq<DbEnrollment>, nome: string)
    ensures CountOf(PackageCounts(rows), nome) == Count(rows, EnrolledIn(nome))
  {
    if |rows| > 0 {
      PackageCountsAreCounts(rows[..|rows| - 1], nome);
    }
  }

  /** `fetchCursos`: every course, in order, with `alunos_count` filled in
      from the rows; nothing else of the course changes. */
  function WithCounts(cursos: seq<Curso>, rows: seq<DbEnrollment>): (r: seq<Curso>)
    ensures |r| == |cursos|
    ensures forall i :: 0 <= i < |r| ==>
      r[i] == cursos[i].(alunosCount := Some(Count(rows, EnrolledIn(cursos[i].nome))))
  {
    var m := PackageCounts(rows);
    forall i | 0 <= i < |cursos|
      ensures CountOf(m, cursos[i].nome) == Count(rows, EnrolledIn(cursos[i].nome))
    {
      PackageCountsAreCounts(rows, cursos[i].nome);
    }
    seq(|cursos|, i requires 0 <= i < |cursos| => cursos[i].(alunosCount := Some(CountOf(m, cursos[i].nome))))
  }

  // ---- the course list ----

  /** `filtered`: the courses whose name contains the search, ignoring case. */
  function Search(data: seq<Curso>, search: string): (r: seq<Curso>)
    ensures forall c :: c in r <==> c in data && ContainsIgnoreCase(c.nome, search)
    ensures Subsequence(r, data)
  {
    FilterIsSubsequence(data, (c: Curso) => ContainsIgnoreCase(c.nome, search));
    Filter(data, (c: Curso) => ContainsIgnoreCase(c.nome, search))
  }

  /** An empty search keeps the whole list. */
  lemma SearchEmpty(data: seq<Curso>)
    ensures Search(data, "") == data
  {
    forall c | c in data
      ensures ContainsIgnoreCase(c.nome, "")
    {
      ContainsIgnoreCaseEmpty(c.nome);
    }
    FilterAll(data, (c: Curso) => ContainsIgnoreCase(c.nome, ""));
  }

  // ---- students of an expanded course ----

  /** `getStudentsForCurso`: the loaded enrolments whose package is exactly
      the course name. */
  function Students(enrollments: seq<Stored>, nome: string): (r: seq<Stored>)
    ensures forall e :: e in r <==> e in enrollments && e.data.pacote == nome
    ensures Subsequence(r, enrollments)
  {
    FilterIsSubsequence(enrollments, (e: Stored) => e.data.pacote == nome);
    Filter(enrollments, (e: Stored) => e.data.pacote == nome)
  }

  /** `'Total Recebido' > 0`. */
  predicate IsPaid(e: Stored) {
    e.data.totalRecebido > 0
  }

  datatype PaymentFilter = Todos | Pago | Pendente

  /** Whether an enrolment passes the payment filter. */
  predicate Passes(f: PaymentFilter, e: Stored) {
    match f
    case Todos => true
    case Pago => IsPaid(e)
    case Pendente => !IsPaid(e)
  }

  function PassesFilter(f: PaymentFilter): Stored -> bool {
    e => Passes(f, e)
  }

  /** `getFilteredStudents`: the course's students that pass the filter, in
      their order. */
  function FilteredStudents(enrollments: seq<Stored>, nome: string, f: PaymentFilter): (r: seq<Stored>)
    ensures forall e :: e in r <==> e in enrollments && e.data.pacote == nome && Passes(f, e)
    ensures Subsequence(r, Students(enrollments, nome))
    ensures f == Todos ==> r == Students(enrollments, nome)
  {
    var students := Students(enrollments, nome);
    if f == Todos then
      SubsequenceSelf(students);
      students
    else
      FilterIsSubsequence(students, PassesFilter(f));
      Filter(students, PassesFilter(f))
  }

  /** The paid and the pending lists split the course's students: every
      student is in exactly one of them. */
  lemma PaidPendingPartition(enrollments: seq<Stored>, nome: string)
    ensures |FilteredStudents(enrollments, nome, Pago)| + |FilteredStudents(enrollments, nome, Pendente)|
      == |Students(enrollments, nome)|
    ensures forall e :: e in Students(enrollments, nome) ==>
      (e in FilteredStudents(enrollments, nome, Pago) <==> e !in FilteredStudents(enrollments, nome, Pendente))
  {
    var students := Students(enrollments, nome);
    CountOpposite(students, PassesFilter(Pago), PassesFilter(Pendente));
  }

  /** The counters on the filter tabs. */
  datatype PaymentStats = PaymentStats(total: nat, paid: nat, pending: int)

  /** `getPaymentStats`: the tab counters are the lengths of the three lists
      the tabs show, and paid plus pending is the total. */
  function Stats(enrollments: seq<Stored>, nome: string): (st: PaymentStats)
    ensures st.total == |FilteredStudents(enrollments, nome, Todos)|
    ensures st.paid == |FilteredStudents(enrollments, nome, Pago)|
    ensures st.pending == |FilteredStudents(enrollments, nome, Pendente)|
    ensures st.paid + st.pending == st.total
  {
    var students := Students(enrollments, nome);
    var paid := |Filter(students, PassesFilter(Pago))|;
    PaidPendingPartition(enrollments, nome);
    PaymentStats(|students|, paid, |students| - paid)
  }

  /** The number on a course's students button: `alunos_count || stats.total`. */
  function ShownCount(c: Curso, st: PaymentStats): (n: int)
    ensures c.alunosCount.Some? && c.alunosCount.value != 0 ==> n == c.alunosCount.value
    ensures c.alunosCount.None? || c.alunosCount.value == 0 ==> n == st.total
  {
    if c.alunosCount.Some? && c.alunosCount.value != 0 then c.alunosCount.value else st.total
  }

  /** For a fetched course the button shows 0 exactly when no non-cancelled
      row of the table and no loaded enrolment is filed under its name. */
  lemma ShownCountZero(cursos: seq<Curso>, rows: seq<DbEnrollment>, enrollments: seq<Stored>, i: nat)
    requires i < |cursos|
    ensures var c := WithCounts(cursos, rows)[i];
      ShownCount(c, Stats(enrollments, c.nome)) == 0
      <==> Count(rows, EnrolledIn(cursos[i].nome)) == 0 && Students(enrollments, cursos[i].nome) == []
  {
  }

  // ---- expanding a course ----

  /** Which course shows its students, and the payment tab selected. */
  datatype Expansion = Expansion(expanded: Option<int>, filter: PaymentFilter)

  /** `toggleExpand`: a click on the open course closes it, a click on any
      other opens that one instead; the tab goes back to 'todos'. */
  function Toggle(st: Expansion, id: int): (r: Expansion)
    ensures r.filter == Todos
    ensures r.expanded == Some(id) <==> st.expanded != Some(id)
    ensures r.expanded == None || r.expanded == Some(id)
  {
    Expansion(if st.expanded == Some(id) then None else Some(id), Todos)
  }

  /** Two clicks on the same course leave it open or closed as it was,
      unless another course was open, which the first click closed. */
  lemma ToggleTwice(st: Expansion, id: int)
    ensures Toggle(Toggle(st, id), id).expanded == (if st.expanded == Some(id) then Some(id) else None)
  {
  }

  /** The footer: the number of courses listed, then 'curso' or 'cursos'. */
  function Footer(data: seq<Curso>, search: string): (r: string)
    ensures ParseInt(r) == Some(|Search(data, search)|)
  {
    CountLabelReadsBack(|Search(data, search)|, "curso", "cursos");
    CountLabel(|Search(data, search)|, "curso", "cursos")
  }
}

=== FILE: dashboard_stats.dfy ===
/** The dashboard figures computed from the enrollment records
    (`getDashboardStats` in utils/csvProcessor.ts).

    One pass over the records accumulates the totals, a group-by per
    attendant and per course, a count per status, a count per enrollment
    date and the set of classes. The group-bys are `TallyBy` (count, amount
    to receive, amount received); the output lists are then sorted. */
module DashboardStats {
  import opened Seqs
  import opened Strings
  import opened Calendar
  import opened Types
  import opened Grouping
  import opened Sorting
  import opened Ranking
  import opened CsvProcessor

  /** `{ name, value }` of the status distribution. */
  datatype Slice = Slice(name: string, value: nat)

  /** `{ date, count, rawDate }` of the daily series. */
  datatype Daily = Daily(date: string, count: nat, rawDate: JsDate)

  /** `AttendantMetric` and `CourseMetric` are accumulators: `key` is the
      name, `count` the enrollment count, `first` the total sales and
      `second` the total received. */
  type Metric = Tally<string>

  datatype Stats = Stats(
    totalSales: int,
    totalReceived: int,
    totalEnrollments: nat,
    averageTicket: int,
    availableClasses: seq<string>,
    attendantMetrics: seq<Metric>,
    courseMetrics: seq<Metric>,
    statusDistribution: seq<Slice>,
    dailyEnrollments: seq<Daily>)

  function Sales(e: Enrollment): int { e.totalAReceber }
  function ReceivedAmount(e: Enrollment): int { e.totalRecebido }
  function Attendant(e: Enrollment): string { e.atendente }
  function Course(e: Enrollment): string { e.pacote }
  function Status(e: Enrollment): string { e.situacao }
  function ClassOf(e: Enrollment): string { e.turma }
  function Nothing(e: Enrollment): int { 0 }

  /** A record enters the daily series when `parseDate` gives a date
      (Invalid Date included: it is an object, so truthy). */
  predicate Dated(e: Enrollment) {
    ParseDate(e.dataMatricula).Some?
  }

  /** The daily series is keyed by the trimmed date text. */
  function DateKey(e: Enrollment): string { Trim(e.dataMatricula) }

  /** `Math.round(total / n * 100) / 100` in cents: the mean rounded to the
      nearest cent, halves up; 0 for no records. */
  function AverageTicket(total: int, n: nat): (a: int)
    ensures n == 0 ==> a == 0
    ensures n > 0 ==> 2 * n * a <= 2 * total + n < 2 * n * (a + 1)
  {
    if n == 0 then 0 else (2 * total + n) / (2 * n)
  }

  /** The date kept for a day: the parse of the first record with that key. */
  function RawDate(dated: seq<Enrollment>, k: string): JsDate {
    match FirstWhere(dated, e => DateKey(e) == k)
    case None => InvalidDate
    case Some(i) =>
      match ParseDate(dated[i].dataMatricula)
      case None => InvalidDate
      case Some(d) => d
  }

  /** Sort key of the daily series: the day number; Invalid Date last. */
  function DayKey(d: Daily): int {
    if d.rawDate.Day? then d.rawDate.n else MaxDay + 1
  }

  function DailyCount(d: Daily): int { d.count }
  function SliceValue(x: Slice): int { x.value }

  /** The day entry of one date's accumulator. */
  function DailyOf(dated: seq<Enrollment>): Metric -> Daily {
    (t: Metric) => Daily(t.key, t.count, RawDate(dated, t.key))
  }

  /** The accumulators of the records with a parseable date, by date text. */
  function DatedTallies(data: seq<Enrollment>): seq<Metric> {
    TallyBy(Filter(data, Dated), DateKey, Nothing, Nothing)
  }

  function Dailies(data: seq<Enrollment>): seq<Daily> {
    SortBy(Map(DatedTallies(data), DailyOf(Filter(data, Dated))), DayKey)
  }

  function Statuses(data: seq<Enrollment>): seq<Slice> {
    Map(TallyBy(data, Status, Nothing, Nothing), (t: Metric) => Slice(t.key, t.count))
  }

  /** `Array.from(new Set(turmas)).sort()`: each class of the records,
      once, in string order. */
  function ClassList(data: seq<Enrollment>): (cs: seq<string>)
    ensures StrSorted(cs) && Distinct(cs)
    ensures forall c :: c in cs <==> exists i :: 0 <= i < |data| && data[i].turma == c
  {
    ClassListFacts(data);
    SortStrings(Dedup(Map(data, ClassOf)))
  }

  lemma ClassListFacts(data: seq<Enrollment>)
    ensures var cs := SortStrings(Dedup(Map(data, ClassOf)));
      && StrSorted(cs) && Distinct(cs)
      && (forall c :: c in cs <==> exists i :: 0 <= i < |data| && data[i].turma == c)
  {
    var m := Map(data, ClassOf);
    var d := Dedup(m);
    var cs := SortStrings(d);
    PermutationDistinct(cs, d);
    forall c
      ensures c in cs <==> exists i :: 0 <= i < |data| && data[i].turma == c
    {
      assert c in cs <==> c in multiset(cs);
      assert c in d <==> c in multiset(d);
      if c in m {
        var i :| 0 <= i < |m| && m[i] == c;
        assert data[i].turma == c;
      }
      if exists i :: 0 <= i < |data| && data[i].turma == c {
        var i :| 0 <= i < |data| && data[i].turma == c;
        assert m[i] == c;
      }
    }
  }

  /** `getDashboardStats`. */
  function GetDashboardStats(data: seq<Enrollment>): (st: Stats)
    ensures st.totalEnrollments == |data|
    ensures st.totalSales == Sum(data, Sales) && st.totalReceived == Sum(data, ReceivedAmount)
    ensures st.averageTicket == AverageTicket(st.totalSales, |data|)
    ensures forall i, j :: 0 <= i < j < |st.attendantMetrics| ==> st.attendantMetrics[i].first >= st.attendantMetrics[j].first
    ensures forall i, j :: 0 <= i < j < |st.courseMetrics| ==> st.courseMetrics[i].first >= st.courseMetrics[j].first
    ensures forall i, j :: (0 <= i < j < |st.attendantMetrics| && st.attendantMetrics[i].first == st.attendantMetrics[j].first
      ==> FirstSeenBefore(data, Attendant, st.attendantMetrics[i].key, st.attendantMetrics[j].key))
    ensures forall i, j :: (0 <= i < j < |st.courseMetrics| && st.courseMetrics[i].first == st.courseMetrics[j].first
      ==> FirstSeenBefore(data, Course, st.courseMetrics[i].key, st.courseMetrics[j].key))
    ensures st.availableClasses == ClassList(data)
  {
    RankTiesFirstSeen(data, Attendant, Sales, ReceivedAmount, TallyFirst);
    RankTiesFirstSeen(data, Course, Sales, ReceivedAmount, TallyFirst);
    var totalSales := Sum(data, Sales);
    Stats(
      totalSales,
      Sum(data, ReceivedAmount),
      |data|,
      AverageTicket(totalSales, |data|),
      ClassList(data),
      RankBy(data, Attendant, Sales, ReceivedAmount, TallyFirst),
      RankBy(data, Course, Sales, ReceivedAmount, TallyFirst),
      Statuses(data),
      Dailies(data))
  }

  /** The attendant metrics partition the enrollment count, the sales and
      the amount received; so do the course metrics. */
  lemma MetricsPartition(data: seq<Enrollment>)
    ensures var st := GetDashboardStats(data);
      && Sum(st.attendantMetrics, TallyCount) == |data|
      && Sum(st.attendantMetrics, TallyFirst) == st.totalSales
      && Sum(st.attendantMetrics, TallySecond) == st.totalReceived
      && Sum(st.courseMetrics, TallyCount) == |data|
      && Sum(st.courseMetrics, TallyFirst) == st.totalSales
      && Sum(st.courseMetrics, TallySecond) == st.totalReceived
  {
    RankPartition(data, Attendant, Sales, ReceivedAmount, TallyFirst);
    RankPartition(data, Course, Sales, ReceivedAmount, TallyFirst);
  }

  /** Each attendant metric counts and sums exactly that attendant's
      records; every attendant has exactly one metric. */
  lemma AttendantMetricsContents(data: seq<Enrollment>)
    ensures var ms := GetDashboardStats(data).attendantMetrics;
      && (forall m :: m in ms ==>
            var rows := RowsWithKey(data, Attendant, m.key);
            m.count == |rows| && m.first == Sum(rows, Sales) && m.second == Sum(rows, ReceivedAmount))
      && (forall i :: 0 <= i < |data| ==> exists m :: m in ms && m.key == data[i].atendente)
      && (forall i, j :: 0 <= i < j < |ms| ==> ms[i].key != ms[j].key)
  {
    RankContents(data, Attendant, Sales, ReceivedAmount, TallyFirst);
    RankCovers(data, Attendant, Sales, ReceivedAmount, TallyFirst);
    RankDistinct(data, Attendant, Sales, ReceivedAmount, TallyFirst);
  }

  /** Each course metric counts and sums exactly that course's records;
      every course has exactly one metric. */
  lemma CourseMetricsContents(data: seq<Enrollment>)
    ensures var ms := GetDashboardStats(data).courseMetrics;
      && (forall m :: m in ms ==>
            var rows := RowsWithKey(data, Course, m.key);
            m.count == |rows| && m.first == Sum(rows, Sales) && m.second == Sum(rows, ReceivedAmount))
      && (forall i :: 0 <= i < |data| ==> exists m :: m in ms && m.key == data[i].pacote)
      && (forall i, j :: 0 <= i < j < |ms| ==> ms[i].key != ms[j].key)
  {
    RankContents(data, Course, Sales, ReceivedAmount, TallyFirst);
    RankCovers(data, Course, Sales, ReceivedAmount, TallyFirst);
    RankDistinct(data, Course, Sales, ReceivedAmount, TallyFirst);
  }

  /** The status counts add up to the number of records, and each is the
      number of records with that status. */
  lemma StatusPartition(data: seq<Enrollment>)
    ensures Sum(GetDashboardStats(data).statusDistribution, SliceValue) == |data|
    ensures forall i :: 0 <= i < |GetDashboardStats(data).statusDistribution| ==>
      var x := GetDashboardStats(data).statusDistribution[i];
      x.value == |RowsWithKey(data, Status, x.name)|
  {
    var t := TallyBy(data, Status, Nothing, Nothing);
    TallyByPartition(data, Status, Nothing, Nothing);
    TallyByContents(data, Status, Nothing, Nothing);
    SumMap(t, (t: Metric) => Slice(t.key, t.count), SliceValue, TallyCount);
  }

  /** The status distribution lists each status once, in the order of its
      first record (it is not sorted). */
  lemma StatusOrder(data: seq<Enrollment>)
    ensures |GetDashboardStats(data).statusDistribution| == |KeysOf(data, Status)|
    ensures forall i :: 0 <= i < |GetDashboardStats(data).statusDistribution| ==>
      GetDashboardStats(data).statusDistribution[i].name == KeysOf(data, Status)[i]
  {
    TallyByContents(data, Status, Nothing, Nothing);
  }

  /** The daily counts add up to the number of records with a parseable
      date, so to at most the number of records. */
  lemma DailyPartition(data: seq<Enrollment>)
    ensures Sum(GetDashboardStats(data).dailyEnrollments, DailyCount) == Count(data, Dated) <= |data|
  {
    var dated := Filter(data, Dated);
    var t := DatedTallies(data);
    TallyByPartition(dated, DateKey, Nothing, Nothing);
    SumMap(t, DailyOf(dated), DailyCount, TallyCount);
    SumOfPermutation(Dailies(data), Map(t, DailyOf(dated)), DailyCount);
  }

  /** The daily series is in date order, Invalid Dates after the valid
      ones; each day counts the dated records with that date text. */
  lemma DailyOrder(data: seq<Enrollment>)
    ensures var ds := GetDashboardStats(data).dailyEnrollments;
      && (forall i, j :: 0 <= i < j < |ds| && ds[j].rawDate.Day? ==>
            ds[i].rawDate.Day? && ds[i].rawDate.n <= ds[j].rawDate.n)
  {
    var ds := Dailies(data);
    assert SortedBy(ds, DayKey);
    forall i, j | 0 <= i < j < |ds| && ds[j].rawDate.Day?
      ensures ds[i].rawDate.Day? && ds[i].rawDate.n <= ds[j].rawDate.n
    {
      assert DayKey(ds[i]) <= DayKey(ds[j]);
      assert ds[j].rawDate.n <= MaxDay by {
        DailyDatesInRange(data, ds[j]);
      }
    }
  }

  /** Each entry of the series is the day entry of one accumulator. */
  lemma DailyFromTally(data: seq<Enrollment>, d: Daily) returns (i: nat)
    requires d in Dailies(data)
    ensures i < |DatedTallies(data)| && d == DailyOf(Filter(data, Dated))(DatedTallies(data)[i])
  {
    var m := Map(DatedTallies(data), DailyOf(Filter(data, Dated)));
    assert d in multiset(Dailies(data));
    assert d in multiset(m);
    i :| 0 <= i < |m| && m[i] == d;
  }

  /** Each day of the series counts exactly the dated records whose
      trimmed date text is that day's. */
  lemma DailyContents(data: seq<Enrollment>)
    ensures forall d :: d in GetDashboardStats(data).dailyEnrollments ==>
      d.count == |RowsWithKey(Filter(data, Dated), DateKey, d.date)|
  {
    var dated := Filter(data, Dated);
    TallyByContents(dated, DateKey, Nothing, Nothing);
    forall d | d in Dailies(data)
      ensures d.count == |RowsWithKey(dated, DateKey, d.date)|
    {
      var i := DailyFromTally(data, d);
      assert DatedTallies(data)[i] in TallyBy(dated, DateKey, Nothing, Nothing);
    }
  }

  /** Every valid date of the series is a date `parseDate` can build. */
  lemma DailyDatesInRange(data: seq<Enrollment>, d: Daily)
    requires d in Dailies(data) && d.rawDate.Day?
    ensures d.rawDate.n <= MaxDay
  {
    var i := DailyFromTally(data, d);
    RawDateInRange(Filter(data, Dated), DatedTallies(data)[i].key);
  }

  lemma RawDateInRange(dated: seq<Enrollment>, k: string)
    ensures RawDate(dated, k).Day? ==> RawDate(dated, k).n <= MaxDay
  {
    var w := FirstWhere(dated, e => DateKey(e) == k);
    if w.Some? {
      var p := ParseDate(dated[w.value].dataMatricula);
    }
  }
}

=== FILE: date_text.dfy ===
/** Dates as text: the `YYYY-MM-DD` form the database stores and the
    screens compare as strings, its reading by `new Date(s)`, and the
    `DD/MM` form of the charts. */
module DateText {
  import opened Seqs
  import opened Strings
  import opened Calendar
  import opened Sorting

  // ---------------------------------------------------------------------
  // Writing

  /** `${getFullYear()}-${MM}-${DD}` with month and day padded to two
      places (`toDateStr`). */
  function IsoText(c: Civil): string
    requires c.month >= 0 && c.day >= 0
  {
    IntToString(c.year) + "-" + Pad2(c.month) + "-" + Pad2(c.day)
  }

  function IsoDate(z: int): string {
    IsoText(ToCivil(z))
  }

  /** `DD/MM` of a day (`formatDateBR`). */
  function DayMonth(z: int): string {
    var c := ToCivil(z);
    Pad2(c.day) + "/" + Pad2(c.month)
  }

  // ---------------------------------------------------------------------
  // Reading

  /** The fields of a `YYYY-MM-DD` text, before any range check. */
  function IsoFields(s: string): (c: Option<Civil>)
    ensures c.Some? ==> |s| == 10 && s[4] == '-' && s[7] == '-'
  {
    if |s| == 10 && s[4] == '-' && s[7] == '-'
      && AllDigits(s[..4]) && AllDigits(s[5..7]) && AllDigits(s[8..])
    then Some(Civil(DigitsValue(s[..4]), DigitsValue(s[5..7]), DigitsValue(s[8..])))
    else None
  }

  /** `new Date(s)` for the `YYYY-MM-DD` form, read as UTC midnight: a
      valid calendar date gives its day number; every other text is an
      Invalid Date here. */
  function ParseIso(s: string): (d: JsDate)
    ensures d.Day? <==> IsoFields(s).Some? && ValidCivil(IsoFields(s).value)
    ensures d.Day? ==> d.n == FromCivil(IsoFields(s).value)
  {
    match IsoFields(s)
    case None => InvalidDate
    case Some(c) => if ValidCivil(c) then Day(FromCivil(c)) else InvalidDate
  }

  /** Four digits, a dash, two digits, a dash and two digits are read as
      those three numbers. */
  lemma IsoFieldsParts(y: string, m: string, d: string)
    requires |y| == 4 && |m| == 2 && |d| == 2 && AllDigits(y) && AllDigits(m) && AllDigits(d)
    ensures IsoFields(y + "-" + m + "-" + d) == Some(Civil(DigitsValue(y), DigitsValue(m), DigitsValue(d)))
  {
    var s := y + "-" + m + "-" + d;
    assert s[..4] == y;
    assert s[5..7] == m;
    assert s[8..] == d;
  }

  /** A year of four digits, a month and a day of two, forming a valid date,
      are read as that date. */
  lemma ParseIsoParts(y: string, m: string, d: string)
    requires |y| == 4 && |m| == 2 && |d| == 2 && AllDigits(y) && AllDigits(m) && AllDigits(d)
    requires ValidCivil(Civil(DigitsValue(y), DigitsValue(m), DigitsValue(d)))
    ensures ParseIso(y + "-" + m + "-" + d) == Day(FromCivil(Civil(DigitsValue(y), DigitsValue(m), DigitsValue(d))))
  {
    IsoFieldsParts(y, m, d);
  }

  /** A four-digit year. */
  predicate FourDigitYear(c: Civil) {
    1000 <= c.year <= 9999
  }

  /** The text of a date of a four-digit year is four digits, two and two. */
  lemma IsoTextShape(c: Civil)
    requires FourDigitYear(c) && ValidCivil(c)
    ensures var y, m, d := NatToString(c.year), Pad2(c.month), Pad2(c.day);
      IsoText(c) == y + "-" + m + "-" + d
      && |y| == 4 && |m| == 2 && |d| == 2 && AllDigits(y) && AllDigits(m) && AllDigits(d)
      && DigitsValue(y) == c.year && DigitsValue(m) == c.month && DigitsValue(d) == c.day
  {
    NatToStringLength(c.year);
    Pad2Value(c.month);
    Pad2Value(c.day);
  }

  /** A day written with `toDateStr` and read back with `new Date(s)` is
      the same day, for the years of four digits. */
  lemma IsoDateRoundTrip(z: int)
    requires FourDigitYear(ToCivil(z))
    ensures ParseIso(IsoDate(z)) == Day(z)
  {
    var c := ToCivil(z);
    IsoTextShape(c);
    ParseIsoParts(NatToString(c.year), Pad2(c.month), Pad2(c.day));
  }

  /** `String(n)` has as many digits as the powers of ten below `n`. */
  lemma NatToStringLength(n: nat)
    ensures 1000 <= n <= 9999 ==> |NatToString(n)| == 4
  {
    if 1000 <= n <= 9999 {
      assert n / 10 / 10 / 10 < 10;
      assert 100 <= n / 10 < 1000;
      assert |NatToString(n / 10 / 10)| == 2;
    }
  }

  // ---------------------------------------------------------------------
  // Order

  /** Two texts of dates of four-digit years compare, as strings, like the
      dates they write. */
  lemma IsoTextOrder(a: Civil, b: Civil)
    requires FourDigitYear(a) && ValidCivil(a) && FourDigitYear(b) && ValidCivil(b)
    ensures StrLe(IsoText(a), IsoText(b)) <==> CivilLe(a, b)
  {
    IsoTextShape(a);
    IsoTextShape(b);
    assert IsoText(a) == NatToString(a.year) + DashThen(Pad2(a.month) + DashThen(Pad2(a.day)));
    assert IsoText(b) == NatToString(b.year) + DashThen(Pad2(b.month) + DashThen(Pad2(b.day)));
    ThreeBlocksLe(NatToString(a.year), Pad2(a.month), Pad2(a.day), NatToString(b.year), Pad2(b.month), Pad2(b.day));
  }

  /** Two days of four-digit years compare, written with `toDateStr`, as
      their day numbers do. */
  lemma IsoDateOrder(x: int, y: int)
    requires FourDigitYear(ToCivil(x)) && FourDigitYear(ToCivil(y))
    ensures StrLe(IsoDate(x), IsoDate(y)) <==> x <= y
  {
    IsoTextOrder(ToCivil(x), ToCivil(y));
    DayOrder(ToCivil(x), ToCivil(y));
  }

  /** Texts `Y-M-D` with blocks of equal widths compare block by block. */
  lemma ThreeBlocksLe(ya: string, ma: string, da: string, yb: string, mb: string, db: string)
    requires |ya| == |yb| && |ma| == |mb| && |da| == |db|
    requires AllDigits(ya) && AllDigits(ma) && AllDigits(da) && AllDigits(yb) && AllDigits(mb) && AllDigits(db)
    ensures StrLe(ya + DashThen(ma + DashThen(da)), yb + DashThen(mb + DashThen(db))) <==>
      DigitsValue(ya) < DigitsValue(yb) || (DigitsValue(ya) == DigitsValue(yb) &&
      (DigitsValue(ma) < DigitsValue(mb) || (DigitsValue(ma) == DigitsValue(mb) && DigitsValue(da) <= DigitsValue(db))))
  {
    TwoBlocksLe(ma, da, mb, db);
    BlockLe(ya, DashThen(ma + DashThen(da)), yb, DashThen(mb + DashThen(db)));
  }

  function DashThen(s: string): string {
    "-" + s
  }

  /** `-M-D` texts compare by month, then by day. */
  lemma TwoBlocksLe(ma: string, da: string, mb: string, db: string)
    requires |ma| == |mb| && |da| == |db|
    requires AllDigits(ma) && AllDigits(da) && AllDigits(mb) && AllDigits(db)
    ensures StrLe(DashThen(ma + DashThen(da)), DashThen(mb + DashThen(db))) <==>
      DigitsValue(ma) < DigitsValue(mb) || (DigitsValue(ma) == DigitsValue(mb) && DigitsValue(da) <= DigitsValue(db))
  {
    DigitsLe(da, db);
    DashLe(da, db);
    BlockLe(ma, DashThen(da), mb, DashThen(db));
    DashLe(ma + DashThen(da), mb + DashThen(db));
  }

  /** Leading digit blocks of one width decide the order unless their
      values are equal. */
  lemma BlockLe(x: string, r: string, y: string, t: string)
    requires |x| == |y| && AllDigits(x) && AllDigits(y)
    ensures StrLe(x + r, y + t) <==>
      DigitsValue(x) < DigitsValue(y) || (DigitsValue(x) == DigitsValue(y) && StrLe(r, t))
  {
    FixedWidthLe(x, r, y, t);
    DigitsLe(x, y);
    DigitsEqual(x, y);
  }

  lemma DashLe(r: string, t: string)
    ensures StrLe(DashThen(r), DashThen(t)) <==> StrLe(r, t)
  {
    assert DashThen(r)[1..] == r && DashThen(t)[1..] == t;
  }

  /** Strings that begin with blocks of the same width compare by those
      blocks first, and by the rest when the blocks are equal. */
  lemma {:induction false} FixedWidthLe(x: string, r: string, y: string, t: string)
    requires |x| == |y|
    ensures StrLe(x + r, y + t) <==> (x != y && StrLe(x, y)) || (x == y && StrLe(r, t))
  {
    if |x| == 0 {
      assert x + r == r && y + t == t;
    } else {
      assert (x + r)[0] == x[0] && (y + t)[0] == y[0];
      assert (x + r)[1..] == x[1..] + r && (y + t)[1..] == y[1..] + t;
      FixedWidthLe(x[1..], r, y[1..], t);
      assert x == [x[0]] + x[1..] && y == [y[0]] + y[1..];
    }
  }

  /** Digit strings of the same width compare, as strings, like the numbers
      they write. */
  lemma {:induction false} DigitsLe(x: string, y: string)
    requires |x| == |y| && AllDigits(x) && AllDigits(y)
    ensures StrLe(x, y) <==> DigitsValue(x) <= DigitsValue(y)
  {
    if |x| > 0 {
      var p := Pow10(|x| - 1);
      var dx, dy := DigitValue(x[0]), DigitValue(y[0]);
      var rx, ry := DigitsValue(x[1..]), DigitsValue(y[1..]);
      DigitsFront(x);
      DigitsFront(y);
      DigitsBelow(x[1..]);
      DigitsBelow(y[1..]);
      DigitsLe(x[1..], y[1..]);
      FrontOrder(dx, dy, rx, ry, p, DigitsValue(x), DigitsValue(y));
      assert x[0] < y[0] <==> dx < dy;
      assert x[0] == y[0] <==> dx == dy;
    }
  }

  /** Numbers written with the same width compare by their leading digit
      first and the rest after. */
  lemma FrontOrder(dx: nat, dy: nat, rx: nat, ry: nat, p: nat, vx: int, vy: int)
    requires vx == dx * p + rx && vy == dy * p + ry && rx < p && ry < p
    ensures vx <= vy <==> dx < dy || (dx == dy && rx <= ry)
  {
    if dx < dy {
      LeadingDigitLess(dx, dy, rx, ry, p);
    } else if dy < dx {
      LeadingDigitLess(dy, dx, ry, rx, p);
    }
  }

  /** A smaller leading digit makes a smaller number, whatever follows. */
  lemma LeadingDigitLess(a: nat, b: nat, r: nat, t: nat, p: nat)
    requires a < b && r < p
    ensures a * p + r < b * p + t
  {
    MulLe(a + 1, b, p);
    assert (a + 1) * p == a * p + p;
  }

  /** Digit strings of the same width are equal when their values are. */
  lemma {:induction false} DigitsEqual(x: string, y: string)
    requires |x| == |y| && AllDigits(x) && AllDigits(y)
    ensures x == y <==> DigitsValue(x) == DigitsValue(y)
  {
    DigitsLe(x, y);
    DigitsLe(y, x);
    if DigitsValue(x) == DigitsValue(y) {
      StrLeAntisymmetric(x, y);
    }
  }

  lemma MulLe(a: nat, b: nat, p: nat)
    requires a <= b
    ensures a * p <= b * p
  {
  }

  /** The first digit weighs a power of ten. */
  lemma {:induction false} DigitsFront(s: string)
    requires |s| > 0 && AllDigits(s)
    ensures DigitsValue(s) == DigitValue(s[0]) * Pow10(|s| - 1) + DigitsValue(s[1..])
  {
    var n := |s|;
    if n > 1 {
      var init := s[..n - 1];
      DigitsFront(init);
      assert init[0] == s[0];
      assert init[1..] == s[1..][..n - 2];
      var d, p, mid, last := DigitValue(s[0]), Pow10(n - 2), DigitsValue(init[1..]), DigitValue(s[n - 1]);
      assert DigitsValue(s) == DigitsValue(init) * 10 + last;
      assert DigitsValue(init) == d * p + mid;
      assert s[1..][n - 2] == s[n - 1];
      assert DigitsValue(s[1..]) == mid * 10 + last;
      Shift(d, p, mid);
      assert Pow10(n - 1) == p * 10;
    } else {
      assert s[..0] == [] && s[1..] == [];
    }
  }

  lemma Shift(d: int, p: int, m: int)
    ensures (d * p + m) * 10 == d * (p * 10) + m * 10
  {
  }

  /** A string of `n` digits writes a number below `10^n`. */
  lemma {:induction false} DigitsBelow(s: string)
    requires AllDigits(s)
    ensures DigitsValue(s) < Pow10(|s|)
  {
    if |s| > 0 {
      DigitsBelow(s[..|s| - 1]);
      assert DigitsValue(s[..|s| - 1]) + 1 <= Pow10(|s| - 1);
      MulLe(DigitsValue(s[..|s| - 1]) + 1, Pow10(|s| - 1), 10);
    }
  }
}

=== FILE: desempenho.dfy ===
/** The vendor performance screen (components/DesempenhoManager.tsx): the
    enrollments grouped by vendor, each vendor with its courses, its
    contract-signature counts and its amounts, ranked by number of
    enrollments; and the signature totals over all enrollments. */
module Desempenho {
  import opened Seqs
  import opened Types
  import opened Grouping
  import opened Ranking

  /** One vendor of the ranking. */
  datatype VendorStat = VendorStat(
    name: string,
    rows: seq<DbEnrollment>,
    courses: seq<Tally<string>>,
    digital: nat,
    presencial: nat,
    pendente: nat,
    total: nat,
    totalValue: int,
    totalReceived: int)

  function Total(v: VendorStat): int { v.total }
  function TotalValue(v: VendorStat): int { v.totalValue }
  function TotalReceived(v: VendorStat): int { v.totalReceived }
  function Digital(v: VendorStat): int { v.digital }
  function InPerson(v: VendorStat): int { v.presencial }
  function Pending(v: VendorStat): int { v.pendente }

  function NoWeight(r: DbEnrollment): int { 0 }
  function OneRow(r: DbEnrollment): int { 1 }

  /** `courses`: the vendor's enrollments counted per course (`pacote`, or
      'Outros' when empty), most enrollments first. */
  function CourseBreakdown(rows: seq<DbEnrollment>): (cs: seq<Tally<string>>)
    ensures forall i, j :: 0 <= i < j < |cs| ==> cs[i].count >= cs[j].count
    ensures Sum(cs, TallyCount) == |rows|
    ensures forall m :: m in cs ==> m.count == |RowsWithKey(rows, CourseOf, m.key)|
  {
    RankPartition(rows, CourseOf, NoWeight, NoWeight, TallyCount);
    RankContents(rows, CourseOf, NoWeight, NoWeight, TallyCount);
    RankBy(rows, CourseOf, NoWeight, NoWeight, TallyCount)
  }

  /** The figures of a vendor entry are those of its own enrollments: the
      signature counts, the number of rows and the two amount sums. */
  predicate FromOwnRows(v: VendorStat) {
    && v.total == |v.rows|
    && v.digital == Count(v.rows, SignedDigital)
    && v.presencial == Count(v.rows, SignedInPerson)
    && v.pendente == Count(v.rows, SignaturePending)
    && v.totalValue == Sum(v.rows, Receivable)
    && v.totalReceived == Sum(v.rows, Received)
  }

  /** The entry of one vendor, from the vendor's enrollments. */
  function VendorEntry(name: string, rows: seq<DbEnrollment>): (v: VendorStat)
    ensures v.name == name && v.rows == rows && v.total == |rows|
    ensures v.digital == Count(rows, SignedDigital) && v.presencial == Count(rows, SignedInPerson)
    ensures v.pendente == Count(rows, SignaturePending)
    ensures v.totalValue == Sum(rows, Receivable) && v.totalReceived == Sum(rows, Received)
    ensures v.digital + v.presencial + v.pendente <= v.total
    ensures forall m :: m in v.courses ==> m.count == |RowsWithKey(rows, CourseOf, m.key)|
    ensures Sum(v.courses, TallyCount) == v.total
    ensures forall i, j :: 0 <= i < j < |v.courses| ==> v.courses[i].count >= v.courses[j].count
  {
    SignatureClassesDisjoint(rows);
    VendorStat(name, rows, CourseBreakdown(rows),
      Count(rows, SignedDigital), Count(rows, SignedInPerson), Count(rows, SignaturePending),
      |rows|, Sum(rows, Receivable), Sum(rows, Received))
  }

  function ToVendor(data: seq<DbEnrollment>): Tally<string> -> VendorStat {
    (m: Tally<string>) => VendorEntry(m.key, RowsWithKey(data, VendorOf, m.key))
  }

  /** `vendorStats`: one entry per vendor (`atendente`, or 'Não informado'),
      holding exactly that vendor's enrollments, most enrollments first. */
  function VendorStats(data: seq<DbEnrollment>): (vs: seq<VendorStat>)
    ensures forall i, j :: 0 <= i < j < |vs| ==> vs[i].total >= vs[j].total
    ensures forall v :: v in vs ==> v.rows == RowsWithKey(data, VendorOf, v.name)
    ensures forall v :: v in vs ==> FromOwnRows(v)
    ensures forall i, j :: 0 <= i < j < |vs| ==> vs[i].name != vs[j].name
    ensures forall i :: 0 <= i < |data| ==> exists v :: v in vs && v.name == VendorOf(data[i])
    ensures forall i, j :: (0 <= i < j < |vs| && vs[i].total == vs[j].total
      ==> FirstSeenBefore(data, VendorOf, vs[i].name, vs[j].name))
  {
    var r := RankBy(data, VendorOf, Receivable, Received, TallyCount);
    RankTiesFirstSeen(data, VendorOf, Receivable, Received, TallyCount);
    VendorsFollowRanking(data, r);
    VendorsOwnRows(data, r);
    VendorsCover(data, r);
    Map(r, ToVendor(data))
  }

  lemma VendorsFollowRanking(data: seq<DbEnrollment>, r: seq<Tally<string>>)
    requires r == RankBy(data, VendorOf, Receivable, Received, TallyCount)
    ensures var vs := Map(r, ToVendor(data));
      && (forall i :: 0 <= i < |vs| ==> vs[i].name == r[i].key && vs[i].total == r[i].count)
      && (forall i, j :: 0 <= i < j < |vs| ==> vs[i].total >= vs[j].total)
      && (forall i, j :: 0 <= i < j < |vs| ==> vs[i].name != vs[j].name)
  {
    RankContents(data, VendorOf, Receivable, Received, TallyCount);
    RankDistinct(data, VendorOf, Receivable, Received, TallyCount);
    var vs := Map(r, ToVendor(data));
    forall i | 0 <= i < |vs|
      ensures vs[i].name == r[i].key && vs[i].total == r[i].count
    {
      assert r[i] in r;
    }
  }

  lemma VendorsOwnRows(data: seq<DbEnrollment>, r: seq<Tally<string>>)
    ensures var vs := Map(r, ToVendor(data));
      && (forall v :: v in vs ==> v.rows == RowsWithKey(data, VendorOf, v.name))
      && (forall v :: v in vs ==> FromOwnRows(v))
  {
    var vs := Map(r, ToVendor(data));
    forall v | v in vs
      ensures v.rows == RowsWithKey(data, VendorOf, v.name) && FromOwnRows(v)
    {
      var i := IndexOf(vs, v);
      assert v == VendorEntry(r[i].key, RowsWithKey(data, VendorOf, r[i].key));
    }
  }

  lemma VendorsCover(data: seq<DbEnrollment>, r: seq<Tally<string>>)
    requires r == RankBy(data, VendorOf, Receivable, Received, TallyCount)
    ensures var vs := Map(r, ToVendor(data));
      forall i :: 0 <= i < |data| ==> exists v :: v in vs && v.name == VendorOf(data[i])
  {
    RankCovers(data, VendorOf, Receivable, Received, TallyCount);
    var vs := Map(r, ToVendor(data));
    forall i | 0 <= i < |data|
      ensures exists v :: v in vs && v.name == VendorOf(data[i])
    {
      var m :| m in r && m.key == VendorOf(data[i]);
      var j := IndexOf(r, m);
      NameAt(data, r, j);
      assert vs[j] in vs && vs[j].name == VendorOf(data[i]);
    }
  }

  lemma NameAt(data: seq<DbEnrollment>, r: seq<Tally<string>>, j: nat)
    requires j < |r|
    ensures Map(r, ToVendor(data))[j].name == r[j].key
  {
  }

  /** The vendors partition the enrollments: their totals, amounts and
      signature counts add up to those of all enrollments. */
  lemma VendorStatsPartition(data: seq<DbEnrollment>)
    ensures Sum(VendorStats(data), Total) == |data|
    ensures Sum(VendorStats(data), TotalValue) == Sum(data, Receivable)
    ensures Sum(VendorStats(data), TotalReceived) == Sum(data, Received)
  {
    var r := RankBy(data, VendorOf, Receivable, Received, TallyCount);
    var f := ToVendor(data);
    forall m: Tally<string>
      ensures RowsSum(data, VendorOf, OneRow)(m) == Total(f(m))
    {
      SumOnes(RowsWithKey(data, VendorOf, m.key), OneRow);
    }
    SumMap(r, f, Total, RowsSum(data, VendorOf, OneRow));
    RankSplits(data, VendorOf, Receivable, Received, TallyCount, OneRow);
    SumOnes(data, OneRow);
    SumMap(r, f, TotalValue, RowsSum(data, VendorOf, Receivable));
    RankSplits(data, VendorOf, Receivable, Received, TallyCount, Receivable);
    SumMap(r, f, TotalReceived, RowsSum(data, VendorOf, Received));
    RankSplits(data, VendorOf, Receivable, Received, TallyCount, Received);
  }

  /** A signature count summed over the vendors is that count over all
      enrollments. */
  lemma VendorSignaturesPartition(data: seq<DbEnrollment>)
    ensures Sum(VendorStats(data), Digital) == Count(data, SignedDigital)
    ensures Sum(VendorStats(data), InPerson) == Count(data, SignedInPerson)
    ensures Sum(VendorStats(data), Pending) == Count(data, SignaturePending)
  {
    SignatureSplit(data, Digital, SignedDigital);
    SignatureSplit(data, InPerson, SignedInPerson);
    SignatureSplit(data, Pending, SignaturePending);
  }

  lemma SignatureSplit(data: seq<DbEnrollment>, field: VendorStat -> int, p: DbEnrollment -> bool)
    requires forall name, rows :: field(VendorEntry(name, rows)) == Count(rows, p)
    ensures Sum(VendorStats(data), field) == Count(data, p)
  {
    var r := RankBy(data, VendorOf, Receivable, Received, TallyCount);
    var f := ToVendor(data);
    forall m: Tally<string>
      ensures RowsSum(data, VendorOf, Indicator(p))(m) == field(f(m))
    {
      CountIsSum(RowsWithKey(data, VendorOf, m.key), p);
    }
    SumMap(r, f, field, RowsSum(data, VendorOf, Indicator(p)));
    RankSplits(data, VendorOf, Receivable, Received, TallyCount, Indicator(p));
    CountIsSum(data, p);
  }

  /** `totals`: the signature counts over all enrollments. */
  datatype Totals = Totals(digital: nat, presencial: nat, pendente: nat, total: nat)

  function ComputeTotals(data: seq<DbEnrollment>): (t: Totals)
    ensures t.total == |data|
    ensures t.digital == Count(data, SignedDigital) && t.presencial == Count(data, SignedInPerson)
    ensures t.pendente == Count(data, SignaturePending)
    ensures t.digital + t.presencial + t.pendente <= t.total
  {
    SignatureClassesDisjoint(data);
    Totals(Count(data, SignedDigital), Count(data, SignedInPerson), Count(data, SignaturePending), |data|)
  }

  /** The header totals agree with the vendor table. */
  lemma TotalsMatchVendors(data: seq<DbEnrollment>)
    ensures var t := ComputeTotals(data);
      var vs := VendorStats(data);
      t.total == Sum(vs, Total) && t.digital == Sum(vs, Digital)
      && t.presencial == Sum(vs, InPerson) && t.pendente == Sum(vs, Pending)
  {
    VendorStatsPartition(data);
    VendorSignaturesPartition(data);
  }
}

=== FILE: enrollment_form.dfy ===
/** The enrollment edit form (components/EnrollmentFormModal.tsx).

    The form holds a record and, apart from it, the enrollment date in the
    `YYYY-MM-DD` form a date input needs; submitting puts the date back in
    `DD/MM/YYYY` form. The class list offered depends on the chosen
    course. */
module EnrollmentForm {
  import opened Seqs
  import opened Strings
  import opened Types

  /** `toISODate`: `A/B/C` to `C-B-A`; '' stays ''; any other value is
      returned as it is. */
  function ToIsoDate(s: string): (r: string)
    ensures s == "" ==> r == ""
    ensures |Split(s, '/')| != 3 ==> r == s
    ensures s != "" && |Split(s, '/')| == 3 ==>
      var p := Split(s, '/');
      && |r| == |s|
      && ('-' !in s ==> Split(r, '-') == [p[2], p[1], p[0]])
  {
    if s == "" then ""
    else
      var parts := Split(s, '/');
      if |parts| == 3 then
        SplitThreeReversed(s, '/', '-');
        parts[2] + "-" + parts[1] + "-" + parts[0]
      else s
  }

  /** `toDDMMYYYY`: the mirror image, on '-'. */
  function ToDdMmYyyy(s: string): (r: string)
    ensures s == "" ==> r == ""
    ensures |Split(s, '-')| != 3 ==> r == s
    ensures s != "" && |Split(s, '-')| == 3 ==>
      var p := Split(s, '-');
      && |r| == |s|
      && ('/' !in s ==> Split(r, '/') == [p[2], p[1], p[0]])
  {
    if s == "" then ""
    else
      var parts := Split(s, '-');
      if |parts| == 3 then
        SplitThreeReversed(s, '-', '/');
        parts[2] + "/" + parts[1] + "/" + parts[0]
      else s
  }

  /** Three parts without '-' or '/', joined by '/', come back from the round
      trip through the date input. */
  lemma DateInputRoundTrip(a: string, b: string, c: string)
    requires '/' !in a && '/' !in b && '/' !in c && '-' !in a && '-' !in b && '-' !in c
    ensures ToIsoDate(a + "/" + b + "/" + c) == c + "-" + b + "-" + a
    ensures ToDdMmYyyy(ToIsoDate(a + "/" + b + "/" + c)) == a + "/" + b + "/" + c
  {
    assert a + "/" + b + "/" + c == a + ['/'] + b + ['/'] + c;
    Split3(a, b, c, '/');
    assert (a + "/" + b + "/" + c)[|a|] == '/';
    assert c + "-" + b + "-" + a == c + ['-'] + b + ['-'] + a;
    Split3(c, b, a, '-');
    assert (c + "-" + b + "-" + a)[|c|] == '-';
  }

  /** `DEFAULT_VALUES`. */
  const Defaults: Enrollment := Enrollment("", "", "", "", "", "ATIVO", "", 0, 0, 0, "", "", "", "", "", "",
    Some(0), "PRESENCIAL")

  /** The form's state: the record being edited and the date input. */
  datatype FormState = FormState(form: Enrollment, dateValue: string)

  /** Opening the form: an existing record minus its id, with its date
      converted for the date input; a blank form otherwise. */
  function Open(enrollment: Option<Stored>): (st: FormState)
    ensures enrollment.None? ==> st == FormState(Defaults, "")
    ensures enrollment.Some? ==> st.form == enrollment.value.data
  {
    if enrollment.Some? then
      FormState(enrollment.value.data, ToIsoDate(enrollment.value.data.dataMatricula))
    else FormState(Defaults, "")
  }

  /** `handleSubmit`: the form with only the enrollment date replaced by the
      converted date input. */
  function Submit(st: FormState): (e: Enrollment)
    ensures e.dataMatricula == ToDdMmYyyy(st.dateValue)
    ensures e.(dataMatricula := st.form.dataMatricula) == st.form
  {
    st.form.(dataMatricula := ToDdMmYyyy(st.dateValue))
  }

  /** Opening a record and submitting it untouched saves the same record,
      when its date is empty or three parts without '-' joined by '/'. */
  lemma OpenSubmit(st: Stored, a: string, b: string, c: string)
    requires st.data.dataMatricula == "" || st.data.dataMatricula == a + "/" + b + "/" + c
    requires '/' !in a && '/' !in b && '/' !in c && '-' !in a && '-' !in b && '-' !in c
    ensures Submit(Open(Some(st))) == st.data
  {
    if st.data.dataMatricula != "" {
      DateInputRoundTrip(a, b, c);
    }
  }

  /** Choosing a course clears the class and changes nothing else. */
  function ChooseCourse(form: Enrollment, pacote: string): (f: Enrollment)
    ensures f.pacote == pacote && f.turma == ""
    ensures f.(pacote := form.pacote, turma := form.turma) == form
  {
    form.(pacote := pacote, turma := "")
  }

  /** The classes offered for the chosen course: its active classes. */
  function ClassOptions(turmas: seq<Turma>, pacote: string): (r: seq<Turma>)
    ensures forall t :: t in r <==> t in turmas && t.cursoNome == pacote && t.status == "ATIVA"
  {
    Filter(turmas, (t: Turma) => t.cursoNome == pacote && t.status == "ATIVA")
  }

  /** The options keep the order of the class list. */
  lemma ClassOptionsOrder(turmas: seq<Turma>, pacote: string)
    ensures Subsequence(ClassOptions(turmas, pacote), turmas)
  {
    FilterIsSubsequence(turmas, (t: Turma) => t.cursoNome == pacote && t.status == "ATIVA");
  }
}

=== FILE: enrollment_service.dfy ===
/** Mapping between rows of the `enrollments` table and application
    records (enrollmentService.ts).

    The table stores dates as `YYYY-MM-DD`; the application shows them as
    `DD/MM/YYYY`. Reading a row fills the defaults for empty columns;
    writing a (partial) record builds an update that holds only the fields
    the record defines. */
module EnrollmentService {
  import opened Seqs
  import opened Strings
  import opened Types

  /** `YYYY-MM-DD` to `DD/MM/YYYY`: '' for null, '' and any value that does
      not split into three parts at '-'. */
  function DateFromDb(v: Option<string>): (r: string)
    ensures v.None? || v.value == "" || |Split(v.value, '-')| != 3 ==> r == ""
    ensures v.Some? && v.value != "" && |Split(v.value, '-')| == 3 ==>
      var p := Split(v.value, '-');
      && |r| == |v.value|
      && ('/' !in v.value ==> Split(r, '/') == [p[2], p[1], p[0]])
  {
    if v.None? || v.value == "" then ""
    else
      var parts := Split(v.value, '-');
      if |parts| == 3 then
        SplitThreeReversed(v.value, '-', '/');
        parts[2] + "/" + parts[1] + "/" + parts[0]
      else ""
  }

  /** `toEnrollmentDataWithId`. */
  function ToEnrollment(row: DbEnrollment): (st: Stored)
    ensures st.id == row.id
    ensures st.data.dataMatricula == DateFromDb(row.dataMatricula)
    ensures st.data.pacote == OrElse(row.pacote, "OUTROS")
    ensures st.data.situacao == OrElse(row.situacao, "ATIVO")
    ensures st.data.turma == OrElse(row.turma, "SEM TURMA")
    ensures st.data.atendente == OrElse(row.atendente, "NÃO INFORMADO")
    ensures st.data.assinatura == OrElse(row.assinatura, "PRESENCIAL")
    ensures st.data.totalAReceber == OrZero(row.totalAReceber)
    ensures st.data.totalRecebido == OrZero(row.totalRecebido)
    ensures st.data.diaVencimento == Some(OrZero(row.diaVencimento))
  {
    Stored(row.id, Enrollment(
      DateFromDb(row.dataMatricula),
      OrElse(row.contrato, ""),
      OrElse(row.aluno, ""),
      OrElse(row.telefone, ""),
      OrElse(row.pacote, "OUTROS"),
      OrElse(row.situacao, "ATIVO"),
      OrElse(row.turma, "SEM TURMA"),
      OrZero(row.totalAReceber),
      OrZero(row.totalRecebido),
      OrZero(row.valorParcela),
      OrElse(row.planoPagamento, ""),
      OrElse(row.formaConhecimento, ""),
      OrElse(row.atendente, "NÃO INFORMADO"),
      OrElse(row.divulgador, ""),
      OrElse(row.bolsa, ""),
      OrElse(row.entradaVencimento, ""),
      Some(OrZero(row.diaVencimento)),
      OrElse(row.assinatura, "PRESENCIAL")))
  }

  /** The regular expression `^\d{4}-\d{2}-\d{2}$`. */
  predicate IsIsoDate(v: string) {
    |v| == 10 && v[4] == '-' && v[7] == '-'
    && forall i :: 0 <= i < 10 && i != 4 && i != 7 ==> IsDigit(v[i])
  }

  /** The parts of a `D/M/YYYY` date: three, with a day and a month of at
      most two characters and a four-character year. */
  predicate SlashDate(parts: seq<string>) {
    |parts| == 3 && |parts[0]| <= 2 && |parts[1]| <= 2 && |parts[2]| == 4
  }

  /** The date column written for an application date; None is null. */
  function DateToDb(val: string): (r: Option<string>)
    ensures val == "" ==> r.None?
    ensures '/' !in val ==> (r.Some? <==> IsIsoDate(val)) && (r.Some? ==> r.value == val)
    ensures '/' in val ==> (r.Some? <==> SlashDate(Split(val, '/')))
    ensures '/' in val && r.Some? ==> |r.value| == 10 && r.value[4] == '-' && r.value[7] == '-'
  {
    if val == "" then None
    else if '/' in val then
      var parts := Split(val, '/');
      if SlashDate(parts) then
        Some(parts[2] + "-" + PadStart2(parts[1]) + "-" + PadStart2(parts[0]))
      else None
    else if IsIsoDate(val) then Some(val)
    else None
  }

  /** `Partial<EnrollmentData>`: None marks an undefined field. */
  datatype PartialEnrollment = PartialEnrollment(
    dataMatricula: Option<string>,
    contrato: Option<string>,
    aluno: Option<string>,
    telefone: Option<string>,
    pacote: Option<string>,
    situacao: Option<string>,
    turma: Option<string>,
    totalAReceber: Option<int>,
    totalRecebido: Option<int>,
    valorParcela: Option<int>,
    planoPagamento: Option<string>,
    formaConhecimento: Option<string>,
    atendente: Option<string>,
    divulgador: Option<string>,
    bolsa: Option<string>,
    entradaVencimento: Option<string>,
    diaVencimento: Option<Option<int>>,
    assinatura: Option<string>)

  /** The update row: None marks a column the update does not set. The date
      column may be set to null (`Some(None)`). */
  datatype Update = Update(
    dataMatricula: Option<Option<string>>,
    contrato: Option<string>,
    aluno: Option<string>,
    telefone: Option<string>,
    pacote: Option<string>,
    situacao: Option<string>,
    turma: Option<string>,
    totalAReceber: Option<int>,
    totalRecebido: Option<int>,
    valorParcela: Option<int>,
    planoPagamento: Option<string>,
    formaConhecimento: Option<string>,
    atendente: Option<string>,
    divulgador: Option<string>,
    bolsa: Option<string>,
    entradaVencimento: Option<string>,
    diaVencimento: Option<Option<int>>,
    assinatura: Option<string>)

  /** Every field of a record, defined. */
  function Whole(e: Enrollment): PartialEnrollment {
    PartialEnrollment(Some(e.dataMatricula), Some(e.contrato), Some(e.aluno), Some(e.telefone),
      Some(e.pacote), Some(e.situacao), Some(e.turma), Some(e.totalAReceber), Some(e.totalRecebido),
      Some(e.valorParcela), Some(e.planoPagamento), Some(e.formaConhecimento), Some(e.atendente),
      Some(e.divulgador), Some(e.bolsa), Some(e.entradaVencimento), Some(e.diaVencimento), Some(e.assinatura))
  }

  /** `toSupabaseRow`: a column is set exactly when the field is defined. */
  function ToUpdate(p: PartialEnrollment): (u: Update)
    ensures u.dataMatricula.Some? <==> p.dataMatricula.Some?
    ensures p.dataMatricula.Some? ==> u.dataMatricula.value == DateToDb(p.dataMatricula.value)
    ensures u.contrato == p.contrato && u.aluno == p.aluno && u.telefone == p.telefone
    ensures u.pacote == p.pacote && u.situacao == p.situacao && u.turma == p.turma
    ensures u.totalAReceber == p.totalAReceber && u.totalRecebido == p.totalRecebido
    ensures u.valorParcela == p.valorParcela && u.planoPagamento == p.planoPagamento
    ensures u.formaConhecimento == p.formaConhecimento && u.atendente == p.atendente
    ensures u.divulgador == p.divulgador && u.bolsa == p.bolsa
    ensures u.entradaVencimento == p.entradaVencimento && u.diaVencimento == p.diaVencimento
    ensures u.assinatura == p.assinatura
  {
    Update(
      if p.dataMatricula.Some? then Some(DateToDb(p.dataMatricula.value)) else None,
      p.contrato, p.aluno, p.telefone, p.pacote, p.situacao, p.turma,
      p.totalAReceber, p.totalRecebido, p.valorParcela, p.planoPagamento,
      p.formaConhecimento, p.atendente, p.divulgador, p.bolsa, p.entradaVencimento,
      p.diaVencimento, p.assinatura)
  }

  function SetTo<V>(prev: Option<V>, u: Option<V>): Option<V> {
    if u.Some? then u else prev
  }

  function SetNullable<V>(prev: Option<V>, u: Option<Option<V>>): Option<V> {
    if u.Some? then u.value else prev
  }

  /** What `update(row).eq('id', id)` does to the stored row: the columns
      the update sets change, every other column stays. */
  function Apply(row: DbEnrollment, u: Update): DbEnrollment {
    DbEnrollment(
      row.id,
      SetNullable(row.dataMatricula, u.dataMatricula),
      SetTo(row.contrato, u.contrato),
      SetTo(row.aluno, u.aluno),
      SetTo(row.telefone, u.telefone),
      SetTo(row.pacote, u.pacote),
      SetTo(row.situacao, u.situacao),
      SetTo(row.turma, u.turma),
      SetTo(row.totalAReceber, u.totalAReceber),
      SetTo(row.totalRecebido, u.totalRecebido),
      SetTo(row.valorParcela, u.valorParcela),
      SetTo(row.planoPagamento, u.planoPagamento),
      SetTo(row.formaConhecimento, u.formaConhecimento),
      SetTo(row.atendente, u.atendente),
      SetTo(row.divulgador, u.divulgador),
      SetTo(row.bolsa, u.bolsa),
      SetTo(row.entradaVencimento, u.entradaVencimento),
      SetNullable(row.diaVencimento, u.diaVencimento),
      SetTo(row.assinatura, u.assinatura),
      row.createdAt)
  }

  /** A partial update touches only the columns of the fields it defines. */
  lemma PartialUpdateLocal(row: DbEnrollment, p: PartialEnrollment)
    ensures var r := Apply(row, ToUpdate(p));
      && r.id == row.id && r.createdAt == row.createdAt
      && (p.dataMatricula.None? ==> r.dataMatricula == row.dataMatricula)
      && (p.dataMatricula.Some? ==> r.dataMatricula == DateToDb(p.dataMatricula.value))
      && (p.aluno.None? ==> r.aluno == row.aluno)
      && (p.aluno.Some? ==> r.aluno == p.aluno)
      && (p.pacote.None? ==> r.pacote == row.pacote)
      && (p.pacote.Some? ==> r.pacote == p.pacote)
      && (p.turma.None? ==> r.turma == row.turma)
      && (p.turma.Some? ==> r.turma == p.turma)
      && (p.totalAReceber.None? ==> r.totalAReceber == row.totalAReceber)
      && (p.totalRecebido.None? ==> r.totalRecebido == row.totalRecebido)
      && (p.atendente.None? ==> r.atendente == row.atendente)
      && (p.assinatura.None? ==> r.assinatura == row.assinatura)
  {
  }

  /** An update with no field defined leaves the row as it is. */
  lemma EmptyUpdate(row: DbEnrollment)
    ensures Apply(row, ToUpdate(PartialEnrollment(None, None, None, None, None, None, None, None, None,
      None, None, None, None, None, None, None, None, None))) == row
  {
  }

  /** An application date `D/M/YYYY` with one- or two-character day and
      month goes to the table as `YYYY-MM-DD`, zero-padded. */
  lemma DateToDbSlash(d: string, m: string, y: string)
    requires '/' !in d && '/' !in m && '/' !in y
    requires |d| <= 2 && |m| <= 2 && |y| == 4
    ensures DateToDb(d + "/" + m + "/" + y) == Some(y + "-" + PadStart2(m) + "-" + PadStart2(d))
  {
    assert d + "/" + m + "/" + y == d + ['/'] + m + ['/'] + y;
    Split3(d, m, y, '/');
    assert (d + "/" + m + "/" + y)[|d|] == '/';
  }

  /** The table's date read into the application and written back is the
      same date. */
  lemma DateRoundTrip(y: string, m: string, d: string)
    requires '-' !in y && '-' !in m && '-' !in d && '/' !in y && '/' !in m && '/' !in d
    requires |y| == 4 && |m| == 2 && |d| == 2
    ensures DateToDb(DateFromDb(Some(y + "-" + m + "-" + d))) == Some(y + "-" + m + "-" + d)
  {
    assert y + "-" + m + "-" + d == y + ['-'] + m + ['-'] + d;
    Split3(y, m, d, '-');
    DateToDbSlash(d, m, y);
  }

  /** An application date with a two-character day and month, written to
      the table and read back, is the same date. */
  lemma SlashRoundTrip(d: string, m: string, y: string)
    requires '-' !in y && '-' !in m && '-' !in d && '/' !in y && '/' !in m && '/' !in d
    requires |d| == 2 && |m| == 2 && |y| == 4
    ensures DateToDb(d + "/" + m + "/" + y).Some?
    ensures DateFromDb(DateToDb(d + "/" + m + "/" + y)) == d + "/" + m + "/" + y
  {
    DateToDbSlash(d, m, y);
    assert y + "-" + m + "-" + d == y + ['-'] + m + ['-'] + d;
    Split3(y, m, d, '-');
  }

  /** A row whose columns are all filled, with a `YYYY-MM-DD` date, comes
      back unchanged from being read and written back whole. */
  lemma RowRoundTrip(row: DbEnrollment, y: string, m: string, d: string)
    requires row.dataMatricula == Some(y + "-" + m + "-" + d)
    requires '-' !in y && '-' !in m && '-' !in d && '/' !in y && '/' !in m && '/' !in d
    requires |y| == 4 && |m| == 2 && |d| == 2
    requires Filled(row.contrato) && Filled(row.aluno) && Filled(row.telefone) && Filled(row.pacote)
    requires Filled(row.situacao) && Filled(row.turma) && Filled(row.planoPagamento)
    requires Filled(row.formaConhecimento) && Filled(row.atendente) && Filled(row.divulgador)
    requires Filled(row.bolsa) && Filled(row.entradaVencimento) && Filled(row.assinatura)
    requires row.totalAReceber.Some? && row.totalRecebido.Some? && row.valorParcela.Some?
    requires row.diaVencimento.Some?
    ensures Apply(row, ToUpdate(Whole(ToEnrollment(row).data))) == row
  {
    DateRoundTrip(y, m, d);
  }

  predicate Filled(v: Option<string>) {
    v.Some? && v.value != ""
  }
}

=== FILE: enrollment_table.dfy ===
/** The enrolment table (EnrollmentTable.tsx): the search over four columns,
    the situation badge and the footer count. */
module EnrollmentTable {
  import opened Seqs
  import opened Strings
  import opened Types

  /** The search matches the student, the package, the attendant or the
      class, ignoring case. */
  predicate Matches(d: Stored, search: string) {
    ContainsIgnoreCase(d.data.aluno, search) || ContainsIgnoreCase(d.data.pacote, search)
    || ContainsIgnoreCase(d.data.atendente, search) || ContainsIgnoreCase(d.data.turma, search)
  }

  /** `filtered`. */
  function Search(data: seq<Stored>, search: string): (r: seq<Stored>)
    ensures forall d :: d in r <==> d in data && Matches(d, search)
    ensures Subsequence(r, data)
  {
    FilterIsSubsequence(data, (d: Stored) => Matches(d, search));
    Filter(data, (d: Stored) => Matches(d, search))
  }

  /** An empty search keeps the whole table. */
  lemma SearchEmpty(data: seq<Stored>)
    ensures Search(data, "") == data
  {
    forall d | d in data
      ensures Matches(d, "")
    {
      ContainsIgnoreCaseEmpty(d.data.aluno);
    }
    FilterAll(data, (d: Stored) => Matches(d, ""));
  }

  /** The badge of the situation column: 'ATIV' anywhere in the upper-cased
      situation makes it green, otherwise 'CANCEL' makes it red, anything
      else is yellow. */
  function SituationBadge(situacao: string): (b: Badge)
    ensures b == Green <==> Contains(Upper(situacao), "ATIV")
    ensures b == Red <==> (!Contains(Upper(situacao), "ATIV") && Contains(Upper(situacao), "CANCEL"))
    ensures b == Yellow <==> (!Contains(Upper(situacao), "ATIV") && !Contains(Upper(situacao), "CANCEL"))
  {
    var up := Upper(situacao);
    if Contains(up, "ATIV") then Green
    else if Contains(up, "CANCEL") then Red
    else Yellow
  }

  /** The usual situations: 'ATIVO' is green, 'CANCELADO' red, and
      'INATIVO', which also holds 'ATIV', green. */
  lemma SituationBadgeCases()
    ensures SituationBadge("ATIVO") == Green
    ensures SituationBadge("CANCELADO") == Red
    ensures SituationBadge("INATIVO") == Green
  {
    AtivoGreen();
    CanceladoRed();
    InativoGreen();
  }

  lemma AtivoGreen()
    ensures SituationBadge("ATIVO") == Green
  {
    var a := Upper("ATIVO");
    assert a[0..4] == "ATIV";
    ContainsAt(a, "ATIV", 0);
  }

  lemma CanceladoRed()
    ensures SituationBadge("CANCELADO") == Red
  {
    var c := Upper("CANCELADO");
    assert c[0..6] == "CANCEL";
    ContainsAt(c, "CANCEL", 0);
    assert 'V' !in c;
    if Contains(c, "ATIV") {
      ContainsMember(c, "ATIV", 'V');
    }
  }

  lemma InativoGreen()
    ensures SituationBadge("INATIVO") == Green
  {
    var i := Upper("INATIVO");
    assert i[2..6] == "ATIV";
    ContainsAt(i, "ATIV", 2);
  }

  /** The words that open the note on the number of rows loaded. */
  const NoteHead: string := " (filtrado de "

  /** ` (filtrado de N)`, shown while a search is typed: the words, then
      the total, which reads back as a number, then a closing bracket. */
  function FilteredNote(search: string, total: nat): (r: string)
    ensures search == "" <==> r == ""
    ensures r != "" ==> r[0] == ' '
    ensures search != "" ==> IsPrefix(NoteHead, r) && r[|r| - 1] == ')'
    ensures search != "" ==> ParseInt(r[|NoteHead|..]) == Some(total)
  {
    if search == "" then ""
    else
      NoteReads(total);
      NoteHead + NatToString(total) + ")"
  }

  lemma NoteReads(total: nat)
    ensures var r := NoteHead + NatToString(total) + ")";
      IsPrefix(NoteHead, r) && r[|r| - 1] == ')' && ParseInt(r[|NoteHead|..]) == Some(total)
  {
    var digits := NatToString(total);
    SlicesAfter(NoteHead, digits + ")", 0);
    assert NoteHead + digits + ")" == NoteHead + (digits + ")");
    ParseIntLeading(digits, ")");
  }

  /** A count label followed by a note that starts with a space still reads
      back as the count. */
  lemma LabelThenNote(n: nat, note: string)
    requires note == "" || note[0] == ' '
    ensures ParseInt(CountLabel(n, "matrícula", "matrículas") + note) == Some(n)
  {
    var digits := NatToString(n);
    var text := CountLabel(n, "matrícula", "matrículas");
    var rest := text[|digits|..] + note;
    assert text == digits + text[|digits|..];
    assert text + note == digits + rest;
    ParseIntLeading(digits, rest);
  }

  /** The footer: the number of rows shown, and, while a search is typed,
      the number of rows loaded. */
  function Footer(data: seq<Stored>, search: string): (r: string)
    ensures ParseInt(r) == Some(|Search(data, search)|)
    ensures search == "" <==> r == CountLabel(|Search(data, search)|, "matrícula", "matrículas")
    ensures search != "" ==>
      var i := |CountLabel(|Search(data, search)|, "matrícula", "matrículas")|;
      i + |NoteHead| <= |r| && r[i..i + |NoteHead|] == NoteHead
      && ParseInt(r[i + |NoteHead|..]) == Some(|data|)
  {
    var n := |Search(data, search)|;
    var counted := CountLabel(n, "matrícula", "matrículas");
    var note := FilteredNote(search, |data|);
    LabelThenNote(n, note);
    if search == "" then counted + note
    else
      NoteAfterLabel(counted, note, |data|);
      counted + note
  }

  /** The note keeps its words and its number after the count label. */
  lemma NoteAfterLabel(counted: string, note: string, total: nat)
    requires IsPrefix(NoteHead, note) && ParseInt(note[|NoteHead|..]) == Some(total)
    ensures var r, i := counted + note, |counted|;
      i + |NoteHead| <= |r| && r[i..i + |NoteHead|] == NoteHead
      && ParseInt(r[i + |NoteHead|..]) == Some(total)
  {
    SlicesAfter(counted, note, |NoteHead|);
  }

  /** Slices of `a + b` past `a` are slices of `b`. */
  lemma SlicesAfter(a: string, b: string, k: nat)
    requires k <= |b|
    ensures (a + b)[|a|..|a| + k] == b[..k] && (a + b)[|a| + k..] == b[k..]
  {
  }

  /** Without a search the footer counts every row. */
  lemma FooterUnfiltered(data: seq<Stored>)
    ensures Footer(data, "") == CountLabel(|data|, "matrícula", "matrículas")
  {
    SearchEmpty(data);
  }
}

=== FILE: grouping.dfy ===
/** Group-by over insertion-ordered association lists.

    The dashboard builds `Record<string, …>` objects in a `forEach` pass and
    reads them back with `Object.entries`/`Object.values`, which enumerate
    (non-numeric) keys in insertion order. `TallyBy` is that pass: one
    accumulator per key, created on the key's first occurrence and bumped on
    every occurrence. `Reference` is the declarative meaning: the distinct keys
    in order of first occurrence, each with the records carrying it. */
module Grouping {
  import opened Seqs

  /** Per-key accumulator: number of records and two running sums. */
  datatype Tally<K> = Tally(key: K, count: nat, first: int, second: int)

  function TallyCount<K>(t: Tally<K>): int { t.count }
  function TallyFirst<K>(t: Tally<K>): int { t.first }
  function TallySecond<K>(t: Tally<K>): int { t.second }

  /** Distinct keys of `s` in order of first occurrence. */
  function KeysOf<T, K(==)>(s: seq<T>, key: T -> K): (ks: seq<K>)
    ensures Distinct(ks)
    ensures forall i :: 0 <= i < |s| ==> key(s[i]) in ks
    ensures |ks| <= |s|
  {
    if |s| == 0 then []
    else
      var init := KeysOf(s[..|s| - 1], key);
      var k := key(s[|s| - 1]);
      assert forall i :: 0 <= i < |s| - 1 ==> s[..|s| - 1][i] == s[i];
      if k in init then init else init + [k]
  }

  /** Key `k1` first occurs in `s` before key `k2` does. */
  predicate FirstSeenBefore<T, K(==)>(s: seq<T>, key: T -> K, k1: K, k2: K) {
    exists a, b :: 0 <= a < b < |KeysOf(s, key)| && KeysOf(s, key)[a] == k1 && KeysOf(s, key)[b] == k2
  }

  /** Every key listed is the key of some record. */
  lemma {:induction false} KeysOfFrom<T, K>(s: seq<T>, key: T -> K)
    ensures forall k :: k in KeysOf(s, key) ==> exists i :: 0 <= i < |s| && key(s[i]) == k
  {
    if |s| > 0 {
      var init := s[..|s| - 1];
      KeysOfFrom(init, key);
      forall k | k in KeysOf(s, key)
        ensures exists i :: 0 <= i < |s| && key(s[i]) == k
      {
        if k in KeysOf(init, key) {
          var i :| 0 <= i < |init| && key(init[i]) == k;
          assert key(s[i]) == k;
        } else {
          assert key(s[|s| - 1]) == k;
        }
      }
    }
  }

  /** The records whose key is `k`, in input order. */
  function RowsWithKey<T, K(==)>(s: seq<T>, key: T -> K, k: K): (r: seq<T>)
    ensures |r| <= |s|
    ensures forall i :: 0 <= i < |r| ==> key(r[i]) == k
  {
    if |s| == 0 then []
    else RowsWithKey(s[..|s| - 1], key, k) + (if key(s[|s| - 1]) == k then [s[|s| - 1]] else [])
  }

  /** The records of key `k` are exactly those of `s` with that key. */
  lemma {:induction false} RowsWithKeyMembers<T, K>(s: seq<T>, key: T -> K, k: K)
    ensures forall x :: x in RowsWithKey(s, key, k) <==> x in s && key(x) == k
  {
    if |s| > 0 {
      RowsWithKeyMembers(s[..|s| - 1], key, k);
      assert forall x :: x in s <==> x in s[..|s| - 1] || x == s[|s| - 1];
    }
  }

  lemma {:induction false} RowsWithAbsentKey<T, K>(s: seq<T>, key: T -> K, k: K)
    requires k !in KeysOf(s, key)
    ensures RowsWithKey(s, key, k) == []
  {
    if |s| > 0 {
      RowsWithAbsentKey(s[..|s| - 1], key, k);
    }
  }

  /** One accumulator per key of `ks`, computed from the matching records. */
  function RefTallies<T, K(==)>(ks: seq<K>, s: seq<T>, key: T -> K, wa: T -> int, wb: T -> int): (r: seq<Tally<K>>)
    ensures |r| == |ks|
    ensures forall i :: 0 <= i < |ks| ==> r[i].key == ks[i]
  {
    if |ks| == 0 then []
    else
      var k := ks[|ks| - 1];
      var rows := RowsWithKey(s, key, k);
      RefTallies(ks[..|ks| - 1], s, key, wa, wb) + [Tally(k, |rows|, Sum(rows, wa), Sum(rows, wb))]
  }

  /** What the group-by means: the distinct keys in order of first
      occurrence, each with the count and sums of the records carrying it. */
  function Reference<T, K(==)>(s: seq<T>, key: T -> K, wa: T -> int, wb: T -> int): seq<Tally<K>> {
    RefTallies(KeysOf(s, key), s, key, wa, wb)
  }

  predicate HasKey<K(==)>(acc: seq<Tally<K>>, k: K) {
    exists i :: 0 <= i < |acc| && acc[i].key == k
  }

  /** One record's contribution to the accumulator of its key. */
  function Step<K(==)>(t: Tally<K>, k: K, a: int, b: int): Tally<K> {
    if t.key == k then Tally(k, t.count + 1, t.first + a, t.second + b) else t
  }

  function MapStep<K(==)>(acc: seq<Tally<K>>, k: K, a: int, b: int): (r: seq<Tally<K>>)
    ensures |r| == |acc|
    ensures forall i :: 0 <= i < |acc| ==> r[i] == Step(acc[i], k, a, b)
  {
    if |acc| == 0 then [] else MapStep(acc[..|acc| - 1], k, a, b) + [Step(acc[|acc| - 1], k, a, b)]
  }

  /** `if (!map[k]) map[k] = zero; map[k] += (1, a, b)`. */
  function Bump<K(==)>(acc: seq<Tally<K>>, k: K, a: int, b: int): seq<Tally<K>> {
    if HasKey(acc, k) then MapStep(acc, k, a, b) else acc + [Tally(k, 1, a, b)]
  }

  /** The single forward pass the source performs. */
  function TallyBy<T, K(==)>(s: seq<T>, key: T -> K, wa: T -> int, wb: T -> int): seq<Tally<K>> {
    if |s| == 0 then []
    else
      var x := s[|s| - 1];
      Bump(TallyBy(s[..|s| - 1], key, wa, wb), key(x), wa(x), wb(x))
  }

  lemma {:induction false} MapStepRef<T, K>(ks: seq<K>, s: seq<T>, x: T, key: T -> K, wa: T -> int, wb: T -> int)
    ensures MapStep(RefTallies(ks, s, key, wa, wb), key(x), wa(x), wb(x))
         == RefTallies(ks, s + [x], key, wa, wb)
  {
    if |ks| > 0 {
      var k := ks[|ks| - 1];
      var init := ks[..|ks| - 1];
      MapStepRef(init, s, x, key, wa, wb);
      var rows := RowsWithKey(s, key, k);
      var pre := RefTallies(init, s, key, wa, wb);
      var t := Tally(k, |rows|, Sum(rows, wa), Sum(rows, wb));
      StepRef(s, x, k, key, wa, wb);
      assert RefTallies(ks, s, key, wa, wb) == pre + [t];
      assert (pre + [t])[..|pre|] == pre;
      assert MapStep(pre + [t], key(x), wa(x), wb(x)) == MapStep(pre, key(x), wa(x), wb(x)) + [Step(t, key(x), wa(x), wb(x))];
    }
  }

  /** One more record bumps the entry of its own key and no other. */
  lemma StepRef<T, K>(s: seq<T>, x: T, k: K, key: T -> K, wa: T -> int, wb: T -> int)
    ensures var rows := RowsWithKey(s, key, k);
      var rows' := RowsWithKey(s + [x], key, k);
      Step(Tally(k, |rows|, Sum(rows, wa), Sum(rows, wb)), key(x), wa(x), wb(x))
      == Tally(k, |rows'|, Sum(rows', wa), Sum(rows', wb))
  {
    assert (s + [x])[..|s|] == s;
    var rows := RowsWithKey(s, key, k);
    var extra := if key(x) == k then [x] else [];
    assert RowsWithKey(s + [x], key, k) == rows + extra;
    SumAppend(rows, extra, wa);
    SumAppend(rows, extra, wb);
  }

  /** A record whose key already has an accumulator bumps it in place. */
  lemma BumpPresent<T, K>(ks: seq<K>, s: seq<T>, x: T, key: T -> K, wa: T -> int, wb: T -> int)
    requires key(x) in ks
    ensures Bump(RefTallies(ks, s, key, wa, wb), key(x), wa(x), wb(x)) == RefTallies(ks, s + [x], key, wa, wb)
  {
    var acc := RefTallies(ks, s, key, wa, wb);
    var j :| 0 <= j < |ks| && ks[j] == key(x);
    assert acc[j].key == key(x);
    assert HasKey(acc, key(x));
    MapStepRef(ks, s, x, key, wa, wb);
  }

  /** A record with a new key appends a fresh accumulator. */
  lemma BumpAbsent<T, K>(s: seq<T>, x: T, key: T -> K, wa: T -> int, wb: T -> int)
    requires key(x) !in KeysOf(s, key)
    ensures Bump(Reference(s, key, wa, wb), key(x), wa(x), wb(x)) == Reference(s + [x], key, wa, wb)
  {
    var ks := KeysOf(s, key);
    var acc := RefTallies(ks, s, key, wa, wb);
    KeysOfNew(s, x, key);
    RowsWithNewKey(s, x, key);
    assert !HasKey(acc, key(x));
    MapStepRef(ks, s, x, key, wa, wb);
    StepElsewhere(acc, key(x), wa(x), wb(x));
    RefTalliesNew(ks, s + [x], x, key, wa, wb);
  }

  lemma KeysOfNew<T, K>(s: seq<T>, x: T, key: T -> K)
    requires key(x) !in KeysOf(s, key)
    ensures KeysOf(s + [x], key) == KeysOf(s, key) + [key(x)]
  {
    assert (s + [x])[..|s|] == s;
  }

  lemma RowsWithNewKey<T, K>(s: seq<T>, x: T, key: T -> K)
    requires key(x) !in KeysOf(s, key)
    ensures RowsWithKey(s + [x], key, key(x)) == [x]
  {
    assert (s + [x])[..|s|] == s;
    RowsWithAbsentKey(s, key, key(x));
  }

  lemma RefTalliesNew<T, K>(ks: seq<K>, s': seq<T>, x: T, key: T -> K, wa: T -> int, wb: T -> int)
    requires RowsWithKey(s', key, key(x)) == [x]
    ensures RefTallies(ks + [key(x)], s', key, wa, wb)
      == RefTallies(ks, s', key, wa, wb) + [Tally(key(x), 1, wa(x), wb(x))]
  {
    assert (ks + [key(x)])[..|ks|] == ks;
    assert [x][..0] == [];
    assert Sum([x], wa) == wa(x) && Sum([x], wb) == wb(x);
  }

  /** Records of a key without an accumulator leave all accumulators alone. */
  lemma StepElsewhere<K>(acc: seq<Tally<K>>, k: K, a: int, b: int)
    requires !HasKey(acc, k)
    ensures MapStep(acc, k, a, b) == acc
  {
  }

  /** The forward pass computes the declarative group-by. */
  lemma {:induction false} TallyByIsReference<T, K>(s: seq<T>, key: T -> K, wa: T -> int, wb: T -> int)
    ensures TallyBy(s, key, wa, wb) == Reference(s, key, wa, wb)
  {
    if |s| > 0 {
      var init := s[..|s| - 1];
      var x := s[|s| - 1];
      assert init + [x] == s;
      TallyByIsReference(init, key, wa, wb);
      if key(x) in KeysOf(init, key) {
        BumpPresent(KeysOf(init, key), init, x, key, wa, wb);
        assert KeysOf(s, key) == KeysOf(init, key);
      } else {
        BumpAbsent(init, x, key, wa, wb);
      }
    }
  }

  /** Sum of `w` over the records of every key in `ks`. */
  function GroupSum<T, K(==)>(ks: seq<K>, s: seq<T>, key: T -> K, w: T -> int): int {
    if |ks| == 0 then 0
    else GroupSum(ks[..|ks| - 1], s, key, w) + Sum(RowsWithKey(s, key, ks[|ks| - 1]), w)
  }

  lemma {:induction false} GroupSumStep<T, K>(ks: seq<K>, s: seq<T>, x: T, key: T -> K, w: T -> int)
    requires Distinct(ks)
    ensures GroupSum(ks, s + [x], key, w) == GroupSum(ks, s, key, w) + (if key(x) in ks then w(x) else 0)
  {
    if |ks| > 0 {
      var k := ks[|ks| - 1];
      var init := ks[..|ks| - 1];
      GroupSumStep(init, s, x, key, w);
      assert (s + [x])[..|s|] == s;
      var extra := if key(x) == k then [x] else [];
      SumAppend(RowsWithKey(s, key, k), extra, w);
      assert key(x) in ks <==> key(x) in init || key(x) == k;
      assert key(x) == k ==> key(x) !in init;
    }
  }

  /** Partition: the groups of distinct keys covering every record split
      every additive measure of the records. */
  lemma {:induction false} GroupSumPartition<T, K>(ks: seq<K>, s: seq<T>, key: T -> K, w: T -> int)
    requires Distinct(ks)
    requires forall i :: 0 <= i < |s| ==> key(s[i]) in ks
    ensures GroupSum(ks, s, key, w) == Sum(s, w)
  {
    if |s| > 0 {
      var init := s[..|s| - 1];
      var x := s[|s| - 1];
      assert init + [x] == s;
      assert forall i :: 0 <= i < |init| ==> init[i] == s[i];
      assert key(x) in ks;
      GroupSumPartition(ks, init, key, w);
      GroupSumStep(ks, init, x, key, w);
      assert Sum(s, w) == Sum(init, w) + w(x);
    } else {
      GroupSumEmpty(ks, s, key, w);
    }
  }

  lemma {:induction false} GroupSumEmpty<T, K>(ks: seq<K>, s: seq<T>, key: T -> K, w: T -> int)
    requires |s| == 0
    ensures GroupSum(ks, s, key, w) == 0
  {
    if |ks| > 0 {
      GroupSumEmpty(ks[..|ks| - 1], s, key, w);
    }
  }

  lemma {:induction false} RefTalliesTotals<T, K>(ks: seq<K>, s: seq<T>, key: T -> K, wa: T -> int, wb: T -> int)
    ensures Sum(RefTallies(ks, s, key, wa, wb), TallyCount) == GroupSum(ks, s, key, _ => 1)
    ensures Sum(RefTallies(ks, s, key, wa, wb), TallyFirst) == GroupSum(ks, s, key, wa)
    ensures Sum(RefTallies(ks, s, key, wa, wb), TallySecond) == GroupSum(ks, s, key, wb)
  {
    if |ks| > 0 {
      var r := RefTallies(ks, s, key, wa, wb);
      RefTalliesTotals(ks[..|ks| - 1], s, key, wa, wb);
      assert r[..|r| - 1] == RefTallies(ks[..|ks| - 1], s, key, wa, wb);
      LengthIsSum(RowsWithKey(s, key, ks[|ks| - 1]));
    }
  }

  lemma {:induction false} LengthIsSum<T>(s: seq<T>)
    ensures Sum(s, _ => 1) == |s|
  {
    if |s| > 0 {
      LengthIsSum(s[..|s| - 1]);
    }
  }

  /** The per-key accumulators partition the record count and both sums. */
  lemma TallyByPartition<T, K>(s: seq<T>, key: T -> K, wa: T -> int, wb: T -> int)
    ensures Sum(TallyBy(s, key, wa, wb), TallyCount) == |s|
    ensures Sum(TallyBy(s, key, wa, wb), TallyFirst) == Sum(s, wa)
    ensures Sum(TallyBy(s, key, wa, wb), TallySecond) == Sum(s, wb)
  {
    TallyByIsReference(s, key, wa, wb);
    var ks := KeysOf(s, key);
    RefTalliesTotals(ks, s, key, wa, wb);
    GroupSumPartition(ks, s, key, _ => 1);
    GroupSumPartition(ks, s, key, wa);
    GroupSumPartition(ks, s, key, wb);
    LengthIsSum(s);
  }

  /** Every accumulator holds exactly the records of its key, and every
      key of the input has exactly one accumulator. */
  lemma TallyByContents<T, K>(s: seq<T>, key: T -> K, wa: T -> int, wb: T -> int)
    ensures var r := TallyBy(s, key, wa, wb);
      && |r| == |KeysOf(s, key)|
      && (forall i :: 0 <= i < |r| ==> r[i].key == KeysOf(s, key)[i])
      && (forall i :: 0 <= i < |r| ==>
            var rows := RowsWithKey(s, key, r[i].key);
            r[i].count == |rows| && r[i].first == Sum(rows, wa) && r[i].second == Sum(rows, wb))
  {
    TallyByIsReference(s, key, wa, wb);
    RefTalliesContents(KeysOf(s, key), s, key, wa, wb);
  }

  lemma {:induction false} RefTalliesContents<T, K>(ks: seq<K>, s: seq<T>, key: T -> K, wa: T -> int, wb: T -> int)
    ensures var r := RefTallies(ks, s, key, wa, wb);
      forall i :: 0 <= i < |r| ==>
        var rows := RowsWithKey(s, key, ks[i]);
        r[i] == Tally(ks[i], |rows|, Sum(rows, wa), Sum(rows, wb))
  {
    if |ks| > 0 {
      RefTalliesContents(ks[..|ks| - 1], s, key, wa, wb);
    }
  }
}

=== FILE: ranking.dfy ===
/** Rankings: a group-by whose accumulators are then sorted, highest first.

    Every screen of the dashboard that lists vendors or courses builds a
    `Record<string, …>` in one pass, takes `Object.values` and sorts it with
    `(a, b) => b.x - a.x`. `RankBy` is that composition; the lemmas here say
    once, for all of those screens, what the ranking holds. */
module Ranking {
  import opened Seqs
  import opened Grouping
  import opened Sorting

  /** The accumulators of `TallyBy`, sorted by `rank`, highest first; the
      sort is stable, so entries of equal rank keep the order in which their
      keys first occur. */
  function RankBy<T, K(==)>(s: seq<T>, key: T -> K, wa: T -> int, wb: T -> int, rank: Tally<K> -> int): (r: seq<Tally<K>>)
    ensures forall i, j :: 0 <= i < j < |r| ==> rank(r[i]) >= rank(r[j])
    ensures |r| == |KeysOf(s, key)| <= |s|
    ensures forall v :: OfKey(r, rank, v) == OfKey(TallyBy(s, key, wa, wb), rank, v)
  {
    TallyByContents(s, key, wa, wb);
    forall v
      ensures OfKey(SortByDesc(TallyBy(s, key, wa, wb), rank), rank, v) == OfKey(TallyBy(s, key, wa, wb), rank, v)
    {
      SortByDescStable(TallyBy(s, key, wa, wb), rank, v);
    }
    SortByDesc(TallyBy(s, key, wa, wb), rank)
  }

  /** Ties keep the order of first occurrence: of two entries of equal
      rank, the one listed first is the one whose key occurs first in the
      records. */
  lemma RankTiesFirstSeen<T, K>(s: seq<T>, key: T -> K, wa: T -> int, wb: T -> int, rank: Tally<K> -> int)
    ensures var r := RankBy(s, key, wa, wb, rank);
      forall i, j :: 0 <= i < j < |r| && rank(r[i]) == rank(r[j]) ==> FirstSeenBefore(s, key, r[i].key, r[j].key)
  {
    var r := RankBy(s, key, wa, wb, rank);
    forall i, j | 0 <= i < j < |r| && rank(r[i]) == rank(r[j])
      ensures FirstSeenBefore(s, key, r[i].key, r[j].key)
    {
      TieOrder(s, key, wa, wb, rank, i, j);
    }
  }

  lemma TieOrder<T, K>(s: seq<T>, key: T -> K, wa: T -> int, wb: T -> int, rank: Tally<K> -> int, i: nat, j: nat)
    requires var r := RankBy(s, key, wa, wb, rank); i < j < |r| && rank(r[i]) == rank(r[j])
    ensures var r := RankBy(s, key, wa, wb, rank); FirstSeenBefore(s, key, r[i].key, r[j].key)
  {
    var r := RankBy(s, key, wa, wb, rank);
    var t := TallyBy(s, key, wa, wb);
    var v := rank(r[i]);
    var a, b := PositionsOfKey(r, rank, v, i, j);
    assert OfKey(r, rank, v) == OfKey(t, rank, v);
    var x, y := ListedOfKey(t, rank, v, a, b);
    TallyByContents(s, key, wa, wb);
    assert KeysOf(s, key)[x] == r[i].key && KeysOf(s, key)[y] == r[j].key;
  }

  /** The ranked accumulators partition the records: their counts add up to
      the number of records, and their sums to the sums over all records. */
  lemma RankPartition<T, K>(s: seq<T>, key: T -> K, wa: T -> int, wb: T -> int, rank: Tally<K> -> int)
    ensures Sum(RankBy(s, key, wa, wb, rank), TallyCount) == |s|
    ensures Sum(RankBy(s, key, wa, wb, rank), TallyFirst) == Sum(s, wa)
    ensures Sum(RankBy(s, key, wa, wb, rank), TallySecond) == Sum(s, wb)
  {
    var t := TallyBy(s, key, wa, wb);
    TallyByPartition(s, key, wa, wb);
    SumOfPermutation(RankBy(s, key, wa, wb, rank), t, TallyCount);
    SumOfPermutation(RankBy(s, key, wa, wb, rank), t, TallyFirst);
    SumOfPermutation(RankBy(s, key, wa, wb, rank), t, TallySecond);
  }

  /** The sum of `w` over the records of an entry's key. */
  function RowsSum<T, K(==)>(s: seq<T>, key: T -> K, w: T -> int): Tally<K> -> int {
    (m: Tally<K>) => Sum(RowsWithKey(s, key, m.key), w)
  }

  /** Any additive measure of the records is split among the ranked
      entries, each taking the measure of its own records. */
  lemma RankSplits<T, K>(s: seq<T>, key: T -> K, wa: T -> int, wb: T -> int, rank: Tally<K> -> int, w: T -> int)
    ensures Sum(RankBy(s, key, wa, wb, rank), RowsSum(s, key, w)) == Sum(s, w)
  {
    var t := TallyBy(s, key, wa, wb);
    var ks := KeysOf(s, key);
    TallyByContents(s, key, wa, wb);
    SumOfPermutation(RankBy(s, key, wa, wb, rank), t, RowsSum(s, key, w));
    KeyedGroupSum(t, ks, s, key, w);
    GroupSumPartition(ks, s, key, w);
  }

  lemma {:induction false} KeyedGroupSum<T, K>(t: seq<Tally<K>>, ks: seq<K>, s: seq<T>, key: T -> K, w: T -> int)
    requires |t| == |ks|
    requires forall i :: 0 <= i < |t| ==> t[i].key == ks[i]
    ensures Sum(t, RowsSum(s, key, w)) == GroupSum(ks, s, key, w)
  {
    if |t| > 0 {
      KeyedGroupSum(t[..|t| - 1], ks[..|ks| - 1], s, key, w);
    }
  }

  /** Every entry of the ranking carries exactly the records of its key. */
  lemma RankContents<T, K>(s: seq<T>, key: T -> K, wa: T -> int, wb: T -> int, rank: Tally<K> -> int)
    ensures forall m :: m in RankBy(s, key, wa, wb, rank) ==>
      var rows := RowsWithKey(s, key, m.key);
      m.count == |rows| && m.first == Sum(rows, wa) && m.second == Sum(rows, wb)
  {
    var t := TallyBy(s, key, wa, wb);
    var r := RankBy(s, key, wa, wb, rank);
    TallyByContents(s, key, wa, wb);
    forall m | m in r
      ensures var rows := RowsWithKey(s, key, m.key);
        m.count == |rows| && m.first == Sum(rows, wa) && m.second == Sum(rows, wb)
    {
      assert m in multiset(r);
      assert m in multiset(t);
      var j :| 0 <= j < |t| && t[j] == m;
    }
  }

  /** Every key of the input has an entry in the ranking. */
  lemma RankCovers<T, K>(s: seq<T>, key: T -> K, wa: T -> int, wb: T -> int, rank: Tally<K> -> int)
    ensures forall i :: 0 <= i < |s| ==> exists m :: m in RankBy(s, key, wa, wb, rank) && m.key == key(s[i])
  {
    var t := TallyBy(s, key, wa, wb);
    var r := RankBy(s, key, wa, wb, rank);
    var ks := KeysOf(s, key);
    TallyByContents(s, key, wa, wb);
    forall i | 0 <= i < |s|
      ensures exists m :: m in r && m.key == key(s[i])
    {
      var j :| 0 <= j < |ks| && ks[j] == key(s[i]);
      assert t[j] in multiset(t);
      assert t[j] in multiset(r);
    }
  }

  /** Every entry of the ranking is the key of some record, so none is
      empty. */
  lemma RankFrom<T, K>(s: seq<T>, key: T -> K, wa: T -> int, wb: T -> int, rank: Tally<K> -> int)
    ensures forall m :: m in RankBy(s, key, wa, wb, rank) ==>
      m.count >= 1 && exists i :: 0 <= i < |s| && key(s[i]) == m.key
  {
    var t := TallyBy(s, key, wa, wb);
    var r := RankBy(s, key, wa, wb, rank);
    var ks := KeysOf(s, key);
    TallyByContents(s, key, wa, wb);
    KeysOfFrom(s, key);
    forall m | m in r
      ensures m.count >= 1 && exists i :: 0 <= i < |s| && key(s[i]) == m.key
    {
      assert m in multiset(r);
      assert m in multiset(t);
      var j :| 0 <= j < |t| && t[j] == m;
      assert ks[j] in ks;
      var i :| 0 <= i < |s| && key(s[i]) == m.key;
      RowsWithKeyMembers(s, key, m.key);
      assert s[i] in RowsWithKey(s, key, m.key);
    }
  }

  /** No key has two entries in the ranking. */
  lemma RankDistinct<T, K>(s: seq<T>, key: T -> K, wa: T -> int, wb: T -> int, rank: Tally<K> -> int)
    ensures var r := RankBy(s, key, wa, wb, rank);
      forall i, j :: 0 <= i < j < |r| ==> r[i].key != r[j].key
  {
    var t := TallyBy(s, key, wa, wb);
    var r := RankBy(s, key, wa, wb, rank);
    var ks := KeysOf(s, key);
    TallyByContents(s, key, wa, wb);
    KeyedDistinct(t, ks);
    PermutationDistinct(r, t);
    forall i, j | 0 <= i < j < |r|
      ensures r[i].key != r[j].key
    {
      PermutedEntries(r, t, ks, i, j);
    }
  }

  lemma PermutedEntries<K>(r: seq<Tally<K>>, t: seq<Tally<K>>, ks: seq<K>, i: nat, j: nat)
    requires multiset(r) == multiset(t) && Distinct(r)
    requires |t| == |ks| && Distinct(ks)
    requires forall k :: 0 <= k < |t| ==> t[k].key == ks[k]
    requires i < j < |r|
    ensures r[i].key != r[j].key
  {
    assert r[i] in multiset(r) && r[j] in multiset(r);
    assert r[i] in multiset(t) && r[j] in multiset(t);
    SameKeySameEntry(t, ks, r[i], r[j]);
  }

  lemma KeyedDistinct<K>(t: seq<Tally<K>>, ks: seq<K>)
    requires |t| == |ks| && Distinct(ks)
    requires forall i :: 0 <= i < |t| ==> t[i].key == ks[i]
    ensures Distinct(t)
  {
    forall i, j | 0 <= i < j < |t|
      ensures t[i] != t[j]
    {
      assert t[i].key == ks[i] && t[j].key == ks[j];
    }
  }

  /** In accumulators with distinct keys, the key identifies the entry. */
  lemma SameKeySameEntry<K>(t: seq<Tally<K>>, ks: seq<K>, a: Tally<K>, b: Tally<K>)
    requires |t| == |ks| && Distinct(ks)
    requires forall i :: 0 <= i < |t| ==> t[i].key == ks[i]
    requires a in t && b in t && a != b
    ensures a.key != b.key
  {
    var i :| 0 <= i < |t| && t[i] == a;
    var j :| 0 <= j < |t| && t[j] == b;
  }
}

=== FILE: report_am.dfy ===
/** The management report (ReportAM.tsx): the enrollment date of a row, the
    general summary, the weekly evolution from the first month with a sale
    to the last sale, and the per-vendor performance table.

    Dates are day numbers read in UTC: `new Date('YYYY-MM-DD')` is the
    date-only form of the ECMAScript date time string format, which is
    read as UTC midnight, and the windows of the weekly series are whole
    days. */
module ReportAm {
  import opened Seqs
  import opened Strings
  import opened Calendar
  import opened DateText
  import opened Types
  import opened Grouping
  import opened Ranking
  import opened Desempenho

  // ---------------------------------------------------------------------
  // Enrollment dates

  /** `getEnrollmentDate`: a `data_matricula` with '/' is read as
      `DD/MM/YYYY`, any other non-empty one as it is, and a missing one
      falls back to the day of `created_at`. */
  function EnrollmentDate(r: DbEnrollment): (d: JsDate)
    ensures r.dataMatricula.None? || r.dataMatricula.value == "" ==> d == Day(r.createdAt / MsPerDay)
    ensures r.dataMatricula.Some? && r.dataMatricula.value != "" && '/' !in r.dataMatricula.value ==>
      d == ParseIso(r.dataMatricula.value)
  {
    if r.dataMatricula.Some? && r.dataMatricula.value != "" then
      var s := r.dataMatricula.value;
      if '/' in s then
        var parts := Split(s, '/');
        ParseIso(Part(parts, 2) + "-" + Part(parts, 1) + "-" + Part(parts, 0))
      else ParseIso(s)
    else Day(r.createdAt / MsPerDay)
  }

  /** A `DD/MM/YYYY` enrollment date is read as the ISO date of its parts. */
  lemma EnrollmentDateSlash(r: DbEnrollment, d: string, m: string, y: string)
    requires '/' !in d && '/' !in m && '/' !in y
    requires r.dataMatricula == Some(d + "/" + m + "/" + y)
    ensures EnrollmentDate(r) == ParseIso(y + "-" + m + "-" + d)
  {
    var s := d + "/" + m + "/" + y;
    assert s == d + ['/'] + m + ['/'] + y;
    Split3(d, m, y, '/');
    assert s[|d|] == '/';
  }

  /** Hence a well-formed Brazilian date is read as that calendar day. */
  lemma EnrollmentDateBrazilian(r: DbEnrollment, d: string, m: string, y: string)
    requires |y| == 4 && |m| == 2 && |d| == 2 && AllDigits(y) && AllDigits(m) && AllDigits(d)
    requires ValidCivil(Civil(DigitsValue(y), DigitsValue(m), DigitsValue(d)))
    requires r.dataMatricula == Some(d + "/" + m + "/" + y)
    ensures EnrollmentDate(r) == Day(FromCivil(Civil(DigitsValue(y), DigitsValue(m), DigitsValue(d))))
  {
    assert forall i :: 0 <= i < |d| ==> d[i] != '/';
    assert forall i :: 0 <= i < |m| ==> m[i] != '/';
    assert forall i :: 0 <= i < |y| ==> y[i] != '/';
    EnrollmentDateSlash(r, d, m, y);
    ParseIsoParts(y, m, d);
  }

  // ---------------------------------------------------------------------
  // Summary

  datatype Summary = Summary(
    total: nat,
    totalReceive: int,
    totalReceived: int,
    pending: int,
    digital: nat,
    presencial: nat,
    pendenteSig: nat,
    courses: seq<Tally<string>>)

  /** `summary`; each course entry holds its enrollment count and, as
      `first`, the amount to receive from them. */
  function GetSummary(data: seq<DbEnrollment>): (s: Summary)
    ensures s.total == |data|
    ensures s.totalReceive == Sum(data, Receivable) && s.totalReceived == Sum(data, Received)
    ensures s.pending == s.totalReceive - s.totalReceived
    ensures s.digital == Count(data, SignedDigital) && s.presencial == Count(data, SignedInPerson)
    ensures s.pendenteSig == Count(data, SignaturePending)
    ensures s.digital + s.presencial + s.pendenteSig <= s.total
    ensures forall i, j :: 0 <= i < j < |s.courses| ==> s.courses[i].count >= s.courses[j].count
    ensures Sum(s.courses, TallyCount) == s.total
    ensures Sum(s.courses, TallyFirst) == s.totalReceive
  {
    var receive := Sum(data, Receivable);
    var received := Sum(data, Received);
    SignatureClassesDisjoint(data);
    RankPartition(data, CourseOf, Receivable, NoWeight, TallyCount);
    Summary(|data|, receive, received, receive - received,
      Count(data, SignedDigital), Count(data, SignedInPerson), Count(data, SignaturePending),
      RankBy(data, CourseOf, Receivable, NoWeight, TallyCount))
  }

  /** Each course entry of the summary counts exactly the enrollments of
      that course (`pacote`, or 'Outros'). */
  lemma SummaryCourses(data: seq<DbEnrollment>)
    ensures forall m :: m in GetSummary(data).courses ==>
      var rows := RowsWithKey(data, CourseOf, m.key);
      m.count == |rows| && m.first == Sum(rows, Receivable)
  {
    RankContents(data, CourseOf, Receivable, NoWeight, TallyCount);
  }

  // ---------------------------------------------------------------------
  // Weekly evolution

  const MaxWeeks: nat := 150

  /** One 7-day window: its first day and its count; the labels shown are
      functions of the first day (`WeekLabel`, `FullLabel`). */
  datatype Week = Week(start: int, count: nat)

  function WeekCount(w: Week): int { w.count }

  /** The day falls within the seven days from `start`. */
  function InWindow(start: int): JsDate -> bool {
    (d: JsDate) => d.Day? && start <= d.n <= start + 6
  }

  /** The day falls within `lo .. hi`. */
  function InDays(lo: int, hi: int): JsDate -> bool {
    (d: JsDate) => d.Day? && lo <= d.n <= hi
  }

  /** The earliest and latest valid dates, when there is one. */
  function ValidSpan(dates: seq<JsDate>): (r: Option<(int, int)>)
    ensures r.None? <==> forall i :: 0 <= i < |dates| ==> dates[i].InvalidDate?
    ensures r.Some? ==> r.value.0 <= r.value.1
    ensures r.Some? ==> forall i :: 0 <= i < |dates| && dates[i].Day? ==> r.value.0 <= dates[i].n <= r.value.1
    ensures r.Some? ==> Day(r.value.0) in dates && Day(r.value.1) in dates
  {
    if |dates| == 0 then None
    else
      var init := dates[..|dates| - 1];
      var d := dates[|dates| - 1];
      var r := ValidSpan(init);
      assert forall i :: 0 <= i < |init| ==> init[i] == dates[i];
      assert forall x :: x in init ==> x in dates;
      if d.InvalidDate? then r
      else if r.None? then Some((d.n, d.n))
      else Some((if d.n < r.value.0 then d.n else r.value.0, if d.n > r.value.1 then d.n else r.value.1))
  }

  /** `new Date(getFullYear(), getMonth(), 1)` of the earliest date: the
      first day of its month. */
  function FirstWeekStart(lo: int): JsDate {
    var c := ToCivil(lo);
    MakeDate(c.year, c.month - 1, 1)
  }

  /** Outside the two-digit years, the first window starts on the first of
      the earliest date's month, so it is at most 30 days before it. */
  lemma FirstWeekStartFacts(lo: int)
    requires ToCivil(lo).year < 0 || ToCivil(lo).year > 99
    requires -MaxDay + 30 <= lo <= MaxDay
    ensures FirstWeekStart(lo) == Day(lo - (ToCivil(lo).day - 1))
  {
    var c := ToCivil(lo);
    DateOfValid(Civil(c.year, c.month, 1));
    FirstOfMonth(c);
  }

  /** `String(year).slice(-2)`: the last two characters of the year's
      text, or the whole text when it is shorter. */
  function YearShort(z: int): (r: string)
    ensures var s := IntToString(ToCivil(z).year);
      |r| == (if |s| < 2 then |s| else 2) && r == s[|s| - |r|..]
  {
    var s := IntToString(ToCivil(z).year);
    if |s| <= 2 then s else s[|s| - 2..]
  }

  /** From year 10 on, the short year is two digits whose value is the
      year modulo 100. */
  lemma YearShortDigits(z: int)
    requires ToCivil(z).year >= 10
    ensures var r := YearShort(z);
      |r| == 2 && AllDigits(r) && DigitsValue(r) == ToCivil(z).year % 100
  {
    LastTwoDigits(NatToString(ToCivil(z).year));
  }

  /** `week`: `DD/MM/YY` of the window's first day. */
  function WeekLabel(w: Week): string {
    DayMonth(w.start) + "/" + YearShort(w.start)
  }

  /** `fullLabel`: first and last day of the window; both carry the year of
      the first day. */
  function FullLabel(w: Week): string {
    WeekLabel(w) + " à " + DayMonth(w.start + 6) + "/" + YearShort(w.start)
  }

  /** The enrollment dates of the rows. */
  function Dates(data: seq<DbEnrollment>): seq<JsDate> {
    Map(data, EnrollmentDate)
  }

  /** The first day of the first window and the latest date, when there is
      a valid date and the first of its month is a valid `Date`. */
  function Plan(dates: seq<JsDate>): (p: Option<(int, int)>)
    ensures p.None? <==> ValidSpan(dates).None? || FirstWeekStart(ValidSpan(dates).value.0).InvalidDate?
    ensures p.Some? ==> p.value == (FirstWeekStart(ValidSpan(dates).value.0).n, ValidSpan(dates).value.1)
  {
    var span := ValidSpan(dates);
    if span.None? then None
    else
      var first := FirstWeekStart(span.value.0);
      if first.InvalidDate? then None else Some((first.n, span.value.1))
  }

  /** `weeklyEvolution`: windows of seven days from the first of the month
      of the earliest date, each counting the enrollments dated within it,
      up to the window holding the latest date and never more than 150.
      The source sorts the rows by date first; the counts do not depend on
      the order. */
  method WeeklyEvolution(data: seq<DbEnrollment>) returns (weeks: seq<Week>)
    ensures |data| == 0 ==> weeks == []
    ensures |weeks| <= MaxWeeks
    ensures Sum(weeks, WeekCount) <= |data|
    ensures Plan(Dates(data)).None? ==> weeks == []
    ensures Plan(Dates(data)).Some? ==>
      Windowed(Dates(data), Plan(Dates(data)).value.0, Plan(Dates(data)).value.1, weeks)
    ensures Plan(Dates(data)).Some? && |weeks| < MaxWeeks && Plan(Dates(data)).value.0 <= ValidSpan(Dates(data)).value.0 ==>
      Sum(weeks, WeekCount) == Count(Dates(data), IsDate)
  {
    var dates := Dates(data);
    var plan := Plan(dates);
    weeks := [];
    if plan.None? {
      return;
    }
    var start, last := plan.value.0, plan.value.1;
    weeks := Windows(dates, start, last);
    CountAtMost(dates, InDays(start, start + 7 * |weeks| - 1));
    if |weeks| < MaxWeeks && start <= ValidSpan(dates).value.0 {
      CountAgree(dates, InDays(start, start + 7 * |weeks| - 1), IsDate);
    }
  }

  /** The date is a valid `Date`. */
  predicate IsDate(d: JsDate) {
    d.Day?
  }

  /** Outside the two-digit years the first window starts no later than
      the earliest date, so with fewer than 150 windows every valid date
      is counted in some window. */
  lemma PlanStartsEarly(dates: seq<JsDate>)
    requires ValidSpan(dates).Some?
    requires ToCivil(ValidSpan(dates).value.0).year < 0 || ToCivil(ValidSpan(dates).value.0).year > 99
    requires -MaxDay + 30 <= ValidSpan(dates).value.0 <= MaxDay
    ensures Plan(dates).Some? && Plan(dates).value.0 <= ValidSpan(dates).value.0
  {
    FirstWeekStartFacts(ValidSpan(dates).value.0);
  }

  /** The windows start every seven days from `start`, each counting the
      dates within it; every window begins on or before `last`, and the
      windows stop short of `last` only once there are 150. */
  predicate Windowed(dates: seq<JsDate>, start: int, last: int, weeks: seq<Week>) {
    && |weeks| <= MaxWeeks
    && (forall i :: 0 <= i < |weeks| ==> weeks[i] == Week(start + 7 * i, Count(dates, InWindow(start + 7 * i))))
    && (forall i :: 0 <= i < |weeks| ==> weeks[i].start <= last)
    && (|weeks| < MaxWeeks ==> start + 7 * |weeks| > last)
  }

  /** The loop of `weeklyEvolution`: the windows from `start` while they
      begin on or before `last`, at most 150 of them. */
  method Windows(dates: seq<JsDate>, start: int, last: int) returns (weeks: seq<Week>)
    ensures Windowed(dates, start, last, weeks)
    ensures Sum(weeks, WeekCount) == Count(dates, InDays(start, start + 7 * |weeks| - 1))
  {
    weeks := [];
    var current := start;
    var k := 0;
    NoDays(dates, start);
    while current <= last && k < MaxWeeks
      invariant 0 <= k <= MaxWeeks && |weeks| == k && current == start + 7 * k
      invariant forall i :: 0 <= i < k ==>
        weeks[i] == Week(start + 7 * i, Count(dates, InWindow(start + 7 * i)))
      invariant forall i :: 0 <= i < k ==> weeks[i].start <= last
      invariant Sum(weeks, WeekCount) == Count(dates, InDays(start, current - 1))
      decreases MaxWeeks - k
    {
      var c := Count(dates, InWindow(current));
      ExtendDays(dates, start, current);
      SumAppend(weeks, [Week(current, c)], WeekCount);
      weeks := weeks + [Week(current, c)];
      current := current + 7;
      k := k + 1;
    }
  }

  lemma NoDays(dates: seq<JsDate>, start: int)
    ensures Count(dates, InDays(start, start - 1)) == 0
  {
    CountNone(dates, InDays(start, start - 1));
  }

  lemma {:induction false} CountNone<T>(s: seq<T>, p: T -> bool)
    requires forall x :: !p(x)
    ensures Count(s, p) == 0
  {
    if |s| > 0 {
      CountNone(s[..|s| - 1], p);
    }
  }

  /** The days up to a window's end are those before it and those in it. */
  lemma ExtendDays(dates: seq<JsDate>, start: int, current: int)
    requires start <= current
    ensures Count(dates, InDays(start, current + 6)) ==
      Count(dates, InDays(start, current - 1)) + Count(dates, InWindow(current))
  {
    CountSplit(dates, InDays(start, current + 6), InDays(start, current - 1), InWindow(current));
  }

  // ---------------------------------------------------------------------
  // Vendor performance

  /** `received / value * 100 || 0`: a number, or ±Infinity when only the
      amount to receive is zero. */
  datatype Rate = Percent(r: real) | PlusInfinity | MinusInfinity

  function ConversionRate(received: int, value: int): (c: Rate)
    ensures value != 0 ==> c.Percent? && c.r * (value as real) == 100.0 * (received as real)
    ensures value == 0 && received == 0 ==> c == Percent(0.0)
    ensures value == 0 && received > 0 ==> c == PlusInfinity
    ensures value == 0 && received < 0 ==> c == MinusInfinity
  {
    if value != 0 then Percent((received as real) / (value as real) * 100.0)
    else if received == 0 then Percent(0.0)
    else if received > 0 then PlusInfinity
    else MinusInfinity
  }

  /** Fully received gives 100 per cent, nothing received 0. */
  lemma ConversionRateBounds(received: int, value: int)
    requires value > 0
    ensures received == value ==> ConversionRate(received, value) == Percent(100.0)
    ensures received == 0 ==> ConversionRate(received, value) == Percent(0.0)
    ensures 0 <= received <= value ==> 0.0 <= ConversionRate(received, value).r <= 100.0
  {
    var c := ConversionRate(received, value);
    var v, q := value as real, received as real;
    assert c.Percent? && c.r * v == 100.0 * q;
    SignOfProduct(c.r - 100.0, v);
    SignOfProduct(c.r, v);
    assert (c.r - 100.0) * v == c.r * v - 100.0 * v;
  }

  /** Multiplying by a positive number keeps the sign. */
  lemma SignOfProduct(a: real, v: real)
    requires v > 0.0
    ensures a > 0.0 ==> a * v > 0.0
    ensures a < 0.0 ==> a * v < 0.0
  {
  }

  /** One row of the vendor table. */
  datatype VendorRow = VendorRow(
    name: string,
    total: nat,
    totalValue: int,
    totalReceived: int,
    digital: nat,
    presencial: nat,
    pendente: nat,
    conversionRate: Rate)

  function ToRow(v: VendorStat): VendorRow {
    VendorRow(v.name, v.total, v.totalValue, v.totalReceived, v.digital, v.presencial, v.pendente,
      ConversionRate(v.totalReceived, v.totalValue))
  }

  function RowTotal(v: VendorRow): int { v.total }
  function RowValue(v: VendorRow): int { v.totalValue }
  function RowReceived(v: VendorRow): int { v.totalReceived }

  /** The figures of a row are those of its vendor's enrollments: their
      number, the two amount sums and the three signature counts. */
  predicate FromVendorRows(data: seq<DbEnrollment>, v: VendorRow) {
    var rows := RowsWithKey(data, VendorOf, v.name);
    && v.total == |rows|
    && v.totalValue == Sum(rows, Receivable) && v.totalReceived == Sum(rows, Received)
    && v.digital == Count(rows, SignedDigital) && v.presencial == Count(rows, SignedInPerson)
    && v.pendente == Count(rows, SignaturePending)
  }

  /** `vendorPerformance`: the vendor grouping of the performance screen,
      with the conversion rate of each vendor, most enrollments first. */
  function VendorPerformance(data: seq<DbEnrollment>): (vs: seq<VendorRow>)
    ensures forall i, j :: 0 <= i < j < |vs| ==> vs[i].total >= vs[j].total
    ensures forall i, j :: 0 <= i < j < |vs| ==> vs[i].name != vs[j].name
    ensures forall v :: v in vs ==> v.total == |RowsWithKey(data, VendorOf, v.name)|
    ensures forall v :: v in vs ==> FromVendorRows(data, v)
    ensures forall v :: v in vs ==> v.conversionRate == ConversionRate(v.totalReceived, v.totalValue)
    ensures forall i, j :: (0 <= i < j < |vs| && vs[i].total == vs[j].total
      ==> FirstSeenBefore(data, VendorOf, vs[i].name, vs[j].name))
  {
    RowsFollowStats(data, VendorStats(data));
    RowsFromVendorRows(data, VendorStats(data));
    Map(VendorStats(data), ToRow)
  }

  lemma RowsFollowStats(data: seq<DbEnrollment>, st: seq<VendorStat>)
    requires st == VendorStats(data)
    ensures var vs := Map(st, ToRow);
      && (forall i, j :: 0 <= i < j < |vs| ==> vs[i].total >= vs[j].total)
      && (forall i, j :: 0 <= i < j < |vs| ==> vs[i].name != vs[j].name)
      && (forall v :: v in vs ==> v.total == |RowsWithKey(data, VendorOf, v.name)|)
      && (forall i, j :: 0 <= i < j < |vs| && vs[i].total == vs[j].total
            ==> FirstSeenBefore(data, VendorOf, vs[i].name, vs[j].name))
  {
    var vs := Map(st, ToRow);
    assert forall i :: 0 <= i < |vs| ==> vs[i].name == st[i].name && vs[i].total == st[i].total;
    forall v | v in vs
      ensures v.total == |RowsWithKey(data, VendorOf, v.name)|
    {
      var i := IndexOf(vs, v);
      assert st[i] in st;
    }
  }

  lemma RowsFromVendorRows(data: seq<DbEnrollment>, st: seq<VendorStat>)
    requires st == VendorStats(data)
    ensures forall v :: v in Map(st, ToRow) ==> FromVendorRows(data, v)
  {
    var vs := Map(st, ToRow);
    forall v | v in vs
      ensures FromVendorRows(data, v)
    {
      var i := IndexOf(vs, v);
      assert st[i] in st && v == ToRow(st[i]);
    }
  }

  /** The vendor table adds up to the summary. */
  lemma VendorPerformanceTotals(data: seq<DbEnrollment>)
    ensures Sum(VendorPerformance(data), RowTotal) == GetSummary(data).total
    ensures Sum(VendorPerformance(data), RowValue) == GetSummary(data).totalReceive
    ensures Sum(VendorPerformance(data), RowReceived) == GetSummary(data).totalReceived
  {
    var st := VendorStats(data);
    VendorStatsPartition(data);
    SumMap(st, ToRow, RowTotal, Total);
    SumMap(st, ToRow, RowValue, TotalValue);
    SumMap(st, ToRow, RowReceived, TotalReceived);
  }
}

=== FILE: seqs.dfy ===
/** Generic sequence helpers: optional values, sums, counts, filters and
    order-preserving subsequences. Folds run left to right, as the
    `forEach`/`reduce`/`filter` calls they model. */
module Seqs {

  datatype Option<+T> = None | Some(value: T)

  /** `values.reduce((s, x) => s + w(x), 0)`. */
  function Sum<T>(s: seq<T>, w: T -> int): int {
    if |s| == 0 then 0 else Sum(s[..|s| - 1], w) + w(s[|s| - 1])
  }

  /** `values.filter(p).length`. */
  function Count<T>(s: seq<T>, p: T -> bool): nat {
    if |s| == 0 then 0 else Count(s[..|s| - 1], p) + (if p(s[|s| - 1]) then 1 else 0)
  }

  /** `values.filter(p)`. */
  function Filter<T(!new)>(s: seq<T>, p: T -> bool): (r: seq<T>)
    ensures |r| == Count(s, p) <= |s|
    ensures forall x :: x in r <==> x in s && p(x)
  {
    if |s| == 0 then []
    else
      var last := s[|s| - 1];
      assert forall x :: x in s <==> x in s[..|s| - 1] || x == last;
      Filter(s[..|s| - 1], p) + (if p(last) then [last] else [])
  }

  lemma SumAppend<T>(a: seq<T>, b: seq<T>, w: T -> int)
    ensures Sum(a + b, w) == Sum(a, w) + Sum(b, w)
  {
    if |b| == 0 {
      assert a + b == a;
    } else {
      assert (a + b)[..|a + b| - 1] == a + b[..|b| - 1];
      SumAppend(a, b[..|b| - 1], w);
    }
  }

  lemma CountAppend<T>(a: seq<T>, b: seq<T>, p: T -> bool)
    ensures Count(a + b, p) == Count(a, p) + Count(b, p)
  {
    if |b| == 0 {
      assert a + b == a;
    } else {
      assert (a + b)[..|a + b| - 1] == a + b[..|b| - 1];
      CountAppend(a, b[..|b| - 1], p);
    }
  }

  /** 1 where `p` holds, 0 elsewhere. */
  function Indicator<T>(p: T -> bool): T -> int {
    x => if p(x) then 1 else 0
  }

  /** Counting with a predicate is summing its indicator. */
  lemma {:induction false} CountIsSum<T>(s: seq<T>, p: T -> bool)
    ensures Count(s, p) == Sum(s, Indicator(p))
  {
    if |s| > 0 {
      CountIsSum(s[..|s| - 1], p);
    }
  }

  /** Summing a measure that is 1 everywhere counts the elements. */
  lemma {:induction false} SumOnes<T>(s: seq<T>, w: T -> int)
    requires forall x :: w(x) == 1
    ensures Sum(s, w) == |s|
  {
    if |s| > 0 {
      SumOnes(s[..|s| - 1], w);
    }
  }

  lemma {:induction false} CountAtMost<T>(s: seq<T>, p: T -> bool)
    ensures Count(s, p) <= |s|
  {
    if |s| > 0 {
      CountAtMost(s[..|s| - 1], p);
    }
  }

  /** A predicate that is the disjoint union of two others counts what the
      two count together. */
  lemma {:induction false} CountSplit<T>(s: seq<T>, p: T -> bool, q: T -> bool, o: T -> bool)
    requires forall x :: p(x) <==> q(x) || o(x)
    requires forall x :: !(q(x) && o(x))
    ensures Count(s, p) == Count(s, q) + Count(s, o)
  {
    if |s| > 0 {
      CountSplit(s[..|s| - 1], p, q, o);
    }
  }

  /** Predicates that agree on every element count the same. */
  lemma {:induction false} CountAgree<T>(s: seq<T>, p: T -> bool, q: T -> bool)
    requires forall i :: 0 <= i < |s| ==> (p(s[i]) <==> q(s[i]))
    ensures Count(s, p) == Count(s, q)
  {
    if |s| > 0 {
      var init := s[..|s| - 1];
      assert forall i :: 0 <= i < |init| ==> init[i] == s[i];
      CountAgree(init, p, q);
    }
  }

  /** Two predicates that never hold together count at most the length. */
  lemma {:induction false} CountDisjoint<T>(s: seq<T>, p: T -> bool, q: T -> bool)
    requires forall x :: !(p(x) && q(x))
    ensures Count(s, p) + Count(s, q) <= |s|
  {
    if |s| > 0 {
      CountDisjoint(s[..|s| - 1], p, q);
    }
  }

  /** Three pairwise exclusive predicates count at most the length. */
  lemma {:induction false} CountDisjoint3<T>(s: seq<T>, p: T -> bool, q: T -> bool, o: T -> bool)
    requires forall x :: !(p(x) && q(x)) && !(p(x) && o(x)) && !(q(x) && o(x))
    ensures Count(s, p) + Count(s, q) + Count(s, o) <= |s|
  {
    if |s| > 0 {
      CountDisjoint3(s[..|s| - 1], p, q, o);
    }
  }

  /** A predicate and its negation split the sequence. */
  lemma {:induction false} CountComplement<T>(s: seq<T>, p: T -> bool)
    ensures Count(s, p) + Count(s, x => !p(x)) == |s|
  {
    if |s| > 0 {
      CountComplement(s[..|s| - 1], p);
    }
  }

  /** Two predicates, each the negation of the other, split the sequence. */
  lemma {:induction false} CountOpposite<T>(s: seq<T>, p: T -> bool, q: T -> bool)
    requires forall x :: q(x) <==> !p(x)
    ensures Count(s, p) + Count(s, q) == |s|
  {
    if |s| > 0 {
      CountOpposite(s[..|s| - 1], p, q);
    }
  }

  /** `a` is an order-preserving subsequence of `b`. */
  predicate Subsequence<T(==)>(a: seq<T>, b: seq<T>)
    decreases |b|
  {
    if |a| == 0 then true
    else if |b| == 0 then false
    else if a[|a| - 1] == b[|b| - 1] then Subsequence(a[..|a| - 1], b[..|b| - 1])
    else Subsequence(a, b[..|b| - 1])
  }

  lemma {:induction false} SubsequenceExtend<T>(a: seq<T>, b: seq<T>, x: T)
    requires Subsequence(a, b)
    ensures Subsequence(a, b + [x])
    decreases |b|, 1
  {
    if |a| > 0 {
      assert (b + [x])[..|b|] == b;
      if a[|a| - 1] == x {
        SubsequenceShrink(a, b);
      }
    }
  }

  lemma {:induction false} SubsequenceShrink<T>(a: seq<T>, b: seq<T>)
    requires |a| > 0 && Subsequence(a, b)
    ensures Subsequence(a[..|a| - 1], b)
    decreases |b|, 0
  {
    if |b| > 0 {
      if a[|a| - 1] == b[|b| - 1] {
        SubsequenceExtend(a[..|a| - 1], b[..|b| - 1], b[|b| - 1]);
        assert b[..|b| - 1] + [b[|b| - 1]] == b;
      } else {
        SubsequenceShrink(a, b[..|b| - 1]);
        SubsequenceExtend(a[..|a| - 1], b[..|b| - 1], b[|b| - 1]);
        assert b[..|b| - 1] + [b[|b| - 1]] == b;
      }
    }
  }

  lemma {:induction false} SubsequenceSelf<T>(s: seq<T>)
    ensures Subsequence(s, s)
  {
    if |s| > 0 {
      SubsequenceSelf(s[..|s| - 1]);
    }
  }

  /** A filter keeps the order of what it keeps. */
  lemma {:induction false} FilterIsSubsequence<T(!new)>(s: seq<T>, p: T -> bool)
    ensures Subsequence(Filter(s, p), s)
  {
    if |s| > 0 {
      var init := s[..|s| - 1];
      var last := s[|s| - 1];
      FilterIsSubsequence(init, p);
      assert init + [last] == s;
      if p(last) {
        var f := Filter(init, p) + [last];
        assert f[..|f| - 1] == Filter(init, p);
      } else {
        assert Filter(s, p) == Filter(init, p);
        SubsequenceExtend(Filter(init, p), init, last);
      }
    }
  }

  /** A filter whose predicate holds everywhere keeps everything. */
  lemma {:induction false} FilterAll<T(!new)>(s: seq<T>, p: T -> bool)
    requires forall x :: x in s ==> p(x)
    ensures Filter(s, p) == s
  {
    if |s| > 0 {
      var init := s[..|s| - 1];
      assert s == init + [s[|s| - 1]];
      assert forall x :: x in init ==> x in s;
      FilterAll(init, p);
    }
  }

  /** Filtering by `p` and by `!p` splits every additive measure. */
  lemma {:induction false} FilterSplitsSum<T(!new)>(s: seq<T>, p: T -> bool, w: T -> int)
    ensures Sum(Filter(s, p), w) + Sum(Filter(s, x => !p(x)), w) == Sum(s, w)
  {
    if |s| > 0 {
      var init := s[..|s| - 1];
      var last := s[|s| - 1];
      FilterSplitsSum(init, p, w);
      SumAppend(Filter(init, p), if p(last) then [last] else [], w);
      SumAppend(Filter(init, x => !p(x)), if !p(last) then [last] else [], w);
    }
  }

  /** `values.map(f)`. */
  function Map<A, B>(s: seq<A>, f: A -> B): (r: seq<B>)
    ensures |r| == |s|
    ensures forall i :: 0 <= i < |s| ==> r[i] == f(s[i])
  {
    if |s| == 0 then [] else [f(s[0])] + Map(s[1..], f)
  }

  lemma SumSingle<T>(x: T, w: T -> int)
    ensures Sum([x], w) == w(x)
  {
    assert [x][..0] == [];
  }

  /** Summing a measure over a mapped sequence is summing the composed
      measure over the original. */
  lemma {:induction false} SumMap<A, B>(s: seq<A>, f: A -> B, w: B -> int, g: A -> int)
    requires forall x :: g(x) == w(f(x))
    ensures Sum(Map(s, f), w) == Sum(s, g)
  {
    if |s| > 0 {
      SumMap(s[1..], f, w, g);
      assert s == [s[0]] + s[1..];
      SumAppend([f(s[0])], Map(s[1..], f), w);
      SumAppend([s[0]], s[1..], g);
      SumSingle(f(s[0]), w);
      SumSingle(s[0], g);
    }
  }

  /** The images of a map are exactly the images of the elements. */
  lemma MapMembers<A, B>(s: seq<A>, f: A -> B)
    ensures forall y :: y in Map(s, f) <==> exists x :: x in s && f(x) == y
  {
    forall y | y in Map(s, f)
      ensures exists x :: x in s && f(x) == y
    {
      var i :| 0 <= i < |s| && Map(s, f)[i] == y;
      assert s[i] in s;
    }
    forall x | x in s
      ensures f(x) in Map(s, f)
    {
      var i :| 0 <= i < |s| && s[i] == x;
      assert Map(s, f)[i] == f(x);
    }
  }

  function FirstWhere<T>(s: seq<T>, p: T -> bool): (r: Option<nat>)
    ensures r.Some? ==> r.value < |s| && p(s[r.value])
    ensures r.Some? ==> forall i :: 0 <= i < r.value ==> !p(s[i])
    ensures r.None? ==> forall i :: 0 <= i < |s| ==> !p(s[i])
  {
    if |s| == 0 then None
    else if p(s[0]) then Some(0)
    else
      var r := FirstWhere(s[1..], p);
      if r.None? then None else Some(r.value + 1)
  }

  /** A position of a member of `s`. */
  lemma IndexOf<T>(s: seq<T>, x: T) returns (j: nat)
    requires x in s
    ensures j < |s| && s[j] == x
  {
    j :| 0 <= j < |s| && s[j] == x;
  }

  predicate Distinct<T(==)>(s: seq<T>) {
    forall i, j :: 0 <= i < j < |s| ==> s[i] != s[j]
  }

  /** `[...new Set(s)]`: the distinct elements in order of first occurrence. */
  function Dedup<T(==,!new)>(s: seq<T>): (r: seq<T>)
    ensures Distinct(r)
    ensures forall x :: x in r <==> x in s
  {
    if |s| == 0 then []
    else
      var init := Dedup(s[..|s| - 1]);
      var last := s[|s| - 1];
      assert forall x :: x in s <==> x in s[..|s| - 1] || x == last;
      if last in init then init else init + [last]
  }
}

=== FILE: sorting.dfy ===
/** Stable sorting.

    `Array.prototype.sort` is stable (ECMAScript 2019). The dashboard sorts
    by numeric comparators `(a, b) => key(a) - key(b)` (ascending) and
    `(a, b) => key(b) - key(a)` (descending), and sorts strings with the
    default comparator, which orders by UTF-16 code units. */
module Sorting {
  import opened Seqs

  predicate SortedBy<T>(s: seq<T>, key: T -> int) {
    forall i, j :: 0 <= i < j < |s| ==> key(s[i]) <= key(s[j])
  }

  /** Length of the leading run of elements whose key is not larger than
      `x`'s: where insertion puts `x`. */
  function InsertPos<T>(x: T, s: seq<T>, key: T -> int): (p: nat)
    ensures p <= |s|
    ensures forall i :: 0 <= i < p ==> key(s[i]) <= key(x)
    ensures p < |s| ==> key(s[p]) > key(x)
  {
    if |s| > 0 && key(s[0]) <= key(x) then 1 + InsertPos(x, s[1..], key) else 0
  }

  /** Inserts `x` after every element whose key is not larger. */
  function InsertBy<T>(x: T, s: seq<T>, key: T -> int): (r: seq<T>)
    requires SortedBy(s, key)
    ensures SortedBy(r, key)
    ensures multiset(r) == multiset(s) + multiset{x}
    ensures |r| == |s| + 1
  {
    var p := InsertPos(x, s, key);
    var r := s[..p] + [x] + s[p..];
    assert s[..p] + s[p..] == s;
    InsertAt(x, s, key, p, r);
    r
  }

  /** Putting `x` where it belongs keeps the sequence sorted, and shifts
      the elements after it by one. */
  lemma InsertAt<T>(x: T, s: seq<T>, key: T -> int, p: nat, r: seq<T>)
    requires SortedBy(s, key) && p == InsertPos(x, s, key)
    requires r == s[..p] + [x] + s[p..]
    ensures r[p] == x
    ensures forall k :: 0 <= k < p ==> r[k] == s[k]
    ensures forall k :: p < k < |r| ==> r[k] == s[k - 1]
    ensures SortedBy(r, key)
  {
    assert forall k :: 0 <= k < p ==> r[k] == s[k];
    assert forall k :: p < k < |r| ==> r[k] == s[k - 1];
    forall i, j | 0 <= i < j < |r|
      ensures key(r[i]) <= key(r[j])
    {
      if j > p {
        assert key(s[p]) <= key(s[j - 1]);
      }
    }
  }

  /** Stable sort by ascending key: `s.slice().sort((a, b) => key(a) - key(b))`. */
  function SortBy<T>(s: seq<T>, key: T -> int): (r: seq<T>)
    ensures SortedBy(r, key)
    ensures multiset(r) == multiset(s)
    ensures |r| == |s|
  {
    if |s| == 0 then []
    else
      assert s == s[..|s| - 1] + [s[|s| - 1]];
      InsertBy(s[|s| - 1], SortBy(s[..|s| - 1], key), key)
  }

  function Negated<T>(key: T -> int): T -> int {
    x => -key(x)
  }

  /** Stable sort by descending key: `(a, b) => key(b) - key(a)`. */
  function SortByDesc<T>(s: seq<T>, key: T -> int): (r: seq<T>)
    ensures forall i, j :: 0 <= i < j < |r| ==> key(r[i]) >= key(r[j])
    ensures multiset(r) == multiset(s)
    ensures |r| == |s|
  {
    var r := SortBy(s, Negated(key));
    assert SortedBy(r, Negated(key));
    r
  }

  /** Among elements with equal keys, insertion keeps input order: every
      element whose key equals `x`'s stays in front of `x`, and the elements
      keep their relative order. */
  lemma InsertAfterEqual<T>(x: T, s: seq<T>, key: T -> int)
    requires SortedBy(s, key)
    ensures var r := InsertBy(x, s, key);
      var p := InsertPos(x, s, key);
      && r[p] == x
      && (forall i :: 0 <= i < |s| && key(s[i]) == key(x) ==> i < p)
      && (forall i :: 0 <= i < |s| ==> r[if i < p then i else i + 1] == s[i])
  {
    var p := InsertPos(x, s, key);
    var r := InsertBy(x, s, key);
    assert r == s[..p] + [x] + s[p..];
    InsertAt(x, s, key, p, r);
    AfterPosLarger(x, s, key, p);
    forall i | 0 <= i < |s|
      ensures r[if i < p then i else i + 1] == s[i]
    {
      if i >= p {
        assert r[i + 1] == s[i];
      }
    }
  }

  /** The elements whose key is `v`, in order. */
  function OfKey<T>(s: seq<T>, key: T -> int, v: int): seq<T> {
    if |s| == 0 then []
    else OfKey(s[..|s| - 1], key, v) + (if key(s[|s| - 1]) == v then [s[|s| - 1]] else [])
  }

  lemma {:induction false} OfKeyAppend<T>(a: seq<T>, b: seq<T>, key: T -> int, v: int)
    ensures OfKey(a + b, key, v) == OfKey(a, key, v) + OfKey(b, key, v)
  {
    if |b| == 0 {
      assert a + b == a;
    } else {
      assert (a + b)[..|a + b| - 1] == a + b[..|b| - 1];
      OfKeyAppend(a, b[..|b| - 1], key, v);
    }
  }

  /** Positions `m` of `s` that list the elements of key `v` in order. */
  predicate IndexesOfKey<T(==)>(s: seq<T>, key: T -> int, v: int, m: seq<nat>, f: seq<T>) {
    && |m| == |f|
    && (forall a :: 0 <= a < |m| ==> m[a] < |s| && s[m[a]] == f[a])
    && (forall a, b :: 0 <= a < b < |m| ==> m[a] < m[b])
    && (forall i :: 0 <= i < |s| && key(s[i]) == v ==> exists a :: 0 <= a < |m| && m[a] == i)
  }

  /** Where the elements of key `v` stand in `s`: increasing positions,
      one for each element of that key. */
  lemma {:induction false} OfKeyIndices<T>(s: seq<T>, key: T -> int, v: int) returns (m: seq<nat>)
    ensures IndexesOfKey(s, key, v, m, OfKey(s, key, v))
  {
    if |s| == 0 {
      m := [];
    } else {
      var n := |s| - 1;
      var mi := OfKeyIndices(s[..n], key, v);
      m := IndicesExtend(s, key, v, mi);
    }
  }

  lemma IndicesExtend<T>(s: seq<T>, key: T -> int, v: int, mi: seq<nat>) returns (m: seq<nat>)
    requires |s| > 0 && IndexesOfKey(s[..|s| - 1], key, v, mi, OfKey(s[..|s| - 1], key, v))
    ensures IndexesOfKey(s, key, v, m, OfKey(s, key, v))
  {
    var n := |s| - 1;
    var init := s[..n];
    var f := OfKey(init, key, v);
    assert forall i :: 0 <= i < n ==> init[i] == s[i];
    if key(s[n]) == v {
      m := mi + [n];
      assert OfKey(s, key, v) == f + [s[n]];
      forall i | 0 <= i < |s| && key(s[i]) == v
        ensures exists a :: 0 <= a < |m| && m[a] == i
      {
        if i < n {
          var a :| 0 <= a < |mi| && mi[a] == i;
          assert m[a] == i;
        } else {
          assert m[|mi|] == i;
        }
      }
    } else {
      m := mi;
      assert OfKey(s, key, v) == f;
    }
  }

  /** Two elements of key `v` at positions `i < j` of `s` are listed in
      that order among the elements of key `v`. */
  lemma PositionsOfKey<T>(s: seq<T>, key: T -> int, v: int, i: nat, j: nat) returns (a: nat, b: nat)
    requires i < j < |s| && key(s[i]) == v && key(s[j]) == v
    ensures a < b < |OfKey(s, key, v)|
    ensures OfKey(s, key, v)[a] == s[i] && OfKey(s, key, v)[b] == s[j]
  {
    var m := OfKeyIndices(s, key, v);
    a :| 0 <= a < |m| && m[a] == i;
    b :| 0 <= b < |m| && m[b] == j;
  }

  /** Elements listed at `a < b` among those of key `v` stand in `s` in
      that order. */
  lemma ListedOfKey<T>(s: seq<T>, key: T -> int, v: int, a: nat, b: nat) returns (i: nat, j: nat)
    requires a < b < |OfKey(s, key, v)|
    ensures i < j < |s|
    ensures s[i] == OfKey(s, key, v)[a] && s[j] == OfKey(s, key, v)[b]
  {
    var m := OfKeyIndices(s, key, v);
    i := m[a];
    j := m[b];
  }

  /** Elements whose keys are all larger than `v` have none of key `v`. */
  lemma {:induction false} OfKeyNone<T>(b: seq<T>, key: T -> int, v: int)
    requires forall i :: 0 <= i < |b| ==> key(b[i]) > v
    ensures OfKey(b, key, v) == []
  {
    if |b| > 0 {
      OfKeyNone(b[..|b| - 1], key, v);
    }
  }

  /** Inserting `x` in front of elements with larger keys puts it behind
      every element of its own key. */
  lemma OfKeyBeforeLarger<T>(x: T, s: seq<T>, key: T -> int, v: int, p: nat)
    requires p <= |s|
    requires forall i :: p <= i < |s| ==> key(s[i]) > key(x)
    ensures OfKey(s[..p] + [x] + s[p..], key, v) == OfKey(s, key, v) + (if key(x) == v then [x] else [])
  {
    var a := s[..p];
    var b := s[p..];
    OfKeyAppend(a + [x], b, key, v);
    assert (a + [x])[..|a + [x]| - 1] == a;
    assert a + b == s;
    OfKeyAppend(a, b, key, v);
    if key(x) == v {
      assert forall i :: 0 <= i < |b| ==> b[i] == s[p + i];
      OfKeyNone(b, key, v);
    }
  }

  /** Insertion appends `x` to the elements of its key, behind those
      already there, and leaves every other key's elements alone. */
  lemma InsertByOfKey<T>(x: T, s: seq<T>, key: T -> int, v: int)
    requires SortedBy(s, key)
    ensures OfKey(InsertBy(x, s, key), key, v) == OfKey(s, key, v) + (if key(x) == v then [x] else [])
  {
    var p := InsertPos(x, s, key);
    assert InsertBy(x, s, key) == s[..p] + [x] + s[p..];
    AfterPosLarger(x, s, key, p);
    OfKeyBeforeLarger(x, s, key, v, p);
  }

  /** Stability: sorting keeps, for every key, its elements in input
      order. */
  lemma {:induction false} SortByStable<T>(s: seq<T>, key: T -> int, v: int)
    ensures OfKey(SortBy(s, key), key, v) == OfKey(s, key, v)
  {
    if |s| > 0 {
      var init := s[..|s| - 1];
      SortByStable(init, key, v);
      InsertByOfKey(s[|s| - 1], SortBy(init, key), key, v);
    }
  }

  /** Elements of key `v` under `key` are those of key `-v` under the
      negated key. */
  lemma {:induction false} OfKeyNegated<T>(s: seq<T>, key: T -> int, v: int)
    ensures OfKey(s, Negated(key), -v) == OfKey(s, key, v)
  {
    if |s| > 0 {
      OfKeyNegated(s[..|s| - 1], key, v);
    }
  }

  /** Stability of the descending sort. */
  lemma SortByDescStable<T>(s: seq<T>, key: T -> int, v: int)
    ensures OfKey(SortByDesc(s, key), key, v) == OfKey(s, key, v)
  {
    assert SortByDesc(s, key) == SortBy(s, Negated(key));
    SortByNegatedStable(s, key, v);
  }

  lemma SortByNegatedStable<T>(s: seq<T>, key: T -> int, v: int)
    ensures OfKey(SortBy(s, Negated(key)), key, v) == OfKey(s, key, v)
  {
    SortByStable(s, Negated(key), -v);
    SameOfKeyNegated(SortBy(s, Negated(key)), s, key, v);
  }

  lemma SameOfKeyNegated<T>(r: seq<T>, s: seq<T>, key: T -> int, v: int)
    requires OfKey(r, Negated(key), -v) == OfKey(s, Negated(key), -v)
    ensures OfKey(r, key, v) == OfKey(s, key, v)
  {
    OfKeyNegated(r, key, v);
    OfKeyNegated(s, key, v);
  }

  /** Past the insertion point every key is larger than `x`'s. */
  lemma AfterPosLarger<T>(x: T, s: seq<T>, key: T -> int, p: nat)
    requires SortedBy(s, key) && p == InsertPos(x, s, key)
    ensures forall i :: p <= i < |s| ==> key(s[i]) > key(x)
  {
    forall i | p <= i < |s|
      ensures key(s[i]) > key(x)
    {
      assert key(s[p]) <= key(s[i]);
    }
  }

  /** A permutation keeps every additive measure. */
  lemma {:induction false} SumOfPermutation<T>(a: seq<T>, b: seq<T>, w: T -> int)
    requires multiset(a) == multiset(b)
    ensures Sum(a, w) == Sum(b, w)
    decreases |a|
  {
    if |a| > 0 {
      var x := a[|a| - 1];
      assert x in multiset(b);
      var j :| 0 <= j < |b| && b[j] == x;
      var b' := b[..j] + b[j + 1..];
      assert b == b[..j] + [x] + b[j + 1..];
      assert a == a[..|a| - 1] + [x];
      assert multiset(a) == multiset(a[..|a| - 1]) + multiset{x};
      assert multiset(b) == multiset(b[..j]) + multiset{x} + multiset(b[j + 1..]);
      assert multiset(b') == multiset(b[..j]) + multiset(b[j + 1..]);
      assert multiset(a[..|a| - 1]) == multiset(a) - multiset{x};
      assert multiset(b') == multiset(b) - multiset{x};
      assert multiset(a[..|a| - 1]) == multiset(b');
      SumOfPermutation(a[..|a| - 1], b', w);
      SumAppend(b[..j] + [x], b[j + 1..], w);
      SumAppend(b[..j], [x], w);
      SumAppend(b[..j], b[j + 1..], w);
      assert [x][..0] == [];
    } else {
      assert |b| == |multiset(b)| == 0;
    }
  }

  lemma SortBySum<T>(s: seq<T>, key: T -> int, w: T -> int)
    ensures Sum(SortBy(s, key), w) == Sum(s, w)
    ensures Sum(SortByDesc(s, key), w) == Sum(s, w)
  {
    SumOfPermutation(SortBy(s, key), s, w);
    SumOfPermutation(SortByDesc(s, key), s, w);
  }

  // String order (the default comparator of `Array.prototype.sort`).

  /** `a <= b` in code-unit lexicographic order. */
  predicate StrLe(a: string, b: string) {
    |a| == 0 || (|b| > 0 && (a[0] < b[0] || (a[0] == b[0] && StrLe(a[1..], b[1..]))))
  }

  lemma {:induction false} StrLeTotal(a: string, b: string)
    ensures StrLe(a, b) || StrLe(b, a)
  {
    if |a| > 0 && |b| > 0 && a[0] == b[0] {
      StrLeTotal(a[1..], b[1..]);
    }
  }

  lemma {:induction false} StrLeAntisymmetric(a: string, b: string)
    requires StrLe(a, b) && StrLe(b, a)
    ensures a == b
  {
    if |a| > 0 && |b| > 0 {
      StrLeAntisymmetric(a[1..], b[1..]);
      assert a == [a[0]] + a[1..] && b == [b[0]] + b[1..];
    }
  }

  lemma {:induction false} StrLeTransitive(a: string, b: string, c: string)
    requires StrLe(a, b) && StrLe(b, c)
    ensures StrLe(a, c)
  {
    if |a| > 0 && a[0] == b[0] && b[0] == c[0] {
      StrLeTransitive(a[1..], b[1..], c[1..]);
    }
  }

  predicate StrSorted(s: seq<string>) {
    forall i, j :: 0 <= i < j < |s| ==> StrLe(s[i], s[j])
  }

  function InsertPosStr(x: string, s: seq<string>): (p: nat)
    ensures p <= |s|
    ensures forall i :: 0 <= i < p ==> StrLe(s[i], x)
    ensures p < |s| ==> !StrLe(s[p], x)
  {
    if |s| > 0 && StrLe(s[0], x) then 1 + InsertPosStr(x, s[1..]) else 0
  }

  function InsertStr(x: string, s: seq<string>): (r: seq<string>)
    requires StrSorted(s)
    ensures StrSorted(r)
    ensures multiset(r) == multiset(s) + multiset{x}
    ensures |r| == |s| + 1
  {
    var p := InsertPosStr(x, s);
    assert s[..p] + s[p..] == s;
    InsertStrSorted(x, s);
    s[..p] + [x] + s[p..]
  }

  lemma InsertStrSorted(x: string, s: seq<string>)
    requires StrSorted(s)
    ensures var p := InsertPosStr(x, s); StrSorted(s[..p] + [x] + s[p..])
  {
    var p := InsertPosStr(x, s);
    var r := s[..p] + [x] + s[p..];
    InsertPosStrAfter(x, s);
    forall i, j | 0 <= i < j < |r|
      ensures StrLe(r[i], r[j])
    {
      if j < p {
        assert r[i] == s[i] && r[j] == s[j];
      } else if j == p {
        assert r[i] == s[i];
      } else if i == p {
        assert r[j] == s[j - 1];
      } else if i < p {
        assert r[i] == s[i] && r[j] == s[j - 1];
      } else {
        assert r[i] == s[i - 1] && r[j] == s[j - 1];
      }
    }
  }

  /** In a sorted sequence, `x` is below everything from its insertion point on. */
  lemma InsertPosStrAfter(x: string, s: seq<string>)
    requires StrSorted(s)
    ensures forall j :: InsertPosStr(x, s) <= j < |s| ==> StrLe(x, s[j])
  {
    var p := InsertPosStr(x, s);
    if p < |s| {
      StrLeTotal(s[p], x);
      forall j | p < j < |s|
        ensures StrLe(x, s[j])
      {
        StrLeTransitive(x, s[p], s[j]);
      }
    }
  }

  /** `strings.sort()`. */
  function SortStrings(s: seq<string>): (r: seq<string>)
    ensures StrSorted(r)
    ensures multiset(r) == multiset(s)
    ensures |r| == |s|
  {
    if |s| == 0 then []
    else
      assert s == s[..|s| - 1] + [s[|s| - 1]];
      InsertStr(s[|s| - 1], SortStrings(s[..|s| - 1]))
  }

  /** A permutation of distinct values is distinct. */
  lemma PermutationDistinct<T>(a: seq<T>, b: seq<T>)
    requires multiset(a) == multiset(b) && Distinct(b)
    ensures Distinct(a)
  {
    forall i, j | 0 <= i < j < |a|
      ensures a[i] != a[j]
    {
      if a[i] == a[j] {
        var x := a[i];
        assert a == a[..i] + [x] + a[i + 1..j] + [x] + a[j + 1..];
        assert multiset(a)[x] >= 2;
        DistinctMultiplicity(b, x);
      }
    }
  }

  lemma {:induction false} DistinctMultiplicity<T>(b: seq<T>, x: T)
    requires Distinct(b)
    ensures multiset(b)[x] <= 1
  {
    if |b| > 0 {
      var init := b[..|b| - 1];
      assert b == init + [b[|b| - 1]];
      DistinctMultiplicity(init, x);
      if b[|b| - 1] == x {
        assert x !in init;
      }
    }
  }

  /** Sorting distinct strings gives a strictly increasing sequence. */
  lemma SortedDistinctStrictly(s: seq<string>)
    requires Distinct(s)
    ensures var r := SortStrings(s);
      Distinct(r) && forall i, j :: 0 <= i < j < |r| ==> StrLe(r[i], r[j]) && r[i] != r[j]
  {
    PermutationDistinct(SortStrings(s), s);
  }
}

=== FILE: strings.dfy ===
/** String helpers with the meaning of the JavaScript string methods the
    dashboard uses: `trim`, `includes`, `split`, `join`, `toLowerCase`,
    `toUpperCase`, `padStart`, `parseInt` and `String(n)`.
    Case mapping covers ASCII and Latin-1 letters (with their upper-case
    partners `Ÿ` and `Μ` outside Latin-1); `ß`, whose upper case is two
    letters, is left as it is. */
module Strings {
  import opened Seqs

  /** The white space and line terminators `String.prototype.trim` removes. */
  predicate IsSpace(c: char) {
    var n := c as int;
    (9 <= n <= 13) || n == 32 || n == 0xA0 || n == 0x1680 || (0x2000 <= n <= 0x200A)
    || n == 0x2028 || n == 0x2029 || n == 0x202F || n == 0x205F || n == 0x3000 || n == 0xFEFF
  }

  function TrimStart(s: string): (r: string)
    ensures |r| <= |s| && r == s[|s| - |r|..]
    ensures |r| > 0 ==> !IsSpace(r[0])
  {
    if |s| > 0 && IsSpace(s[0]) then TrimStart(s[1..]) else s
  }

  function TrimEnd(s: string): (r: string)
    ensures |r| <= |s| && r == s[..|r|]
    ensures |r| > 0 ==> !IsSpace(r[|r| - 1])
  {
    if |s| > 0 && IsSpace(s[|s| - 1]) then TrimEnd(s[..|s| - 1]) else s
  }

  /** `s.trim()`. */
  function Trim(s: string): (r: string)
    ensures |r| <= |s|
    ensures |r| > 0 ==> !IsSpace(r[0]) && !IsSpace(r[|r| - 1])
  {
    var t := TrimEnd(s);
    var r := TrimStart(t);
    assert |r| > 0 ==> r[|r| - 1] == t[|t| - 1];
    r
  }

  /** `r` is `s` with white space only cut from its two ends, `a`
      characters from the front. */
  predicate SpaceCut(s: string, r: string, a: nat) {
    a + |r| <= |s| && r == s[a..a + |r|]
    && (forall i :: 0 <= i < a ==> IsSpace(s[i]))
    && (forall i :: a + |r| <= i < |s| ==> IsSpace(s[i]))
  }

  /** Nothing but white space. */
  predicate Blank(s: string) {
    forall i :: 0 <= i < |s| ==> IsSpace(s[i])
  }

  /** Cutting white space from the ends, up to a character that is not
      white space, leaves nothing exactly when there was nothing else. */
  lemma CutEmpty(s: string, r: string, a: nat)
    requires SpaceCut(s, r, a) && (|r| > 0 ==> !IsSpace(r[0]))
    ensures r == "" <==> Blank(s)
  {
    if r == "" {
      forall i | 0 <= i < |s|
        ensures IsSpace(s[i])
      {
        assert i < a || a + |r| <= i;
      }
    } else {
      assert r[0] == s[a];
    }
  }

  lemma {:induction false} TrimStartCut(s: string)
    ensures SpaceCut(s, TrimStart(s), |s| - |TrimStart(s)|)
  {
    if |s| > 0 && IsSpace(s[0]) {
      TrimStartCut(s[1..]);
    }
  }

  lemma {:induction false} TrimEndCut(s: string)
    ensures SpaceCut(s, TrimEnd(s), 0)
  {
    if |s| > 0 && IsSpace(s[|s| - 1]) {
      TrimEndCut(s[..|s| - 1]);
    }
  }

  /** `s.trim()` cuts white space from the two ends and nothing else. */
  lemma TrimCut(s: string)
    ensures SpaceCut(s, Trim(s), |TrimEnd(s)| - |Trim(s)|)
  {
    var t := TrimEnd(s);
    var r := Trim(s);
    var a := |t| - |r|;
    TrimEndCut(s);
    TrimStartCut(t);
    assert r == TrimStart(t) && a + |r| == |t|;
    assert r == s[a..a + |r|] by {
      assert t == s[..|t|];
    }
    forall i | 0 <= i < a
      ensures IsSpace(s[i])
    {
      assert s[i] == t[i];
    }
  }

  /** A string without white space at either end is its own trim. */
  lemma TrimNoEdgeSpace(s: string)
    requires |s| > 0 ==> !IsSpace(s[0]) && !IsSpace(s[|s| - 1])
    ensures Trim(s) == s
  {
  }

  predicate IsPrefix(p: string, s: string) {
    |p| <= |s| && s[..|p|] == p
  }

  /** `s.includes(sub)`. */
  predicate Contains(s: string, sub: string)
    decreases |s|
  {
    IsPrefix(sub, s) || (|s| > 0 && Contains(s[1..], sub))
  }

  function LowerChar(c: char): char {
    var n := c as int;
    if (65 <= n <= 90) || (0xC0 <= n <= 0xDE && n != 0xD7) then (n + 32) as char
    else if n == 0x178 then 0xFF as char
    else c
  }

  function UpperChar(c: char): char {
    var n := c as int;
    if (97 <= n <= 122) || (0xE0 <= n <= 0xFE && n != 0xF7) then (n - 32) as char
    else if n == 0xFF then 0x178 as char
    else if n == 0xB5 then 0x39C as char
    else c
  }

  /** `s.toLowerCase()`. */
  function Lower(s: string): (r: string)
    ensures |r| == |s|
    ensures forall i :: 0 <= i < |s| ==> r[i] == LowerChar(s[i])
  {
    if |s| == 0 then [] else Lower(s[..|s| - 1]) + [LowerChar(s[|s| - 1])]
  }

  /** `s.toUpperCase()`. */
  function Upper(s: string): (r: string)
    ensures |r| == |s|
    ensures forall i :: 0 <= i < |s| ==> r[i] == UpperChar(s[i])
  {
    if |s| == 0 then [] else Upper(s[..|s| - 1]) + [UpperChar(s[|s| - 1])]
  }

  /** Case-insensitive `includes`: `s.toLowerCase().includes(q.toLowerCase())`. */
  predicate ContainsIgnoreCase(s: string, q: string) {
    Contains(Lower(s), Lower(q))
  }

  /** `sub` found at position `i` of `s`. */
  lemma {:induction false} ContainsAt(s: string, sub: string, i: nat)
    requires i + |sub| <= |s| && s[i..i + |sub|] == sub
    ensures Contains(s, sub)
    decreases i
  {
    if i > 0 {
      assert s[1..][i - 1..i - 1 + |sub|] == s[i..i + |sub|];
      ContainsAt(s[1..], sub, i - 1);
    }
  }

  /** What `s` contains, it contains every character of. */
  lemma {:induction false} ContainsMember(s: string, sub: string, c: char)
    requires Contains(s, sub) && c in sub
    ensures c in s
    decreases |s|
  {
    if IsPrefix(sub, s) {
      assert c in s[..|sub|];
    } else {
      ContainsMember(s[1..], sub, c);
    }
  }

  lemma ContainsEmpty(s: string)
    ensures Contains(s, "")
  {
  }

  lemma ContainsIgnoreCaseEmpty(s: string)
    ensures ContainsIgnoreCase(s, "")
  {
    assert Lower("") == "";
  }

  /** `s.split(c)` for a one-character separator. */
  function Split(s: string, c: char): (parts: seq<string>)
    ensures |parts| >= 1
    ensures forall i :: 0 <= i < |parts| ==> c !in parts[i]
  {
    if |s| == 0 then [""]
    else
      var rest := Split(s[1..], c);
      if s[0] == c then [""] + rest
      else [[s[0]] + rest[0]] + rest[1..]
  }

  /** Part `i` of a split, as a template literal or `parseInt` reads
      `parts[i]`: a missing part is `undefined`. */
  function Part(parts: seq<string>, i: nat): string {
    if i < |parts| then parts[i] else "undefined"
  }

  /** `parts.join(c)`. */
  function Join(parts: seq<string>, c: char): string {
    if |parts| == 0 then ""
    else if |parts| == 1 then parts[0]
    else parts[0] + [c] + Join(parts[1..], c)
  }

  lemma {:induction false} JoinSplit(s: string, c: char)
    ensures Join(Split(s, c), c) == s
  {
    if |s| > 0 {
      JoinSplit(s[1..], c);
      var rest := Split(s[1..], c);
      if s[0] != c {
        var parts := [[s[0]] + rest[0]] + rest[1..];
        if |rest| == 1 {
          assert Join(parts, c) == [s[0]] + rest[0];
        } else {
          assert parts[1..] == rest[1..];
          assert Join(rest, c) == rest[0] + [c] + Join(rest[1..], c);
        }
      }
    }
  }

  /** A string without the separator is one part. */
  lemma {:induction false} SplitNoSeparator(s: string, c: char)
    requires c !in s
    ensures Split(s, c) == [s]
  {
    if |s| > 0 {
      assert s[0] != c;
      SplitNoSeparator(s[1..], c);
      assert [s[0]] + s[1..] == s;
    }
  }

  lemma {:induction false} SplitPrefix(a: string, b: string, c: char)
    requires c !in a
    ensures Split(a + [c] + b, c) == [a] + Split(b, c)
  {
    if |a| == 0 {
      assert a + [c] + b == [c] + b;
      assert ([c] + b)[1..] == b;
    } else {
      assert (a + [c] + b)[1..] == a[1..] + [c] + b;
      SplitPrefix(a[1..], b, c);
      assert [a[0]] + a[1..] == a;
    }
  }

  /** The text before the first `c`, all of `s` when there is none. */
  function UpTo(s: string, c: char): (r: string)
    ensures |r| <= |s| && r == s[..|r|] && c !in r
    ensures |r| < |s| ==> s[|r|] == c
  {
    if |s| == 0 || s[0] == c then "" else [s[0]] + UpTo(s[1..], c)
  }

  /** The first part of a split is the text before the first separator. */
  lemma {:induction false} SplitHead(s: string, c: char)
    ensures Split(s, c)[0] == UpTo(s, c)
  {
    if |s| > 0 && s[0] != c {
      SplitHead(s[1..], c);
    }
  }

  /** Joining three parts without the separator and splitting again gives
      the parts back. */
  lemma Split3(a: string, b: string, d: string, c: char)
    requires c !in a && c !in b && c !in d
    ensures Split(a + [c] + b + [c] + d, c) == [a, b, d]
  {
    var rest := b + [c] + d;
    assert a + [c] + b + [c] + d == a + [c] + rest;
    SplitPrefix(a, rest, c);
    SplitPrefix(b, d, c);
    SplitNoSeparator(d, c);
    assert [a] + ([b] + [d]) == [a, b, d];
  }

  /** The three parts of a split at `c`, reversed and joined by `d`: as long
      as the text, and when `d` does not occur in it, split at `d` they come
      back in reverse order. */
  lemma SplitThreeReversed(v: string, c: char, d: char)
    requires |Split(v, c)| == 3
    ensures var p := Split(v, c);
      && |p[2] + [d] + p[1] + [d] + p[0]| == |v|
      && (d !in v ==> Split(p[2] + [d] + p[1] + [d] + p[0], d) == [p[2], p[1], p[0]])
  {
    var parts := Split(v, c);
    var a, b, e := parts[0], parts[1], parts[2];
    JoinSplit(v, c);
    assert parts[1..] == [b, e] && parts[1..][1..] == [e];
    assert Join(parts[1..], c) == b + [c] + e;
    assert v == a + [c] + (b + [c] + e);
    if d !in v {
      assert d !in a && d !in b && d !in e;
      Split3(e, b, a, d);
    }
  }

  /** Number of occurrences of `c` in `s`. */
  function Occurrences(s: string, c: char): nat {
    if |s| == 0 then 0 else Occurrences(s[..|s| - 1], c) + (if s[|s| - 1] == c then 1 else 0)
  }

  /** `s.lastIndexOf(c)`, -1 when absent. */
  function LastIndexOf(s: string, c: char): (i: int)
    ensures -1 <= i < |s|
    ensures i == -1 <==> c !in s
    ensures i >= 0 ==> s[i] == c && forall k :: i < k < |s| ==> s[k] != c
  {
    if |s| == 0 then -1
    else if s[|s| - 1] == c then |s| - 1
    else LastIndexOf(s[..|s| - 1], c)
  }

  /** `s.replace(/c/g, '')`. */
  function RemoveAll(s: string, c: char): (r: string)
    ensures c !in r
    ensures |r| <= |s|
  {
    if |s| == 0 then [] else RemoveAll(s[..|s| - 1], c) + (if s[|s| - 1] == c then [] else [s[|s| - 1]])
  }

  /** Removal keeps every other character and nothing else. */
  lemma {:induction false} RemoveAllMembers(s: string, c: char)
    ensures forall x :: x in RemoveAll(s, c) <==> x in s && x != c
  {
    if |s| > 0 {
      RemoveAllMembers(s[..|s| - 1], c);
      assert s == s[..|s| - 1] + [s[|s| - 1]];
    }
  }

  lemma {:induction false} ReplaceFirstMembers(s: string, c: char, d: char)
    ensures forall x :: x in ReplaceFirst(s, c, d) ==> x in s || x == d
  {
    if |s| > 0 && s[0] != c {
      ReplaceFirstMembers(s[1..], c, d);
    }
  }

  lemma {:induction false} RemoveAllAppend(a: string, b: string, c: char)
    ensures RemoveAll(a + b, c) == RemoveAll(a, c) + RemoveAll(b, c)
  {
    if |b| == 0 {
      assert a + b == a;
    } else {
      assert (a + b)[..|a + b| - 1] == a + b[..|b| - 1];
      RemoveAllAppend(a, b[..|b| - 1], c);
    }
  }

  lemma {:induction false} RemoveAllAbsent(s: string, c: char)
    requires c !in s
    ensures RemoveAll(s, c) == s
  {
    if |s| > 0 {
      assert s[..|s| - 1] + [s[|s| - 1]] == s;
      RemoveAllAbsent(s[..|s| - 1], c);
    }
  }

  /** Concatenation of the parts, `parts.join('')`. */
  function Flatten(parts: seq<string>): string {
    if |parts| == 0 then "" else parts[0] + Flatten(parts[1..])
  }

  /** Removing the separator undoes a join of separator-free parts. */
  lemma {:induction false} RemoveJoined(parts: seq<string>, c: char)
    requires forall i :: 0 <= i < |parts| ==> c !in parts[i]
    ensures RemoveAll(Join(parts, c), c) == Flatten(parts)
  {
    if |parts| == 1 {
      RemoveAllAbsent(parts[0], c);
      assert Flatten(parts) == parts[0] + Flatten([]);
    } else if |parts| > 1 {
      RemoveJoined(parts[1..], c);
      RemoveAllAppend(parts[0] + [c], Join(parts[1..], c), c);
      RemoveAllAppend(parts[0], [c], c);
      RemoveAllAbsent(parts[0], c);
      assert RemoveAll([c], c) == [];
    }
  }

  lemma {:induction false} JoinOf(parts: seq<string>, c: char, x: char)
    requires x != c
    requires forall i :: 0 <= i < |parts| ==> x !in parts[i]
    ensures x !in Join(parts, c)
  {
    if |parts| > 1 {
      JoinOf(parts[1..], c, x);
    }
  }

  lemma {:induction false} FlattenDigits(parts: seq<string>)
    requires forall i :: 0 <= i < |parts| ==> AllDigits(parts[i])
    ensures AllDigits(Flatten(parts))
  {
    if |parts| > 0 {
      FlattenDigits(parts[1..]);
    }
  }

  /** Text after the last `c` that holds no `c` leaves the last index
      where it was. */
  lemma {:induction false} LastIndexOfPast(a: string, b: string, c: char)
    requires c !in b
    ensures LastIndexOf(a + b, c) == LastIndexOf(a, c)
  {
    if |b| > 0 {
      assert (a + b)[..|a + b| - 1] == a + b[..|b| - 1];
      assert b[|b| - 1] in b;
      LastIndexOfPast(a, b[..|b| - 1], c);
    } else {
      assert a + b == a;
    }
  }

  /** The last `c` of `a + [c] + b`, when `b` holds none, is at `|a|`. */
  lemma LastIndexOfJoint(a: string, b: string, c: char)
    requires c !in b
    ensures LastIndexOf(a + [c] + b, c) == |a|
  {
    LastIndexOfPast(a + [c], b, c);
  }

  /** `s.replace(c, d)`: the first occurrence only. */
  function ReplaceFirst(s: string, c: char, d: char): (r: string)
    ensures |r| == |s|
  {
    if |s| == 0 then []
    else if s[0] == c then [d] + s[1..]
    else [s[0]] + ReplaceFirst(s[1..], c, d)
  }

  predicate IsDigit(c: char) {
    '0' <= c <= '9'
  }

  function DigitValue(c: char): nat
    requires IsDigit(c)
  {
    (c as int - '0' as int) as nat
  }

  function DigitChar(n: nat): (c: char)
    requires n < 10
    ensures IsDigit(c) && DigitValue(c) == n
  {
    ('0' as int + n) as char
  }

  predicate AllDigits(s: string) {
    forall i :: 0 <= i < |s| ==> IsDigit(s[i])
  }

  /** Decimal value of a digit string. */
  function DigitsValue(s: string): nat
    requires AllDigits(s)
  {
    if |s| == 0 then 0 else DigitsValue(s[..|s| - 1]) * 10 + DigitValue(s[|s| - 1])
  }

  /** The last two digits of a digit string are its value modulo 100. */
  lemma LastTwoDigits(s: string)
    requires AllDigits(s) && |s| >= 2
    ensures AllDigits(s[|s| - 2..]) && DigitsValue(s[|s| - 2..]) == DigitsValue(s) % 100
  {
    var n := |s|;
    var t := s[n - 2..];
    TwoDigitsValue(t);
    DropTwoDigits(s);
    var b := DigitValue(s[n - 2]) * 10 + DigitValue(s[n - 1]);
    HundredsRemainder(DigitsValue(s), DigitsValue(s[..n - 2]), b);
  }

  /** A two-digit string is worth ten times its first digit plus its second. */
  lemma TwoDigitsValue(t: string)
    requires AllDigits(t) && |t| == 2
    ensures DigitsValue(t) == DigitValue(t[0]) * 10 + DigitValue(t[1])
  {
    assert t[..1][..0] == [] && t[..1][0] == t[0];
    assert DigitsValue(t[..1]) == DigitValue(t[0]);
  }

  /** Dropping the last two digits divides the value by 100. */
  lemma DropTwoDigits(s: string)
    requires AllDigits(s) && |s| >= 2
    ensures DigitsValue(s) == DigitsValue(s[..|s| - 2]) * 100
      + (DigitValue(s[|s| - 2]) * 10 + DigitValue(s[|s| - 1]))
  {
    var n := |s|;
    var init := s[..n - 1];
    assert init[..n - 2] == s[..n - 2] && init[n - 2] == s[n - 2];
    assert DigitsValue(init) == DigitsValue(s[..n - 2]) * 10 + DigitValue(s[n - 2]);
  }

  lemma HundredsRemainder(v: nat, a: nat, b: nat)
    requires v == a * 100 + b && b < 100
    ensures v % 100 == b
  {
  }

  /** Ten to the power `n`. */
  function Pow10(n: nat): (p: nat)
    ensures p >= 1
  {
    if n == 0 then 1 else 10 * Pow10(n - 1)
  }

  /** `String(n)` for a natural number. */
  function NatToString(n: nat): (s: string)
    ensures |s| >= 1 && AllDigits(s) && DigitsValue(s) == n
    ensures n < 10 <==> |s| == 1
    ensures 10 <= n < 100 <==> |s| == 2
  {
    if n < 10 then [DigitChar(n)]
    else
      var init := NatToString(n / 10);
      var r := init + [DigitChar(n % 10)];
      assert r[..|r| - 1] == init;
      r
  }

  /** `String(n)` for an integer. */
  function IntToString(n: int): string {
    if n < 0 then "-" + NatToString(-n) else NatToString(n)
  }

  /** `s.padStart(2, '0')`. */
  function PadStart2(s: string): (r: string)
    ensures |s| >= 2 ==> r == s
    ensures |s| < 2 ==> |r| == 2
  {
    if |s| >= 2 then s else if |s| == 1 then "0" + s else "00"
  }

  /** Two-digit zero-padded decimal, `String(n).padStart(2, '0')`. */
  function Pad2(n: nat): (r: string)
    ensures AllDigits(r) && |r| >= 2
    ensures n < 100 ==> |r| == 2
  {
    PadStart2(NatToString(n))
  }

  /** Leading zeros do not change a digit string's value. */
  lemma {:induction false} LeadingZero(s: string)
    requires AllDigits(s)
    ensures AllDigits("0" + s) && DigitsValue("0" + s) == DigitsValue(s)
  {
    if |s| > 0 {
      var t := "0" + s;
      assert t[..|t| - 1] == "0" + s[..|s| - 1];
      LeadingZero(s[..|s| - 1]);
    }
  }

  lemma Pad2Value(n: nat)
    ensures DigitsValue(Pad2(n)) == n
  {
    if n < 10 {
      LeadingZero(NatToString(n));
    }
  }

  /** Replacing the first occurrence of `c` touches only that occurrence. */
  lemma {:induction false} ReplaceFirstAt(a: string, b: string, c: char, d: char)
    requires c !in a
    ensures ReplaceFirst(a + [c] + b, c, d) == a + [d] + b
  {
    if |a| == 0 {
      assert a + [c] + b == [c] + b;
      assert ([c] + b)[1..] == b;
    } else {
      assert (a + [c] + b)[1..] == a[1..] + [c] + b;
      ReplaceFirstAt(a[1..], b, c, d);
      assert [a[0]] + a[1..] == a;
    }
  }

  lemma ReplaceFirstAbsent(s: string, c: char, d: char)
    requires c !in s
    ensures ReplaceFirst(s, c, d) == s
  {
    if |s| > 0 {
      assert s[0] != c;
      assert c !in s[1..];
      ReplaceFirstAbsent(s[1..], c, d);
      assert [s[0]] + s[1..] == s;
    }
  }

  /** Longest prefix of digits. */
  function DigitPrefix(s: string): (r: string)
    ensures AllDigits(r) && IsPrefix(r, s)
    ensures |r| < |s| ==> !IsDigit(s[|r|])
  {
    if |s| > 0 && IsDigit(s[0]) then [s[0]] + DigitPrefix(s[1..]) else ""
  }

  /** The digit prefix stops at the first non-digit. */
  lemma {:induction false} DigitPrefixStop(a: string, b: string)
    requires AllDigits(a) && (|b| == 0 || !IsDigit(b[0]))
    ensures DigitPrefix(a + b) == a
  {
    if |a| == 0 {
      assert a + b == b;
    } else {
      assert (a + b)[1..] == a[1..] + b;
      DigitPrefixStop(a[1..], b);
      assert [a[0]] + a[1..] == a;
    }
  }

  lemma {:induction false} DigitPrefixAll(s: string)
    ensures AllDigits(s) ==> DigitPrefix(s) == s
  {
    if |s| > 0 && AllDigits(s) {
      DigitPrefixAll(s[1..]);
    }
  }

  /** `parseInt(s, 10)`: leading white space, an optional sign and the
      longest run of digits; None stands for NaN (no digit). */
  function ParseInt(s: string): (r: Option<int>)
    ensures |TrimStart(s)| == 0 ==> r.None?
    ensures |TrimStart(s)| > 0 && AllDigits(TrimStart(s)) ==> r == Some(DigitsValue(TrimStart(s)))
  {
    var t := TrimStart(s);
    var neg := |t| > 0 && t[0] == '-';
    var body := if |t| > 0 && (t[0] == '-' || t[0] == '+') then t[1..] else t;
    var ds := DigitPrefix(body);
    DigitPrefixAll(t);
    if |ds| == 0 then None
    else if neg then Some(-(DigitsValue(ds) as int))
    else Some(DigitsValue(ds))
  }

  predicate IsHexDigit(c: char) {
    IsDigit(c) || 'a' <= c <= 'f' || 'A' <= c <= 'F'
  }

  function HexDigitValue(c: char): (v: nat)
    requires IsHexDigit(c)
    ensures v < 16
    ensures IsDigit(c) ==> v == DigitValue(c)
  {
    if IsDigit(c) then DigitValue(c)
    else if 'a' <= c <= 'f' then (c as int - 'a' as int + 10) as nat
    else (c as int - 'A' as int + 10) as nat
  }

  predicate AllHexDigits(s: string) {
    forall i :: 0 <= i < |s| ==> IsHexDigit(s[i])
  }

  /** Hexadecimal value of a hex-digit string. */
  function HexDigitsValue(s: string): nat
    requires AllHexDigits(s)
  {
    if |s| == 0 then 0 else HexDigitsValue(s[..|s| - 1]) * 16 + HexDigitValue(s[|s| - 1])
  }

  /** Longest prefix of hex digits. */
  function HexPrefix(s: string): (r: string)
    ensures AllHexDigits(r) && IsPrefix(r, s)
    ensures |r| < |s| ==> !IsHexDigit(s[|r|])
  {
    if |s| > 0 && IsHexDigit(s[0]) then [s[0]] + HexPrefix(s[1..]) else ""
  }

  lemma {:induction false} HexPrefixStop(a: string, b: string)
    requires AllHexDigits(a) && (|b| == 0 || !IsHexDigit(b[0]))
    ensures HexPrefix(a + b) == a
  {
    if |a| == 0 {
      assert a + b == b;
    } else {
      assert (a + b)[1..] == a[1..] + b;
      HexPrefixStop(a[1..], b);
      assert [a[0]] + a[1..] == a;
    }
  }

  /** The text after white space and an optional sign. */
  function Unsigned(s: string): (body: string)
    ensures |body| <= |s|
  {
    var t := TrimStart(s);
    if |t| > 0 && (t[0] == '-' || t[0] == '+') then t[1..] else t
  }

  /** `0x` or `0X`. */
  predicate HexLead(body: string) {
    |body| >= 2 && body[0] == '0' && (body[1] == 'x' || body[1] == 'X')
  }

  /** `parseInt(s)` without a radix: as `parseInt(s, 10)`, except that a
      `0x` or `0X` after the sign switches to hexadecimal digits, and then
      a text with no hex digit after the prefix is NaN (None). */
  function ParseIntNoRadix(s: string): (r: Option<int>)
    ensures !HexLead(Unsigned(s)) ==> r == ParseInt(s)
    ensures HexLead(Unsigned(s)) ==> (r.None? <==> !(|Unsigned(s)| > 2 && IsHexDigit(Unsigned(s)[2])))
  {
    var t := TrimStart(s);
    var body := Unsigned(s);
    if HexLead(body) then
      var hs := HexPrefix(body[2..]);
      if |hs| == 0 then None
      else if t[0] == '-' then Some(-(HexDigitsValue(hs) as int))
      else Some(HexDigitsValue(hs))
    else ParseInt(s)
  }

  /** Without a radix, a text that starts with `0x` and hex digits reads
      them as a hexadecimal number, stopping at the first other character. */
  lemma ParseIntNoRadixHex(s: string, hex: string, rest: string)
    requires HexLead(s) && s[2..] == hex + rest
    requires |hex| > 0 && AllHexDigits(hex) && (|rest| == 0 || !IsHexDigit(rest[0]))
    ensures ParseIntNoRadix(s) == Some(HexDigitsValue(hex))
  {
    DigitFirst(s);
    HexPrefixStop(hex, rest);
    HexRead(s, hex);
  }

  lemma HexRead(s: string, hex: string)
    requires |s| > 0 && s[0] == '0' && TrimStart(s) == s && Unsigned(s) == s && HexLead(s)
    requires HexPrefix(s[2..]) == hex && |hex| > 0
    ensures ParseIntNoRadix(s) == Some(HexDigitsValue(hex))
  {
  }

  /** A text that starts with a digit has no white space or sign to skip. */
  lemma DigitFirst(s: string)
    requires |s| > 0 && IsDigit(s[0])
    ensures TrimStart(s) == s && Unsigned(s) == s
  {
    assert !IsSpace(s[0]);
    assert TrimStart(s) == s;
    assert s[0] != '-' && s[0] != '+';
  }

  /** Without a radix, a plain digit string is still read in decimal. */
  lemma ParseIntNoRadixDigits(s: string)
    requires |s| > 0 && AllDigits(s)
    ensures ParseIntNoRadix(s) == Some(DigitsValue(s))
  {
    ParseIntDigits(s);
    DigitFirst(s);
    assert |s| >= 2 ==> IsDigit(s[1]);
  }

  /** A plain digit string parses to its decimal value. */
  lemma ParseIntDigits(s: string)
    requires |s| > 0 && AllDigits(s)
    ensures ParseInt(s) == Some(DigitsValue(s))
  {
    assert IsDigit(s[0]) && !IsSpace(s[0]);
    assert TrimStart(s) == s;
  }

  /** `parseInt` reads back a number written with `String(n)`, also when it
      is zero-padded to two places. */
  lemma ParseIntPad2(n: nat)
    ensures ParseInt(Pad2(n)) == Some(n)
    ensures ParseInt(NatToString(n)) == Some(n)
  {
    Pad2Value(n);
    ParseIntDigits(Pad2(n));
    ParseIntDigits(NatToString(n));
  }

  /** `{n} {n === 1 ? one : many}`: a count, a space and the singular or
      plural noun. */
  function CountLabel(n: nat, one: string, many: string): (r: string)
    ensures DigitPrefix(r) == NatToString(n)
    ensures r[|NatToString(n)|..] == " " + (if n == 1 then one else many)
  {
    var digits := NatToString(n);
    var r := digits + " " + (if n == 1 then one else many);
    DigitPrefixStop(digits, " " + (if n == 1 then one else many));
    assert r == digits + (" " + (if n == 1 then one else many));
    r
  }

  /** `parseInt` reads the leading digits of a text and stops at the first
      non-digit. */
  lemma ParseIntLeading(digits: string, rest: string)
    requires |digits| > 0 && AllDigits(digits) && (|rest| == 0 || !IsDigit(rest[0]))
    ensures ParseInt(digits + rest) == Some(DigitsValue(digits))
  {
    var r := digits + rest;
    assert IsDigit(r[0]) && !IsSpace(r[0]);
    assert TrimStart(r) == r;
    DigitPrefixStop(digits, rest);
  }

  /** `parseInt` reads the count back from the label. */
  lemma CountLabelReadsBack(n: nat, one: string, many: string)
    ensures ParseInt(CountLabel(n, one, many)) == Some(n)
  {
    var digits := NatToString(n);
    var r := CountLabel(n, one, many);
    assert r == digits + r[|digits|..];
    ParseIntLeading(digits, r[|digits|..]);
  }
}

=== FILE: trafego.dfy ===
/** The traffic calendar (components/TrafegoCalendar.tsx) and the month
    range of its message query (services/trafegoService.ts): Monday-based
    weeks, the quick date ranges, the enrollments within a text date range,
    their weekly and per-vendor series, the month grid, the month
    navigation and the `data` range of `fetchTrafego`.

    Dates are local midnights as day numbers (time zones are not modelled);
    "today" is a parameter, since the screen reads the clock. */
module Trafego {
  import opened Seqs
  import opened Strings
  import opened Calendar
  import opened DateText
  import opened Sorting
  import opened Types
  import opened Grouping
  import opened Ranking

  // ---------------------------------------------------------------------
  // Weeks

  /** `getWeekStart`: the Monday on or before the day; a Sunday belongs to
      the week that began six days earlier. */
  function WeekStart(z: int): (r: int)
    ensures WeekDay(r) == 1
    ensures z - 6 <= r <= z
  {
    var day := WeekDay(z);
    z - day + (if day == 0 then -6 else 1)
  }

  /** A Monday-based week holding the day is the week `WeekStart` names. */
  lemma WeekStartUnique(z: int, m: int)
    requires WeekDay(m) == 1 && m <= z <= m + 6
    ensures WeekStart(z) == m
  {
    var w := WeekStart(z);
    assert (w + 4) % 7 == (m + 4) % 7;
    assert -6 <= w - m <= 6;
  }

  /** Two days share a week exactly when the second lies within the
      seven days from the first one's week start. */
  lemma SameWeek(x: int, y: int)
    ensures WeekStart(x) == WeekStart(y) <==> WeekStart(x) <= y <= WeekStart(x) + 6
  {
    if WeekStart(x) <= y <= WeekStart(x) + 6 {
      WeekStartUnique(y, WeekStart(x));
    }
  }

  /** `getWeekStart` on a `Date`: an Invalid Date stays invalid, and so
      does a week start before the first day a `Date` holds. */
  function WeekStartDate(d: JsDate): (r: JsDate)
    ensures r.Day? ==> d.Day? && WeekDay(r.n) == 1 && d.n - 6 <= r.n <= d.n
    ensures d.Day? && -MaxDay + 6 <= d.n ==> r == Day(WeekStart(d.n))
  {
    match d
    case InvalidDate => InvalidDate
    case Day(z) => if -MaxDay <= WeekStart(z) then Day(WeekStart(z)) else InvalidDate
  }

  /** `getWeekEnd`: six days after the week start, at its last
      millisecond, which must still be a time a `Date` holds. */
  function WeekEndDate(ws: JsDate): (r: JsDate)
    ensures r.Day? <==> ws.Day? && -MaxDay <= ws.n + 6 < MaxDay
    ensures r.Day? ==> r.n == ws.n + 6
    ensures r.Day? && WeekDay(ws.n) == 1 ==> WeekDay(r.n) == 0
  {
    match ws
    case InvalidDate => InvalidDate
    case Day(z) => if -MaxDay <= z + 6 < MaxDay then Day(z + 6) else InvalidDate
  }

  /** `toDateStr`: `YYYY-MM-DD`, or `NaN-NaN-NaN` for an Invalid Date. */
  function DateStr(d: JsDate): string {
    match d
    case Day(z) => IsoDate(z)
    case InvalidDate => "NaN-NaN-NaN"
  }

  /** `formatDateBR`: `DD/MM`, or `NaN/NaN` for an Invalid Date. */
  function DateBR(d: JsDate): string {
    match d
    case Day(z) => DayMonth(z)
    case InvalidDate => "NaN/NaN"
  }

  /** The `weekLabel` of a week start: its first and last day. */
  function WeekLabel(ws: JsDate): string {
    DateBR(ws) + " - " + DateBR(WeekEndDate(ws))
  }

  /** A valid day's `DD/MM` text is two fields split by '/', which read
      back as its day and its month. */
  lemma DateBRFields(z: int)
    ensures var c, parts := ToCivil(z), Split(DateBR(Day(z)), '/');
      |parts| == 2 && |parts[0]| == 2 && |parts[1]| == 2
      && ParseInt(parts[0]) == Some(c.day) && ParseInt(parts[1]) == Some(c.month)
  {
    var c := ToCivil(z);
    var d, m := Pad2(c.day), Pad2(c.month);
    assert DateBR(Day(z)) == d + ['/'] + m;
    SlashFields(d, m);
    ParseIntPad2(c.day);
    ParseIntPad2(c.month);
  }

  /** Two digit fields joined by '/' split back into those fields. */
  lemma SlashFields(d: string, m: string)
    requires AllDigits(d) && AllDigits(m)
    ensures Split(d + ['/'] + m, '/') == [d, m]
  {
    assert forall i :: 0 <= i < |d| ==> d[i] != '/';
    assert forall i :: 0 <= i < |m| ==> m[i] != '/';
    SplitPrefix(d, m, '/');
    SplitNoSeparator(m, '/');
  }

  // ---------------------------------------------------------------------
  // Quick ranges

  /** The two date inputs of the screen and the chosen quick range. */
  datatype RangeFilter = RangeFilter(dateFrom: string, dateTo: string, quickRange: string)

  /** `new Date(y, m, 1)`: the first day of the month. */
  lemma MonthStartDate(y: int, m: int)
    requires 1 <= m <= 12 && (y < 0 || y > 99)
    ensures DateOf(y, m - 1, 1) == FromCivil(Civil(y, m, 1))
  {
    DateOfValid(Civil(y, m, 1));
  }

  /** `new Date(y, m + 1, 0)`: the day before the next month, which is the
      last day of the month. */
  lemma MonthEndDate(y: int, m: int)
    requires 1 <= m <= 12 && (y < 0 || y > 99)
    ensures DateOf(y, m, 0) == FromCivil(Civil(y, m, 1)) + DaysInMonth(y, m) - 1
    ensures FromCivil(Civil(y, m, DaysInMonth(y, m))) == FromCivil(Civil(y, m, 1)) + DaysInMonth(y, m) - 1
  {
    DayZero(y, m);
    NextMonthStart(y, m);
    FirstOfMonth(Civil(y, m, DaysInMonth(y, m)));
  }

  /** Day 0 of the month after `m` is the day before its 1st. */
  lemma DayZero(y: int, m: int)
    requires 1 <= m <= 12 && (y < 0 || y > 99)
    ensures DateOf(y, m, 0) == FromCivil(Civil(if m == 12 then y + 1 else y, if m == 12 then 1 else m + 1, 1)) - 1
  {
    if m == 12 {
      assert m / 12 == 1 && m % 12 == 0;
    } else {
      assert m / 12 == 0 && m % 12 == m;
    }
  }

  /** The text range of the 'week' choice: Monday to Sunday of this week. */
  function WeekOfToday(today: int): (r: (string, string))
    requires -MaxDay + 40 <= today <= MaxDay - 40
    ensures r.0 == IsoDate(WeekStart(today)) && r.1 == IsoDate(WeekStart(today) + 6)
  {
    var ws := WeekStartDate(Day(today));
    var we := WeekEndDate(ws);
    var e := WeekStart(today) + 6;
    assert we == Day(e) by {
      assert ws == Day(WeekStart(today));
    }
    assert DateStr(we) == IsoDate(e);
    (DateStr(ws), DateStr(we))
  }

  /** The text range of the 'month' choice: the first and the last day of
      today's month. */
  function MonthOf(today: int): (r: (string, string))
    requires -MaxDay + 40 <= today <= MaxDay - 40
    ensures var c := ToCivil(today);
      c.year < 0 || c.year > 99 ==>
        r.0 == IsoText(Civil(c.year, c.month, 1)) && r.1 == IsoText(Civil(c.year, c.month, DaysInMonth(c.year, c.month)))
  {
    var c := ToCivil(today);
    var start := MakeDate(c.year, c.month - 1, 1);
    var end := MakeDate(c.year, c.month, 0);
    if c.year < 0 || c.year > 99 then
      MonthTexts(c, today);
      (DateStr(start), DateStr(end))
    else
      (DateStr(start), DateStr(end))
  }

  lemma MonthTexts(c: Civil, today: int)
    requires -MaxDay + 40 <= today <= MaxDay - 40
    requires ValidCivil(c) && FromCivil(c) == today && (c.year < 0 || c.year > 99)
    ensures DateStr(MakeDate(c.year, c.month - 1, 1)) == IsoText(Civil(c.year, c.month, 1))
    ensures DateStr(MakeDate(c.year, c.month, 0)) == IsoText(Civil(c.year, c.month, DaysInMonth(c.year, c.month)))
  {
    var first := today - (c.day - 1);
    assert FromCivil(Civil(c.year, c.month, 1)) == first by {
      FirstOfMonth(c);
    }
    MonthFirstText(c.year, c.month, first);
    MonthLastText(c.year, c.month, first);
  }

  /** `new Date(y, m - 1, 1)` shows as the 1st of month `m`. */
  lemma MonthFirstText(y: int, m: int, first: int)
    requires 1 <= m <= 12 && (y < 0 || y > 99)
    requires first == FromCivil(Civil(y, m, 1)) && -MaxDay + 10 <= first <= MaxDay - 40
    ensures DateStr(MakeDate(y, m - 1, 1)) == IsoText(Civil(y, m, 1))
  {
    MonthStartDate(y, m);
    MadeText(y, m - 1, 1, Civil(y, m, 1));
  }

  /** `new Date(y, m, 0)` shows as the last day of month `m`. */
  lemma MonthLastText(y: int, m: int, first: int)
    requires 1 <= m <= 12 && (y < 0 || y > 99)
    requires first == FromCivil(Civil(y, m, 1)) && -MaxDay + 10 <= first <= MaxDay - 40
    ensures DateStr(MakeDate(y, m, 0)) == IsoText(Civil(y, m, DaysInMonth(y, m)))
  {
    MonthEndDate(y, m);
    MadeText(y, m, 0, Civil(y, m, DaysInMonth(y, m)));
  }

  /** A date built by `new Date` that is a valid day a `Date` holds is that
      day. */
  lemma MadeDay(y: int, mi: int, d: int, c: Civil)
    requires ValidCivil(c) && DateOf(y, mi, d) == FromCivil(c)
    requires -MaxDay <= FromCivil(c) <= MaxDay
    ensures MakeDate(y, mi, d) == Day(FromCivil(c))
    ensures ToCivil(FromCivil(c)) == c
  {
    ToCivilOf(c);
  }

  lemma MadeText(y: int, mi: int, d: int, c: Civil)
    requires ValidCivil(c) && DateOf(y, mi, d) == FromCivil(c)
    requires -MaxDay <= FromCivil(c) <= MaxDay
    ensures DateStr(MakeDate(y, mi, d)) == IsoText(c)
  {
    MadeDay(y, mi, d, c);
  }

  /** `applyQuickRange`: 'week' selects this week, Monday to Sunday;
      'month' the first to the last day of this month; 'last4weeks' the 28
      days ending today; any other choice keeps both dates. The choice is
      recorded in every case. */
  function ApplyQuickRange(f: RangeFilter, range: string, today: int): (r: RangeFilter)
    requires -MaxDay + 40 <= today <= MaxDay - 40
    ensures r.quickRange == range
    ensures range != "week" && range != "month" && range != "last4weeks" ==>
      r.dateFrom == f.dateFrom && r.dateTo == f.dateTo
    ensures range == "week" ==>
      r.dateFrom == IsoDate(WeekStart(today)) && r.dateTo == IsoDate(WeekStart(today) + 6)
    ensures range == "month" && (ToCivil(today).year < 0 || ToCivil(today).year > 99) ==>
      var c := ToCivil(today);
      r.dateFrom == IsoText(Civil(c.year, c.month, 1))
      && r.dateTo == IsoText(Civil(c.year, c.month, DaysInMonth(c.year, c.month)))
    ensures range == "last4weeks" ==> r.dateFrom == IsoDate(today - 27) && r.dateTo == IsoDate(today)
  {
    if range == "week" then
      var (from, to) := WeekOfToday(today);
      RangeFilter(from, to, range)
    else if range == "month" then
      var (from, to) := MonthOf(today);
      RangeFilter(from, to, range)
    else if range == "last4weeks" then
      RangeFilter(IsoDate(today - 27), IsoDate(today), range)
    else
      RangeFilter(f.dateFrom, f.dateTo, range)
  }

  // ---------------------------------------------------------------------
  // Enrollments within the range

  /** `d >= dateFrom && d <= dateTo` on the row's `data_matricula`, as text;
      a missing one compares false. */
  predicate InRange(r: DbEnrollment, from: string, to: string) {
    r.dataMatricula.Some? && StrLe(from, r.dataMatricula.value) && StrLe(r.dataMatricula.value, to)
  }

  function InRangeOf(from: string, to: string): DbEnrollment -> bool {
    r => InRange(r, from, to)
  }

  /** `filteredEnrollments`: every row while either date is empty,
      otherwise the rows whose date text lies within both, in order. */
  function FilteredEnrollments(all: seq<DbEnrollment>, from: string, to: string): (r: seq<DbEnrollment>)
    ensures from == "" || to == "" ==> r == all
    ensures from != "" && to != "" ==> forall x :: x in r <==> x in all && InRange(x, from, to)
    ensures Subsequence(r, all)
  {
    if from == "" || to == "" then
      FilterAll(all, _ => true);
      FilterIsSubsequence(all, _ => true);
      all
    else
      FilterIsSubsequence(all, InRangeOf(from, to));
      Filter(all, InRangeOf(from, to))
  }

  /** With dates written by `toDateStr`, the text comparison selects the
      rows dated from the first day to the last, both included. */
  lemma FilteredByDay(all: seq<DbEnrollment>, lo: int, hi: int, x: DbEnrollment, z: int)
    requires FourDigitYear(ToCivil(lo)) && FourDigitYear(ToCivil(hi)) && FourDigitYear(ToCivil(z))
    requires x.dataMatricula == Some(IsoDate(z))
    ensures x in FilteredEnrollments(all, IsoDate(lo), IsoDate(hi)) <==> x in all && lo <= z <= hi
  {
    IsoDateOrder(lo, z);
    IsoDateOrder(z, hi);
    IsoTextShape(ToCivil(lo));
    IsoTextShape(ToCivil(hi));
  }

  /** The 'month' range keeps the rows dated within today's month. */
  lemma MonthRangeKeeps(f: RangeFilter, today: int, z: int)
    requires -MaxDay + 40 <= today <= MaxDay - 40
    requires FourDigitYear(ToCivil(today)) && FourDigitYear(ToCivil(z))
    ensures var r := ApplyQuickRange(f, "month", today);
      var c, d := ToCivil(today), ToCivil(z);
      StrLe(r.dateFrom, IsoDate(z)) && StrLe(IsoDate(z), r.dateTo) <==> d.year == c.year && d.month == c.month
  {
    var c, d := ToCivil(today), ToCivil(z);
    var first := FromCivil(Civil(c.year, c.month, 1));
    var last := FromCivil(Civil(c.year, c.month, DaysInMonth(c.year, c.month)));
    MonthEndDate(c.year, c.month);
    ToCivilOf(Civil(c.year, c.month, 1));
    ToCivilOf(Civil(c.year, c.month, DaysInMonth(c.year, c.month)));
    IsoDateOrder(first, z);
    IsoDateOrder(z, last);
    DayOrder(Civil(c.year, c.month, 1), d);
    DayOrder(d, Civil(c.year, c.month, DaysInMonth(c.year, c.month)));
  }

  /** The 'week' range keeps the rows dated within today's week. */
  lemma WeekRangeKeeps(f: RangeFilter, today: int, z: int)
    requires -MaxDay + 40 <= today <= MaxDay - 40
    requires FourDigitYear(ToCivil(WeekStart(today))) && FourDigitYear(ToCivil(WeekStart(today) + 6))
    requires FourDigitYear(ToCivil(z))
    ensures var r := ApplyQuickRange(f, "week", today);
      StrLe(r.dateFrom, IsoDate(z)) && StrLe(IsoDate(z), r.dateTo) <==> WeekStart(z) == WeekStart(today)
  {
    IsoDateOrder(WeekStart(today), z);
    IsoDateOrder(z, WeekStart(today) + 6);
    SameWeek(today, z);
  }

  // ---------------------------------------------------------------------
  // Weekly series

  /** The week start of a `YYYY-MM-DD` text as the screen reads it:
      `split('-')`, `parseInt` (without a radix) of the three parts, `new Date(y, m - 1, d)`
      and `getWeekStart`. A part that is not a number gives an Invalid
      Date. */
  function ReadWeek(s: string): (r: JsDate)
    ensures r.Day? ==> WeekDay(r.n) == 1
  {
    var parts := Split(s, '-');
    match (ParseIntNoRadix(Part(parts, 0)), ParseIntNoRadix(Part(parts, 1)), ParseIntNoRadix(Part(parts, 2)))
    case (Some(y), Some(m), Some(d)) => WeekStartDate(MakeDate(y, m - 1, d))
    case _ => InvalidDate
  }

  /** A day written with `toDateStr` is read back into its own week. */
  lemma ReadWeekIso(z: int)
    requires FourDigitYear(ToCivil(z))
    ensures ReadWeek(IsoDate(z)) == Day(WeekStart(z))
  {
    var c := ToCivil(z);
    IsoDateFields(z);
    DateOfValid(c);
    DayRange(c);
    assert MakeDate(c.year, c.month - 1, c.day) == Day(z);
  }

  /** The three parts of a `toDateStr` text parse as the year, month and
      day. */
  lemma IsoDateFields(z: int)
    requires FourDigitYear(ToCivil(z))
    ensures var c, parts := ToCivil(z), Split(IsoDate(z), '-');
      ParseIntNoRadix(Part(parts, 0)) == Some(c.year) && ParseIntNoRadix(Part(parts, 1)) == Some(c.month)
      && ParseIntNoRadix(Part(parts, 2)) == Some(c.day)
  {
    IsoTextFields(ToCivil(z));
  }

  lemma IsoTextFields(c: Civil)
    requires FourDigitYear(c) && ValidCivil(c)
    ensures var parts := Split(IsoText(c), '-');
      ParseIntNoRadix(Part(parts, 0)) == Some(c.year) && ParseIntNoRadix(Part(parts, 1)) == Some(c.month)
      && ParseIntNoRadix(Part(parts, 2)) == Some(c.day)
  {
    var y, m, d := NatToString(c.year), Pad2(c.month), Pad2(c.day);
    IsoTextParts(c);
    var parts := Split(IsoText(c), '-');
    assert Part(parts, 0) == y && Part(parts, 1) == m && Part(parts, 2) == d;
    Pad2Value(c.month);
    Pad2Value(c.day);
    DigitsRead(y, c.year);
    DigitsRead(m, c.month);
    DigitsRead(d, c.day);
  }

  lemma DigitsRead(s: string, n: nat)
    requires |s| > 0 && AllDigits(s) && DigitsValue(s) == n
    ensures ParseIntNoRadix(s) == Some(n)
  {
    ParseIntNoRadixDigits(s);
  }

  /** A `toDateStr` text splits at '-' into the year, month and day. */
  lemma IsoTextParts(c: Civil)
    requires FourDigitYear(c) && ValidCivil(c)
    ensures Split(IsoText(c), '-') == [NatToString(c.year), Pad2(c.month), Pad2(c.day)]
  {
    IsoTextShape(c);
    var y, m, d := NatToString(c.year), Pad2(c.month), Pad2(c.day);
    NoDash(y);
    NoDash(m);
    NoDash(d);
    assert IsoText(c) == y + ['-'] + m + ['-'] + d;
    Split3(y, m, d, '-');
  }

  lemma NoDash(s: string)
    requires AllDigits(s)
    ensures '-' !in s
  {
    assert forall i :: 0 <= i < |s| ==> s[i] != '-';
  }

  /** The week a row is counted in. The screen only reaches rows that have
      a `data_matricula` (see `WeeklyData`). */
  function WeekOf(r: DbEnrollment): JsDate {
    ReadWeek(OrElse(r.dataMatricula, ""))
  }

  /** A row dated by `toDateStr` is counted in the week of its day. */
  lemma WeekOfDay(x: DbEnrollment, z: int)
    requires x.dataMatricula == Some(IsoDate(z)) && FourDigitYear(ToCivil(z))
    ensures WeekOf(x) == Day(WeekStart(z))
  {
    IsoTextShape(ToCivil(z));
    assert |IsoDate(z)| == 10;
    ReadWeekIso(z);
  }

  /** Rows dated by `toDateStr` share a week entry exactly when their days
      share a Monday-based week. */
  lemma WeekOfIso(x: DbEnrollment, zx: int, y: DbEnrollment, zy: int)
    requires x.dataMatricula == Some(IsoDate(zx)) && FourDigitYear(ToCivil(zx))
    requires y.dataMatricula == Some(IsoDate(zy)) && FourDigitYear(ToCivil(zy))
    ensures WeekOf(x) == WeekOf(y) <==> WeekStart(zx) <= zy <= WeekStart(zx) + 6
  {
    WeekOfDay(x, zx);
    WeekOfDay(y, zy);
    SameWeek(zx, zy);
  }

  /** Sort position of a week: its start; the Invalid Date entry last. */
  function StartKey(k: JsDate): int {
    if k.Day? then k.n else MaxDay + 1
  }

  function EarlierFirst(t: Tally<JsDate>): int {
    -StartKey(t.key)
  }

  function NoAmount(r: DbEnrollment): int { 0 }

  /** `weeklyData`: one entry per week of the rows, with its number of rows
      and its sum of `total_a_receber`, in order of the week start. Rows
      whose date does not read as a day share one entry, put last (the
      source's comparator gives `NaN` for it, whose place is left to the
      engine). */
  function WeeklyData(rows: seq<DbEnrollment>): (ws: seq<Tally<JsDate>>)
    requires forall i :: 0 <= i < |rows| ==> rows[i].dataMatricula.Some?
    ensures |rows| == 0 ==> ws == []
    ensures forall i, j :: 0 <= i < j < |ws| ==> StartKey(ws[i].key) <= StartKey(ws[j].key)
    ensures Sum(ws, TallyCount) == |rows|
    ensures Sum(ws, TallyFirst) == Sum(rows, Receivable)
    ensures forall m :: m in ws ==> var own := RowsWithKey(rows, WeekOf, m.key);
      m.count >= 1 && m.count == |own| && m.first == Sum(own, Receivable)
    ensures forall i, j :: 0 <= i < j < |ws| ==> ws[i].key != ws[j].key
    ensures forall i :: 0 <= i < |rows| ==> exists m :: m in ws && m.key == WeekOf(rows[i])
    ensures forall m :: m in ws && m.key.Day? ==> WeekDay(m.key.n) == 1
  {
    if |rows| == 0 then []
    else
      var ws := RankBy(rows, WeekOf, Receivable, NoAmount, EarlierFirst);
      RankPartition(rows, WeekOf, Receivable, NoAmount, EarlierFirst);
      RankContents(rows, WeekOf, Receivable, NoAmount, EarlierFirst);
      RankDistinct(rows, WeekOf, Receivable, NoAmount, EarlierFirst);
      RankCovers(rows, WeekOf, Receivable, NoAmount, EarlierFirst);
      RankFrom(rows, WeekOf, Receivable, NoAmount, EarlierFirst);
      ws
  }

  /** The valid weeks come strictly one after another, before the entry of
      unreadable dates. */
  lemma WeeklyDataIncreasing(rows: seq<DbEnrollment>, i: nat, j: nat)
    requires forall k :: 0 <= k < |rows| ==> rows[k].dataMatricula.Some?
    requires i < j < |WeeklyData(rows)|
    ensures var ws := WeeklyData(rows);
      ws[i].key.Day? && (ws[j].key.Day? ==> ws[i].key.n + 7 <= ws[j].key.n)
  {
    var ws := WeeklyData(rows);
    assert ws[i] in ws && ws[j] in ws;
    assert ws[i].key != ws[j].key;
    assert StartKey(ws[i].key) <= StartKey(ws[j].key);
    if ws[j].key.Day? {
      var a, b := ws[i].key.n, ws[j].key.n;
      assert WeekDay(a) == 1 && WeekDay(b) == 1 && a < b;
      MondaysApart(a, b);
    } else {
      assert ws[i].key.Day?;
    }
  }

  lemma MondaysApart(a: int, b: int)
    requires WeekDay(a) == 1 && WeekDay(b) == 1 && a < b
    ensures a + 7 <= b
  {
    assert (a + 4) % 7 == (b + 4) % 7;
  }

  // ---------------------------------------------------------------------
  // Vendors

  /** `vendorData`: each vendor (`atendente`, or 'Não informado') with its
      number of rows and sums of `total_a_receber` and `total_recebido`,
      most rows first. */
  function VendorData(rows: seq<DbEnrollment>): (vs: seq<Tally<string>>)
    ensures forall i, j :: 0 <= i < j < |vs| ==> vs[i].count >= vs[j].count
    ensures Sum(vs, TallyCount) == |rows|
    ensures Sum(vs, TallyFirst) == Sum(rows, Receivable)
    ensures Sum(vs, TallySecond) == Sum(rows, Received)
    ensures forall m :: m in vs ==> var own := RowsWithKey(rows, VendorOf, m.key);
      m.count == |own| && m.first == Sum(own, Receivable) && m.second == Sum(own, Received)
    ensures forall i, j :: 0 <= i < j < |vs| ==> vs[i].key != vs[j].key
    ensures forall i :: 0 <= i < |rows| ==> exists m :: m in vs && m.key == VendorOf(rows[i])
    ensures forall i, j :: (0 <= i < j < |vs| && vs[i].count == vs[j].count
      ==> FirstSeenBefore(rows, VendorOf, vs[i].key, vs[j].key))
  {
    var r := RankBy(rows, VendorOf, Receivable, Received, TallyCount);
    RankPartition(rows, VendorOf, Receivable, Received, TallyCount);
    RankTiesFirstSeen(rows, VendorOf, Receivable, Received, TallyCount);
    RankContents(rows, VendorOf, Receivable, Received, TallyCount);
    RankDistinct(rows, VendorOf, Receivable, Received, TallyCount);
    RankCovers(rows, VendorOf, Receivable, Received, TallyCount);
    r
  }

  // ---------------------------------------------------------------------
  // Month grid

  /** `first.getDay()` for `first = new Date(year, month, 1)`; an Invalid
      Date gives `NaN`, and no leading blank. */
  function FirstWeekday(year: int, month: int): nat {
    var first := MakeDate(year, month, 1);
    if first.Day? then WeekDay(first.n) else 0
  }

  /** `new Date(year, month + 1, 0).getDate()`; an Invalid Date gives
      `NaN`, and no day. */
  function LastDay(year: int, month: int): nat {
    var end := MakeDate(year, month + 1, 0);
    if end.Day? then ToCivil(end.n).day else 0
  }

  /** `calendarDays`: blanks up to the weekday of the 1st (Sunday first),
      the days 1 to the last in order, then blanks to a whole number of
      weeks. */
  method CalendarDays(year: int, month: int) returns (cells: seq<Option<nat>>)
    ensures Grid(FirstWeekday(year, month), LastDay(year, month), cells)
  {
    cells := FillGrid(FirstWeekday(year, month), LastDay(year, month));
  }

  /** The month grid shape: `lead` blanks, the days 1 to `last`, and fewer
      than seven blanks up to a whole number of weeks. */
  predicate Grid(lead: nat, last: nat, cells: seq<Option<nat>>) {
    && |cells| % 7 == 0
    && lead + last <= |cells| < lead + last + 7
    && (forall i :: 0 <= i < lead ==> cells[i] == None)
    && (forall d :: 1 <= d <= last ==> cells[lead + d - 1] == Some(d))
    && (forall i :: lead + last <= i < |cells| ==> cells[i] == None)
  }

  /** The three loops of `calendarDays`. */
  method FillGrid(lead: nat, last: nat) returns (cells: seq<Option<nat>>)
    ensures |cells| % 7 == 0
    ensures lead + last <= |cells| < lead + last + 7
    ensures forall i :: 0 <= i < lead ==> cells[i] == None
    ensures forall d :: 1 <= d <= last ==> cells[lead + d - 1] == Some(d)
    ensures forall i :: lead + last <= i < |cells| ==> cells[i] == None
  {
    cells := [];
    var i := 0;
    while i < lead
      invariant 0 <= i <= lead && |cells| == i
      invariant forall k :: 0 <= k < i ==> cells[k] == None
    {
      cells := cells + [None];
      i := i + 1;
    }
    var d := 1;
    while d <= last
      invariant 1 <= d <= last + 1
      invariant |cells| == lead + d - 1
      invariant forall k :: 0 <= k < lead ==> cells[k] == None
      invariant forall e :: 1 <= e < d ==> cells[lead + e - 1] == Some(e)
    {
      cells := cells + [Some(d)];
      d := d + 1;
    }
    var filled := lead + last;
    while |cells| % 7 != 0
      invariant filled <= |cells| <= filled + 6
      invariant forall k :: filled <= k < |cells| ==> k % 7 != 0
      invariant forall k :: 0 <= k < lead ==> cells[k] == None
      invariant forall e :: 1 <= e <= last ==> cells[lead + e - 1] == Some(e)
      invariant forall k :: filled <= k < |cells| ==> cells[k] == None
      decreases filled + 6 - |cells|
    {
      if |cells| == filled + 6 {
        SevenInARow(filled);
      }
      cells := cells + [None];
    }
  }

  /** Seven consecutive numbers hold a multiple of seven. */
  lemma SevenInARow(n: int)
    ensures exists k :: n <= k <= n + 6 && k % 7 == 0
  {
    var k := n + (7 - n % 7) % 7;
    assert k % 7 == 0;
  }

  /** Day `d` of a JavaScript month index. */
  function DayNumber(year: int, month: int, d: int): int
    requires 0 <= month <= 11
  {
    FromCivil(Civil(year, month + 1, d))
  }

  /** For a month of a year a `Date` holds (and not one of the two-digit
      years `new Date` reads as 19xx), the grid starts on the weekday of
      the 1st, lists the month's days, and puts each day under its own
      weekday. */
  lemma CalendarMonth(year: int, month: int)
    requires 0 <= month <= 11
    requires -MaxYear <= year <= MaxYear && (year < 0 || year > 99)
    ensures FirstWeekday(year, month) == WeekDay(DayNumber(year, month, 1))
    ensures LastDay(year, month) == DaysInMonth(year, month + 1)
    ensures forall d :: 1 <= d <= LastDay(year, month) ==>
      (FirstWeekday(year, month) + d - 1) % 7 == WeekDay(DayNumber(year, month, d))
  {
    GridFirst(year, month);
    GridLast(year, month);
    forall d | 1 <= d <= DaysInMonth(year, month + 1)
      ensures (WeekDay(DayNumber(year, month, 1)) + d - 1) % 7 == WeekDay(DayNumber(year, month, d))
    {
      DayColumn(year, month, d);
    }
  }

  lemma DayColumn(year: int, month: int, d: int)
    requires 0 <= month <= 11 && 1 <= d <= DaysInMonth(year, month + 1)
    ensures (WeekDay(DayNumber(year, month, 1)) + d - 1) % 7 == WeekDay(DayNumber(year, month, d))
  {
    FirstOfMonth(Civil(year, month + 1, d));
    WeekDayShift(DayNumber(year, month, 1), d - 1);
  }

  /** The weekday `k` days on is `k` columns on, modulo a week. */
  lemma WeekDayShift(f: int, k: nat)
    ensures (WeekDay(f) + k) % 7 == WeekDay(f + k)
  {
  }

  lemma GridFirst(year: int, month: int)
    requires 0 <= month <= 11
    requires -MaxYear <= year <= MaxYear && (year < 0 || year > 99)
    ensures FirstWeekday(year, month) == WeekDay(DayNumber(year, month, 1))
  {
    MonthStartDate(year, month + 1);
    DayRange(Civil(year, month + 1, 1));
  }

  lemma GridLast(year: int, month: int)
    requires 0 <= month <= 11
    requires -MaxYear <= year <= MaxYear && (year < 0 || year > 99)
    ensures LastDay(year, month) == DaysInMonth(year, month + 1)
  {
    var last := Civil(year, month + 1, DaysInMonth(year, month + 1));
    var z := FromCivil(last);
    assert MakeDate(year, month + 1, 0) == Day(z) && ToCivil(z) == last by {
      MonthEndDate(year, month + 1);
      DayRange(last);
      MadeDay(year, month + 1, 0, last);
    }
  }

  // ---------------------------------------------------------------------
  // Month navigation

  /** The month shown: a year and a JavaScript month index. */
  datatype MonthView = MonthView(year: int, month: int)

  predicate ValidView(v: MonthView) {
    0 <= v.month <= 11
  }

  /** Months counted from year 0. */
  function MonthNumber(v: MonthView): int {
    12 * v.year + v.month
  }

  /** The view the screen opens on: today's month. */
  function InitialView(today: int): (v: MonthView)
    ensures ValidView(v)
  {
    var c := ToCivil(today);
    MonthView(c.year, c.month - 1)
  }

  /** The month the screen opens on holds today. */
  lemma InitialViewHoldsToday(today: int)
    ensures var v := InitialView(today);
      FromCivil(Civil(v.year, v.month + 1, 1)) <= today < FromCivil(Civil(v.year, v.month + 1, 1)) + DaysInMonth(v.year, v.month + 1)
  {
    var c := ToCivil(today);
    var v := InitialView(today);
    assert Civil(v.year, v.month + 1, 1) == Civil(c.year, c.month, 1);
    MonthOfDay(today);
  }

  /** `prevMonth`: one month back, December of the previous year from
      January. */
  function PrevMonth(v: MonthView): (r: MonthView)
    ensures ValidView(v) ==> ValidView(r) && MonthNumber(r) == MonthNumber(v) - 1
  {
    if v.month == 0 then MonthView(v.year - 1, 11) else MonthView(v.year, v.month - 1)
  }

  /** `nextMonth`: one month on, January of the next year from December. */
  function NextMonth(v: MonthView): (r: MonthView)
    ensures ValidView(v) ==> ValidView(r) && MonthNumber(r) == MonthNumber(v) + 1
  {
    if v.month == 11 then MonthView(v.year + 1, 0) else MonthView(v.year, v.month + 1)
  }

  /** A valid view is determined by its month number. */
  lemma MonthNumberInjective(v: MonthView, w: MonthView)
    requires ValidView(v) && ValidView(w) && MonthNumber(v) == MonthNumber(w)
    ensures v == w
  {
    assert v.year == MonthNumber(v) / 12 && w.year == MonthNumber(w) / 12;
  }

  /** Going back a month and on again, or on and back, returns to the
      same month. */
  lemma PrevNextInverse(v: MonthView)
    requires ValidView(v)
    ensures NextMonth(PrevMonth(v)) == v
    ensures PrevMonth(NextMonth(v)) == v
  {
    MonthNumberInjective(NextMonth(PrevMonth(v)), v);
    MonthNumberInjective(PrevMonth(NextMonth(v)), v);
  }

  // ---------------------------------------------------------------------
  // The month range of `fetchTrafego`

  /** The `data` range of `fetchTrafego(month, year)`: no range unless
      both are given. */
  function MonthRange(month: Option<int>, year: Option<int>): (r: Option<(string, string)>)
    ensures r.Some? <==> month.Some? && year.Some?
    ensures r.Some? ==> r.value == RangeOf(month.value, year.value)
  {
    if month.Some? && year.Some? then Some(RangeOf(month.value, year.value)) else None
  }

  /** From the 1st of the month (`gte`) to the 1st of the next (`lt`), as
      text. */
  function RangeOf(m: int, y: int): (string, string) {
    var start := IntToString(y) + "-" + PadStart2(IntToString(m + 1)) + "-01";
    var endMonth := if m + 1 > 11 then 0 else m + 1;
    var endYear := if m + 1 > 11 then y + 1 else y;
    (start, IntToString(endYear) + "-" + PadStart2(IntToString(endMonth + 1)) + "-01")
  }

  /** The month after a JavaScript month index, as a date. */
  function NextFirst(year: int, month: int): Civil {
    if month == 11 then Civil(year + 1, 1, 1) else Civil(year, month + 2, 1)
  }

  /** For a month of the calendar, the range runs from the text of its 1st
      to the text of the next month's 1st. */
  lemma MonthRangeTexts(month: int, year: int)
    requires 0 <= month <= 11 && year >= 0
    ensures RangeOf(month, year) == (IsoText(Civil(year, month + 1, 1)), IsoText(NextFirst(year, month)))
  {
    var next := NextFirst(year, month);
    FirstText(year, month + 1);
    FirstText(next.year, next.month);
  }

  /** The text of the 1st of a month, as the service writes it. */
  lemma FirstText(y: int, m: int)
    requires y >= 0 && 1 <= m <= 12
    ensures IsoText(Civil(y, m, 1)) == IntToString(y) + "-" + PadStart2(IntToString(m)) + "-01"
  {
    var a := IntToString(y) + "-" + Pad2(m);
    assert Pad2(1) == "01";
    assert a + "-" + "01" == a + "-01";
  }

  /** The range selects exactly the dates of the month, for four-digit
      years, and is never empty. */
  lemma MonthRangeSelects(month: int, year: int, c: Civil)
    requires 0 <= month <= 11 && 1000 <= year && (if month == 11 then year + 1 else year) <= 9999
    requires ValidCivil(c) && FourDigitYear(c)
    ensures var r := RangeOf(month, year);
      StrLe(r.0, IsoText(c)) && !StrLe(r.1, IsoText(c)) <==> c.year == year && c.month == month + 1
    ensures var r := RangeOf(month, year);
      StrLe(r.0, r.1) && r.0 != r.1
  {
    MonthRangeTexts(month, year);
    var first := Civil(year, month + 1, 1);
    var next := NextFirst(year, month);
    IsoTextOrder(first, c);
    IsoTextOrder(next, c);
    IsoTextOrder(first, next);
    IsoTextOrder(next, first);
  }
}

=== FILE: turmas.dfy ===
/** Classes (turmasService.ts, TurmasManager.tsx): the search with its
    course selector, the active students of a class, the status badge and the
    edit form. A class's `cursoNome` is `Types.LinkedName` of its course. */
module Turmas {
  import opened Seqs
  import opened Strings
  import opened Types

  /** `TurmaInput`: the fields the edit form holds. */
  datatype TurmaForm = TurmaForm(nome: string, cursoId: Option<int>, dataInicio: Option<string>,
    dataFim: Option<string>, status: string)

  /** `EMPTY`: a new class starts active and without course or dates. */
  const EmptyForm: TurmaForm := TurmaForm("", None, None, None, "ATIVA")

  /** `openEdit`: the form holds the class's five editable fields. */
  function EditForm(t: Turma): (f: TurmaForm)
    ensures f.nome == t.nome && f.cursoId == t.cursoId && f.status == t.status
    ensures f.dataInicio == t.dataInicio && f.dataFim == t.dataFim
  {
    TurmaForm(t.nome, t.cursoId, t.dataInicio, t.dataFim, t.status)
  }

  /** Editing a class and saving the form untouched writes the same fields
      back. */
  lemma EditFormRoundTrip(t: Turma)
    ensures var f := EditForm(t);
      t.(nome := f.nome, cursoId := f.cursoId, dataInicio := f.dataInicio, dataFim := f.dataFim,
         status := f.status) == t
  {
  }

  /** The search box matches the class name or its course label, ignoring
      case; a selected course (non-empty) must be the class's course label
      exactly. */
  predicate Shown(t: Turma, search: string, selectedCourse: string) {
    (ContainsIgnoreCase(t.nome, search) || ContainsIgnoreCase(t.cursoNome, search))
    && (selectedCourse != "" ==> t.cursoNome == selectedCourse)
  }

  /** `filtered`. */
  function Search(data: seq<Turma>, search: string, selectedCourse: string): (r: seq<Turma>)
    ensures forall t :: t in r <==> t in data && Shown(t, search, selectedCourse)
    ensures Subsequence(r, data)
  {
    FilterIsSubsequence(data, (t: Turma) => Shown(t, search, selectedCourse));
    Filter(data, (t: Turma) => Shown(t, search, selectedCourse))
  }

  /** With nothing typed and no course selected every class is listed; with
      only a course selected exactly that course's classes are. */
  lemma SearchEmpty(data: seq<Turma>, course: string)
    ensures Search(data, "", "") == data
    ensures forall t :: t in Search(data, "", course) <==> t in data && (course != "" ==> t.cursoNome == course)
  {
    forall t | t in data
      ensures ContainsIgnoreCase(t.nome, "")
    {
      ContainsIgnoreCaseEmpty(t.nome);
    }
    FilterAll(data, (t: Turma) => Shown(t, "", ""));
  }

  /** A row of the `enrollments` query of this screen: its class and
      situation. */
  datatype Seat = Seat(id: int, aluno: Option<string>, turma: Option<string>, situacao: Option<string>)

  /** `.eq('situacao', 'ATIVO')`: the rows the screen loads. */
  function ActiveSeats(rows: seq<Seat>): (r: seq<Seat>)
    ensures forall s :: s in r <==> s in rows && s.situacao == Some("ATIVO")
    ensures Subsequence(r, rows)
  {
    FilterIsSubsequence(rows, (s: Seat) => s.situacao == Some("ATIVO"));
    Filter(rows, (s: Seat) => s.situacao == Some("ATIVO"))
  }

  /** `getStudents`: the loaded rows of the class with that exact name; a
      row without a class belongs to none. */
  function Students(loaded: seq<Seat>, turmaNome: string): (r: seq<Seat>)
    ensures forall s :: s in r <==> s in loaded && s.turma == Some(turmaNome)
    ensures Subsequence(r, loaded)
  {
    FilterIsSubsequence(loaded, (s: Seat) => s.turma == Some(turmaNome));
    Filter(loaded, (s: Seat) => s.turma == Some(turmaNome))
  }

  /** A class lists a row exactly when the row is active and in that class,
      so two classes of different names never share a row. */
  lemma StudentsOfClass(rows: seq<Seat>, a: string, b: string)
    ensures forall s :: s in Students(ActiveSeats(rows), a) <==> s in rows && s.situacao == Some("ATIVO") && s.turma == Some(a)
    ensures a != b ==> forall s :: !(s in Students(ActiveSeats(rows), a) && s in Students(ActiveSeats(rows), b))
  {
  }

  /** `statusColor`: 'ATIV' anywhere in the upper-cased status makes it
      green, whatever else it says; otherwise 'ENCERR' or 'FINALI' make it
      red; anything else is yellow. */
  function StatusColor(status: string): (b: Badge)
    ensures b == Green <==> Contains(Upper(status), "ATIV")
    ensures b == Red <==>
      (!Contains(Upper(status), "ATIV")
       && (Contains(Upper(status), "ENCERR") || Contains(Upper(status), "FINALI")))
    ensures b == Yellow <==>
      (!Contains(Upper(status), "ATIV")
       && !Contains(Upper(status), "ENCERR") && !Contains(Upper(status), "FINALI"))
  {
    var up := Upper(status);
    if Contains(up, "ATIV") then Green
    else if Contains(up, "ENCERR") || Contains(up, "FINALI") then Red
    else Yellow
  }

  /** The test for 'ATIV' comes first: a status such as 'inativa' or
      'ativa, encerrada' shows green, while 'encerrada' shows red. */
  lemma StatusColorPrecedence()
    ensures StatusColor("inativa") == Green
    ensures StatusColor("ativa, encerrada") == Green
    ensures StatusColor("encerrada") == Red
  {
    InativaGreen();
    AtivaEncerradaGreen();
    EncerradaRed();
  }

  lemma InativaGreen()
    ensures StatusColor("inativa") == Green
  {
    var a := Upper("inativa");
    assert a[2..6] == "ATIV";
    ContainsAt(a, "ATIV", 2);
  }

  lemma AtivaEncerradaGreen()
    ensures StatusColor("ativa, encerrada") == Green
  {
    var b := Upper("ativa, encerrada");
    assert b[0..4] == "ATIV";
    ContainsAt(b, "ATIV", 0);
  }

  lemma EncerradaRed()
    ensures StatusColor("encerrada") == Red
  {
    var c := Upper("encerrada");
    assert c[0..6] == "ENCERR";
    ContainsAt(c, "ENCERR", 0);
    assert 'V' !in c;
    if Contains(c, "ATIV") {
      ContainsMember(c, "ATIV", 'V');
    }
  }

  /** The footer: the number of classes listed, then 'turma' or 'turmas'. */
  function Footer(data: seq<Turma>, search: string, selectedCourse: string): (r: string)
    ensures ParseInt(r) == Some(|Search(data, search, selectedCourse)|)
  {
    CountLabelReadsBack(|Search(data, search, selectedCourse)|, "turma", "turmas");
    CountLabel(|Search(data, search, selectedCourse)|, "turma", "turmas")
  }
}

=== FILE: types.dfy ===
/** The records the dashboard works on.

    `Enrollment` is the application record (`EnrollmentData` in types.ts):
    dates are text in `DD/MM/YYYY`, amounts are integer cents. `DbEnrollment`
    is a row of the `enrollments` table as the database returns it
    (`SupabaseEnrollment`): nullable columns are `Option`s and `created_at`
    is the instant it denotes, in milliseconds since the epoch. The screens
    that read the table directly select subsets of these columns. */
module Types {
  import opened Seqs

  datatype Enrollment = Enrollment(
    dataMatricula: string,
    contrato: string,
    aluno: string,
    telefone: string,
    pacote: string,
    situacao: string,
    turma: string,
    totalAReceber: int,
    totalRecebido: int,
    valorParcela: int,
    planoPagamento: string,
    formaConhecimento: string,
    atendente: string,
    divulgador: string,
    bolsa: string,
    entradaVencimento: string,
    /** `None` stands for the `NaN` that `parseInt` yields on a non-number. */
    diaVencimento: Option<int>,
    assinatura: string)

  /** `EnrollmentDataWithId`. */
  datatype Stored = Stored(id: int, data: Enrollment)

  datatype DbEnrollment = DbEnrollment(
    id: int,
    dataMatricula: Option<string>,
    contrato: Option<string>,
    aluno: Option<string>,
    telefone: Option<string>,
    pacote: Option<string>,
    situacao: Option<string>,
    turma: Option<string>,
    totalAReceber: Option<int>,
    totalRecebido: Option<int>,
    valorParcela: Option<int>,
    planoPagamento: Option<string>,
    formaConhecimento: Option<string>,
    atendente: Option<string>,
    divulgador: Option<string>,
    bolsa: Option<string>,
    entradaVencimento: Option<string>,
    diaVencimento: Option<int>,
    assinatura: Option<string>,
    createdAt: int)

  /** A class (`Turma` of turmasService.ts); `cursoNome` is the name of
      its course as the service fills it in. */
  datatype Turma = Turma(
    id: int,
    nome: string,
    cursoId: Option<int>,
    cursoNome: string,
    dataInicio: Option<string>,
    dataFim: Option<string>,
    status: string)

  /** A course (`Curso` of cursosService.ts). */
  datatype Curso = Curso(
    id: int,
    nome: string,
    descricao: string,
    valor: int,
    valorRematricula: int,
    alunosCount: Option<nat>)

  /** The three colours of the status badges in the tables: green, red and
      yellow (`bg-green-100`, `bg-red-100`, `bg-yellow-100`). */
  datatype Badge = Green | Red | Yellow

  /** `s || d` on a nullable string: null and '' are falsy. */
  function OrElse(s: Option<string>, d: string): (r: string)
    ensures r == d <==> s.None? || s.value == "" || s.value == d
    ensures r != d ==> s == Some(r)
  {
    if s.Some? && s.value != "" then s.value else d
  }

  /** `n || 0` on a nullable number: null (and 0) give 0. */
  function OrZero(n: Option<int>): (r: int)
    ensures n.Some? ==> r == n.value
    ensures n.None? ==> r == 0
  {
    if n.Some? then n.value else 0
  }

  /** The placeholder the services put where a joined record has no name. */
  const NoName: string := "—"

  /** `row.<joined>?.nome || '—'`: the name of the joined record (the course
      of a class, the vendor of a student), or the placeholder when there is
      none or it is empty. */
  function LinkedName(linked: Option<string>): (r: string)
    ensures r != ""
    ensures linked.Some? && linked.value != "" ==> r == linked.value
    ensures linked.None? || linked.value == "" ==> r == NoName
  {
    OrElse(linked, NoName)
  }

  const NotInformed: string := "Não informado"
  const OtherCourse: string := "Outros"

  /** `atendente || 'Não informado'`: the vendor a row is credited to. */
  function VendorOf(r: DbEnrollment): string {
    OrElse(r.atendente, NotInformed)
  }

  /** `pacote || 'Outros'`: the course a row is filed under. */
  function CourseOf(r: DbEnrollment): string {
    OrElse(r.pacote, OtherCourse)
  }

  function Receivable(r: DbEnrollment): int { OrZero(r.totalAReceber) }
  function Received(r: DbEnrollment): int { OrZero(r.totalRecebido) }

  // Contract signature status (`assinatura`).

  predicate SignedDigital(r: DbEnrollment) {
    r.assinatura == Some("DIGITAL")
  }

  predicate SignedInPerson(r: DbEnrollment) {
    r.assinatura == Some("PRESENCIAL")
  }

  /** `!assinatura || assinatura === 'NENHUM'`. */
  predicate SignaturePending(r: DbEnrollment) {
    r.assinatura.None? || r.assinatura.value == "" || r.assinatura.value == "NENHUM"
  }

  /** The three signature classes never overlap, so their counts add up to
      at most the number of rows. */
  lemma SignatureClassesDisjoint(rows: seq<DbEnrollment>)
    ensures forall r: DbEnrollment ::
      (!(SignedDigital(r) && SignedInPerson(r)) && !(SignedDigital(r) && SignaturePending(r))
       && !(SignedInPerson(r) && SignaturePending(r)))
    ensures Count(rows, SignedDigital) + Count(rows, SignedInPerson) + Count(rows, SignaturePending) <= |rows|
  {
    CountDisjoint3(rows, SignedDigital, SignedInPerson, SignaturePending);
  }
}

=== FILE: vendors.dfy ===
/** Vendors (vendedoresService.ts, VendedoresManager.tsx): the vendor record,
    the avatar initials shown when a vendor has no photo, the name search
    and the edit form with its photo field. */
module Vendors {
  import opened Seqs
  import opened Strings

  /** `Vendedor`; `comissao` is a percentage. */
  datatype Vendor = Vendor(id: int, nome: string, telefone: string, email: string, comissao: int,
    fotoUrl: Option<string>)

  /** `VendedorInput`: the fields the edit form holds. */
  datatype VendorForm = VendorForm(nome: string, telefone: string, email: string, comissao: int,
    fotoUrl: Option<string>)

  /** `EMPTY`: the form `openNew` starts from. */
  const EmptyForm: VendorForm := VendorForm("", "", "", 0, None)

  /** `w[0]`, which `join('')` writes as '' for an empty word. */
  function FirstChar(w: string): (r: string)
    ensures |r| <= 1
    ensures w != "" ==> r == [w[0]]
  {
    if w == "" then "" else [w[0]]
  }

  /** The first characters of the words, in order. */
  function Heads(words: seq<string>): string {
    if |words| == 0 then "" else FirstChar(words[0]) + Heads(words[1..])
  }

  /** The non-empty words, in order: what the blanks between repeated
      spaces leave out. */
  function Words(words: seq<string>): (r: seq<string>)
    ensures forall i :: 0 <= i < |r| ==> r[i] != "" && r[i] in words
  {
    if |words| == 0 then []
    else (if words[0] == "" then [] else [words[0]]) + Words(words[1..])
  }

  /** The heads are the first characters of the non-empty words. */
  lemma {:induction false} HeadsOfWords(words: seq<string>)
    ensures |Heads(words)| == |Words(words)|
    ensures forall i :: 0 <= i < |Heads(words)| ==> Heads(words)[i] == Words(words)[i][0]
  {
    if |words| > 0 {
      HeadsOfWords(words[1..]);
    }
  }

  /** `name.split(' ').map(w => w[0]).join('').slice(0, 2).toUpperCase()`:
      the upper-cased first characters of the first two non-empty words of
      the name, one when there is only one, none for a blank name. */
  function Initials(name: string): (r: string)
    ensures |r| == if |Words(Split(name, ' '))| < 2 then |Words(Split(name, ' '))| else 2
    ensures forall i :: 0 <= i < |r| ==> r[i] == UpperChar(Words(Split(name, ' '))[i][0])
  {
    HeadsOfWords(Split(name, ' '));
    Upper(Take2(Heads(Split(name, ' '))))
  }

  /** `slice(0, 2)`. */
  function Take2(s: string): (r: string)
    ensures |r| == if |s| < 2 then |s| else 2
    ensures forall i :: 0 <= i < |r| ==> r[i] == s[i]
  {
    if |s| <= 2 then s else s[..2]
  }

  /** A first and a last name give the upper-cased first letters of both. */
  lemma InitialsOfTwoWords(first: string, last: string)
    requires first != "" && last != "" && ' ' !in first && ' ' !in last
    ensures Initials(first + " " + last) == [UpperChar(first[0]), UpperChar(last[0])]
  {
    assert first + " " + last == first + [' '] + last;
    SplitPrefix(first, last, ' ');
    SplitNoSeparator(last, ' ');
    var words := [first, last];
    assert Heads(words) == [first[0]] + Heads([last]);
    assert Heads([last]) == [last[0]] + Heads([]);
  }

  /** A single word gives its upper-cased first letter. */
  lemma InitialsOfOneWord(word: string)
    requires word != "" && ' ' !in word
    ensures Initials(word) == [UpperChar(word[0])]
  {
    SplitNoSeparator(word, ' ');
    assert Heads([word]) == [word[0]] + Heads([]);
  }

  /** The vendor list filtered by `search`: a case-insensitive substring
      match on the name. */
  function Search(data: seq<Vendor>, search: string): (r: seq<Vendor>)
    ensures forall v :: v in r <==> v in data && ContainsIgnoreCase(v.nome, search)
    ensures Subsequence(r, data)
  {
    FilterIsSubsequence(data, (v: Vendor) => ContainsIgnoreCase(v.nome, search));
    Filter(data, (v: Vendor) => ContainsIgnoreCase(v.nome, search))
  }

  /** An empty search keeps the whole list. */
  lemma SearchEmpty(data: seq<Vendor>)
    ensures Search(data, "") == data
  {
    forall v | v in data
      ensures ContainsIgnoreCase(v.nome, "")
    {
      ContainsIgnoreCaseEmpty(v.nome);
    }
    FilterAll(data, (v: Vendor) => ContainsIgnoreCase(v.nome, ""));
  }

  /** `openEdit`: the form holds the vendor's five editable fields. */
  function EditForm(v: Vendor): (f: VendorForm)
    ensures f.nome == v.nome && f.telefone == v.telefone && f.email == v.email
    ensures f.comissao == v.comissao && f.fotoUrl == v.fotoUrl
  {
    VendorForm(v.nome, v.telefone, v.email, v.comissao, v.fotoUrl)
  }

  /** Editing a vendor and saving the form untouched writes the same
      fields back. */
  lemma EditFormRoundTrip(v: Vendor)
    ensures var f := EditForm(v);
      v.(nome := f.nome, telefone := f.telefone, email := f.email, comissao := f.comissao, fotoUrl := f.fotoUrl) == v
  {
  }

  /** The largest photo accepted, in bytes (5 MB). */
  const MaxPhotoBytes: nat := 5 * 1024 * 1024

  const PhotoTooLarge: string := "A foto deve ter no máximo 5MB."

  /** A chosen file: its size and the data URL the reader produces. */
  datatype PhotoFile = PhotoFile(size: nat, dataUrl: string)

  /** The form and the error message after a file is chosen. */
  datatype Upload = Upload(form: VendorForm, error: Option<string>)

  /** `handlePhotoUpload`: no file changes nothing; an oversized file sets
      the error and leaves the form; otherwise the photo becomes the data
      URL, once the reader is done. */
  function PhotoUpload(form: VendorForm, error: Option<string>, file: Option<PhotoFile>): (u: Upload)
    ensures file.None? ==> u == Upload(form, error)
    ensures file.Some? && file.value.size > MaxPhotoBytes ==> u == Upload(form, Some(PhotoTooLarge))
    ensures file.Some? && file.value.size <= MaxPhotoBytes ==>
      u.error == error && u.form.fotoUrl == Some(file.value.dataUrl)
      && u.form.(fotoUrl := form.fotoUrl) == form
  {
    match file
    case None => Upload(form, error)
    case Some(f) =>
      if f.size > MaxPhotoBytes then Upload(form, Some(PhotoTooLarge))
      else Upload(form.(fotoUrl := Some(f.dataUrl)), error)
  }

  /** The size check accepts exactly the files of at most 5 MB. */
  lemma PhotoLimit(form: VendorForm, url: string)
    ensures PhotoUpload(form, None, Some(PhotoFile(5242880, url))).error == None
    ensures PhotoUpload(form, None, Some(PhotoFile(5242881, url))).error == Some(PhotoTooLarge)
  {
  }

  /** `removePhoto`: the photo is cleared, nothing else changes. */
  function RemovePhoto(form: VendorForm): (f: VendorForm)
    ensures f.fotoUrl.None?
    ensures f.(fotoUrl := form.fotoUrl) == form
  {
    form.(fotoUrl := None)
  }

  /** Removing a photo after uploading one gives the form without a photo,
      whatever it held before. */
  lemma UploadThenRemove(form: VendorForm, file: PhotoFile)
    requires file.size <= MaxPhotoBytes
    ensures RemovePhoto(PhotoUpload(form, None, Some(file)).form) == RemovePhoto(form)
  {
  }

  /** `vendorPhotos`: vendor name to photo for the vendors with a non-empty
      photo; a later vendor of the same name wins. */
  function PhotoMap(vs: seq<Vendor>): (m: map<string, string>)
    ensures forall n :: n in m <==> exists i :: 0 <= i < |vs| && vs[i].nome == n && HasPhoto(vs[i])
  {
    if |vs| == 0 then map[]
    else
      var init := vs[..|vs| - 1];
      var v := vs[|vs| - 1];
      var m := PhotoMap(init);
      assert forall i :: 0 <= i < |init| ==> init[i] == vs[i];
      if HasPhoto(v) then m[v.nome := v.fotoUrl.value] else m
  }

  predicate HasPhoto(v: Vendor) {
    v.fotoUrl.Some? && v.fotoUrl.value != ""
  }

  /** The photo found for a name is that of the last vendor of that name
      with a photo. */
  lemma {:induction false} PhotoMapLast(vs: seq<Vendor>, i: nat)
    requires i < |vs| && HasPhoto(vs[i])
    requires forall j :: i < j < |vs| ==> !(vs[j].nome == vs[i].nome && HasPhoto(vs[j]))
    ensures vs[i].nome in PhotoMap(vs) && PhotoMap(vs)[vs[i].nome] == vs[i].fotoUrl.value
  {
    if i < |vs| - 1 {
      var init := vs[..|vs| - 1];
      assert init[i] == vs[i];
      PhotoMapLast(init, i);
    }
  }
}
